=== FILE: README.md ===
# Tussle framework core, modelled in Dafny

This project models the core of the Tussle benchmarking framework, in two parts.

**The report page's results table** (`app.js`, `utils.js`). A results table is a map from row keys to rows of cells. It is:
- built cell by cell (`pushVal`, `pushRowVal`, `findVal`, `copyValue`);
- trimmed (`deleteEmptyRows`, `getTotalCols`, `trimTable`);
- reduced, merging the columns that the group-by toggles call equal (`reduceResultsTable`);
- compared, giving every number cell a summary, a difference with its baseline column and a spliced-in diff column (`produceComparisonTable`).

The numeric and toggle helpers of `utils.js` that these steps use are modelled with them.

**The Java tools and runners**:
- the text and number parsers of `FormatTool`;
- the time ranges of `Interval`;
- the file-name codecs of `RunArgs`, `MetricInfo` and `HdrResult` (writing `op_metric_pct_rate_step.hlog` and reading it back);
- the path helpers of `FileTool`;
- the command-line splitting of `Run` and `ConfigLoader`;
- the validation of `HdrConfig`, `RunParams` and `StepRaterConfig`;
- the two search loops of `StepRater` (the high-bound search and the rate iteration);
- the file dispatch of `Analyzer`;
- the key formatting of `Informator`;
- the value summaries of `MetricValue`.

Each source entity is a `datatype` and each operation a pure `function`, or a `method` where the source runs a loop whose invariant is the point. Collaborators the core only calls are parameters:
- the benchmark a runner drives;
- the chart builder;
- the pattern compiler;
- the file reader;
- the time parser where it is only passed through.

Numbers are modelled as follows:
- Integers are unbounded. The 32-bit and 64-bit wrap-around of the Java code is written out (`Numbers.Wrap32`, `Numbers.Wrap64`).
- Doubles are exact reals.
- JavaScript values are the `Val` datatype (`Null`, numbers, texts, dates and other truthy objects).

The modules follow the source files:

| module | models |
|---|---|
| `Wrappers`, `Strings`, `Numbers` | `Option`/`Result`; the string and number built-ins the code relies on (`indexOf`, `split` in its JavaScript and Java forms, `join`, `trim`, `replace`, `Integer.valueOf`, `Double.valueOf`) |
| `Table` | the table cells and rows, and the `utils.js` and `app.js` functions that build and trim them |
| `Utils` | the numeric, class and toggle helpers of `utils.js` |
| `Reduce` | `reduceResultsTable` |
| `Compare` | `produceComparisonTable` |
| `FormatTool`, `Interval`, `FileTool`, `Run`, `ConfigLoader` | the Java classes of the same name |
| `MetricNames`, `RunArgs`, `MetricInfo`, `HdrResult` | the histogram file-name format: writing and reading back |
| `HdrConfig`, `RunParams`, `StepRaterConfig` | configuration defaults and `validate` |
| `StepRater` | `findHighBound` and `iterateTargetRates` |
| `Analyzer`, `Informator`, `MetricValue` | the classes of the same name |

## Model

| member | source | states |
|---|---|---|
| Table.RoundNumber | src/main/resources/repfiles/js/utils.js:186-203 | null stays null; a number becomes a truthy display value |
| Table.PushRowVal | src/main/resources/repfiles/js/utils.js:266-280 | the row keeps its key, type and position; cell `idx` afterwards holds the data cell of the value, with the value as original; every other index reads as before |
| Table.PushVal | src/main/resources/repfiles/js/utils.js:282-299 | the table stays well formed (unique keys); an existing row keeps the row count; a new key appends one row with the label cell and the next position; rows of other keys are unchanged; the pushed value is read back one column to the right of `idx` |
| Table.PushValReadBack | src/main/resources/repfiles/js/utils.js:282-299 | pushing to one key leaves every other key's row as it was, and the pushed cell reads back the pushed value |
| Table.FindVal | src/main/resources/repfiles/js/utils.js:301-313 | -1 or a data index; a found index holds the value and no earlier data cell does; -1 means the row is missing or no data cell holds the value |
| Table.CopyValue | src/main/resources/repfiles/js/utils.js:315-331 | null stays null; the copy keeps value, class, original value and error rate, and carries nothing else |
| Table.DeleteEmptyRows | src/main/resources/repfiles/js/app.js:1174-1190 | a row survives exactly when it is a header row or has a truthy data cell; no row is added |
| Table.DeleteEmptyRowsPicks | src/main/resources/repfiles/js/app.js:1174-1190 | the remaining rows are the table's rows at strictly increasing positions, each one kept, and every row at any other position is empty and no header |
| Table.DeleteEmptyRowsWellFormed | src/main/resources/repfiles/js/app.js:1174-1190 | deleting rows keeps the keys unique |
| Table.TotalCols | src/main/resources/repfiles/js/app.js:1192-1200 | the longest row's length: every row fits, and some row reaches it; 0 for an empty table |
| Table.FillRow | src/main/resources/repfiles/js/app.js:1205-1216 | one row filled from column `i` up to `total`: present cells stay, each hole becomes a null cell classed after the `VM` row, nothing outside the range changes |
| Table.FillRowTruthy | src/main/resources/repfiles/js/app.js:1205-1216 | filling adds no truthy cell and keeps every truthy one |
| Table.FillAll | src/main/resources/repfiles/js/app.js:1205-1216 | reference for the fill loop: every row filled against the `VM` row as it was before the loop |
| Table.FillRowsInPlace | src/main/resources/repfiles/js/app.js:1205-1217 | the in-place loop, which reads a `VM` row it may already have filled, gives the same table as the reference `FillAll` |
| Table.TrimTable | src/main/resources/repfiles/js/app.js:1202-1218 | trimming keeps the keys unique; it deletes the empty rows, then fills every hole up to the common width |
| Table.FillAllDense | src/main/resources/repfiles/js/app.js:1202-1218 | after filling, every row has a cell in every data column, and the width is unchanged |
| Table.TrimTableRows | src/main/resources/repfiles/js/app.js:1174-1190 | every header row is kept, and every kept row is a header or has a truthy data cell |
| Table.TrimTableCells | src/main/resources/repfiles/js/app.js:1202-1218 | every existing cell is kept, and every hole gets the filler cell of its column |
| Table.FindValFrom | src/main/resources/repfiles/js/utils.js:301-313 | the scan from column `i` returns -1 or the data index just before the first cell from `i` on that holds the value; -1 means no cell from `i` on holds it |
| Table.TotalColsUniform | src/main/resources/repfiles/js/app.js:1192-1200 | when every row has the same length, that length is the total |
| Table.FillAllWellFormed | src/main/resources/repfiles/js/app.js:1205-1216 | filling keeps the keys unique |
| Utils.NormedType | src/main/resources/repfiles/js/utils.js:85-93 | a data-chart type normalises to the time-chart type, and any other type to itself |
| Utils.IsEqual | src/main/resources/repfiles/js/utils.js:135-146 | 0 or 1, and 1 exactly when the two values are equal (two nulls included) |
| Utils.IsLowerBetterValueAsWritten | src/main/resources/repfiles/js/utils.js:110-126 | a name with a higher-is-better word is never lower-is-better; otherwise lower-is-better exactly when it has a lower-is-better word |
| Utils.ErrorRateNeverLowerBetter | src/main/resources/repfiles/js/utils.js:110-126 | as written, no name containing "error rate" is lower-is-better, because it also contains "rate" |
| Utils.ErrorRateRowCounterexample | src/main/resources/repfiles/js/utils.js:110-126 | "Read error rate" is higher-is-better as written and lower-is-better as intended |
| Utils.IsLowerBetterValue | src/main/resources/repfiles/js/utils.js:110-126 | corrected: "error rate" names are lower-is-better; every other name is treated as written |
| Utils.MaxNumber | src/main/resources/repfiles/js/utils.js:205-213 | null only when both are null; the result is one of the inputs and bounds each present input from above |
| Utils.MinNumber | src/main/resources/repfiles/js/utils.js:215-223 | null only when both are null; the result is one of the inputs and bounds each present input from below |
| Utils.SumAndCount | src/main/resources/repfiles/js/utils.js:225-247 | the loop gives the count and the sum of the non-null entries |
| Utils.SumNumber | src/main/resources/repfiles/js/utils.js:237-247 | null exactly when there is no non-null entry, otherwise their sum |
| Utils.AvgNumber | src/main/resources/repfiles/js/utils.js:225-235 | null exactly when there is no non-null entry; otherwise the mean times the count is the sum |
| Utils.Variance | src/main/resources/repfiles/js/utils.js:249-264 | the square of `stdevNumber` is never negative, and is 0 with fewer than two values |
| Utils.VarianceZeroIffConstant | src/main/resources/repfiles/js/utils.js:249-264 | with two or more values, the variability is zero exactly when all values are equal |
| Utils.SquaredDeviationExpand | src/main/resources/repfiles/js/utils.js:249-264 | the squared deviations from any `a` are the sum of squares, less twice `a` times the total, plus `a` squared once per value |
| Utils.VarianceShortcut | src/main/resources/repfiles/js/utils.js:249-264 | with two or more values, `n - 1` times the variance is the sum of squares less the squared total over `n`, the textbook definition independent of the two-pass computation |
| Utils.GetPercentileValue | src/main/resources/repfiles/js/utils.js:1221-1232 | null without names or values; a found value sits at an index whose scaled percentile name reaches the request |
| Utils.PercentileFirstMatch | src/main/resources/repfiles/js/utils.js:1221-1232 | the first index whose scaled name reaches the request selects the value |
| Utils.Selected | src/main/resources/repfiles/js/utils.js:673-696 | the counting loop answers true exactly when every plain name matches a selected toggle and no `!`-negated name does |
| Utils.ByNameType | src/main/resources/repfiles/js/utils.js:665-667 | the first toggle with this name and type, or none when no toggle has both |
| Utils.NextPosForChart | src/main/resources/repfiles/js/utils.js:723-741 | with no chart toggle the new one goes first; otherwise it lands inside the run of charts starting at the first chart toggle: a primary chart group before the run's first chart group, any other chart after the run's toggles whose normalised type does not exceed its own |
| Utils.ChartSlotUnique | src/main/resources/repfiles/js/utils.js:723-741 | that description of a chart toggle's slot fits exactly one position |
| Utils.NextPosForValue | src/main/resources/repfiles/js/utils.js:743-754 | a non-value toggle goes at the end; a value toggle goes right after the last value toggle, or at the end when there is none |
| Utils.ValueSlotUnique | src/main/resources/repfiles/js/utils.js:743-754 | that description of a value toggle's slot fits exactly one position |
| Utils.NextPos | src/main/resources/repfiles/js/utils.js:755-757 | a chart toggle gets the chart slot and every other toggle the value slot |
| Utils.AddToggleOpt | src/main/resources/repfiles/js/utils.js:760-769 | an existing name and type returns that toggle and leaves the list alone; otherwise the new toggle is inserted at the slot `getNextPos` gives and the rest keep their order |
| Utils.AddToggleOptIdempotent | src/main/resources/repfiles/js/utils.js:760-769 | registering the same name and type twice changes nothing the second time, and both calls return the same toggle |
| Utils.RemoveDupsFrom | src/main/resources/repfiles/js/utils.js:618-626 | the loop keeps a duplicate-free result duplicate-free and keeps exactly the entries of its inputs |
| Utils.RemoveDupsKeepsFirsts | src/main/resources/repfiles/js/utils.js:618-626 | `removeDups` keeps exactly the first occurrence of each entry, in order |
| Utils.RemoveDupsFromSeen | src/main/resources/repfiles/js/utils.js:618-626 | entries already kept add nothing |
| Utils.RemoveDupsFromFresh | src/main/resources/repfiles/js/utils.js:618-626 | a list without duplicates is left whole |
| Utils.RemoveDupsDoubled | src/main/resources/repfiles/js/utils.js:618-626 | a duplicate-free list, doubled, comes back once |
| Utils.StrRemoveDups | src/main/resources/repfiles/js/utils.js:852-854 | without a separator the text is only trimmed, with JavaScript's notion of white space |
| Strings.JsTrim | src/main/resources/repfiles/js/utils.js:853 | JavaScript's `trim()` gives text no longer than its input that neither starts nor ends with ECMAScript white space or a line terminator |
| Strings.JsTrimSpaceAround | src/main/resources/repfiles/js/utils.js:853 | the trimmed text is a contiguous part of the input, and everything cut off on either side is white space |
| Strings.JsTrimKeeps | src/main/resources/repfiles/js/utils.js:853 | text that neither starts nor ends with white space is its own trim |
| Utils.Capitalize | src/main/resources/repfiles/js/utils.js:864-876 | `os` and `jvm` come out as `OS` and `JVM`; any other non-empty word gets its first character upper-cased and keeps the rest; the empty text stays empty |
| Utils.CapitalizeTwice | src/main/resources/repfiles/js/utils.js:864-876 | capitalising twice is capitalising once |
| Utils.DiffClass | src/main/resources/repfiles/js/utils.js:333-345 | one of the six classes; a positive class exactly for a non-negative difference; `large_pos` exactly from +10% and `large_neg` exactly from -10% |
| Utils.IsEqualSymmetric | src/main/resources/repfiles/js/utils.js:135-146 | `isEqual` does not depend on the order of its arguments |
| Utils.HigherBetterWords | src/main/resources/repfiles/js/utils.js:110-126 | a name that is not an error rate but mentions total value, throughput or rate is never lower-is-better |
| Utils.DiffClassSign | src/main/resources/repfiles/js/utils.js:333-345 | a positive class is chosen exactly for a non-negative difference, and negating a positive difference gives the matching negative class |
| Utils.RemoveDups | src/main/resources/repfiles/js/utils.js:618-626 | the result has no duplicates and holds exactly the entries of the input |
| Reduce.KeyRow | src/main/resources/repfiles/js/app.js:1416-1426 | the group-by row is a row of the table, and is missing exactly when neither the name nor its capitalised form is a key |
| Reduce.CountEqual | src/main/resources/repfiles/js/app.js:1411-1429 | the counting loop over the selected toggles gives `equal == total` exactly when the two columns agree on every selected group-by row |
| Reduce.RelatedEquivalence | src/main/resources/repfiles/js/app.js:1410-1429 | "agrees on every selected group-by row" is an equivalence on columns |
| Reduce.Anchor | src/main/resources/repfiles/js/app.js:1306-1309 | the anchor of a column is the first column related to it: at most the column itself, and no earlier column is related |
| Reduce.AnchorTakes | src/main/resources/repfiles/js/app.js:1306-1309 | an anchor is related to its columns and is its own anchor; an anchor takes a later column exactly when the column is related to it |
| Reduce.PeersFromMembers | src/main/resources/repfiles/js/app.js:1410-1429 | a column is a peer of an anchor exactly when it lies in the range and is related to the anchor |
| Reduce.PeersFromOrdered | src/main/resources/repfiles/js/app.js:1410-1429 | peers lie in the range and come in increasing column order |
| Reduce.GroupsFrom | src/main/resources/repfiles/js/app.js:1306-1521 | reference grouping: each group opens at an anchor, holds exactly that anchor's later related columns, and groups come in anchor order |
| Reduce.GroupsFromComplete | src/main/resources/repfiles/js/app.js:1306-1521 | every anchor in the range opens a group |
| Reduce.ScanGroups | src/main/resources/repfiles/js/app.js:1303-1521 | the scan as written, skipping processed columns and marking the columns it takes, yields exactly the reference grouping |
| Reduce.SkippedColumn | src/main/resources/repfiles/js/app.js:1307-1309 | a column taken by an earlier group is the anchor of no later column, so skipping it loses nothing |
| Reduce.TakePeers | src/main/resources/repfiles/js/app.js:1405-1519 | the inner loop takes exactly the later columns related to the anchor, and marks processed exactly the columns whose anchor is at most this one |
| Reduce.Takes | src/main/resources/repfiles/js/app.js:1411-1429 | the counting test takes a column exactly when it is related to the anchor, that is, exactly when this anchor is its anchor |
| Reduce.GroupsPartition | src/main/resources/repfiles/js/app.js:1306-1521 | every data column belongs to exactly one group, the group of its anchor |
| Reduce.UngroupedColumns | src/main/resources/repfiles/js/app.js:1405-1408 | with grouping switched off, every data column is a group of its own |
| Reduce.MergeText | src/main/resources/repfiles/js/app.js:1464-1471 | corrected header merge of text-or-null cells: an empty header takes the peer's value; otherwise the result is the header itself or the header, a space and the peer's value, the latter exactly when the peer's value is truthy and not yet a phrase of the header; the result is truthy when either input is, and the peer's value is a phrase of it |
| Reduce.MergeTextKeeps | src/main/resources/repfiles/js/app.js:1464-1471 | merging keeps every phrase the header text already had |
| Reduce.HeaderMergeCounterexample | src/main/resources/repfiles/js/app.js:1464-1471 | the values A, B, A merge to "A B A" as written and to "A B" as intended |
| Reduce.MergeClassesAsWritten | src/main/resources/repfiles/js/app.js:1483 | as written, the merged class is only the trimmed concatenation of the two classes |
| Reduce.MergeClassesAsWrittenRepeats | src/main/resources/repfiles/js/app.js:1483 | as written, the class names of both cells stand side by side, so a shared class repeats |
| Reduce.MergeClassesUnion | src/main/resources/repfiles/js/app.js:1483 | with the space separator, the merged class list holds every class of either cell exactly once, in first-occurrence order |
| Reduce.MergeClassesIdempotent | src/main/resources/repfiles/js/app.js:1483 | merging a duplicate-free class list into itself gives it back |
| Reduce.AnchorCell | src/main/resources/repfiles/js/app.js:1313-1317 | the anchor's copy keeps its value, original value and error rate |
| Reduce.MergeResultsDirAsWritten | src/main/resources/repfiles/js/app.js:1434-1441 | as written, merging a peer fails exactly when the output cell has no link list |
| Reduce.MergeResultsDir | src/main/resources/repfiles/js/app.js:1434-1441 | corrected merge: wherever the written merge succeeds, it agrees with it |
| Reduce.ReduceCells | src/main/resources/repfiles/js/app.js:1311-1518 | a header or parameter cell merged from text cells stays text |
| Reduce.ReduceIds | src/main/resources/repfiles/js/app.js:1326-1340 | an identifier cell lists an identifier link and an exclude link for every merged column, in column order |
| Reduce.ReduceDates | src/main/resources/repfiles/js/app.js:1341-1350 | a date cell lists the formatted date of every merged column that has one, in column order |
| Reduce.ReduceCharts | src/main/resources/repfiles/js/app.js:1362-1403 | a chart cell holds the chart of every merged column the chart builder accepts, in column order |
| Reduce.ReduceResultsDirs | src/main/resources/repfiles/js/app.js:1318-1325 | a results-directory cell links every directory, numbered `res_dir1`, `res_dir2`, and so on by its place in the list |
| Reduce.ResultsDirCounterexample | src/main/resources/repfiles/js/app.js:1434-1441 | an anchor without a directory makes the written merge fail on the first peer; the corrected merge links the peer as `res_dir1` |
| Reduce.ReduceHeaders | src/main/resources/repfiles/js/app.js:1464-1471 | a merged header is truthy exactly when some value is, and keeps every truthy value as a phrase |
| Reduce.ReduceNumberText | src/main/resources/repfiles/js/app.js:1359-1361 | a number cell shows the number texts of all merged columns between single spaces, with `-` for a missing one |
| Reduce.ReduceNumberStats | src/main/resources/repfiles/js/app.js:1352-1358 | a number cell collects the original numbers of all merged columns in column order, with their true minimum and maximum |
| Reduce.ReduceNumberRates | src/main/resources/repfiles/js/app.js:1484-1488 | the merged error rate is the anchor's plus every positive peer rate |
| Reduce.ReduceNumberRateUnset | src/main/resources/repfiles/js/app.js:1484-1488 | the error rate stays unset exactly when neither the anchor nor any peer brings a positive one |
| Reduce.GroupCells | src/main/resources/repfiles/js/app.js:1313-1433 | a group merges one cell per member column, and header cells stay text |
| Reduce.ReduceResultsTable | src/main/resources/repfiles/js/app.js:1296-1523 | with the corrected merges of "## Findings" (`MergeText`, `MergeClasses`, `MergeResultsDir`): the output has one row per input row; each is the input row reduced over the reference groups; keys stay unique and rows stay dense; header and parameter cells are required to hold text or null |
| Reduce.ReducedShape | src/main/resources/repfiles/js/app.js:1296-1523 | rows reduced over in-range groups form a well-formed dense table |
| Reduce.UngroupedReduce | src/main/resources/repfiles/js/app.js:1405-1408 | with grouping off, the width drops only by the label column, and each output cell is the input cell prepared for its row type |
| Reduce.UngroupedCell | src/main/resources/repfiles/js/app.js:1311-1404 | a group of one column yields that column's cell prepared for its row type |
| Reduce.MergeTextAsWritten | src/main/resources/repfiles/js/app.js:1464-1471 | as written, merging two text-or-null header cells gives a text or null |
| Reduce.MergedClasses | src/main/resources/repfiles/js/utils.js:852-854 | the corrected class merge is the space-joined list of the classes of both cells, each once, and it is a well-formed class list |
| Reduce.ReduceRowShape | src/main/resources/repfiles/js/app.js:1306-1521 | a reduced row keeps its key, type, position and label, and has one cell per group |
| Compare.BaselineIndex | src/main/resources/repfiles/js/app.js:1618-1635 | the baseline of a column is none (-1) or a data column other than itself |
| Compare.BaselineModes | src/main/resources/repfiles/js/app.js:1618-1635 | mode 1 compares every column after the first with its left neighbour; mode 2 compares the even columns with the odd column before them, and that column is compared with nothing; mode 0 compares with column 1; any other mode compares nothing |
| Compare.DeltaOf | src/main/resources/repfiles/js/app.js:1646-1656 | a difference exists exactly when both averages are present and non-zero |
| Compare.DeltaSign | src/main/resources/repfiles/js/app.js:1646-1656 | against a positive baseline, the difference is positive exactly when the cell is better (larger, or smaller when lower is better), and zero exactly when the averages are equal |
| Compare.DeltaRatio | src/main/resources/repfiles/js/app.js:1646-1656 | the ratio agrees with the difference: `ratio = 1 + diff` when higher is better, `ratio * (1 - diff) = 1` when lower is better |
| Compare.DeltaSwap | src/main/resources/repfiles/js/app.js:1646-1650 | swapping the cell and its baseline inverts the ratio |
| Compare.SummaryOf | src/main/resources/repfiles/js/app.js:1551-1553 | average and sum are absent exactly for no values; otherwise they are the mean and the sum; the variance is never negative, is 0 below two values, and is 0 exactly for equal values |
| Compare.AddClass | src/main/resources/repfiles/js/app.js:1684-1687 | the class then has the word; a class that already had it is unchanged; otherwise the word is appended |
| Compare.MarkErrorSubs | src/main/resources/repfiles/js/app.js:1686 | every sub-value keeps its kind and visibility and gets the `error_rate` class |
| Compare.ValueSubs | src/main/resources/repfiles/js/app.js:1568-1617 | the first sub-value is always the scores text, shown with the `values` toggle |
| Compare.DiffSubs | src/main/resources/repfiles/js/app.js:1659-1677 | three renderings (percent, raw, ratio), all classed by the sign and size of the difference |
| Compare.CellSubs | src/main/resources/repfiles/js/app.js:1568-1687 | the sub-values start with the scores text, and all carry `error_rate` when the cell has errors |
| Compare.Scored | src/main/resources/repfiles/js/app.js:1548-1683 | only values, summary and difference change; the summary is that of the cell's values; the difference exists exactly with a baseline and two non-zero averages |
| Compare.ComparedCellAsWritten | src/main/resources/repfiles/js/app.js:1684-1687 | as written, a cell with errors gets ` error_rate` appended to its class on every pass |
| Compare.ComparedCell | src/main/resources/repfiles/js/app.js:1546-1688 | corrected pass: value, statistics, error rate, charts and marks are kept; the summary is that of the cell's values; the difference exists exactly with a baseline and non-zero averages; a cell with errors carries `error_rate` on its class and on every sub-value, otherwise its class is unchanged |
| Compare.ComparedCellReentrant | src/main/resources/repfiles/js/app.js:1546-1688 | for the corrected cell pass, which adds `error_rate` only once: a second pass over a compared cell gives what one pass with the second baseline gives |
| Compare.NumberCols | src/main/resources/repfiles/js/app.js:1545-1689 | the loop result for a number row, column by column |
| Compare.PassedStep | src/main/resources/repfiles/js/app.js:1545-1547 | one turn of the column loop keeps the invariant relating the row so far to the column-wise reference |
| Compare.NumberColsFromPointwise | src/main/resources/repfiles/js/app.js:1545-1689 | the in-place left-to-right loop equals the column-wise reference; only the baseline average it reads depends on the order |
| Compare.NumberRowPointwise | src/main/resources/repfiles/js/app.js:1545-1689 | the loop over a whole number row equals the column-wise reference |
| Compare.PeerAfterPass | src/main/resources/repfiles/js/app.js:1636-1650 | once summaries are up to date, a second pass sees the same baselines and averages as a first pass |
| Compare.NumberColReentrant | src/main/resources/repfiles/js/app.js:1545-1689 | for the corrected pass (`error_rate` added once): one column compared twice equals that column compared once with the second settings |
| Compare.NumberColsReentrant | src/main/resources/repfiles/js/app.js:1545-1689 | for the corrected pass (`error_rate` added once): a number row with up-to-date summaries compared twice equals it compared once with the second settings |
| Compare.ClearedCharts | src/main/resources/repfiles/js/app.js:1690-1699 | the same cells exist; data cells below the width lose value and sub-values; the label and cells past the width are untouched |
| Compare.ProcessRow | src/main/resources/repfiles/js/app.js:1541-1700 | the row keeps its key, type, position and length |
| Compare.StripDiffs | src/main/resources/repfiles/js/app.js:1533-1540 | no diff cell is left and the row does not grow; a row without diff cells is unchanged |
| Compare.DiffCell | src/main/resources/repfiles/js/app.js:1710-1740 | a diff cell is flagged as such, shown with the `diff col` toggle, and has no statistics |
| Compare.SplicedStrip | src/main/resources/repfiles/js/app.js:1701-1744 | removing the diff cells of a spliced row gives the row back; the row grew by one cell per compared column |
| Compare.SplicedPlacement | src/main/resources/repfiles/js/app.js:1701-1744 | column `k` moves right by the number of compared columns before it, and a compared column is directly followed by its diff cell |
| Compare.SpliceStep | src/main/resources/repfiles/js/app.js:1704-1743 | one turn of the splicing loop, inserting at `j + added + 1`, extends the interleaving by column `j` |
| Compare.SpliceDiffs | src/main/resources/repfiles/js/app.js:1701-1744 | the splicing loop with its running offset yields the reference interleaving |
| Compare.SplicedPadding | src/main/resources/repfiles/js/app.js:1704-1708 | holes (zeros) past the row's end do not change the splicing |
| Compare.StripRow | src/main/resources/repfiles/js/app.js:1529-1540 | the row keeps its key, type and position and has no diff cell |
| Compare.ComparedColumns | src/main/resources/repfiles/js/app.js:1639 | one entry per column; an entry is set exactly when some number row compares that column; a set entry names a data column other than itself |
| Compare.MarkCols | src/main/resources/repfiles/js/app.js:1637-1645 | each `VM` cell gets exactly its marks |
| Compare.RowRun | src/main/resources/repfiles/js/app.js:1525-1746 | one row through every phase keeps its key, type and position |
| Compare.CompareTable | src/main/resources/repfiles/js/app.js:1525-1746 | the compared table has the same rows, in order, with their keys, types and positions |
| Compare.ProduceComparisonTable | src/main/resources/repfiles/js/app.js:1525-1746 | the row-by-row run fails exactly when a compared column has no `VM` cell to mark; otherwise it equals the reference comparison, which uses the corrected `IsLowerBetterValue` and `ComparedCell` of "## Findings" |
| Compare.StripUnmark | src/main/resources/repfiles/js/app.js:1529-1540 | clearing marks and removing diff cells commute |
| Compare.StripRowCols | src/main/resources/repfiles/js/app.js:1529-1540 | the reset row is the row without diff cells, marks cleared on the `VM` row |
| Compare.ProcessRowKeeps | src/main/resources/repfiles/js/app.js:1541-1700 | processing keeps which cells exist and which hold values, the marks, the absence of diff cells and the label |
| Compare.ProcessRowReentrant | src/main/resources/repfiles/js/app.js:1541-1700 | for the corrected pass (`error_rate` added once): a row with up-to-date summaries processed twice equals it processed once with the second settings |
| Compare.ComparedInProcessed | src/main/resources/repfiles/js/app.js:1636-1639 | which columns a number row compares does not change when it is processed |
| Compare.RowRunStrip | src/main/resources/repfiles/js/app.js:1525-1746 | removing the diff cells of a compared row gives the processed row; the row grew by one cell per compared column |
| Compare.MarkColsPadding | src/main/resources/repfiles/js/app.js:1637-1645 | holes past the row's end do not change the marks |
| Compare.MarkRowPadding | src/main/resources/repfiles/js/app.js:1637-1745 | marking and splicing agree for compared-column lists that differ only past the row |
| Compare.RowRunReentrant | src/main/resources/repfiles/js/app.js:1525-1746 | for the corrected pass (`error_rate` added once): one row compared twice equals it compared once with the second settings, when its summaries were up to date |
| Compare.RowRunFresh | src/main/resources/repfiles/js/app.js:1545-1689 | after a run every number cell with values holds its own summary |
| Compare.CompareFresh | src/main/resources/repfiles/js/app.js:1525-1746 | after a run every number cell with values holds its own summary |
| Compare.CompareShape | src/main/resources/repfiles/js/app.js:1525-1746 | every row gains one diff cell per compared column; keys, types, order and the `VM` row's place are kept |
| Compare.ComparedColumnsAgree | src/main/resources/repfiles/js/app.js:1636-1639 | the compared columns of the stripped rows agree with those of the processed rows, up to trailing holes |
| Compare.ComparedAgree | src/main/resources/repfiles/js/app.js:1525-1746 | a second run compares the same columns as a single run with its settings, up to trailing holes |
| Compare.CompareReentrant | src/main/resources/repfiles/js/app.js:1525-1746 | for the corrected comparison (`error_rate` added once; as written it is false, see `Compare.ErrorClassAccumulates`): on a table with up-to-date summaries, comparing and then comparing again with other settings equals comparing once with those settings |
| Compare.CompareSettles | src/main/resources/repfiles/js/app.js:1525-1746 | for the corrected comparison (`error_rate` added once; as written each run appends another one): once a table has been compared, every further run depends only on its own settings |
| Compare.CompareNumberCell | src/main/resources/repfiles/js/app.js:1525-1746 | a number cell ends up at its column plus the number of compared columns before it, holds its column-wise comparison, and is followed by its diff cell when compared |
| Compare.PickedBaseline | src/main/resources/repfiles/js/app.js:1618-1622 | an explicit baseline column is used by every other column and gives none for itself |
| Compare.BaselineToTheLeft | src/main/resources/repfiles/js/app.js:1623-1635 | without an explicit baseline, a column is compared with a column to its left, or with none |
| Compare.ErrorClassAccumulates | src/main/resources/repfiles/js/app.js:1684-1687 | as written, a second pass over a cell with errors appends ` error_rate` again, so the cell changes |
| Compare.StripTable | src/main/resources/repfiles/js/app.js:1533-1540 | every row has its diff cells removed, the `VM` row included |
| Compare.CompareRow | src/main/resources/repfiles/js/app.js:1525-1746 | each row of the compared table is that row run through the phases on its own, with the columns compared over the whole table |
| FormatTool.FirstSuffix | src/main/java/org/tussleframework/tools/FormatTool.java:150-168 | the suffix chosen is the first one of the table the text ends with; none is chosen only when the text ends with none of them |
| FormatTool.CutSuffix | src/main/java/org/tussleframework/tools/FormatTool.java:173-196 | the text is lower-cased, the chosen suffix is cut off and the rest trimmed, and the factor is that suffix's (1 when no suffix matches) |
| FormatTool.ParseScaled | src/main/java/org/tussleframework/tools/FormatTool.java:173-198 | parsing succeeds exactly when the numeral left after the suffix is an `int`, and the result is always a 32-bit value |
| FormatTool.ParseIntValue | src/main/java/org/tussleframework/tools/FormatTool.java:173-198 | `parseInt` yields a 32-bit value |
| FormatTool.ParseTimeLength | src/main/java/org/tussleframework/tools/FormatTool.java:206-232 | `parseTimeLength` yields a 32-bit value |
| FormatTool.ParseScaledDecimal | src/main/java/org/tussleframework/tools/FormatTool.java:146-171 | a scaled decimal parses exactly when the numeral left after the suffix is a decimal number |
| FormatTool.ParseValue | src/main/java/org/tussleframework/tools/FormatTool.java:146-171 | `parseValue` succeeds exactly when the numeral left after its size suffix is a decimal number |
| FormatTool.SizeSuffixesUnshadowed | src/main/java/org/tussleframework/tools/FormatTool.java:177-195 | no size suffix is hidden behind an earlier, shorter one: `k` is tried after `kib` |
| FormatTool.ParseScaledSuffix | src/main/java/org/tussleframework/tools/FormatTool.java:173-232 | the numeral of any `int` followed by any suffix of the table parses to the number times the suffix's factor, wrapped to 32 bits |
| FormatTool.ParseScaledPlain | src/main/java/org/tussleframework/tools/FormatTool.java:173-232 | a bare numeral parses back to its number |
| FormatTool.ParseScaledIgnoresCase | src/main/java/org/tussleframework/tools/FormatTool.java:174 | lower-casing the text first does not change what the integer parsers return |
| FormatTool.ParseDecimalIgnoresCase | src/main/java/org/tussleframework/tools/FormatTool.java:147 | lower-casing the text first does not change what `parseValue` returns |
| FormatTool.ParseIntSuffix | src/main/java/org/tussleframework/tools/FormatTool.java:173-198 | a numeral with k, m, g, kib, mib or gib is the number times 1000, 1000000, 1000000000, 1024, 1048576 or 1073741824, wrapped to 32 bits |
| FormatTool.ParseTimeSuffix | src/main/java/org/tussleframework/tools/FormatTool.java:200-232 | a numeral with a time suffix is the number of seconds (60 per minute, 3600 per hour), wrapped to 32 bits; without a suffix it is the number |
| FormatTool.ParseIntKilo | src/test/java/FormatToolTest.java:79-84 | "1k" parses to 1000 |
| FormatTool.ParseIntKibi | src/test/java/FormatToolTest.java:79-84 | "1kib" parses to 1024 |
| FormatTool.ParseIntMega | src/test/java/FormatToolTest.java:79-84 | "1M" parses to 1000000 |
| FormatTool.ParseIntMebi | src/test/java/FormatToolTest.java:79-84 | "1MiB" parses to 1048576 |
| FormatTool.ParseTimeMinutes | src/main/java/org/tussleframework/tools/FormatTool.java:200-206 | "10m" is 600 seconds |
| FormatTool.ParseTimeHours | src/main/java/org/tussleframework/tools/FormatTool.java:200-206 | "1h" is 3600 seconds |
| FormatTool.JoinNullConcatenates | src/main/java/org/tussleframework/tools/FormatTool.java:292-308 | without a separator, joining appends the plain texts of the collection, nested ones flattened, one after another |
| FormatTool.DenseFlattens | src/main/java/org/tussleframework/tools/FormatTool.java:292-308 | a collection with no empty texts and no empty nested collections flattens to a non-empty list of non-empty texts |
| FormatTool.JoinSeparates | src/main/java/org/tussleframework/tools/FormatTool.java:292-308 | with a separator, such a collection joins like its flattened texts with the separator between neighbours |
| FormatTool.JoinItemsFlattens | src/main/java/org/tussleframework/tools/FormatTool.java:317-330 | `join(sep, c)` is the concatenation of the flattened texts without a separator, and their separated join with one |
| FormatTool.JoinTwo | src/test/java/FormatToolTest.java:51-67 | two texts join to "A,B" with a separator and to "AB" without |
| FormatTool.JoinNested | src/test/java/FormatToolTest.java:69-76 | nested collections are flattened into one run of texts with the separator also between the collections |
| FormatTool.JoinEmptyPieces | src/main/java/org/tussleframework/tools/FormatTool.java:302-304 | the separator test looks at the whole builder: an empty first text adds no separator, an empty nested collection at the end leaves a trailing one |
| FormatTool.WithSCount | src/main/java/org/tussleframework/tools/FormatTool.java:332-338 | the text before the first space reads back as the count |
| FormatTool.WithSPlural | src/main/java/org/tussleframework/tools/FormatTool.java:332-338 | after the space comes the name, with an `s` added exactly when the count is neither 1 nor -1 |
| FormatTool.GetStringValue | src/main/java/org/tussleframework/tools/FormatTool.java:348-351 | a negative index is an error; any value returned is the default or a field free of `_` |
| FormatTool.GetStringValueJoin | src/main/java/org/tussleframework/tools/FormatTool.java:348-351 | fields joined with `_` read back one by one, and an index past the last field gives the default |
| FormatTool.SplitParam | src/main/java/org/tussleframework/tools/FormatTool.java:368-371 | splitting fails exactly when there is no `=`; otherwise the name has no `=` and name, `=` and value put back together give the input |
| FormatTool.SplitParamJoin | src/main/java/org/tussleframework/tools/FormatTool.java:368-371 | a name without `=` and any value come back from `name=value` |
| FormatTool.Brace | src/main/java/org/tussleframework/tools/FormatTool.java:437-440 | the positions found hold a `{` and, after it, a `}` |
| FormatTool.ApplyArgOnce | src/main/java/org/tussleframework/tools/FormatTool.java:430-433 | an empty map leaves the input as it is |
| FormatTool.SubstituteStep | src/main/java/org/tussleframework/tools/FormatTool.java:436-449 | one pass copies the text before the first `{`, replaces the bracketed key by its value when the key is known and non-empty (keeps it otherwise), and continues after the `}` |
| FormatTool.SubstituteUnclosed | src/main/java/org/tussleframework/tools/FormatTool.java:450-457 | a `{` never closed afterwards leaves the rest of the text verbatim |
| FormatTool.ApplyArg | src/main/java/org/tussleframework/tools/FormatTool.java:418-428 | an empty map, or a first pass that changes nothing, returns the input |
| FormatTool.ApplyArgKnown | src/main/java/org/tussleframework/tools/FormatTool.java:418-460 | a single known `{key}` whose value has no `{` is replaced by its value |
| FormatTool.ApplyArgUnknown | src/main/java/org/tussleframework/tools/FormatTool.java:418-460 | a `{key}` with an unknown or empty key stays as it is |
| FormatTool.ApplyArgUnclosed | src/main/java/org/tussleframework/tools/FormatTool.java:418-460 | an unclosed `{` stays as it is |
| FormatTool.ApplyArgTestKnown | src/test/java/FormatToolTest.java:86-107 | "TEST{targetRate}END" becomes "TEST12345END" |
| FormatTool.ApplyArgTestUnknown | src/test/java/FormatToolTest.java:86-107 | "TEST{args}END" stays as it is |
| FormatTool.ApplyArgTestUnclosed | src/test/java/FormatToolTest.java:86-107 | "TEST{targetRate" stays as it is |
| FormatTool.ApplyArgTwoKnown | src/main/java/org/tussleframework/tools/FormatTool.java:418-460 | two known keys in otherwise plain text are both replaced |
| FormatTool.OnceSingle | src/main/java/org/tussleframework/tools/FormatTool.java:430-460 | a text that is a single known `{key}` becomes the key's value in one pass |
| FormatTool.ApplyArgChain | src/main/java/org/tussleframework/tools/FormatTool.java:418-428 | a chain of three references `{a}` → `{b}` → `{c}` → X stops at `{c}` as written and reaches X with three passes |
| FormatTool.JoinNothing | src/main/java/org/tussleframework/tools/FormatTool.java:317-319 | joining nothing gives the empty text |
| FormatTool.SubstitutePlain | src/main/java/org/tussleframework/tools/FormatTool.java:450-457 | text without `{` passes through a substitution unchanged |
| FormatTool.ApplyArgAsWritten | src/main/java/org/tussleframework/tools/FormatTool.java:418-428 | as written: an empty map, or a first pass that changes nothing, returns the input; otherwise the result is always two passes, the second on the first one's output, because the third call repeats the second |
| FormatTool.ApplyArgAsWrittenIsTwoPasses | src/main/java/org/tussleframework/tools/FormatTool.java:418-428 | as written, `applyArg` is exactly two passes: the third call repeats the second on the same input |
| FormatTool.ApplyArgAgrees | src/main/java/org/tussleframework/tools/FormatTool.java:418-428 | whenever two passes reach a text the next pass leaves alone, the as-written and the intended `applyArg` agree |
| Interval.Mul | src/main/java/org/tussleframework/metrics/Interval.java:52-57 | the two sentinels `Long.MIN_VALUE` and `Long.MAX_VALUE` are returned as they are; any other bound is multiplied, agreeing with the true product modulo 2^64 and equal to it when that fits a `long` |
| Interval.Scale | src/main/java/org/tussleframework/metrics/Interval.java:66-68 | both bounds are scaled by `mul`, and the name and the adjusted flag are kept |
| Interval.Adjust | src/main/java/org/tussleframework/metrics/Interval.java:70-81 | the first call shifts each non-sentinel bound by the stamp (64-bit addition), keeps the sentinels and sets the flag; once the flag is set nothing changes |
| Interval.Update | src/main/java/org/tussleframework/metrics/Interval.java:88-93 | after recording a stamp the interval reaches from at most the stamp to at least it, never narrows a recorded bound, and each bound is either the old one or the stamp |
| Interval.UpdateRange | src/main/java/org/tussleframework/metrics/Interval.java:83-86 | after recording a start and a finish, the finish lies inside the interval, and so does the start unless it is a sentinel |
| Interval.UpdateAllSpan | src/main/java/org/tussleframework/metrics/Interval.java:83-93 | from an open interval, recording a list of proper stamps yields exactly their smallest and their largest |
| Interval.ScaleOne | src/main/java/org/tussleframework/metrics/Interval.java:66-68 | scaling by one changes nothing |
| Interval.ScaleUnbounded | src/main/java/org/tussleframework/metrics/Interval.java:52-57 | scaling an open interval leaves it open |
| Interval.AdjustOnce | src/main/java/org/tussleframework/metrics/Interval.java:70-81 | only the first adjustment takes effect |
| Interval.AdjustKeepsLength | src/main/java/org/tussleframework/metrics/Interval.java:70-81 | without overflow, adjusting a bounded interval keeps its length |
| Interval.UpdateIdempotent | src/main/java/org/tussleframework/metrics/Interval.java:88-93 | recording the same stamp twice is recording it once |
| Interval.UpdateCommutes | src/main/java/org/tussleframework/metrics/Interval.java:88-93 | stamps that are not sentinels may be recorded in either order |
| Interval.UpdateSentinelOrder | src/main/java/org/tussleframework/metrics/Interval.java:88-93 | recording `Long.MIN_VALUE` first is forgotten by the next stamp, but not when it comes second |
| Interval.UpdateRangeContains | src/main/java/org/tussleframework/metrics/Interval.java:48-50 | after recording a start and a later finish in a fresh interval, the interval is exactly that range and contains it |
| Interval.UnboundedContains | src/main/java/org/tussleframework/metrics/Interval.java:48-50 | an open interval contains exactly the well-ordered ranges that end after `Long.MIN_VALUE` |
| Interval.ContainsWiden | src/main/java/org/tussleframework/metrics/Interval.java:48-50 | widening the interval keeps every range it contains |
| Interval.SinglePointNotContained | src/main/java/org/tussleframework/metrics/Interval.java:48-50 | a single recorded stamp does not contain the one-point range at that stamp, but does contain the range to the next stamp |
| FileTool.ClearPath | src/main/java/org/tussleframework/tools/FileTool.java:92-98 | the result is the part of the name after its last `/` (the whole name when there is none), and holds no `/` |
| FileTool.ClearPathOf | src/main/java/org/tussleframework/tools/FileTool.java:92-98 | the last segment of `dir/name` is `name` |
| FileTool.ClearExtPath | src/main/java/org/tussleframework/tools/FileTool.java:108-115 | the result is the last path segment after its first `:`, or the segment itself when it has none |
| FileTool.ClearExtPathOf | src/main/java/org/tussleframework/tools/FileTool.java:108-115 | `dir/archive:name` yields the entry's name, even when that name holds more `:` |
| FileTool.ClearPathAndExtension | src/main/java/org/tussleframework/tools/FileTool.java:123-130 | the result is the last path segment up to its last `.`, or the segment itself when it has none |
| FileTool.ClearPathAndExtensionOf | src/main/java/org/tussleframework/tools/FileTool.java:123-130 | the base name of `dir/base.ext` is `base`, whatever dots `base` holds |
| FileTool.LastDot | src/main/java/org/tussleframework/tools/FileTool.java:125 | the last `.` of `base.ext` is the one before an extension without dots |
| FileTool.ClearPathIdempotent | src/main/java/org/tussleframework/tools/FileTool.java:92-98 | stripping the path twice is stripping it once |
| Run.FirstIndex | src/main/java/org/tussleframework/Run.java:84 | the index of the first argument equal to the flag, or the argument count when there is none |
| Run.Own | src/main/java/org/tussleframework/Run.java:84-85 | the launcher's own arguments are those before the first `--` |
| Run.BenchmarkArgs | src/main/java/org/tussleframework/Run.java:83-88 | the benchmark's arguments are the own arguments before the first `--runner` |
| Run.RunnerArgs | src/main/java/org/tussleframework/Run.java:90-95 | the runner's arguments are the own arguments after the first `--runner`, or the default when there is no `--runner` |
| Run.SplitLayout | src/main/java/org/tussleframework/Run.java:83-95 | a command line laid out as benchmark arguments, `--runner`, runner arguments, `--` and anything else splits back into those parts |
| Run.SplitNoRunner | src/main/java/org/tussleframework/Run.java:83-95 | without `--runner` the benchmark gets all own arguments and the runner gets the default |
| Run.AfterStopIgnored | src/main/java/org/tussleframework/Run.java:83-95 | what follows the first `--` changes neither list |
| Run.OwnOf | src/main/java/org/tussleframework/Run.java:84-85 | the own arguments of `own -- rest` are `own` |
| Run.FirstIndexAt | src/main/java/org/tussleframework/Run.java:84 | the first occurrence of the flag gives its index |
| ConfigLoader.PropertyLine | src/main/java/org/tussleframework/tools/ConfigLoader.java:89 | a property line ends with a newline |
| ConfigLoader.AddProperty | src/main/java/org/tussleframework/tools/ConfigLoader.java:82-90 | an argument without `=`, or starting with it, is a usage error; otherwise the buffer grows by a newline-terminated line |
| ConfigLoader.AddPropertyOf | src/main/java/org/tussleframework/tools/ConfigLoader.java:82-90 | `key=value` with a non-empty key free of `=` appends `key: value` |
| ConfigLoader.Lines | src/main/java/org/tussleframework/tools/ConfigLoader.java:54-64 | a non-empty file gives text ending with a newline |
| ConfigLoader.FlagValue | src/main/java/org/tussleframework/tools/ConfigLoader.java:100-109 | `-s` appends its value as a line, `-f` fails exactly when the file cannot be read, and no flag removes text already collected |
| ConfigLoader.Step | src/main/java/org/tussleframework/tools/ConfigLoader.java:96-116 | one turn of the loop keeps the buffer as a prefix and consumes at least one argument; an argument that is no flag, no empty text and no bare property is a usage error |
| ConfigLoader.Collect | src/main/java/org/tussleframework/tools/ConfigLoader.java:92-121 | the loop only appends, and stops at once at the end of the arguments or at `--` |
| ConfigLoader.Load | src/main/java/org/tussleframework/tools/ConfigLoader.java:92-121 | no arguments give empty text |
| ConfigLoader.EmptySkipped | src/main/java/org/tussleframework/tools/ConfigLoader.java:99-100 | an empty argument is skipped |
| ConfigLoader.StopIgnoresRest | src/main/java/org/tussleframework/tools/ConfigLoader.java:97-98 | nothing after the first `--` is looked at |
| ConfigLoader.PropertyArgs | src/main/java/org/tussleframework/tools/ConfigLoader.java:110-111 | one argument per key and value |
| ConfigLoader.BareProperty | src/main/java/org/tussleframework/tools/ConfigLoader.java:110-111 | a bare `key=value` with a good key is taken as a property and not as any flag |
| ConfigLoader.StepBare | src/main/java/org/tussleframework/tools/ConfigLoader.java:110-111 | a bare property consumes one argument and appends its YAML line |
| ConfigLoader.CollectBare | src/main/java/org/tussleframework/tools/ConfigLoader.java:110-116 | after a bare property the loop goes on with the rest and the line appended |
| ConfigLoader.CollectProperties | src/main/java/org/tussleframework/tools/ConfigLoader.java:92-121 | properties given one per argument become one YAML line each, in order |
| ConfigLoader.CollectPropertiesCons | src/main/java/org/tussleframework/tools/ConfigLoader.java:92-121 | the lines of a bare property and of the rest come out in argument order |
| ConfigLoader.StringLine | src/main/java/org/tussleframework/tools/ConfigLoader.java:101-103 | `-s` appends its value as one line and the loop goes on after it |
| ConfigLoader.BarePropertyByFirst | src/main/java/org/tussleframework/tools/ConfigLoader.java:110 | a non-empty argument is a bare property exactly when it starts with neither `-` nor `=` and holds a `=` |
| ConfigLoader.FlagsStartWithDash | src/main/java/org/tussleframework/tools/ConfigLoader.java:101-109 | every flag starts with `-`, so no flag is a bare property |
| ConfigLoader.MissingValue | src/main/java/org/tussleframework/tools/ConfigLoader.java:117-119 | a flag that takes a value but ends the command line is a usage error |
| ConfigLoader.UnknownArgument | src/main/java/org/tussleframework/tools/ConfigLoader.java:112-114 | an argument that is no flag, no property, not empty and not `--` is a usage error |
| RunArgs.FillValues | src/main/java/org/tussleframework/RunArgs.java:56-92 | as written: no fields, or a numeric last field with too few fields before it for the next read, is an error; otherwise the count is 3 when step, rate and percent all read, 2 when step and percent or the step alone read, and 0 with all values zero when the last field is no integer |
| RunArgs.FillThree | src/main/java/org/tussleframework/RunArgs.java:61-67 | `…_pct_rate_step` fills all three values and counts three fields |
| RunArgs.FillTwo | src/main/java/org/tussleframework/RunArgs.java:68-75 | `…_pct_step` after a non-number fills step and percent and counts two fields |
| RunArgs.FillOne | src/main/java/org/tussleframework/RunArgs.java:76-83 | as written, `…_step` after a non-number fills the step alone but still counts two fields |
| RunArgs.FillOnlyStep | src/main/java/org/tussleframework/RunArgs.java:56-92 | a name that is only a step is an error, since the second read runs off the front of the fields |
| RunArgs.FillValuesIntended | src/main/java/org/tussleframework/RunArgs.java:76-83 | as intended, a step alone after a non-number counts one field; every other outcome is the as-written one |
| RunArgs.StepOnlyCount | src/main/java/org/tussleframework/RunArgs.java:76-83 | for `…_step` the as-written count is 2 and the intended count is 1 |
| MetricNames.RestorePlain | src/main/java/org/tussleframework/HdrResult.java:123 | restoring leaves a name without `-` as it is |
| MetricNames.RestoreHyphen | src/main/java/org/tussleframework/HdrResult.java:88-123 | every name that can be written into a file name comes back unchanged after hyphenating and restoring |
| MetricNames.HyphenateClean | src/main/java/org/tussleframework/HdrResult.java:88 | hyphenating leaves text without an underscore followed by `t` unchanged |
| MetricNames.ReplaceUnique | src/main/java/org/tussleframework/HdrResult.java:88 | where the searched name can only occur at one place, `replace` swaps exactly that occurrence |
| MetricNames.ReplaceMissed | src/main/java/org/tussleframework/HdrResult.java:88 | where the searched name cannot occur, `replace` changes nothing |
| MetricNames.HyphenateName | src/main/java/org/tussleframework/metrics/HdrResult.java:155 | in `op_name_tail` with a clean operation and tail, hyphenating changes only the metric name |
| MetricNames.HyphenateService | src/main/java/org/tussleframework/metrics/HdrResult.java:155 | `service_time` in the metric position becomes `service-time` |
| MetricNames.HyphenateResponse | src/main/java/org/tussleframework/metrics/HdrResult.java:155 | `response_time` in the metric position becomes `response-time` |
| MetricNames.ServiceMissed | src/main/java/org/tussleframework/metrics/HdrResult.java:155 | the `service_time` pass leaves `response_time` alone |
| MetricNames.NamesRestored | src/main/java/org/tussleframework/HdrResult.java:123 | restoring leaves the two underscore names as they are |
| MetricNames.ResponseTimeHasNoService | src/main/java/org/tussleframework/HdrResult.java:123 | the first restore pass does not touch `response-time` |
| MetricNames.DropLeadingEmpty | src/main/java/org/tussleframework/metrics/MetricInfo.java:65-70 | the builder skips the separator while it is empty, which drops exactly the leading empty fields |
| MetricNames.BuildName | src/main/java/org/tussleframework/metrics/MetricInfo.java:64-71 | the loop joins the fields before the used ones with `_`, leading empty fields dropped |
| MetricNames.JoinFieldsSnoc | src/main/java/org/tussleframework/metrics/MetricInfo.java:65-70 | one more field adds a `_` and the field, or just the field while the text is empty |
| MetricInfo.FormatFileName | src/main/java/org/tussleframework/metrics/MetricInfo.java:59-61 | the file name starts with the operation and the metric, each followed by `_`, and ends in `.hlog` |
| MetricInfo.SplitName | src/main/java/org/tussleframework/metrics/MetricInfo.java:72-84 | a name with `_` at a positive index splits into the operation before it and the rest; otherwise the whole name is the operation and the configured metric is used, except that an `intended-` operation (in any case) with a service-time metric loses the prefix and gets response time |
| MetricInfo.FillValues | src/main/java/org/tussleframework/metrics/MetricInfo.java:63-90 | the operation and the restored metric come from the rebuilt name as `SplitName` says, the units from the configuration, and the host is kept |
| MetricInfo.HyphenateFileBase | src/main/java/org/tussleframework/metrics/HdrResult.java:154-155 | hyphenating a written base name changes only its metric field |
| MetricInfo.HyphenField | src/main/java/org/tussleframework/metrics/HdrResult.java:155 | a writable metric name has no `_` once hyphenated |
| MetricInfo.SplitFileBase | src/main/java/org/tussleframework/metrics/HdrResult.java:154-155 | a written base name splits into operation, hyphenated metric, percent, rate and step |
| MetricInfo.NameSplit | src/main/java/org/tussleframework/metrics/MetricInfo.java:72-76 | `op_metric` splits at the first `_` into `op` and `metric` |
| MetricInfo.FillValuesOfFileName | src/main/java/org/tussleframework/metrics/HdrResult.java:154-158 | round trip: a name written by `formatFileName` is read back to the same operation, metric, percent, rate and step |
| MetricInfo.StepOnlyLosesMetric | src/main/java/org/tussleframework/RunArgs.java:76-83 | as written, `op_metric_step` counts two fields, so the rebuilt name is `op` alone and the metric becomes the configuration's |
| MetricInfo.OperationOnly | src/main/java/org/tussleframework/metrics/MetricInfo.java:77-78 | a rebuilt name without `_` and without `intended-` is the operation, and the metric is the configuration's |
| MetricInfo.StepOnlyKeepsMetric | src/main/java/org/tussleframework/metrics/MetricInfo.java:63-90 | with the intended count, `op_metric_step` keeps `op` as the operation and `metric` as the metric |
| MetricInfo.WritesResponseTime | src/main/java/org/tussleframework/RunArgs.java:76-83 | as written, `writes_response-time_0` is read as `service_time` under the default configuration |
| MetricInfo.WritesResponseTimeIntended | src/main/java/org/tussleframework/metrics/MetricInfo.java:63-90 | with the intended count, `writes_response-time_0` is read as `response_time` |
| MetricInfo.ResponseTimeRestored | src/main/java/org/tussleframework/metrics/MetricInfo.java:86 | `response-time` is restored to `response_time` |
| HdrResult.DetectNumbers | src/main/java/org/tussleframework/HdrResult.java:89-107 | `detectValues` fails exactly when `fillValues` would; a step alone reads nothing, as there is no third try; otherwise it reads what `fillValues` reads |
| HdrResult.DetectFrom | src/main/java/org/tussleframework/HdrResult.java:87-124 | the fields before the numbers are joined again; the operation is the text before a `_` at a positive index (the default operation otherwise), and the metric the restored rest |
| HdrResult.OperationCut | src/main/java/org/tussleframework/HdrResult.java:116-122 | the operation is the text before a `_` at a positive index and the metric the rest; without one, the default operation and the whole name |
| HdrResult.TlpNames | src/main/java/org/tussleframework/HdrResult.java:148-156 | the operation is the text after `.hdr-`; with an `INTENDED-` prefix the prefix is cut and the metric is response time, otherwise service time |
| HdrResult.GetIterationResult | src/main/java/org/tussleframework/HdrResult.java:142-162 | a stress-tool file gets factor 1000, no run values and the names after its mark; any other file gets factor 1000000 and what `detectValues` reads from its base name, failing exactly when that fails |
| HdrResult.BaseNoSlash | src/main/java/org/tussleframework/HdrResult.java:130-140 | a written base name holds no `/` |
| HdrResult.DetectOfBase | src/main/java/org/tussleframework/HdrResult.java:87-124 | a base name written from a writable operation and metric reads back to them, with percent, rate and step |
| HdrResult.DetectFive | src/main/java/org/tussleframework/HdrResult.java:87-124 | five fields with three numbers read back to operation, restored metric and the numbers |
| HdrResult.NotTlp | src/main/java/org/tussleframework/HdrResult.java:147 | a path whose first character is not `t` is no stress-tool file |
| HdrResult.IterationOfFileName | src/main/java/org/tussleframework/HdrResult.java:142-162 | round trip: a path to a file named by `formatFileName` reads back to the same operation, metric, percent, rate and step, with factor 1000000 |
| HdrResult.StepOnlyInMetric | src/main/java/org/tussleframework/HdrResult.java:89-107 | `op_metric_step` reads no numbers, so the step stays in the metric name and is 0 |
| HdrResult.DetectAgreesWithMetricInfo | src/main/java/org/tussleframework/HdrResult.java:87-124 | wherever both read numbers and the rebuilt name holds a `_`, `detectValues` and `MetricInfo.fillValues` agree on operation and metric |
| HdrResult.SameCut | src/main/java/org/tussleframework/HdrResult.java:116-119 | a name has only one operation prefix free of `_` |
| HdrResult.TlpMark | src/main/java/org/tussleframework/HdrResult.java:147-150 | a stress-tool name is found as such, and the text after the mark is the operation |
| HdrResult.TlpService | src/main/java/org/tussleframework/HdrResult.java:147-157 | a stress-tool histogram of operation `op` reads as `op` and `service_time` |
| HdrResult.TlpIntended | src/main/java/org/tussleframework/HdrResult.java:147-157 | an `INTENDED-op` stress-tool histogram reads as `op` and `response_time` |
| HdrConfig.Copy | src/main/java/org/tussleframework/HdrConfig.java:59-75 | after `copy` the configuration equals the source in every field |
| HdrConfig.FirstBadPattern | src/main/java/org/tussleframework/HdrConfig.java:97-106 | the pattern reported is one of the list that does not compile; none is reported only when the list is absent or every pattern compiles |
| HdrConfig.FirstFailing | src/main/java/org/tussleframework/HdrConfig.java:96-105 | the first pattern of a list that does not compile, or none when all compile |
| HdrConfig.Validate | src/main/java/org/tussleframework/HdrConfig.java:78-107 | as written: valid exactly when every check passes; where the intended check would reject the factor, the message's `%d` meets a double and a format error is raised instead; every other outcome is the intended one |
| HdrConfig.ValidateIntended | src/main/java/org/tussleframework/HdrConfig.java:78-107 | valid exactly when every check passes; a negative cut time is the first error, a non-positive factor is reported exactly when the checks before it pass, and a reported pattern does not compile |
| HdrConfig.RunArgsPath | src/main/java/org/tussleframework/HdrConfig.java:109-115 | the run-arguments file lies in the histograms directory and is named `run-args-…` |
| HdrConfig.RunArgsPathInjective | src/main/java/org/tussleframework/HdrConfig.java:109-115 | different steps are saved to and loaded from different files |
| HdrConfig.ZeroFactorMessage | src/main/java/org/tussleframework/HdrConfig.java:88-90 | a zero factor raises the format error as written and the factor error as intended |
| HdrConfig.DefaultValid | src/main/java/org/tussleframework/HdrConfig.java:44-57 | the default configuration is valid |
| HdrConfig.CopyValidates | src/main/java/org/tussleframework/HdrConfig.java:59-75 | a copy validates exactly like its source |
| RunParams.ToolParsers | src/main/java/org/tussleframework/RunParams.java:57-66 | the tool's time parser yields 32-bit values and reads "0" as 0 |
| RunParams.Validate | src/main/java/org/tussleframework/RunParams.java:56-69 | valid exactly when every check passes; a negative rate is reported exactly when the rate reads as a negative number; an unreadable rate or time is reported with its own text |
| RunParams.WrappedSumPositive | src/main/java/org/tussleframework/RunParams.java:66 | the 32-bit sum of two non-negative times is positive exactly when the true sum is positive and fits an `int` |
| RunParams.ValidTotalFits | src/main/java/org/tussleframework/RunParams.java:66 | valid parameters have a positive total time that fits an `int` |
| RunParams.LongTimesRejected | src/main/java/org/tussleframework/RunParams.java:66 | non-negative times whose true sum passes `Integer.MAX_VALUE` are rejected, because the sum wraps |
| RunParams.NoWarmupValid | src/main/java/org/tussleframework/RunParams.java:56-69 | without warm-up the parameters are valid exactly when the rate is non-negative and the run time positive |
| RunParams.Spike | src/main/java/org/tussleframework/RunParams.java:72-78 | a spike is the low rate, the high rate, and the low rate again, each without warm-up and with its own run time |
| RunParams.SpikeValid | src/main/java/org/tussleframework/RunParams.java:72-78 | all three steps of a spike are valid exactly when both rates are non-negative and both run times positive |
| RunParams.Ramp | src/main/java/org/tussleframework/RunParams.java:80-92 | no steps for `n <= 0`, one step at `from` for `n == 1`, otherwise `n` one-minute steps without warm-up at the evenly spaced rates |
| RunParams.RampEnds | src/main/java/org/tussleframework/RunParams.java:80-92 | the ramp starts at `from`, ends at `to`, and its neighbouring rates differ by `(to - from) / (n - 1)` |
| StepRaterConfig.FirstNonPositive | src/main/java/org/tussleframework/runners/StepRaterConfig.java:89-93 | the index of the first non-positive step, or the length when there is none |
| StepRaterConfig.FirstNotDecreasing | src/main/java/org/tussleframework/runners/StepRaterConfig.java:94-98 | the index of the first step not below the one before it, or the length when there is none |
| StepRaterConfig.Validate | src/main/java/org/tussleframework/runners/StepRaterConfig.java:64-101 | valid exactly when every check passes; each error names a value that breaks its rule: a non-positive rate step, a negative starting percent, a finishing percent below the starting one, a non-positive or not strictly decreasing high-bound step |
| StepRaterConfig.AdjacentDecreasing | src/main/java/org/tussleframework/runners/StepRaterConfig.java:94-98 | steps each below the one before are strictly decreasing throughout |
| StepRaterConfig.DefaultTimes | src/main/java/org/tussleframework/runners/StepRaterConfig.java:57-58 | the default high-bound run time "1m" is 60 seconds and the warm-up "0" is 0 |
| StepRaterConfig.DefaultValid | src/main/java/org/tussleframework/runners/StepRaterConfig.java:46-62 | the default configuration is valid |
| StepRater.Raised | src/main/java/org/tussleframework/runners/StepRater.java:101-108 | when the step's products fit an `int`, raising the bound after a probe never lowers it |
| StepRater.HugeStepWraps | src/main/java/org/tussleframework/runners/StepRater.java:106 | a step of 2^30 at factor 3 wraps the `int` product and lowers the bound by 2^31 |
| StepRater.StepProbes | src/main/java/org/tussleframework/runners/StepRater.java:88-113 | the probes of one step, run by run: the `k`-th target is the bound plus `k` steps; every probe but the last reached a positive rate and kept up; a last probe at a zero rate fails with -1 (and, corrected, one at a negative rate, where the program as written throws: see "## Findings"), one that fell behind after `k` probes raises the bound by `k - 1` steps (or to the step itself for the last step from a zero bound), and ten probes that all kept up leave the bound alone |
| StepRater.StepRunMatches | src/main/java/org/tussleframework/runners/StepRater.java:89-109 | probes described run by run as above are exactly those of the inner loop from the same probe on, with the same bound and the same failure |
| StepRater.StepRunDescribed | src/main/java/org/tussleframework/runners/StepRater.java:89-109 | conversely, the inner loop from any probe on runs probes of that description |
| StepRater.ProbesFacts | src/main/java/org/tussleframework/runners/StepRater.java:88-113 | after such probes, every run but the last reached a positive rate (all of them when none failed); without failure the bound does not drop when the products fit, and does not move when every probe kept up |
| StepRater.SearchAfterProbes | src/main/java/org/tussleframework/runners/StepRater.java:86-110 | the search from a step on ends with that step's probes when one failed, and otherwise goes on from the next step with the raised bound and the longer list of runs |
| StepRater.KeptUpPrefix | src/main/java/org/tussleframework/runners/StepRater.java:101 | every prefix of probes that kept up with their target kept up |
| StepRater.SearchFacts | src/main/java/org/tussleframework/runners/StepRater.java:79-115 | the search from any step on keeps the runs before it and adds at most ten per step; every run but the last reached a positive rate; a new last run at a zero rate means -1 (corrected: at a negative rate too, where the program as written throws); otherwise the bound does not drop when the products fit and stays put when every run kept up |
| StepRater.SearchFrom | src/main/java/org/tussleframework/runners/StepRater.java:86-114 | the outer loop from step `i` on computes the reference search, step by step |
| StepRater.FindHighBound | src/main/java/org/tussleframework/runners/StepRater.java:79-115 | returns exactly the reference search over all steps from the configured bound; at most ten probes per step; a zero rate ends the search with -1, and so does a negative one in this corrected search; otherwise the bound does not go down when the products fit, and stays where it started when every probe kept up; the search as written throws on exactly the same runs when the last one reached a negative rate, and otherwise returns the same bound and runs |
| StepRater.StepRunAsWrittenAgrees | src/main/java/org/tussleframework/runners/StepRater.java:89-111 | assuming a runner whose `runOnce` accepts a null results list and returns null for a negative rate: as written, one step's probes give what the corrected probes give, except that a last probe at a negative rate throws (runners/BasicRunner.java:138-141 returns null, read at StepRater.java:97) |
| StepRater.SearchAsWrittenAgrees | src/main/java/org/tussleframework/runners/StepRater.java:79-115 | under the same runner assumption: as written, the search throws exactly when the corrected search ends on a new run at a negative rate, and otherwise returns what the corrected search returns |
| StepRater.NegativeRateThrows | src/main/java/org/tussleframework/runners/StepRater.java:96-99 | under the same runner assumption, a first probe at the rate -1 throws as written, where the corrected search returns -1 after that one run |
| StepRater.ChainExtend | src/main/java/org/tussleframework/runners/StepRater.java:125-150 | a probe that follows the last one by the loop's rule extends the chain of probes |
| StepRater.Next | src/main/java/org/tussleframework/runners/StepRater.java:128-150 | the loop stops exactly when a stop condition holds; otherwise the next probe follows by the retry or move-up rule, and its target is the bound times its percent over 100 |
| StepRater.BelowFinish | src/main/java/org/tussleframework/runners/StepRater.java:143-149 | a start plus `k` steps below the finishing percent is reached before the loop can stop on the finish |
| StepRater.Pass | src/main/java/org/tussleframework/runners/StepRater.java:117-150 | one pass of `iterateTargetRates` produces a chain of probes from the start that ends at a stop condition |
| StepRater.IterateTargetRates | src/main/java/org/tussleframework/runners/StepRater.java:117-158 | the main pass is followed, when finer steps are asked for, the last run returned and the last percent is above one step, by a finer pass between the last two percents |
| StepRater.PassBounds | src/main/java/org/tussleframework/runners/StepRater.java:117-150 | every probe's retry count stays within the allowed retries and its percent lies from the start to below the finish plus one step |
| StepRater.FinerBetween | src/main/java/org/tussleframework/runners/StepRater.java:151-157 | every probe of the finer pass lies strictly between the last two percents of the main pass, at its matching target |
| StepRater.FineBelowStep | src/main/java/org/tussleframework/runners/StepRater.java:151-157 | a positive step split into at least two parts gives a part that is positive and smaller than the step |
| StepRater.KeepingUpPass | src/main/java/org/tussleframework/runners/StepRater.java:117-150 | when every run keeps up, the pass never retries, visits the percents start, start plus step, and so on, and ends at or after the finish |
| Analyzer.Classify | src/main/java/org/tussleframework/tools/Analyzer.java:194-247 | a name has a kind exactly when it is a results file; the kind is one whose test the name passes, and no kind tested earlier matches |
| Analyzer.ResultsFileIsSomeKind | src/main/java/org/tussleframework/tools/Analyzer.java:236-247 | a name is a results file exactly when some kind's test accepts it |
| Analyzer.ProcessResultsStream | src/main/java/org/tussleframework/tools/Analyzer.java:249-275 | only results files are handled; histograms go to the histogram reader exactly when the histogram test is the first that matches, with the iteration result of the name; any other file goes to the processor of the first kind that matches |
| Analyzer.HiccupNotHistogram | src/main/java/org/tussleframework/tools/Analyzer.java:214-222 | a hiccup log is never taken for a histogram |
| Analyzer.HiccupDispatch | src/main/java/org/tussleframework/tools/Analyzer.java:261-262 | a hiccup log goes to the hiccup processor |
| Analyzer.NotLogSuffix | src/main/java/org/tussleframework/tools/Analyzer.java:198-212 | an `.hlog` name does not end with a four-letter suffix such as `.log` of another kind |
| Analyzer.HostOf | src/main/java/org/tussleframework/tools/Analyzer.java:342-349 | the host is a proper tail of the node directory's name |
| Analyzer.DetectHost | src/main/java/org/tussleframework/tools/Analyzer.java:335-353 | no directory gives no host; a `node_` directory gives its host, else a `node_` parent gives the parent's, else there is no host |
| Analyzer.HostOfNodeName | src/main/java/org/tussleframework/tools/Analyzer.java:342-351 | the host of `node_actor@host` is `host` |
| Analyzer.DetectHostOfNodeName | src/main/java/org/tussleframework/tools/Analyzer.java:335-353 | a file in a node directory, or in a directory inside one, gets that node's host |
| Analyzer.IsProcessed | src/main/java/org/tussleframework/tools/Analyzer.java:320-327 | a path counts as processed exactly when it was seen before, and afterwards it is seen |
| Analyzer.IsProcessedAll | src/main/java/org/tussleframework/tools/Analyzer.java:320-327 | one answer per path |
| Analyzer.IsProcessedFirstTime | src/main/java/org/tussleframework/tools/Analyzer.java:320-327 | over a run of paths, a path counts as processed exactly when it was seen before the run or earlier in the run, and afterwards every path is seen |
| Analyzer.ProcessResultsFile | src/main/java/org/tussleframework/tools/Analyzer.java:355-387 | a file is handled exactly when its name is a results file; only results files are recorded as seen, and a file is processed, with its directory's host, exactly when its path was not seen before |
| Analyzer.ProcessedNotHistogram | src/main/java/org/tussleframework/tools/Analyzer.java:218-221 | a name containing `processed` that is no stress-tool file is not a histogram |
| Analyzer.ProcessedOnce | src/main/java/org/tussleframework/tools/Analyzer.java:364-365 | processing the same file a second time does nothing and changes nothing |
| Informator.Capitalize | src/main/java/org/tussleframework/tools/Informator.java:80-91 | `os`, `jvm` and `jdk` come out in capitals; any other non-empty word gets its first character in upper case and keeps the rest; the length and the dots do not change |
| Informator.CapitalizeIdempotent | src/main/java/org/tussleframework/tools/Informator.java:80-91 | capitalising twice is capitalising once |
| Informator.StripPrefix | src/main/java/org/tussleframework/tools/Informator.java:94-104 | the key loses at most a prefix: `os.`, `java.` with a following `vm.`, or `sun.management.` |
| Informator.Build | src/main/java/org/tussleframework/tools/Informator.java:106-113 | the loop's text has no dots when the parts have none, and is empty exactly when every part is |
| Informator.MakeKey | src/main/java/org/tussleframework/tools/Informator.java:93-115 | a key has no dots |
| Informator.CapitalizeAll | src/main/java/org/tussleframework/tools/Informator.java:108-109 | each part capitalised, in order |
| Informator.BuildJoins | src/main/java/org/tussleframework/tools/Informator.java:106-113 | without empty parts, the loop joins the capitalised parts with single spaces |
| Informator.MakeKeyOfWords | src/main/java/org/tussleframework/tools/Informator.java:93-115 | a property name made of a dropped prefix and non-empty dot-free words becomes those words, capitalised, between single spaces |
| Informator.StripOs | src/main/java/org/tussleframework/tools/Informator.java:94-95 | `os.rest` becomes `rest` |
| Informator.StripJavaVm | src/main/java/org/tussleframework/tools/Informator.java:96-100 | `java.vm.rest` becomes `rest` |
| Informator.StripJava | src/main/java/org/tussleframework/tools/Informator.java:96-100 | `java.rest` without a following `vm.` becomes `rest` |
| Informator.StripSun | src/main/java/org/tussleframework/tools/Informator.java:101-102 | `sun.management.rest` becomes `rest` |
| MetricValue.Max | src/main/java/org/benchmarks/metrics/MetricValue.java:25-35 | the result is at least -1 and at least every value, and it is -1 or one of the values |
| MetricValue.MaxValue | src/main/java/org/benchmarks/metrics/MetricValue.java:25-35 | a missing or empty list gives -1; otherwise the largest value, or -1 when all are below it |
| MetricValue.SumPositive | src/main/java/org/benchmarks/metrics/MetricValue.java:51-61 | the sum of the positive values is non-negative, and zero when none is positive |
| MetricValue.CountPositive | src/main/java/org/benchmarks/metrics/MetricValue.java:37-49 | the number of positive values is at most the length, and zero exactly when none is positive |
| MetricValue.SumValue | src/main/java/org/benchmarks/metrics/MetricValue.java:51-61 | `sumValue` is non-negative, and zero for a missing list |
| MetricValue.ScaleIsProduct | src/main/java/org/benchmarks/metrics/MetricValue.java:37-49 | adding a number up `n` times is multiplying it by `n` |
| MetricValue.ScaleMonotone | src/main/java/org/benchmarks/metrics/MetricValue.java:37-49 | adding up a larger number `n` times gives more |
| MetricValue.AvgValue | src/main/java/org/benchmarks/metrics/MetricValue.java:37-49 | `avgValue` is -1 for a missing list or no positive value; otherwise, added up once per positive value, it gives `sumValue` |
| MetricValue.SumBounds | src/main/java/org/benchmarks/metrics/MetricValue.java:37-61 | the positive values sum to at most their count times any bound, and to more than zero when there are any |
| MetricValue.AverageBetween | src/main/java/org/benchmarks/metrics/MetricValue.java:25-49 | with some positive value, the average is positive and at most the maximum |
| MetricValue.SumIsAverageTimesCount | src/main/java/org/benchmarks/metrics/MetricValue.java:37-61 | with some positive value, `sumValue` is `avgValue` times the number of positive values |

## Left out

- The Angular controller, HTTP fetches, cookies, the HTML report assembly and the Chart.js option builders of `app.js` and `utils.js` are user interface. The chart a row's type gets is a parameter (`ChartOf`).
- Regular-expression matching (`matches`, `checkDataPatterns`, `showData`, `FormatTool.matchFilters`, the pattern compile of `HdrConfig.validate`) rests on the JavaScript and Java regex engines. Whether a pattern compiles, and whether a toggle shows data, are parameters.
- Decimal text formatting (`roundNumber`, `roundPercent`, `getDiffValue`'s `toFixed`, `FormatTool.format`, `roundFormat`, `roundFormatPercent`) is kept abstract. A rounded number is a truthy display value, and the percent and rate fields of a file name are texts passed in.
- Table.RoundNumber: states only null-preservation and truthiness, because the digits of the formatted text are not modelled.
- The square root in `stdevNumber` is left out. `Utils.Variance` models its square: the sample variance, zero exactly when the values are constant.
- Doubles are exact reals. There is no rounding, NaN or infinity, and `Double.valueOf` is limited to plain decimal numerals: no exponents, no `NaN`/`Infinity` words, no type suffixes.
- MetricValue.AvgValue: states the mean in exact arithmetic, not the rounded double division.
- RunParams.Ramp: the source adds `d` to `from` at each step, accumulating rounding; the model gives step `i` the exact rate `from + i * d`.
- Java and JavaScript case mapping is limited to ASCII letters (`Strings.ToLower`, `Informator.Capitalize`, `Utils.Capitalize`).
- `null` strings and arrays are not modelled, except where an optional list or map is part of an operation (`Option`). Out-of-range indexing is an error result.
- `FormatTool.parseTimeNs` and `parseUTCDate` are left out: their results depend on clock and date formats. `applyArgs` maps `applyArg` over a list. `getSysMap` reads the system properties. `paramName`/`paramValue` are the two halves of `splitParam`.
- `RunArgs.format`, `HdrResult.getOpName` and `Interval.toString` only format text.
- File, zip, stream and JSON/YAML I/O are left out. This covers `ConfigLoader`'s YAML load, `Analyzer.processRecursive`/`processZipFile`, the stream processors, `addAndProcessHistograms` and `HdrConfig.saveRunArgs`/`loadRunArgs` beyond their file names. A file's lines are a parameter of the loader. A file reached from an archive is named by its path.
- HdrHistogram-backed code (`HdrIntervalResult`, `checkSLE`, histogram decoding) is left out. So are the threads, timers and runners around `StepRater`.
- `StepRater` drives a benchmark. Each run is an oracle parameter: the rate a run reaches, or none when the run gives no result. Logging, timing and the warm-up and run times it passes on are left out. The configuration fields it reads but the runner configuration does not declare (`targetFactor`, `retriesMax`) are parameters.
- StepRater.FindHighBound: states that the bound never decreases only when every step times 9 fits an `int`. `step * (stepFactor - 1)` is an `int` product that wraps (`StepRater.HugeStepWraps`).
- StepRater.FindHighBound: the benchmark's answers are a sequence holding the rate each run achieved, in run order, long enough for ten runs per step. How the achieved rate depends on the target is not modelled, since the behaviour of any benchmark is one such sequence.
- StepRater.FindHighBound: is the corrected search. A run with a negative rate makes `runOnce` return null (runners/BasicRunner.java:138-141), and `findHighBound` then throws a NullPointerException at StepRater.java:97; the model returns -1 there, as for a zero rate. The search as written is `StepRater.HighBoundSearchAsWritten` (see "## Findings"). The null for a negative rate is taken from runners/BasicRunner.java, which is another runner version: its `runOnce` takes a `List` where StepRater.java:130 passes a `Collection`, and its `logResult` (lines 144, 169) would also dereference the null results list that `findHighBound` passes, for every rate. The model assumes a runner whose `runOnce` accepts a null results list and returns null only for a negative rate.
- StepRater.StepRunAsWrittenAgrees: rests on the runner assumption stated under `StepRater.FindHighBound`. With runners/BasicRunner.java as it stands, `logResult` (lines 144, 169) would throw on the null results list at every run, before any rate is compared; that path is not modelled.
- StepRater.SearchAsWrittenAgrees: rests on the same runner assumption; with runners/BasicRunner.java as it stands every high-bound run would throw in `logResult`, which is not modelled.
- StepRater.StepProbes: a last probe at a negative rate fails with -1, where the program as written throws a NullPointerException (StepRater.java:96-97).
- StepRater.SearchFacts: "a new last run without a positive rate means -1" holds for the corrected search; as written a negative rate throws instead (StepRater.java:97).
- Table.TrimTable: requires the `VM` row to hold text wherever it holds a truthy value. A truthy `VM` value that is not text (`vm_name` comes from JSON, app.js:791, 819, 1140) makes `toLowerCase` throw a TypeError at app.js:1210 when some row has a hole in that column; that error path is not modelled.
- Reduce.ReduceResultsTable: requires header and parameter cells to hold text or null (`RowText`, `Reducible`). `pushVal` stores the run's property values unchanged (utils.js:266-298, called at app.js:795 and 1141-1148); they come from parsed JSON and may be numbers, booleans or objects, and those inputs are not modelled.
- Reduce.MergeText: requires both cells to hold text or null. A number as the peer's value would be appended in its JavaScript string form, and a truthy non-text header value throws a TypeError at `indexOf` or `endsWith` (app.js:1467-1468); neither path is modelled.
- Reduce.MergeTextAsWritten: has the same text-or-null requirement as `Reduce.MergeText`, for the same reason; the numeric and TypeError paths of app.js:1467-1468 are not modelled.
- Reduce.ReduceResultsTable: reduces with the corrected `MergeText`, `MergeClasses` and `MergeResultsDir`. On the inputs of "## Findings" (headers A, B, A; an empty results-dir anchor with a peer; shared classes) the result differs from what app.js:1296-1523 computes, which gives "A B A", throws a TypeError, or repeats a class.
- Compare.ProduceComparisonTable: compares with the corrected `IsLowerBetterValue` and `ComparedCell`. It differs from app.js:1525-1746 as written on "… error rate" rows, which the source treats as higher-is-better, and on a re-run over cells with errors, where the source appends another ` error_rate`.
- Compare.CompareReentrant: holds for the corrected comparison only. As written (app.js:1684-1687) a second run appends another ` error_rate` to every cell with errors (`Compare.ErrorClassAccumulates`).
- Compare.CompareSettles: holds for the corrected comparison only. As written each further run appends another ` error_rate` (app.js:1684-1687), so later runs depend on how many ran before.
- Compare.NumberColReentrant: holds for the corrected pass only; as written (app.js:1684-1687) a second pass over a cell with errors appends another ` error_rate`.
- Compare.NumberColsReentrant: holds for the corrected pass only, for the same reason.
- Compare.ProcessRowReentrant: holds for the corrected pass only, for the same reason.
- Compare.RowRunReentrant: holds for the corrected pass only, for the same reason.
- StepRater.IterateTargetRates: the `finerRateSteps + 1` of the finer step is computed as an unbounded integer. The `int` overflow at `Integer.MAX_VALUE` is not modelled.
- `StepRaterConfig.validate` ends with `BasicRunnerConfig.validate`, which is not part of this model. Its verdict is the parameter `base`.
- `HdrResult.detectValues` sets `runArgs.step`, a field the `RunArgs` class does not declare; it is modelled as `runStep`. The constants `HdrResult.SERVICE_TIME`, `SERVICE_TIME2`, `RESPONSE_TIME` and `RESPONSE_TIME2` that `MetricInfo` and `HdrConfig` read are not part of this model. Their values are taken from the private names at `src/main/java/org/tussleframework/HdrResult.java:66-69`.
- `getIterationResult` does not set `rateUnits` and `timeUnits`, so the model's `HdrResult` record has no such fields.
- The legacy `org.benchmarks` duplicates of `Analyzer`, `HdrResult`, `Interval` and `ConfigLoader` are not modelled. Neither is the legacy `steprater/StepRaterConfig`, whose validation rejects its own default steps.

## Findings

| source | as written | input that shows it | evidently intended | confidence | as-written member | corrected member |
|---|---|---|---|---|---|---|
| src/main/resources/repfiles/js/utils.js:110-126 | any name containing `rate` is higher-is-better, so the later `error rate` test can never succeed | the row "Read error rate" is treated as higher-is-better | error-rate rows are lower-is-better, as the dead `error rate` test says | medium, not executed | Utils.IsLowerBetterValueAsWritten, Utils.ErrorRateRowCounterexample | Utils.IsLowerBetterValue, Compare.ProduceComparisonTable |
| src/main/resources/repfiles/js/app.js:1464-1471 | the duplicate test looks for the peer's text in the middle or at the end of the merged header, never at its start | merging the headers "A", "B", "A" gives "A B A" | each header value appears once: "A B" | high, not executed | Reduce.MergeTextAsWritten, Reduce.HeaderMergeCounterexample | Reduce.MergeText, Reduce.ReduceResultsTable |
| src/main/resources/repfiles/js/app.js:1483 | `removeDups()` is called without a separator; `split(undefined)` yields the whole text, so nothing is removed (see utils.js:852-854) | merging two cells of class "data_col x" gives "data_col x data_col x" | the merged class lists each class once | high, not executed | Reduce.MergeClassesAsWritten, Reduce.MergeClassesAsWrittenRepeats | Reduce.MergeClassesUnion, Reduce.ReduceResultsTable |
| src/main/resources/repfiles/js/app.js:1318-1325 | a results-dir anchor with an empty value gets no `values` list, yet every peer is pushed onto it (app.js:1434-1441) | a results-dir row whose anchor column is empty and which has a related peer column: the push fails on `undefined` | the peers' links are listed, numbered from 1 | medium, not executed | Reduce.MergeResultsDirAsWritten, Reduce.ResultsDirCounterexample | Reduce.MergeResultsDir, Reduce.ReduceResultsDirs, Reduce.ReduceResultsTable |
| src/main/resources/repfiles/js/app.js:1684-1687 | ` error_rate` is appended to the class of a cell with errors on every comparison, and the comparison runs again whenever the settings change | comparing a table twice leaves "… error_rate error_rate" on such a cell | a second comparison gives what one comparison with the new settings gives | high, not executed | Compare.ComparedCellAsWritten, Compare.ErrorClassAccumulates | Compare.ComparedCell, Compare.ComparedCellReentrant, Compare.ProduceComparisonTable, Compare.CompareReentrant, Compare.CompareSettles |
| src/main/java/org/tussleframework/tools/FormatTool.java:418-428 | the third `applyArgOnce` runs on the same input as the second, so at most two passes take effect | `{a}` with a = `{b}`, b = `{c}`, c = `X` gives `{c}` | each pass runs on the previous one's output, giving `X` | low, not executed | FormatTool.ApplyArgAsWritten, FormatTool.ApplyArgChain | FormatTool.ApplyArg |
| src/main/java/org/tussleframework/RunArgs.java:76-83 | the step-only case counts two numeric fields instead of one | `writes_response-time_0.hlog`, a format listed at metrics/HdrResult.java:132-151, is read with the configured metric `service_time` | only the step is consumed, and the metric `response_time` is read from the name | high, not executed | RunArgs.FillValues, MetricInfo.StepOnlyLosesMetric, MetricInfo.WritesResponseTime | RunArgs.FillValuesIntended, MetricInfo.StepOnlyKeepsMetric, MetricInfo.WritesResponseTimeIntended |
| src/main/java/org/tussleframework/HdrConfig.java:88-90 | the message formats the `double` factor with `%d`, which raises a format-conversion error while the message is built | `hdrFactor = 0` | the "Invalid hdrFactor" error with its message | high, not executed | HdrConfig.Validate, HdrConfig.ZeroFactorMessage | HdrConfig.ValidateIntended |
| src/main/java/org/tussleframework/runners/StepRater.java:96-99 | `findHighBound` reads `result.rate` without a null test, but `runOnce` returns null for a negative rate (runners/BasicRunner.java:138-141) | a benchmark whose first high-bound run reports the rate -1: a NullPointerException | a run without a result ends the search with -1, as a zero rate does; `iterateTargetRates` tests for null (StepRater.java:131-134) | low, not executed; assumes a runner whose `runOnce` accepts a null results list and returns null for a negative rate, as runners/BasicRunner.java (another version) does at 138-141 | StepRater.HighBoundSearchAsWritten, StepRater.NegativeRateThrows, StepRater.SearchAsWrittenAgrees | StepRater.FindHighBound |

=== FILE: analyzer.dfy ===
/** How the analyzer sorts the files of a results directory: which names
    are results files of which kind, which processor the first matching
    kind selects, the host a file's directory names, and the memory of
    files already processed. */
module Analyzer {
  import opened Wrappers
  import opened Strings
  import HdrResult

  /* ---------------------------------------------------------------------
     The ten kinds of results file
     --------------------------------------------------------------------- */

  const HiccupPrefix: string := "hiccup"
  const Processed: string := "processed"

  predicate IsRunPropertiesFile(name: string) {
    name == "run.properties.json" || name == "run-properties.json"
  }

  predicate IsTopFile(name: string) {
    EndsWith(name, "top.log")
  }

  predicate IsMpstatFile(name: string) {
    EndsWith(name, "mpstats.log") || EndsWith(name, "mpstat.log")
  }

  predicate IsDiskstatFile(name: string) {
    EndsWith(name, "diskstats.log") || EndsWith(name, "diskstat.log")
  }

  predicate IsIpstatFile(name: string) {
    EndsWith(name, "ipstats.log") || EndsWith(name, "ipstat.log")
  }

  predicate IsHiccupFile(name: string) {
    StartsWith(name, HiccupPrefix) && EndsWith(name, ".hlog")
  }

  /** `.hgrm` and `.hlog` files not marked processed, hiccup logs excepted,
      and the histogram files of tlp-stress. */
  predicate IsHistogramFile(name: string) {
    || (EndsWith(name, ".hgrm") && !Contains(name, Processed))
    || (EndsWith(name, ".hlog") && !Contains(name, Processed) && !StartsWith(name, HiccupPrefix))
    || (StartsWith(name, HdrResult.TlpPrefix) && IndexOf(name, HdrResult.HdrMark) > 0)
  }

  predicate IsTlpStressResults(name: string) {
    StartsWith(name, HdrResult.TlpPrefix) && EndsWith(name, ".csv")
  }

  predicate IsSamplesFile(name: string) {
    StartsWith(name, "samples") && EndsWith(name, ".csv")
  }

  predicate IsOmbFile(name: string) {
    StartsWith(name, "workload") && IndexOf(name, "OMB") >= 0 && EndsWith(name, ".json")
  }

  /** `isResultsFile`: any of the ten kinds. */
  predicate IsResultsFile(name: string) {
    || IsRunPropertiesFile(name)
    || IsTopFile(name)
    || IsMpstatFile(name)
    || IsDiskstatFile(name)
    || IsIpstatFile(name)
    || IsHiccupFile(name)
    || IsHistogramFile(name)
    || IsTlpStressResults(name)
    || IsSamplesFile(name)
    || IsOmbFile(name)
  }

  /** The kinds, in the order `processResultsStream` tests them. */
  datatype FileKind = RunProperties | Top | Mpstat | Diskstat | Ipstat | Hiccup | Histogram | TlpStress | Samples | Omb

  function Rank(k: FileKind): nat {
    match k
    case RunProperties => 0
    case Top => 1
    case Mpstat => 2
    case Diskstat => 3
    case Ipstat => 4
    case Hiccup => 5
    case Histogram => 6
    case TlpStress => 7
    case Samples => 8
    case Omb => 9
  }

  predicate Matches(k: FileKind, name: string) {
    match k
    case RunProperties => IsRunPropertiesFile(name)
    case Top => IsTopFile(name)
    case Mpstat => IsMpstatFile(name)
    case Diskstat => IsDiskstatFile(name)
    case Ipstat => IsIpstatFile(name)
    case Hiccup => IsHiccupFile(name)
    case Histogram => IsHistogramFile(name)
    case TlpStress => IsTlpStressResults(name)
    case Samples => IsSamplesFile(name)
    case Omb => IsOmbFile(name)
  }

  /** The branch of `processResultsStream` a name takes: the first kind in
      test order that it matches, `None` for the final `else`. */
  function Classify(name: string): (r: Option<FileKind>)
    ensures r.None? <==> !IsResultsFile(name)
    ensures r.Some? ==> Matches(r.value, name)
    ensures r.Some? ==> forall k :: Rank(k) < Rank(r.value) ==> !Matches(k, name)
  {
    if IsRunPropertiesFile(name) then Some(RunProperties)
    else if IsTopFile(name) then Some(Top)
    else if IsMpstatFile(name) then Some(Mpstat)
    else if IsDiskstatFile(name) then Some(Diskstat)
    else if IsIpstatFile(name) then Some(Ipstat)
    else if IsHiccupFile(name) then Some(Hiccup)
    else if IsHistogramFile(name) then Some(Histogram)
    else if IsTlpStressResults(name) then Some(TlpStress)
    else if IsSamplesFile(name) then Some(Samples)
    else if IsOmbFile(name) then Some(Omb)
    else None
  }

  /** A results file is one that some kind matches. */
  lemma ResultsFileIsSomeKind(name: string)
    ensures IsResultsFile(name) <==> exists k :: Matches(k, name)
  {
    if IsResultsFile(name) {
      assert Matches(Classify(name).value, name);
    }
  }

  /* ---------------------------------------------------------------------
     Dispatch
     --------------------------------------------------------------------- */

  /** What `processResultsStream` does with a stream: hand it to the
      processor of its kind, or, for a histogram file, build the iteration
      result from the file name (with `opName` as the default operation)
      and process its histograms. */
  datatype Action = Processor(kind: FileKind) | Histograms(result: Result<HdrResult.HdrResult, string>)

  /** `processResultsStream`: `None` where the source returns false. */
  function ProcessResultsStream(name: string, opName: string): (r: Option<Action>)
    ensures r.None? <==> !IsResultsFile(name)
    ensures r.Some? && r.value.Histograms? <==> IsHistogramFile(name) && Classify(name) == Some(Histogram)
    ensures r.Some? && r.value.Processor? ==> Matches(r.value.kind, name) && r.value.kind != Histogram
    ensures r.Some? && r.value.Processor? ==> forall k :: Rank(k) < Rank(r.value.kind) ==> !Matches(k, name)
    ensures r.Some? && r.value.Histograms? ==> r.value.result == HdrResult.GetIterationResult(name, opName)
  {
    match Classify(name)
    case None => None
    case Some(k) =>
      if k == Histogram then Some(Histograms(HdrResult.GetIterationResult(name, opName)))
      else Some(Processor(k))
  }

  /** A hiccup log is never a histogram file. */
  lemma HiccupNotHistogram(name: string)
    requires IsHiccupFile(name)
    ensures !IsHistogramFile(name)
  {
    assert name[0] == 'h' && name[|name| - 3] == 'l';
  }

  /** Besides tlp-stress histograms, no name containing "processed" is a
      histogram file. */
  lemma ProcessedNotHistogram(name: string)
    requires Contains(name, Processed) && !StartsWith(name, HdrResult.TlpPrefix)
    ensures !IsHistogramFile(name)
  { }

  /** The dispatch sends a hiccup log to the hiccup processor. */
  lemma HiccupDispatch(name: string, opName: string)
    requires IsHiccupFile(name)
    ensures ProcessResultsStream(name, opName) == Some(Processor(Hiccup))
  {
    assert name[0] == HiccupPrefix[0];
    NotLogSuffix(name, "top.log");
    NotLogSuffix(name, "mpstats.log");
    NotLogSuffix(name, "mpstat.log");
    NotLogSuffix(name, "diskstats.log");
    NotLogSuffix(name, "diskstat.log");
    NotLogSuffix(name, "ipstats.log");
    NotLogSuffix(name, "ipstat.log");
  }

  /** A `.hlog` name does not end in ".log" preceded by anything but 'h'. */
  lemma NotLogSuffix(name: string, p: string)
    requires EndsWith(name, ".hlog") && |p| >= 4 && p[|p| - 4] == '.'
    ensures !EndsWith(name, p)
  {
    assert name[|name| - 4] == 'h';
  }

  /* ---------------------------------------------------------------------
     Host detection
     --------------------------------------------------------------------- */

  const NodePrefix: string := "node_"

  /** A file's directory: its name and, when it has one, its parent's name. */
  datatype Dir = Dir(name: string, parentName: Option<string>)

  /** The host part of a node directory name: after the first '_', then
      after the first '@' when there is one. */
  function HostOf(dirName: string): (r: string)
    requires StartsWith(dirName, NodePrefix)
    ensures |r| < |dirName| && r == dirName[|dirName| - |r|..]
  {
    assert dirName[4] == '_';
    var actor := dirName[IndexOfChar(dirName, '_') + 1..];
    var r := AfterAt(actor);
    assert actor[|actor| - |r|..] == dirName[|dirName| - |r|..];
    r
  }

  function AfterAt(host: string): (r: string)
    ensures |r| <= |host| && r == host[|host| - |r|..]
    ensures '@' !in host ==> r == host
  {
    var pos := IndexOfChar(host, '@');
    if pos >= 0 then host[pos + 1..] else host
  }

  /** `detectHost`: the host part of the directory's name when it is a node
      directory, else of its parent's name when that is, else "". */
  function DetectHost(dir: Option<Dir>): (r: string)
    ensures dir.None? ==> r == ""
    ensures dir.Some? && StartsWith(dir.value.name, NodePrefix) ==> r == HostOf(dir.value.name)
    ensures (dir.Some? && !StartsWith(dir.value.name, NodePrefix) && dir.value.parentName.Some? &&
             StartsWith(dir.value.parentName.value, NodePrefix)) ==> r == HostOf(dir.value.parentName.value)
    ensures (dir.Some? && !StartsWith(dir.value.name, NodePrefix) &&
             (dir.value.parentName.None? || !StartsWith(dir.value.parentName.value, NodePrefix))) ==> r == ""
  {
    if dir.None? then ""
    else
      var host :=
        if StartsWith(dir.value.name, NodePrefix) then dir.value.name[IndexOfChar(dir.value.name, '_') + 1..]
        else if dir.value.parentName.Some? && StartsWith(dir.value.parentName.value, NodePrefix) then
          dir.value.parentName.value[IndexOfChar(dir.value.parentName.value, '_') + 1..]
        else "";
      AfterAt(host)
  }

  /** The actor and the host a node directory is named after. */
  function NodeName(actor: string, host: string): string {
    NodePrefix + actor + "@" + host
  }

  /** Naming a node directory `node_<actor>@<host>` and detecting its host
      gives the host back, whether the directory is the file's own or its
      parent. */
  lemma HostOfNodeName(actor: string, host: string)
    requires '@' !in actor
    ensures HostOf(NodeName(actor, host)) == host
  {
    var n := NodeName(actor, host);
    assert n[..5] == NodePrefix;
    IndexOfCharIs(n, '_', 4);
    var a := n[5..];
    assert a == actor + "@" + host;
    IndexOfCharIs(a, '@', |actor|);
  }

  lemma DetectHostOfNodeName(actor: string, host: string, dirName: string, parent: Option<string>)
    requires '@' !in actor
    ensures DetectHost(Some(Dir(NodeName(actor, host), parent))) == host
    ensures !StartsWith(dirName, NodePrefix) ==> DetectHost(Some(Dir(dirName, Some(NodeName(actor, host))))) == host
  {
    HostOfNodeName(actor, host);
    assert StartsWith(NodeName(actor, host), NodePrefix);
  }

  /* ---------------------------------------------------------------------
     Files already processed
     --------------------------------------------------------------------- */

  /** `isProcessed`: whether the path was seen before, and the paths seen
      after this call. */
  function IsProcessed(seen: set<string>, path: string): (r: (bool, set<string>))
    ensures r.0 <==> path in seen
    ensures r.1 == seen + {path} && path in r.1
  {
    if path in seen then (true, seen) else (false, seen + {path})
  }

  /** The answers of `isProcessed` to a series of calls. */
  function IsProcessedAll(seen: set<string>, paths: seq<string>): (r: (seq<bool>, set<string>))
    ensures |r.0| == |paths|
    decreases |paths|
  {
    if |paths| == 0 then ([], seen)
    else
      var (first, seen1) := IsProcessed(seen, paths[0]);
      var (rest, seen2) := IsProcessedAll(seen1, paths[1..]);
      ([first] + rest, seen2)
  }

  /** Over a series of calls, `isProcessed` answers false exactly for the
      first call with each path not seen before, and the paths seen grow by
      the paths asked about. */
  lemma {:induction false} IsProcessedFirstTime(seen: set<string>, paths: seq<string>)
    ensures var r := IsProcessedAll(seen, paths);
      (forall i :: 0 <= i < |paths| ==> (r.0[i] <==> paths[i] in seen || paths[i] in paths[..i])) &&
      (forall x :: x in r.1 <==> x in seen || x in paths)
    decreases |paths|
  {
    if |paths| > 0 {
      var p := paths[0];
      var seen1 := seen + {p};
      IsProcessedFirstTime(seen1, paths[1..]);
      var r := IsProcessedAll(seen, paths);
      var rest := IsProcessedAll(seen1, paths[1..]);
      assert r.0 == [p in seen] + rest.0;
      forall i | 0 <= i < |paths|
        ensures r.0[i] <==> paths[i] in seen || paths[i] in paths[..i]
      {
        if i > 0 {
          assert r.0[i] == rest.0[i - 1];
          assert paths[1..][i - 1] == paths[i];
          assert paths[..i] == [p] + paths[1..][..i - 1];
        }
      }
      assert paths == [p] + paths[1..];
    }
  }

  /* ---------------------------------------------------------------------
     One file
     --------------------------------------------------------------------- */

  /** What `processResultsFile` reports and does: whether the file counts
      as handled, the paths seen afterwards, the host of its directory and
      the action taken, if any. */
  datatype FileOutcome = FileOutcome(handled: bool, seen: set<string>, host: string, action: Option<Action>)

  /** `processResultsFile` for a file outside an archive: a results file
      not processed before is dispatched by its name (`path` is its
      absolute path, `name` its last part); one processed before counts as
      handled without further action; any other file is not handled. */
  function ProcessResultsFile(seen: set<string>, path: string, name: string, dir: Option<Dir>, opName: string)
    : (r: FileOutcome)
    ensures r.handled <==> IsResultsFile(name)
    ensures r.seen == (if IsResultsFile(name) then seen + {path} else seen)
    ensures r.action.Some? <==> IsResultsFile(name) && path !in seen
    ensures r.action.Some? ==> r.action == ProcessResultsStream(name, opName) && r.host == DetectHost(dir)
  {
    if !IsResultsFile(name) then FileOutcome(false, seen, "", None)
    else
      var (done, seen1) := IsProcessed(seen, path);
      if done then FileOutcome(true, seen1, "", None)
      else
        var action := ProcessResultsStream(name, opName);
        FileOutcome(action.Some?, seen1, DetectHost(dir), action)
  }

  /** Handing the same file over twice acts on it once. */
  lemma ProcessedOnce(seen: set<string>, path: string, name: string, dir: Option<Dir>, opName: string)
    ensures var first := ProcessResultsFile(seen, path, name, dir, opName);
      var second := ProcessResultsFile(first.seen, path, name, dir, opName);
      second.action.None? && second.seen == first.seen && second.handled == first.handled
  { }
}

=== FILE: compare.dfy ===
/** The comparison view of the report table, `produceComparisonTable`
    (app.js:1525-1745): every number cell gets its summary statistics and
    the list of sub-values the page shows, is compared with a baseline
    column of the same row, and a diff column is spliced in to the right of
    every compared column.  The pass is re-run whenever the user picks
    another baseline, so it first undoes what an earlier run added.  It is
    built from the corrected `IsLowerBetterValue` and `ComparedCell`, which
    marks a cell with errors only once; the re-entrancy lemmas hold for
    that corrected pass, and `ErrorClassAccumulates` shows that they fail
    for the pass as written. */
module Compare {
  import opened Wrappers
  import opened Strings
  import opened Utils
  import opened Table

  // ---------------------------------------------------------------------
  // Baseline selection (app.js:1618-1635)
  // ---------------------------------------------------------------------

  /** `baseIdx`: the column that column `i` is compared with, or -1 for
      none.  `target` is `compare_with` when that is a number (a column the
      user picked), `prev` is `compare_prev` when that is a number: 1
      compares with the previous column, 2 compares each even column with
      the odd one before it, 0 compares with the first column. */
  function BaselineIndex(i: nat, prev: Option<int>, target: Option<int>): (r: int)
    ensures r == -1 || (1 <= r && r != i)
  {
    if target.Some? && target.value > 0 then
      (if target.value != i then target.value else -1)
    else if prev == Some(1) then
      (if i > 1 then i - 1 else -1)
    else if prev == Some(2) then
      (if i > 1 && i % 2 == 0 then i - 1 else -1)
    else if prev == Some(0) then
      (if i > 1 then 1 else -1)
    else -1
  }

  predicate PicksColumn(target: Option<int>) {
    target.Some? && target.value > 0
  }

  /** A picked column is the baseline of every other column and is itself
      compared with nothing. */
  lemma PickedBaseline(i: nat, prev: Option<int>, target: Option<int>)
    requires PicksColumn(target)
    ensures BaselineIndex(i, prev, target) == target.value <==> i != target.value
    ensures BaselineIndex(i, prev, target) == -1 <==> i == target.value
  {
  }

  /** Without a picked column every baseline lies to the left, so a single
      left-to-right pass has already refreshed it. */
  lemma BaselineToTheLeft(i: nat, prev: Option<int>, target: Option<int>)
    requires !PicksColumn(target)
    ensures BaselineIndex(i, prev, target) < i
  {
  }

  /** The three modes: in mode 1 every column but the first is compared
      with its neighbour; in mode 2 the columns form pairs whose odd member
      is the baseline and is not compared itself; in mode 0 everything is
      compared with column 1, which is not compared itself. */
  lemma BaselineModes(i: nat, prev: Option<int>, target: Option<int>)
    requires !PicksColumn(target)
    ensures prev == Some(1) ==> (BaselineIndex(i, prev, target) > 0 <==> i > 1)
    ensures prev == Some(1) && i > 1 ==> BaselineIndex(i, prev, target) == i - 1
    ensures prev == Some(2) && BaselineIndex(i, prev, target) > 0 ==>
              i % 2 == 0 && BaselineIndex(i, prev, target) == i - 1
              && BaselineIndex(i - 1, prev, target) == -1
    ensures prev == Some(0) && BaselineIndex(i, prev, target) > 0 ==>
              BaselineIndex(i, prev, target) == 1 && BaselineIndex(1, prev, target) == -1
    ensures prev.None? || !(prev.value in {0, 1, 2}) ==> BaselineIndex(i, prev, target) == -1
  {
    if prev == Some(2) && BaselineIndex(i, prev, target) > 0 {
      assert (i - 1) % 2 == 1;
    }
  }

  // ---------------------------------------------------------------------
  // The difference with the baseline (app.js:1646-1654)
  // ---------------------------------------------------------------------

  /** `diffValue` and `diffXValue`: the relative difference of the two
      averages and their ratio, both oriented so that a larger number means
      better; nothing when either average is missing or zero. */
  function DeltaOf(avg: Option<real>, base: Option<real>, lowerBetter: bool): (r: Option<Delta>)
    ensures r.Some? <==> avg.Some? && avg.value != 0.0 && base.Some? && base.value != 0.0
  {
    if avg.Some? && avg.value != 0.0 && base.Some? && base.value != 0.0 then
      var a, p := avg.value, base.value;
      var d := (a - p) / p;
      Some(Delta(if lowerBetter then -d else d, if lowerBetter then p / a else a / p))
    else None
  }

  lemma QuotientSign(x: real, p: real)
    requires p > 0.0
    ensures x / p > 0.0 <==> x > 0.0
    ensures x / p == 0.0 <==> x == 0.0
  {
    var q := x / p;
    assert x == q * p;
    if q > 0.0 {
      ProductPositive(q, p, x);
    } else if q < 0.0 {
      ProductPositive(-q, p, -x);
    }
  }

  /** Against a positive baseline, the difference is positive exactly when
      the cell is better than the baseline (a larger average, or a smaller
      one when lower is better) and zero exactly when the averages agree. */
  lemma DeltaSign(avg: real, base: real, lowerBetter: bool)
    requires avg != 0.0 && base > 0.0
    ensures DeltaOf(Some(avg), Some(base), lowerBetter).value.diff > 0.0 <==>
              (if lowerBetter then avg < base else avg > base)
    ensures DeltaOf(Some(avg), Some(base), lowerBetter).value.diff == 0.0 <==> avg == base
  {
    QuotientSign(avg - base, base);
  }

  /** Division undoes multiplication by a non-zero factor. */
  lemma DivideExact(x: real, b: real, y: real)
    requires b != 0.0 && x * b == y
    ensures x == y / b
  {
    var q := y / b;
    assert q * b == y;
    assert (x - q) * b == 0.0;
  }

  /** The ratio agrees with the difference: `ratio = 1 + diff` when higher
      is better, `ratio * (1 - diff) = 1` when lower is better. */
  lemma DeltaRatio(avg: real, base: real, lowerBetter: bool)
    requires avg != 0.0 && base != 0.0
    ensures var d := DeltaOf(Some(avg), Some(base), lowerBetter).value;
            if lowerBetter then d.ratio * (1.0 - d.diff) == 1.0 else d.ratio == 1.0 + d.diff
  {
    var d := DeltaOf(Some(avg), Some(base), lowerBetter).value;
    var q := (avg - base) / base;
    assert q * base == avg - base;
    assert (1.0 + q) * base == avg;
    DivideExact(1.0 + q, base, avg);
    if lowerBetter {
      assert d.diff == -q && d.ratio == base / avg;
      assert 1.0 - d.diff == avg / base;
      assert (base / avg) * (avg / base) == 1.0;
    }
  }

  /** Swapping the cell and its baseline inverts the ratio. */
  lemma DeltaSwap(a: real, b: real, lowerBetter: bool)
    requires a != 0.0 && b != 0.0
    ensures DeltaOf(Some(a), Some(b), lowerBetter).value.ratio
            * DeltaOf(Some(b), Some(a), lowerBetter).value.ratio == 1.0
  {
    assert (a / b) * (b / a) == 1.0;
  }

  // ---------------------------------------------------------------------
  // Summary statistics of a number cell (app.js:1549-1553)
  // ---------------------------------------------------------------------

  /** `orig_values` seen as an array that `avgNumber` and friends accept. */
  function Lift(xs: seq<real>): (r: seq<Option<real>>)
    ensures |r| == |xs| && forall k :: 0 <= k < |xs| ==> r[k] == Some(xs[k])
  {
    if |xs| == 0 then [] else [Some(xs[0])] + Lift(xs[1..])
  }

  lemma {:induction false} PresentLift(xs: seq<real>)
    ensures Present(Lift(xs)) == xs
  {
    if |xs| > 0 {
      assert Lift(xs)[1..] == Lift(xs[1..]);
      PresentLift(xs[1..]);
    }
  }

  lemma AverageLift(xs: seq<real>)
    requires |xs| > 0
    ensures Average(Lift(xs)) == Some(Total(xs) / (|xs| as real))
  {
    PresentLift(xs);
  }

  lemma VarianceLift(xs: seq<real>)
    ensures |xs| >= 2 ==> (Variance(Lift(xs)) == 0.0 <==> AllEqual(xs, xs[0]))
  {
    PresentLift(xs);
    if |xs| >= 2 {
      VarianceZeroIffConstant(Lift(xs));
    }
  }

  /** `valueAvg`, `valueSum` and (squared) `valueStdev` of the values a
      merged number cell collected. */
  function SummaryOf(xs: seq<real>): (r: Summary)
    ensures r.avg.None? <==> |xs| == 0
    ensures r.sum.None? <==> |xs| == 0
    ensures r.avg.Some? ==> r.avg.value == Total(xs) / (|xs| as real)
    ensures r.sum.Some? ==> r.sum.value == Total(xs)
    ensures r.variance >= 0.0
    ensures |xs| < 2 ==> r.variance == 0.0
    ensures |xs| >= 2 ==> (r.variance == 0.0 <==> AllEqual(xs, xs[0]))
  {
    PresentLift(xs);
    if |xs| == 0 then Summary(None, None, 0.0)
    else
      AverageLift(xs);
      VarianceLift(xs);
      Summary(Average(Lift(xs)), Some(Total(xs)), Variance(Lift(xs)))
  }

  // ---------------------------------------------------------------------
  // Sub-values and classes of a compared number cell (app.js:1554-1697)
  // ---------------------------------------------------------------------

  const ErrorRateClass: string := "error_rate"

  /** `x.cls += ' ' + word` of JavaScript: an undefined class reads as the
      text "undefined". */
  function AppendClass(cls: Option<string>, word: string): (r: Option<string>)
    requires ' ' !in word
    ensures r.Some? && HasWord(r.value, word)
  {
    var head := if cls.Some? then cls.value else "undefined";
    SplitConcat(head, word, ' ');
    assert head + " " + word == head + [' '] + word;
    Some(head + " " + word)
  }

  /** Adds a class word unless the class list already has it. */
  function AddClass(cls: Option<string>, word: string): (r: Option<string>)
    requires ' ' !in word
    ensures r.Some? && HasWord(r.value, word)
    ensures cls.Some? && HasWord(cls.value, word) ==> r == cls
    ensures !(cls.Some? && HasWord(cls.value, word)) ==> r == AppendClass(cls, word)
  {
    if cls.Some? && HasWord(cls.value, word) then cls else AppendClass(cls, word)
  }

  /** `cell.error_rate > 0`. */
  predicate HasError(c: Cell) {
    c.errorRate.Some? && c.errorRate.value > 0.0
  }

  /** `values.forEach(e => e.cls += ' error_rate')`. */
  function MarkErrorSubs(subs: seq<Sub>): (r: seq<Sub>)
    ensures |r| == |subs|
    ensures forall k :: 0 <= k < |subs| ==>
              r[k].kind == subs[k].kind && r[k].gate == subs[k].gate
              && r[k].cls.Some? && HasWord(r[k].cls.value, ErrorRateClass)
  {
    if |subs| == 0 then []
    else [subs[0].(cls := AppendClass(subs[0].cls, ErrorRateClass))] + MarkErrorSubs(subs[1..])
  }

  /** The sub-values of a compared number cell that do not depend on the
      baseline: the scores, the average (and, unless the first-column mode
      `compare_prev === -1` is on, the best and worst value), the
      variability and the sum. */
  function ValueSubs(value: Val, st: Stats, s: Summary, lowerBetter: bool, firstOnly: bool): (r: seq<Sub>)
    ensures |r| >= 1 && r[0] == Sub(ScoresText(value), Some("nowrap"), When([Some("values")]))
  {
    var best := if lowerBetter then st.min else st.max;
    var worst := if lowerBetter then st.max else st.min;
    var avgs :=
      if |st.origValues| == 0 then []
      else if firstOnly then [Sub(AvgText(s.avg), Some("nowrap avg_value"), Always)]
      else [Sub(AvgText(s.avg), Some("nowrap avg_value"), Always),
            Sub(BestText(best), Some("nowrap best_value"), When([Some("best")])),
            Sub(WorstText(worst), Some("nowrap worst_value"), When([Some("worst")]))];
    var spread :=
      if s.variance != 0.0 && s.avg.Some? && s.avg.value != 0.0
      then [Sub(VarText(s.variance, s.avg.value), None, When([Some("var")]))]
      else [];
    var sum := if s.sum.Some? then [Sub(SumText(s.sum.value), None, When([Some("sum")]))] else [];
    [Sub(ScoresText(value), Some("nowrap"), When([Some("values")]))] + avgs + spread + sum
  }

  /** The visibility of a difference sub-value: inside the cell it is
      hidden while the separate diff column is on. */
  function DiffGate(name: string, inCell: bool): Gate {
    if inCell then When([Some(name), Some("!diff col")]) else When([Some(name)])
  }

  /** The three renderings of a difference (percent, raw, ratio), classed
      by the sign and size of the difference. */
  function DiffSubs(d: Delta, inCell: bool, suffix: string): (r: seq<Sub>)
    ensures |r| == 3
    ensures forall k :: 0 <= k < 3 ==> r[k].cls == Some(DiffClass(d.diff) + suffix)
    ensures r[0].kind == DiffPct(d.diff) && r[1].kind == DiffRaw(d.diff) && r[2].kind == DiffRatio(d.ratio)
  {
    var cls := Some(DiffClass(d.diff) + suffix);
    [Sub(DiffPct(d.diff), cls, DiffGate("diff %", inCell)),
     Sub(DiffRaw(d.diff), cls, DiffGate("diff raw", inCell)),
     Sub(DiffRatio(d.ratio), cls, DiffGate("diff x", inCell))]
  }

  /** The sub-value list of a compared number cell: the baseline-free
      ones, then the difference when there is one, all marked when the
      cell has errors. */
  function CellSubs(c: Cell, s: Summary, delta: Option<Delta>, lowerBetter: bool, firstOnly: bool): (r: seq<Sub>)
    requires c.stats.Some?
    ensures |r| >= 1 && r[0].kind == ScoresText(c.value)
    ensures HasError(c) ==> forall k :: 0 <= k < |r| ==> r[k].cls.Some? && HasWord(r[k].cls.value, ErrorRateClass)
  {
    var subs := ValueSubs(c.value, c.stats.value, s, lowerBetter, firstOnly)
                + (if delta.Some? then DiffSubs(delta.value, true, "") else []);
    if HasError(c) then MarkErrorSubs(subs) else subs
  }

  /** Everything a comparison pass writes into a number cell holding
      `orig_values`, except its class: the summary, the difference with the
      baseline (when a peer cell exists there) and the sub-value list. */
  function Scored(c: Cell, lowerBetter: bool, firstOnly: bool, peer: bool, peerAvg: Option<real>): (r: Cell)
    requires c.stats.Some?
    ensures r == c.(values := r.values, summary := r.summary, delta := r.delta)
    ensures r.summary == Some(SummaryOf(c.stats.value.origValues))
    ensures r.delta.Some? <==> peer && r.summary.value.avg.Some? && r.summary.value.avg.value != 0.0
                               && peerAvg.Some? && peerAvg.value != 0.0
    ensures r.values.Some? && |r.values.value| >= 1 && r.values.value[0].kind == ScoresText(c.value)
    ensures HasError(c) ==> forall k :: 0 <= k < |r.values.value| ==>
              r.values.value[k].cls.Some? && HasWord(r.values.value[k].cls.value, ErrorRateClass)
  {
    var s := SummaryOf(c.stats.value.origValues);
    var delta := if peer then DeltaOf(s.avg, peerAvg, lowerBetter) else None;
    c.(values := Some(CellSubs(c, s, delta, lowerBetter, firstOnly)), summary := Some(s), delta := delta)
  }

  /** A number cell after the comparison pass as the source writes it:
      `cell.cls += ' error_rate'` on every run. */
  function ComparedCellAsWritten(c: Cell, lowerBetter: bool, firstOnly: bool, peer: bool, peerAvg: Option<real>): (r: Cell)
    requires c.stats.Some?
    ensures HasError(c) ==> r.cls == AppendClass(c.cls, ErrorRateClass)
    ensures !HasError(c) ==> r.cls == c.cls
  {
    var r := Scored(c, lowerBetter, firstOnly, peer, peerAvg);
    if HasError(c) then r.(cls := AppendClass(c.cls, ErrorRateClass)) else r
  }

  /** A number cell after the comparison pass, with the class word added
      only once.  The cell keeps its values and statistics, gets the
      summary of its values, a difference exactly when a peer exists and
      both averages are non-zero, and its sub-values start with the scores;
      a cell with errors has the class word on itself and on every
      sub-value. */
  function ComparedCell(c: Cell, lowerBetter: bool, firstOnly: bool, peer: bool, peerAvg: Option<real>): (r: Cell)
    requires c.stats.Some?
    ensures r.value == c.value && r.orig == c.orig && r.stats == c.stats && r.errorRate == c.errorRate
    ensures r.charts == c.charts && r.diff == c.diff && r.gate == c.gate
    ensures r.comparisonBase == c.comparisonBase && r.compareWith == c.compareWith
    ensures r.summary == Some(SummaryOf(c.stats.value.origValues))
    ensures r.delta.Some? <==> peer && r.summary.value.avg.Some? && r.summary.value.avg.value != 0.0
                               && peerAvg.Some? && peerAvg.value != 0.0
    ensures r.values.Some? && |r.values.value| >= 1 && r.values.value[0].kind == ScoresText(c.value)
    ensures HasError(c) ==> r.cls.Some? && HasWord(r.cls.value, ErrorRateClass)
    ensures HasError(c) ==> forall k :: 0 <= k < |r.values.value| ==>
              r.values.value[k].cls.Some? && HasWord(r.values.value[k].cls.value, ErrorRateClass)
    ensures !HasError(c) ==> r.cls == c.cls
  {
    var r := Scored(c, lowerBetter, firstOnly, peer, peerAvg);
    if HasError(c) then r.(cls := AddClass(c.cls, ErrorRateClass)) else r
  }

  /** A second pass over a compared cell, with any baseline, gives what a
      single pass with that baseline gives: nothing of the first pass
      survives. */
  lemma ComparedCellReentrant(c: Cell, lb: bool, first1: bool, peer1: bool, avg1: Option<real>,
                              first2: bool, peer2: bool, avg2: Option<real>)
    requires c.stats.Some?
    ensures ComparedCell(ComparedCell(c, lb, first1, peer1, avg1), lb, first2, peer2, avg2)
            == ComparedCell(c, lb, first2, peer2, avg2)
  {
    var c1 := ComparedCell(c, lb, first1, peer1, avg1);
    assert c1 == c.(values := c1.values, summary := c1.summary, delta := c1.delta, cls := c1.cls);
    ScoredOverwrites(c, c1.values, c1.summary, c1.delta, c1.cls, lb, first2, peer2, avg2);
  }

  /** The pass overwrites the fields it writes: what an earlier pass left
      in them does not matter. */
  lemma ScoredOverwrites(c: Cell, values: Option<seq<Sub>>, summary: Option<Summary>, delta: Option<Delta>,
                         cls: Option<string>, lb: bool, first: bool, peer: bool, avg: Option<real>)
    requires c.stats.Some?
    ensures Scored(c.(values := values, summary := summary, delta := delta, cls := cls), lb, first, peer, avg)
            == Scored(c, lb, first, peer, avg).(cls := cls)
  {
  }

  /** Each pass as written lengthens the class of a cell with errors by
      another " error_rate", so a re-run is not the same as a single run. */
  lemma ErrorClassAccumulates(c: Cell, lb: bool, first: bool, peer: bool, avg: Option<real>)
    requires c.stats.Some? && HasError(c)
    ensures var once := ComparedCellAsWritten(c, lb, first, peer, avg);
            var twice := ComparedCellAsWritten(once, lb, first, peer, avg);
            once.cls.Some? && twice.cls.Some? && |twice.cls.value| == |once.cls.value| + 11
            && twice != once
  {
  }

  // ---------------------------------------------------------------------
  // One row of the table (app.js:1542-1710)
  // ---------------------------------------------------------------------

  /** `isLowerBetterValue(row[0].value)`: the metric named by the label
      cell is one where a smaller value is better. */
  function LowerBetterRow(row: Row): bool {
    var first := At(row, 0);
    first.Some? && first.value.value.Str? && IsLowerBetterValue(first.value.value.s)
  }

  /** `cell && cell.orig_values`: a cell that the reduction gave a list of
      values (an empty list included). */
  predicate HasStats(c: Option<Cell>) {
    c.Some? && c.value.stats.Some?
  }

  /** `peer.valueAvg` as the cell holds it. */
  function StoredAvg(c: Option<Cell>): Option<real> {
    if c.Some? && c.value.summary.Some? then c.value.summary.value.avg else None
  }

  /** One step of the loop over the columns of a number row: a cell with
      values in column `i` is compared with the cell in its baseline column
      as that cell stands at this moment of the loop. */
  function NextCols(cols: seq<Option<Cell>>, i: nat, lb: bool, prev: Option<int>, target: Option<int>): (r: seq<Option<Cell>>)
    ensures |r| == |cols|
  {
    if i < |cols| && HasStats(cols[i]) then
      var b := BaselineIndex(i, prev, target);
      var peer := if 0 < b < |cols| then cols[b] else None;
      cols[i := Some(ComparedCell(cols[i].value, lb, prev == Some(-1), peer.Some?, StoredAvg(peer)))]
    else cols
  }

  /** The loop `for (let i = 1; i < totalCols; i++)` over a number row. */
  function NumberColsFrom(cols: seq<Option<Cell>>, i: nat, total: nat, lb: bool,
                          prev: Option<int>, target: Option<int>): (r: seq<Option<Cell>>)
    ensures |r| == |cols|
    decreases total - i
  {
    if i >= total then cols
    else NumberColsFrom(NextCols(cols, i, lb, prev, target), i + 1, total, lb, prev, target)
  }

  /** The average the loop reads for the baseline column `b` while at column
      `i`: a column to the left already holds the summary of this pass, any
      other column still holds what an earlier pass stored. */
  function PeerAvgAt(cols: seq<Option<Cell>>, i: nat, b: nat): Option<real>
    requires b < |cols|
  {
    if b < i && HasStats(cols[b]) then SummaryOf(cols[b].value.stats.value.origValues).avg
    else StoredAvg(cols[b])
  }

  /** Whether the baseline column of column `k` holds a cell. */
  predicate HasPeer(cols: seq<Option<Cell>>, k: nat, prev: Option<int>, target: Option<int>) {
    var b := BaselineIndex(k, prev, target);
    0 < b < |cols| && cols[b].Some?
  }

  /** The baseline average handed to the comparison of column `k`. */
  function NumberColAvg(cols: seq<Option<Cell>>, k: nat, prev: Option<int>, target: Option<int>): Option<real> {
    var b := BaselineIndex(k, prev, target);
    if 0 < b < |cols| && cols[b].Some? then PeerAvgAt(cols, k, b) else None
  }

  /** Column `k` of a number row after the loop, stated on its own. */
  function NumberCol(cols: seq<Option<Cell>>, k: nat, total: nat, lb: bool,
                     prev: Option<int>, target: Option<int>): Option<Cell>
    requires k < |cols|
  {
    if 1 <= k < total && HasStats(cols[k]) then
      Some(ComparedCell(cols[k].value, lb, prev == Some(-1), HasPeer(cols, k, prev, target),
                        NumberColAvg(cols, k, prev, target)))
    else cols[k]
  }

  function NumberCols(cols: seq<Option<Cell>>, total: nat, lb: bool,
                      prev: Option<int>, target: Option<int>): (r: seq<Option<Cell>>)
    ensures |r| == |cols| && forall k :: 0 <= k < |cols| ==> r[k] == NumberCol(cols, k, total, lb, prev, target)
  {
    seq(|cols|, k requires 0 <= k < |cols| => NumberCol(cols, k, total, lb, prev, target))
  }

  /** The state of the loop before column `i`: the columns to the left are
      final, the others untouched. */
  predicate PassedTo(cols: seq<Option<Cell>>, cur: seq<Option<Cell>>, i: nat, total: nat,
                     lb: bool, prev: Option<int>, target: Option<int>) {
    |cur| == |cols| &&
    forall k :: 0 <= k < |cols| ==>
      cur[k] == (if 1 <= k < i then NumberCol(cols, k, total, lb, prev, target) else cols[k])
  }

  lemma PassedAll(cols: seq<Option<Cell>>, cur: seq<Option<Cell>>, i: nat, total: nat,
                  lb: bool, prev: Option<int>, target: Option<int>)
    requires i >= total && PassedTo(cols, cur, i, total, lb, prev, target)
    ensures cur == NumberCols(cols, total, lb, prev, target)
  {
  }

  lemma PassedStep(cols: seq<Option<Cell>>, cur: seq<Option<Cell>>, i: nat, total: nat,
                   lb: bool, prev: Option<int>, target: Option<int>)
    requires 1 <= i < total && PassedTo(cols, cur, i, total, lb, prev, target)
    ensures PassedTo(cols, NextCols(cur, i, lb, prev, target), i + 1, total, lb, prev, target)
  {
    if i < |cur| && HasStats(cur[i]) {
      var b := BaselineIndex(i, prev, target);
      if 0 < b < |cur| {
        PeerAvgStep(cols, cur[b], i, b, total, lb, prev, target);
      }
    }
  }

  /** The loop computes every column on its own; only the average it reads
      from a baseline column depends on the order (`PeerAvgAt`). */
  lemma {:induction false} NumberColsFromPointwise(cols: seq<Option<Cell>>, cur: seq<Option<Cell>>, i: nat, total: nat,
                                                   lb: bool, prev: Option<int>, target: Option<int>)
    requires 1 <= i && PassedTo(cols, cur, i, total, lb, prev, target)
    ensures NumberColsFrom(cur, i, total, lb, prev, target) == NumberCols(cols, total, lb, prev, target)
    decreases total - i, 1
  {
    if i >= total {
      PassedAll(cols, cur, i, total, lb, prev, target);
    } else {
      NumberColsStepPointwise(cols, cur, i, total, lb, prev, target);
    }
  }

  /** One column of the loop, then the rest of it. */
  lemma {:induction false} NumberColsStepPointwise(cols: seq<Option<Cell>>, cur: seq<Option<Cell>>, i: nat, total: nat,
                                                   lb: bool, prev: Option<int>, target: Option<int>)
    requires 1 <= i < total && PassedTo(cols, cur, i, total, lb, prev, target)
    ensures NumberColsFrom(cur, i, total, lb, prev, target) == NumberCols(cols, total, lb, prev, target)
    decreases total - i, 0
  {
    var next := NextCols(cur, i, lb, prev, target);
    NumberColsFromUnfold(cur, i, total, lb, prev, target);
    PassedStep(cols, cur, i, total, lb, prev, target);
    NumberColsFromPointwise(cols, next, i + 1, total, lb, prev, target);
  }

  lemma NumberColsFromUnfold(cur: seq<Option<Cell>>, i: nat, total: nat, lb: bool, prev: Option<int>, target: Option<int>)
    requires i < total
    ensures NumberColsFrom(cur, i, total, lb, prev, target)
         == NumberColsFrom(NextCols(cur, i, lb, prev, target), i + 1, total, lb, prev, target)
  {
  }

  /** What the loop finds in a baseline column is what `PeerAvgAt` says. */
  lemma PeerAvgStep(cols: seq<Option<Cell>>, peer: Option<Cell>, i: nat, b: nat, total: nat,
                    lb: bool, prev: Option<int>, target: Option<int>)
    requires 1 <= b < |cols| && i < total && b != i
    requires peer == (if b < i then NumberCol(cols, b, total, lb, prev, target) else cols[b])
    ensures peer.Some? <==> cols[b].Some?
    ensures StoredAvg(peer) == PeerAvgAt(cols, i, b)
  {
  }

  /** The loop over a number row, stated column by column. */
  lemma NumberRowPointwise(cols: seq<Option<Cell>>, total: nat, lb: bool, prev: Option<int>, target: Option<int>)
    ensures NumberColsFrom(cols, 1, total, lb, prev, target) == NumberCols(cols, total, lb, prev, target)
  {
    NumberColsFromPointwise(cols, cols, 1, total, lb, prev, target);
  }

  /** Every cell with values holds the summary of those values. */
  predicate FreshCols(cols: seq<Option<Cell>>) {
    forall k :: 1 <= k < |cols| && HasStats(cols[k]) ==>
      cols[k].value.summary == Some(SummaryOf(cols[k].value.stats.value.origValues))
  }

  /** The up-to-date average of a column. */
  function FreshAvg(c: Option<Cell>): Option<real> {
    if HasStats(c) then SummaryOf(c.value.stats.value.origValues).avg else StoredAvg(c)
  }

  lemma FreshPeerAvg(cols: seq<Option<Cell>>, i: nat, b: nat)
    requires FreshCols(cols) && 1 <= b < |cols|
    ensures PeerAvgAt(cols, i, b) == FreshAvg(cols[b])
  {
  }

  /** After the loop every cell with values holds its own summary. */
  lemma NumberColsFresh(cols: seq<Option<Cell>>, total: nat, lb: bool, prev: Option<int>, target: Option<int>)
    requires total >= |cols|
    ensures FreshCols(NumberCols(cols, total, lb, prev, target))
  {
  }

  /** The loop changes neither which columns hold a cell nor which hold
      values, nor the up-to-date averages. */
  lemma NumberColsKeep(cols: seq<Option<Cell>>, total: nat, lb: bool, prev: Option<int>, target: Option<int>, k: nat)
    requires k < |cols|
    ensures var r := NumberCols(cols, total, lb, prev, target);
            (r[k].Some? <==> cols[k].Some?) && (HasStats(r[k]) <==> HasStats(cols[k]))
            && FreshAvg(r[k]) == FreshAvg(cols[k])
  {
  }

  /** The baseline a second pass sees is the one a first pass would see,
      once the summaries are up to date. */
  lemma PeerAfterPass(cols: seq<Option<Cell>>, t1: nat, lb: bool, p1: Option<int>, w1: Option<int>,
                      k: nat, p2: Option<int>, w2: Option<int>)
    requires FreshCols(cols) && t1 >= |cols|
    ensures var mid := NumberCols(cols, t1, lb, p1, w1);
            HasPeer(mid, k, p2, w2) == HasPeer(cols, k, p2, w2)
            && NumberColAvg(mid, k, p2, w2) == NumberColAvg(cols, k, p2, w2)
  {
    var mid := NumberCols(cols, t1, lb, p1, w1);
    var b := BaselineIndex(k, p2, w2);
    if 0 < b < |cols| {
      NumberColsKeep(cols, t1, lb, p1, w1, b);
      NumberColsFresh(cols, t1, lb, p1, w1);
      FreshPeerAvg(mid, k, b);
      FreshPeerAvg(cols, k, b);
    }
  }

  lemma NumberColReentrant(cols: seq<Option<Cell>>, t1: nat, t2: nat, t3: nat, lb: bool,
                           p1: Option<int>, w1: Option<int>, p2: Option<int>, w2: Option<int>, k: nat)
    requires FreshCols(cols) && t1 >= |cols| && t2 >= |cols| && t3 >= |cols| && k < |cols|
    ensures NumberCol(NumberCols(cols, t1, lb, p1, w1), k, t2, lb, p2, w2) == NumberCol(cols, k, t3, lb, p2, w2)
  {
    NumberColsKeep(cols, t1, lb, p1, w1, k);
    if 1 <= k && HasStats(cols[k]) {
      PeerAfterPass(cols, t1, lb, p1, w1, k, p2, w2);
      ComparedCellReentrant(cols[k].value, lb, p1 == Some(-1), HasPeer(cols, k, p1, w1), NumberColAvg(cols, k, p1, w1),
                            p2 == Some(-1), HasPeer(cols, k, p2, w2), NumberColAvg(cols, k, p2, w2));
    }
  }

  /** A second pass over a number row whose summaries are up to date gives
      what a single pass with the second baseline gives. */
  lemma NumberColsReentrant(cols: seq<Option<Cell>>, t1: nat, t2: nat, t3: nat, lb: bool,
                            p1: Option<int>, w1: Option<int>, p2: Option<int>, w2: Option<int>)
    requires FreshCols(cols) && t1 >= |cols| && t2 >= |cols| && t3 >= |cols|
    ensures NumberCols(NumberCols(cols, t1, lb, p1, w1), t2, lb, p2, w2) == NumberCols(cols, t3, lb, p2, w2)
  {
    forall k | 0 <= k < |cols|
      ensures NumberCol(NumberCols(cols, t1, lb, p1, w1), k, t2, lb, p2, w2) == NumberCol(cols, k, t3, lb, p2, w2)
    {
      NumberColReentrant(cols, t1, t2, t3, lb, p1, w1, p2, w2, k);
    }
  }

  /** The chart rows whose cells the comparison clears: time, histogram,
      counts, throughput and count-histogram charts. */
  predicate IsClearedChart(kind: int) {
    kind == TypeChartTime || kind == TypeChartHistogram || kind == TypeChartCounts
    || kind == TypeChartThroughput || kind == TypeChartCountHistogram
  }

  /** `cell.value = null; cell.values = null` on every data cell of a chart
      row; the charts themselves stay. */
  function ClearedCharts(cols: seq<Option<Cell>>, total: nat): (r: seq<Option<Cell>>)
    ensures |r| == |cols|
    ensures forall k :: 0 <= k < |cols| ==> (r[k].Some? <==> cols[k].Some?)
    ensures forall k :: 1 <= k < |cols| && k < total && cols[k].Some? ==>
              r[k] == Some(cols[k].value.(value := Null, values := None))
    ensures forall k :: 0 <= k < |cols| && (k == 0 || k >= total) ==> r[k] == cols[k]
  {
    seq(|cols|, k requires 0 <= k < |cols| =>
      if 1 <= k < total && cols[k].Some? then Some(cols[k].value.(value := Null, values := None)) else cols[k])
  }

  /** The per-row work of the comparison: number rows are compared column by
      column, the listed chart rows are cleared, other rows stay. */
  function ProcessRow(row: Row, total: nat, prev: Option<int>, target: Option<int>): (r: Row)
    ensures r.name == row.name && r.kind == row.kind && r.position == row.position
    ensures |r.cols| == |row.cols|
  {
    if row.kind == TypeNumber then
      row.(cols := NumberColsFrom(row.cols, 1, total, LowerBetterRow(row), prev, target))
    else if IsClearedChart(row.kind) then
      row.(cols := ClearedCharts(row.cols, total))
    else row
  }

  // ---------------------------------------------------------------------
  // Diff columns (app.js:1533-1540, 1701-1743)
  // ---------------------------------------------------------------------

  /** `row[i] && row[i].diff`: a cell spliced in by an earlier run. */
  predicate IsDiffCell(c: Option<Cell>) {
    c.Some? && c.value.diff
  }

  predicate NoDiffCells(cols: seq<Option<Cell>>) {
    forall k :: 0 <= k < |cols| ==> !IsDiffCell(cols[k])
  }

  /** The removal of the cells an earlier run spliced in. */
  function StripDiffs(cols: seq<Option<Cell>>): (r: seq<Option<Cell>>)
    ensures NoDiffCells(r) && |r| <= |cols|
    ensures NoDiffCells(cols) ==> r == cols
  {
    if |cols| == 0 then []
    else (if IsDiffCell(cols[0]) then [] else [cols[0]]) + StripDiffs(cols[1..])
  }

  lemma {:induction false} StripDiffsAppend(a: seq<Option<Cell>>, b: seq<Option<Cell>>)
    ensures StripDiffs(a + b) == StripDiffs(a) + StripDiffs(b)
    decreases |a|
  {
    if |a| > 0 {
      var h := if IsDiffCell(a[0]) then [] else [a[0]];
      assert (a + b)[0] == a[0] && (a + b)[1..] == a[1..] + b;
      assert StripDiffs(a + b) == h + StripDiffs(a[1..] + b);
      assert StripDiffs(a) == h + StripDiffs(a[1..]);
      StripDiffsAppend(a[1..], b);
      assert h + (StripDiffs(a[1..]) + StripDiffs(b)) == (h + StripDiffs(a[1..])) + StripDiffs(b);
    } else {
      assert a + b == b;
    }
  }

  /** The diff cell spliced in after column `c` of a row of type `kind`:
      "diff" in id and header rows, the three renderings of the difference
      in number rows whose cell has one, empty otherwise; it is shown while
      the diff column is switched on. */
  function DiffCell(kind: int, c: Option<Cell>): (r: Cell)
    ensures r.diff && r.gate == When([Some("diff col")]) && r.stats.None?
  {
    var bare := Cell(Null, Null, Some("nowrap"), None, None, None, None, None, None, false, false, true,
                     When([Some("diff col")]));
    if c.None? then bare
    else if kind == TypeId || kind == TypeHeader then bare.(value := Str("diff"))
    else if kind == TypeNumber && c.value.delta.Some? then
      bare.(values := Some(DiffSubs(c.value.delta.value, false, if HasError(c.value) then " error_rate" else "")))
    else bare
  }

  /** What position `k` of the compared-column list contributes: the
      column itself (when the row has it) followed by its diff cell (when
      the column is compared). */
  function Piece(kind: int, cols: seq<Option<Cell>>, cmp: seq<int>, k: nat): (r: seq<Option<Cell>>)
    requires k < |cmp|
  {
    (if k < |cols| then [cols[k]] else [])
    + (if cmp[k] != 0 then [Some(DiffCell(kind, if k < |cols| then cols[k] else None))] else [])
  }

  /** The first `j` pieces. */
  function InterleaveTo(kind: int, cols: seq<Option<Cell>>, cmp: seq<int>, j: nat): (r: seq<Option<Cell>>)
    requires j <= |cmp|
  {
    if j == 0 then [] else InterleaveTo(kind, cols, cmp, j - 1) + Piece(kind, cols, cmp, j - 1)
  }

  /** The row with a diff cell right after every compared column; a
      compared column the row does not reach gets its (empty) diff cell at
      the end. */
  function Spliced(kind: int, cols: seq<Option<Cell>>, cmp: seq<int>): seq<Option<Cell>> {
    InterleaveTo(kind, cols, cmp, |cmp|) + (if |cmp| < |cols| then cols[|cmp|..] else [])
  }

  /** The number of compared columns among the first `j`. */
  function CountCompared(cmp: seq<int>, j: nat): (r: nat)
    requires j <= |cmp|
    ensures r <= j
  {
    if j == 0 then 0 else CountCompared(cmp, j - 1) + (if cmp[j - 1] != 0 then 1 else 0)
  }

  function Min(a: nat, b: nat): nat {
    if a < b then a else b
  }

  lemma PieceStrip(kind: int, cols: seq<Option<Cell>>, cmp: seq<int>, k: nat)
    requires k < |cmp|
    ensures StripDiffs(Piece(kind, cols, cmp, k)) == StripDiffs(if k < |cols| then [cols[k]] else [])
  {
    var own := if k < |cols| then [cols[k]] else [];
    var d := if cmp[k] != 0 then [Some(DiffCell(kind, if k < |cols| then cols[k] else None))] else [];
    assert Piece(kind, cols, cmp, k) == own + d;
    StripDiffsAppend(own, d);
    assert StripDiffs(d) == [];
  }

  lemma {:induction false} InterleaveToStrip(kind: int, cols: seq<Option<Cell>>, cmp: seq<int>, j: nat)
    requires j <= |cmp|
    ensures StripDiffs(InterleaveTo(kind, cols, cmp, j)) == StripDiffs(cols[..Min(j, |cols|)])
  {
    if j > 0 {
      InterleaveToStrip(kind, cols, cmp, j - 1);
      InterleaveStripStep(kind, cols, cmp, j);
      PrefixStripStep(cols, j);
    }
  }

  /** Column `k` of the row, when the row has it. */
  function Own(cols: seq<Option<Cell>>, k: nat): seq<Option<Cell>> {
    if k < |cols| then [cols[k]] else []
  }

  lemma InterleaveStripStep(kind: int, cols: seq<Option<Cell>>, cmp: seq<int>, j: nat)
    requires 0 < j <= |cmp|
    ensures StripDiffs(InterleaveTo(kind, cols, cmp, j))
      == StripDiffs(InterleaveTo(kind, cols, cmp, j - 1)) + StripDiffs(Own(cols, j - 1))
  {
    PieceStrip(kind, cols, cmp, j - 1);
    StripDiffsAppend(InterleaveTo(kind, cols, cmp, j - 1), Piece(kind, cols, cmp, j - 1));
  }

  lemma PrefixStripStep(cols: seq<Option<Cell>>, j: nat)
    requires j > 0
    ensures StripDiffs(cols[..Min(j, |cols|)]) == StripDiffs(cols[..Min(j - 1, |cols|)]) + StripDiffs(Own(cols, j - 1))
  {
    assert cols[..Min(j, |cols|)] == cols[..Min(j - 1, |cols|)] + Own(cols, j - 1);
    StripDiffsAppend(cols[..Min(j - 1, |cols|)], Own(cols, j - 1));
  }

  lemma {:induction false} InterleaveToLength(kind: int, cols: seq<Option<Cell>>, cmp: seq<int>, j: nat)
    requires j <= |cmp|
    ensures |InterleaveTo(kind, cols, cmp, j)| == Min(j, |cols|) + CountCompared(cmp, j)
  {
    if j > 0 {
      InterleaveToLength(kind, cols, cmp, j - 1);
    }
  }

  /** Removing the diff cells of a spliced row gives the row back: every
      column stays, in order. */
  lemma SplicedStrip(kind: int, cols: seq<Option<Cell>>, cmp: seq<int>)
    requires NoDiffCells(cols)
    ensures StripDiffs(Spliced(kind, cols, cmp)) == cols
    ensures |Spliced(kind, cols, cmp)| == |cols| + CountCompared(cmp, |cmp|)
  {
    InterleaveToStrip(kind, cols, cmp, |cmp|);
    InterleaveToLength(kind, cols, cmp, |cmp|);
    var head := cols[..Min(|cmp|, |cols|)];
    var tail := if |cmp| < |cols| then cols[|cmp|..] else [];
    StripDiffsAppend(InterleaveTo(kind, cols, cmp, |cmp|), tail);
    assert head + tail == cols;
    StripDiffsAppend(head, tail);
  }

  lemma {:induction false} InterleavePrefix(kind: int, cols: seq<Option<Cell>>, cmp: seq<int>, j: nat, n: nat)
    requires j <= n <= |cmp|
    ensures |InterleaveTo(kind, cols, cmp, j)| <= |InterleaveTo(kind, cols, cmp, n)|
    ensures InterleaveTo(kind, cols, cmp, n)[..|InterleaveTo(kind, cols, cmp, j)|] == InterleaveTo(kind, cols, cmp, j)
    decreases n - j
  {
    if j < n {
      InterleavePrefix(kind, cols, cmp, j, n - 1);
      var a := InterleaveTo(kind, cols, cmp, j);
      var b := InterleaveTo(kind, cols, cmp, n - 1);
      var c := InterleaveTo(kind, cols, cmp, n);
      assert c == b + Piece(kind, cols, cmp, n - 1);
      assert c[..|b|] == b;
      assert c[..|a|] == b[..|a|];
    }
  }

  /** Column `k` sits `CountCompared(cmp, k)` places to the right of where
      it was, and a compared column is directly followed by its diff
      cell. */
  lemma SplicedPlacement(kind: int, cols: seq<Option<Cell>>, cmp: seq<int>, k: nat)
    requires k < |cols| && k < |cmp|
    ensures var r := Spliced(kind, cols, cmp);
            var at := k + CountCompared(cmp, k);
            at < |r| && r[at] == cols[k]
            && (cmp[k] != 0 ==> at + 1 < |r| && r[at + 1] == Some(DiffCell(kind, cols[k])))
  {
    InterleaveToLength(kind, cols, cmp, k);
    InterleavePrefix(kind, cols, cmp, k + 1, |cmp|);
    var front := InterleaveTo(kind, cols, cmp, k);
    var upto := InterleaveTo(kind, cols, cmp, k + 1);
    assert upto == front + Piece(kind, cols, cmp, k);
    assert |front| == k + CountCompared(cmp, k);
    var r := Spliced(kind, cols, cmp);
    assert r[..|upto|] == upto;
  }

  /** `row.splice(at, 0, x)` of JavaScript: past the end it appends. */
  function Insert(xs: seq<Option<Cell>>, at: nat, x: Option<Cell>): (r: seq<Option<Cell>>)
    ensures |r| == |xs| + 1
  {
    if at <= |xs| then xs[..at] + [x] + xs[at..] else xs + [x]
  }

  /** The row as the splicing loop holds it before column `j`. */
  function SplicedTo(kind: int, cols: seq<Option<Cell>>, cmp: seq<int>, j: nat): seq<Option<Cell>>
    requires j <= |cmp|
  {
    InterleaveTo(kind, cols, cmp, j) + (if j <= |cols| then cols[j..] else [])
  }

  lemma InsertAfter(front: seq<Option<Cell>>, x: Option<Cell>, rest: seq<Option<Cell>>, d: Option<Cell>)
    ensures Insert(front + [x] + rest, |front| + 1, d) == front + [x, d] + rest
  {
    var r := front + [x] + rest;
    assert r[..|front| + 1] == front + [x] && r[|front| + 1..] == rest;
  }

  lemma SpliceStepInside(kind: int, cols: seq<Option<Cell>>, cmp: seq<int>, j: nat, r: seq<Option<Cell>>, added: nat)
    requires j < |cmp| && j < |cols| && r == SplicedTo(kind, cols, cmp, j) && added == CountCompared(cmp, j)
    ensures j + added < |r| && r[j + added] == cols[j]
    ensures cmp[j] != 0 ==> Insert(r, j + added + 1, Some(DiffCell(kind, cols[j]))) == SplicedTo(kind, cols, cmp, j + 1)
    ensures cmp[j] == 0 ==> r == SplicedTo(kind, cols, cmp, j + 1)
  {
    InterleaveToLength(kind, cols, cmp, j);
    var front := InterleaveTo(kind, cols, cmp, j);
    var x, rest := cols[j], cols[j + 1..];
    assert cols[j..] == [x] + rest;
    assert r == front + [x] + rest;
    assert SplicedTo(kind, cols, cmp, j + 1) == front + Piece(kind, cols, cmp, j) + rest;
    if cmp[j] != 0 {
      var d := Some(DiffCell(kind, x));
      assert Piece(kind, cols, cmp, j) == [x, d];
      InsertAfter(front, x, rest, d);
    } else {
      assert Piece(kind, cols, cmp, j) == [x];
    }
  }

  lemma SpliceStepPast(kind: int, cols: seq<Option<Cell>>, cmp: seq<int>, j: nat, r: seq<Option<Cell>>, added: nat)
    requires |cols| <= j < |cmp| && r == SplicedTo(kind, cols, cmp, j) && added == CountCompared(cmp, j)
    ensures |r| <= j + added
    ensures cmp[j] != 0 ==> Insert(r, j + added + 1, Some(DiffCell(kind, None))) == SplicedTo(kind, cols, cmp, j + 1)
    ensures cmp[j] == 0 ==> r == SplicedTo(kind, cols, cmp, j + 1)
  {
    InterleaveToLength(kind, cols, cmp, j);
    assert r == InterleaveTo(kind, cols, cmp, j);
  }

  /** One turn of the splicing loop keeps the row it builds equal to the
      interleaving so far. */
  lemma SpliceStep(kind: int, cols: seq<Option<Cell>>, cmp: seq<int>, j: nat, r: seq<Option<Cell>>, added: nat)
    requires j < |cmp| && r == SplicedTo(kind, cols, cmp, j) && added == CountCompared(cmp, j)
    ensures cmp[j] != 0 ==>
      Insert(r, j + added + 1, Some(DiffCell(kind, if j + added < |r| then r[j + added] else None)))
        == SplicedTo(kind, cols, cmp, j + 1)
    ensures cmp[j] == 0 ==> r == SplicedTo(kind, cols, cmp, j + 1)
  {
    if j < |cols| {
      SpliceStepInside(kind, cols, cmp, j, r, added);
    } else {
      SpliceStepPast(kind, cols, cmp, j, r, added);
    }
  }

  /** The splicing loop of the source: the diff cell for compared column
      `j` goes in at `j + added + 1`, where `added` counts the diff cells
      already spliced into the row. */
  method SpliceDiffs(kind: int, cols: seq<Option<Cell>>, cmp: seq<int>) returns (r: seq<Option<Cell>>)
    ensures r == Spliced(kind, cols, cmp)
  {
    r := cols;
    var added: nat := 0;
    for j := 0 to |cmp|
      invariant added == CountCompared(cmp, j)
      invariant r == SplicedTo(kind, cols, cmp, j)
    {
      SpliceStep(kind, cols, cmp, j, r, added);
      if cmp[j] != 0 {
        var at := j + added;
        var cell := if at < |r| then r[at] else None;
        r := Insert(r, at + 1, Some(DiffCell(kind, cell)));
        added := added + 1;
      }
    }
    if |cmp| == |cols| {
      assert cols[|cmp|..] == [];
    }
  }

  /** Two compared-column lists that agree, up to trailing zeros. */
  predicate SameCompared(c1: seq<int>, c2: seq<int>) {
    (forall k :: 0 <= k < |c1| ==> c1[k] == (if k < |c2| then c2[k] else 0)) &&
    (forall k :: 0 <= k < |c2| ==> c2[k] == (if k < |c1| then c1[k] else 0))
  }

  lemma {:induction false} InterleaveAgree(kind: int, cols: seq<Option<Cell>>, c1: seq<int>, c2: seq<int>, j: nat)
    requires j <= |c1| && j <= |c2| && forall k :: 0 <= k < j ==> c1[k] == c2[k]
    ensures InterleaveTo(kind, cols, c1, j) == InterleaveTo(kind, cols, c2, j)
  {
    if j > 0 {
      InterleaveAgree(kind, cols, c1, c2, j - 1);
      assert Piece(kind, cols, c1, j - 1) == Piece(kind, cols, c2, j - 1);
    }
  }

  lemma {:induction false} InterleaveZeros(kind: int, cols: seq<Option<Cell>>, cmp: seq<int>, j: nat, n: nat)
    requires |cols| <= j <= n <= |cmp| && forall k :: j <= k < n ==> cmp[k] == 0
    ensures InterleaveTo(kind, cols, cmp, n) == InterleaveTo(kind, cols, cmp, j)
    decreases n - j
  {
    if j < n {
      InterleaveZeros(kind, cols, cmp, j, n - 1);
      assert Piece(kind, cols, cmp, n - 1) == [];
    }
  }

  lemma SplicedPaddingOrdered(kind: int, cols: seq<Option<Cell>>, c1: seq<int>, c2: seq<int>)
    requires |cols| <= |c1| <= |c2| && SameCompared(c1, c2)
    ensures Spliced(kind, cols, c1) == Spliced(kind, cols, c2)
  {
    InterleaveZeros(kind, cols, c2, |c1|, |c2|);
    InterleaveAgree(kind, cols, c1, c2, |c1|);
  }

  /** Trailing zeros past the row do not change the splicing. */
  lemma SplicedPadding(kind: int, cols: seq<Option<Cell>>, c1: seq<int>, c2: seq<int>)
    requires |cols| <= |c1| && |cols| <= |c2| && SameCompared(c1, c2)
    ensures Spliced(kind, cols, c1) == Spliced(kind, cols, c2)
  {
    if |c1| <= |c2| {
      SplicedPaddingOrdered(kind, cols, c1, c2);
    } else {
      SplicedPaddingOrdered(kind, cols, c2, c1);
    }
  }

  // ---------------------------------------------------------------------
  // The whole table (app.js:1525-1745)
  // ---------------------------------------------------------------------

  /** The key of the row whose cells carry the comparison marks. */
  const VmRowName := "VM"

  /** `delete c.comparisonBase; delete c.compareWith`. */
  function Unmark(c: Option<Cell>): (r: Option<Cell>)
    ensures r.Some? <==> c.Some?
  {
    if c.Some? then Some(c.value.(comparisonBase := false, compareWith := false)) else None
  }

  function UnmarkCols(cols: seq<Option<Cell>>): (r: seq<Option<Cell>>)
    ensures |r| == |cols| && forall k :: 0 <= k < |cols| ==> r[k] == Unmark(cols[k])
  {
    seq(|cols|, k requires 0 <= k < |cols| => Unmark(cols[k]))
  }

  predicate UnmarkedCols(cols: seq<Option<Cell>>) {
    forall k :: 0 <= k < |cols| && cols[k].Some? ==> !cols[k].value.comparisonBase && !cols[k].value.compareWith
  }

  /** The first two loops on one row: the marks of the `VM` row are
      cleared, then the diff cells of an earlier run are removed. */
  function StripRow(row: Row, isVm: bool): (r: Row)
    ensures r.name == row.name && r.kind == row.kind && r.position == row.position
    ensures NoDiffCells(r.cols)
  {
    row.(cols := StripDiffs(if isVm then UnmarkCols(row.cols) else row.cols))
  }

  function StripTable(t: Table, vm: Option<nat>): (r: Table)
    ensures |r| == |t| && forall i :: 0 <= i < |t| ==> r[i] == StripRow(t[i], vm == Some(i))
  {
    seq(|t|, i requires 0 <= i < |t| => StripRow(t[i], vm == Some(i)))
  }

  /** `comparedColumns[k]` is set for column `k` of a number row when the
      cell there has values and the baseline column holds a cell. */
  predicate ComparedIn(row: Row, k: nat, prev: Option<int>, target: Option<int>) {
    row.kind == TypeNumber && 1 <= k < |row.cols| && HasStats(row.cols[k]) && HasPeer(row.cols, k, prev, target)
  }

  /** `comparedColumns` as a list of `total` entries: the baseline of every
      column some number row compares, 0 (the JavaScript hole) elsewhere. */
  function ComparedColumns(s: Table, total: nat, prev: Option<int>, target: Option<int>): (r: seq<int>)
    ensures |r| == total
    ensures forall k :: 0 <= k < total ==>
              (r[k] != 0 <==> exists i :: 0 <= i < |s| && ComparedIn(s[i], k, prev, target))
    ensures forall k :: 0 <= k < total && r[k] != 0 ==> 1 <= r[k] && r[k] != k
  {
    seq(total, k requires 0 <= k < total =>
      if exists i :: 0 <= i < |s| && ComparedIn(s[i], k, prev, target) then BaselineIndex(k, prev, target) else 0)
  }

  /** Column `m` of the `VM` row is the baseline of some compared column. */
  predicate IsBaseline(cmp: seq<int>, m: nat) {
    m > 0 && exists k :: 0 <= k < |cmp| && cmp[k] == m
  }

  /** Column `k` is compared with a baseline column in which the `VM` row
      holds a cell. */
  predicate HasBaseCell(cols: seq<Option<Cell>>, cmp: seq<int>, k: nat) {
    k < |cmp| && 0 < cmp[k] < |cols| && cols[cmp[k]].Some?
  }

  /** A `VM` cell after the pass: `comparisonBase` on the baselines,
      `compareWith` on the columns compared with them. */
  function MarkCell(cols: seq<Option<Cell>>, cmp: seq<int>, m: nat): Option<Cell>
    requires m < |cols|
  {
    if cols[m].None? then None
    else Some(cols[m].value.(comparisonBase := cols[m].value.comparisonBase || IsBaseline(cmp, m),
                             compareWith := cols[m].value.compareWith || HasBaseCell(cols, cmp, m)))
  }

  function MarkCols(cols: seq<Option<Cell>>, cmp: seq<int>): (r: seq<Option<Cell>>)
    ensures |r| == |cols| && forall m :: 0 <= m < |cols| ==> r[m] == MarkCell(cols, cmp, m)
  {
    seq(|cols|, m requires 0 <= m < |cols| => MarkCell(cols, cmp, m))
  }

  function MarkRow(row: Row, isVm: bool, cmp: seq<int>): (r: Row)
    ensures r.name == row.name && r.kind == row.kind && r.position == row.position && |r.cols| == |row.cols|
  {
    if isVm then row.(cols := MarkCols(row.cols, cmp)) else row
  }

  function SpliceRow(row: Row, cmp: seq<int>): (r: Row)
    ensures r.name == row.name && r.kind == row.kind && r.position == row.position
  {
    row.(cols := Spliced(row.kind, row.cols, cmp))
  }

  /** One row through every phase of the comparison. */
  function RowRun(row: Row, isVm: bool, total: nat, cmp: seq<int>, prev: Option<int>, target: Option<int>): (r: Row)
    ensures r.name == row.name && r.kind == row.kind && r.position == row.position
  {
    SpliceRow(MarkRow(ProcessRow(StripRow(row, isVm), total, prev, target), isVm, cmp), cmp)
  }

  /** The compared columns of a run over `t`. */
  function ComparedOf(t: Table, prev: Option<int>, target: Option<int>): (r: seq<int>)
    ensures |r| == TotalCols(t)
  {
    ComparedColumns(StripTable(t, Find(t, VmRowName)), TotalCols(t), prev, target)
  }

  /** `produceComparisonTable` when it returns: `totalCols` is taken before
      anything is removed, the compared columns are collected from all
      stripped rows, and then every row is processed, marked (the `VM`
      row) and spliced.  The phases of the source run over all rows in
      turn; since a row's phases read no other row but through the
      compared columns, running them row by row is the same. */
  function CompareTable(t: Table, prev: Option<int>, target: Option<int>): (r: Table)
    ensures |r| == |t|
    ensures forall i :: 0 <= i < |t| ==>
              r[i].name == t[i].name && r[i].kind == t[i].kind && r[i].position == t[i].position
  {
    var vm := Find(t, VmRowName);
    var total := TotalCols(t);
    var cmp := ComparedOf(t, prev, target);
    seq(|t|, i requires 0 <= i < |t| => RowRun(t[i], vm == Some(i), total, cmp, prev, target))
  }

  /** The run stops with a `TypeError` when a column compared with a
      baseline the `VM` row holds a cell in has no `VM` cell itself
      (`baseRow[i].compareWith` on `undefined`). */
  predicate Throws(t: Table, prev: Option<int>, target: Option<int>) {
    var vm := Find(t, VmRowName);
    var cmp := ComparedOf(t, prev, target);
    vm.Some? &&
    var cols := StripRow(t[vm.value], true).cols;
    exists k :: 0 <= k < |cmp| && HasBaseCell(cols, cmp, k) && !(k < |cols| && cols[k].Some?)
  }

  lemma RowRunParts(row: Row, isVm: bool, total: nat, cmp: seq<int>, prev: Option<int>, target: Option<int>,
                    marked: Row, cols: seq<Option<Cell>>)
    requires marked == MarkRow(ProcessRow(StripRow(row, isVm), total, prev, target), isVm, cmp)
    requires cols == Spliced(marked.kind, marked.cols, cmp)
    ensures marked.(cols := cols) == RowRun(row, isVm, total, cmp, prev, target)
  {
  }

  /** The first `|out|` rows of `t` went through every phase. */
  predicate RunUpTo(t: Table, out: seq<Row>, vm: Option<nat>, total: nat, cmp: seq<int>,
                    prev: Option<int>, target: Option<int>) {
    |out| <= |t| && forall j :: 0 <= j < |out| ==> out[j] == RowRun(t[j], vm == Some(j), total, cmp, prev, target)
  }

  lemma RunUpToStep(t: Table, out: seq<Row>, vm: Option<nat>, total: nat, cmp: seq<int>,
                    prev: Option<int>, target: Option<int>, next: Row)
    requires RunUpTo(t, out, vm, total, cmp, prev, target) && |out| < |t|
    requires next == RowRun(t[|out|], vm == Some(|out|), total, cmp, prev, target)
    ensures RunUpTo(t, out + [next], vm, total, cmp, prev, target)
  {
  }

  /** Rows that each went through every phase make up the compared table. */
  lemma CompareTableRows(t: Table, prev: Option<int>, target: Option<int>, out: seq<Row>)
    requires |out| == |t|
    requires RunUpTo(t, out, Find(t, VmRowName), TotalCols(t), ComparedOf(t, prev, target), prev, target)
    ensures out == CompareTable(t, prev, target)
  {
  }

  /** The comparison as the source runs it, row by row, with the splicing
      loop of each row. */
  method ProduceComparisonTable(t: Table, prev: Option<int>, target: Option<int>) returns (r: Result<Table, string>)
    ensures r.Failure? <==> Throws(t, prev, target)
    ensures r.Success? ==> r.value == CompareTable(t, prev, target)
  {
    if Throws(t, prev, target) {
      return Failure("TypeError: cannot read compareWith of undefined");
    }
    var vm := Find(t, VmRowName);
    var total := TotalCols(t);
    var cmp := ComparedOf(t, prev, target);
    var out: seq<Row> := [];
    for i := 0 to |t|
      invariant |out| == i
      invariant RunUpTo(t, out, vm, total, cmp, prev, target)
    {
      var marked := MarkRow(ProcessRow(StripRow(t[i], vm == Some(i)), total, prev, target), vm == Some(i), cmp);
      var cols := SpliceDiffs(marked.kind, marked.cols, cmp);
      RowRunParts(t[i], vm == Some(i), total, cmp, prev, target, marked, cols);
      RunUpToStep(t, out, vm, total, cmp, prev, target, marked.(cols := cols));
      out := out + [marked.(cols := cols)];
    }
    CompareTableRows(t, prev, target, out);
    return Success(out);
  }

  // ---------------------------------------------------------------------
  // Running the comparison again (app.js:1528-1540)
  // ---------------------------------------------------------------------

  /** Clearing the marks and removing the diff cells commute: a diff cell
      keeps its flag when its marks are cleared. */
  lemma {:induction false} StripUnmark(cols: seq<Option<Cell>>)
    ensures StripDiffs(UnmarkCols(cols)) == UnmarkCols(StripDiffs(cols))
    decreases |cols|
  {
    if |cols| > 0 {
      var head := if IsDiffCell(cols[0]) then [] else [cols[0]];
      assert UnmarkCols(cols)[1..] == UnmarkCols(cols[1..]);
      StripUnmark(cols[1..]);
      assert UnmarkCols(head + StripDiffs(cols[1..])) == UnmarkCols(head) + UnmarkCols(StripDiffs(cols[1..]));
    }
  }

  /** Clearing the marks undoes the marking. */
  lemma UnmarkMark(cols: seq<Option<Cell>>, cmp: seq<int>)
    ensures UnmarkCols(MarkCols(cols, cmp)) == UnmarkCols(cols)
  {
  }

  /** Clearing marks that are not there changes nothing. */
  lemma UnmarkIdle(cols: seq<Option<Cell>>)
    requires UnmarkedCols(cols)
    ensures UnmarkCols(cols) == cols
  {
  }

  /** The cells of a row after the reset and the removal of diff cells. */
  lemma StripRowCols(row: Row, isVm: bool)
    ensures StripRow(row, isVm).cols == if isVm then UnmarkCols(StripDiffs(row.cols)) else StripDiffs(row.cols)
    ensures |StripRow(row, isVm).cols| == |StripDiffs(row.cols)|
    ensures isVm ==> UnmarkedCols(StripRow(row, isVm).cols)
  {
    StripUnmark(row.cols);
  }

  /** The comparison of a number row touches neither the marks, nor the
      diff flags, nor which columns hold a cell or values, nor the label. */
  lemma NumberColsKeepFlags(cols: seq<Option<Cell>>, total: nat, lb: bool, prev: Option<int>, target: Option<int>)
    ensures var r := NumberCols(cols, total, lb, prev, target);
            (forall k :: 0 <= k < |cols| ==>
               (r[k].Some? <==> cols[k].Some?) && (HasStats(r[k]) <==> HasStats(cols[k]))) &&
            (UnmarkedCols(cols) ==> UnmarkedCols(r)) && (NoDiffCells(cols) ==> NoDiffCells(r)) &&
            (|cols| > 0 ==> r[0] == cols[0])
  {
  }

  lemma ProcessRowKeeps(row: Row, total: nat, prev: Option<int>, target: Option<int>)
    ensures var r := ProcessRow(row, total, prev, target).cols;
            (forall k :: 0 <= k < |row.cols| ==>
               (r[k].Some? <==> row.cols[k].Some?) && (HasStats(r[k]) <==> HasStats(row.cols[k]))) &&
            (UnmarkedCols(row.cols) ==> UnmarkedCols(r)) && (NoDiffCells(row.cols) ==> NoDiffCells(r)) &&
            (|row.cols| > 0 ==> r[0] == row.cols[0])
  {
    if row.kind == TypeNumber {
      NumberRowPointwise(row.cols, total, LowerBetterRow(row), prev, target);
      NumberColsKeepFlags(row.cols, total, LowerBetterRow(row), prev, target);
    }
  }

  /** A cleared chart row stays as it is when cleared again. */
  lemma ClearedChartsTwice(cols: seq<Option<Cell>>, t1: nat, t2: nat)
    requires t1 >= |cols| && t2 >= |cols|
    ensures ClearedCharts(ClearedCharts(cols, t1), t2) == ClearedCharts(cols, t1)
  {
  }

  /** A second pass over a row whose summaries are up to date gives what a
      single pass with the second baseline gives. */
  lemma ProcessRowReentrant(row: Row, t1: nat, t2: nat, p1: Option<int>, w1: Option<int>, p2: Option<int>, w2: Option<int>)
    requires row.kind == TypeNumber ==> FreshCols(row.cols)
    requires t1 >= |row.cols| && t2 >= |row.cols|
    ensures ProcessRow(ProcessRow(row, t1, p1, w1), t2, p2, w2) == ProcessRow(row, t1, p2, w2)
  {
    if row.kind == TypeNumber {
      var lb := LowerBetterRow(row);
      var mid := ProcessRow(row, t1, p1, w1);
      NumberRowPointwise(row.cols, t1, lb, p1, w1);
      ProcessRowKeeps(row, t1, p1, w1);
      assert At(mid, 0) == At(row, 0);
      assert LowerBetterRow(mid) == lb;
      NumberRowPointwise(mid.cols, t2, lb, p2, w2);
      NumberRowPointwise(row.cols, t1, lb, p2, w2);
      NumberColsReentrant(row.cols, t1, t2, t1, lb, p1, w1, p2, w2);
    } else if IsClearedChart(row.kind) {
      ClearedChartsTwice(row.cols, t1, t2);
    }
  }

  /** Which columns a number row compares does not change when it is
      processed. */
  lemma ComparedInProcessed(row: Row, total: nat, p1: Option<int>, w1: Option<int>, k: nat, p2: Option<int>, w2: Option<int>)
    ensures ComparedIn(ProcessRow(row, total, p1, w1), k, p2, w2) <==> ComparedIn(row, k, p2, w2)
  {
    ProcessRowKeeps(row, total, p1, w1);
  }

  /** The marks do not change which cells there are. */
  lemma MarkRowKeeps(row: Row, isVm: bool, cmp: seq<int>)
    ensures var r := MarkRow(row, isVm, cmp).cols;
            (forall k :: 0 <= k < |row.cols| ==>
               (r[k].Some? <==> row.cols[k].Some?) && (HasStats(r[k]) <==> HasStats(row.cols[k]))) &&
            (NoDiffCells(row.cols) ==> NoDiffCells(r)) &&
            (FreshCols(row.cols) ==> FreshCols(r))
  {
  }

  /** Removing the diff cells of a compared row gives the row as it was
      before the splicing. */
  lemma RowRunStrip(row: Row, isVm: bool, total: nat, cmp: seq<int>, prev: Option<int>, target: Option<int>)
    ensures StripRow(RowRun(row, isVm, total, cmp, prev, target), isVm) == ProcessRow(StripRow(row, isVm), total, prev, target)
    ensures |RowRun(row, isVm, total, cmp, prev, target).cols| == |StripDiffs(row.cols)| + CountCompared(cmp, |cmp|)
  {
    var s := StripRow(row, isVm);
    var pr := ProcessRow(s, total, prev, target);
    var m := MarkRow(pr, isVm, cmp);
    var x := SpliceRow(m, cmp);
    StripRowCols(row, isVm);
    ProcessRowKeeps(s, total, prev, target);
    MarkRowKeeps(pr, isVm, cmp);
    SplicedStrip(m.kind, m.cols, cmp);
    StripRowCols(x, isVm);
    if isVm {
      UnmarkMark(pr.cols, cmp);
      UnmarkIdle(pr.cols);
    }
  }

  lemma IsBaselinePadding(c1: seq<int>, c2: seq<int>, m: nat)
    requires SameCompared(c1, c2)
    ensures IsBaseline(c1, m) <==> IsBaseline(c2, m)
  {
    if IsBaseline(c1, m) {
      var k :| 0 <= k < |c1| && c1[k] == m;
      assert k < |c2| && c2[k] == m;
    }
    if IsBaseline(c2, m) {
      var k :| 0 <= k < |c2| && c2[k] == m;
      assert k < |c1| && c1[k] == m;
    }
  }

  /** Trailing zeros past the row do not change the marks. */
  lemma MarkColsPadding(cols: seq<Option<Cell>>, c1: seq<int>, c2: seq<int>)
    requires |cols| <= |c1| && |cols| <= |c2| && SameCompared(c1, c2)
    ensures MarkCols(cols, c1) == MarkCols(cols, c2)
  {
    forall m | 0 <= m < |cols| ensures MarkCell(cols, c1, m) == MarkCell(cols, c2, m) {
      IsBaselinePadding(c1, c2, m);
    }
  }

  /** Marking the processed rows: the marks agree for agreeing lists. */
  lemma MarkRowPadding(row: Row, isVm: bool, c1: seq<int>, c2: seq<int>)
    requires |row.cols| <= |c1| && |row.cols| <= |c2| && SameCompared(c1, c2)
    ensures SpliceRow(MarkRow(row, isVm, c1), c1) == SpliceRow(MarkRow(row, isVm, c2), c2)
  {
    if isVm {
      MarkColsPadding(row.cols, c1, c2);
    }
    var m := MarkRow(row, isVm, c1);
    SplicedPadding(m.kind, m.cols, c1, c2);
  }

  /** One row compared twice is the row compared once with the second
      baseline, when its summaries were up to date. */
  lemma RowRunReentrant(row: Row, isVm: bool, t1: nat, t2: nat, c1: seq<int>, c2: seq<int>, c3: seq<int>,
                        p1: Option<int>, w1: Option<int>, p2: Option<int>, w2: Option<int>)
    requires row.kind == TypeNumber ==> FreshCols(StripDiffs(row.cols))
    requires t1 >= |StripDiffs(row.cols)| && t2 >= |StripDiffs(row.cols)|
    requires |c2| >= |StripDiffs(row.cols)| && |c3| >= |StripDiffs(row.cols)| && SameCompared(c2, c3)
    ensures RowRun(RowRun(row, isVm, t1, c1, p1, w1), isVm, t2, c2, p2, w2) == RowRun(row, isVm, t1, c3, p2, w2)
  {
    var s := StripRow(row, isVm);
    StripRowCols(row, isVm);
    if isVm {
      FreshUnmark(StripDiffs(row.cols));
    }
    RowRunStrip(row, isVm, t1, c1, p1, w1);
    ProcessRowReentrant(s, t1, t2, p1, w1, p2, w2);
    MarkRowPadding(ProcessRow(s, t1, p2, w2), isVm, c2, c3);
  }

  lemma FreshUnmark(cols: seq<Option<Cell>>)
    ensures FreshCols(UnmarkCols(cols)) <==> FreshCols(cols)
  {
    assert forall k :: 0 <= k < |cols| ==> HasStats(UnmarkCols(cols)[k]) == HasStats(cols[k]);
  }

  /** Every cell with values in a number row holds the summary of its
      values, as a run of the comparison leaves it. */
  predicate Fresh(t: Table) {
    forall i :: 0 <= i < |t| && t[i].kind == TypeNumber ==> FreshCols(StripDiffs(t[i].cols))
  }

  lemma CompareRow(t: Table, prev: Option<int>, target: Option<int>, i: nat)
    requires i < |t|
    ensures CompareTable(t, prev, target)[i]
            == RowRun(t[i], Find(t, VmRowName) == Some(i), TotalCols(t), ComparedOf(t, prev, target), prev, target)
  {
  }

  lemma RowRunFresh(row: Row, isVm: bool, total: nat, cmp: seq<int>, prev: Option<int>, target: Option<int>)
    requires total >= |row.cols|
    ensures row.kind == TypeNumber ==> FreshCols(StripDiffs(RowRun(row, isVm, total, cmp, prev, target).cols))
  {
    var s := StripRow(row, isVm);
    var pr := ProcessRow(s, total, prev, target);
    StripRowCols(row, isVm);
    ProcessRowKeeps(s, total, prev, target);
    MarkRowKeeps(pr, isVm, cmp);
    SplicedStrip(pr.kind, MarkRow(pr, isVm, cmp).cols, cmp);
    if row.kind == TypeNumber {
      NumberRowPointwise(s.cols, total, LowerBetterRow(s), prev, target);
      NumberColsFresh(s.cols, total, LowerBetterRow(s), prev, target);
    }
  }

  /** After a run every number cell with values holds its own summary. */
  lemma CompareFresh(t: Table, prev: Option<int>, target: Option<int>)
    ensures Fresh(CompareTable(t, prev, target))
  {
    forall i | 0 <= i < |t| && t[i].kind == TypeNumber
      ensures FreshCols(StripDiffs(CompareTable(t, prev, target)[i].cols))
    {
      CompareRow(t, prev, target, i);
      RowRunFresh(t[i], Find(t, VmRowName) == Some(i), TotalCols(t), ComparedOf(t, prev, target), prev, target);
    }
  }

  /** Every row gains one diff cell per compared column, and the compared
      table keeps the rows' names, types and order. */
  lemma CompareShape(t: Table, prev: Option<int>, target: Option<int>)
    ensures var r := CompareTable(t, prev, target);
            var cmp := ComparedOf(t, prev, target);
            |r| == |t| && Find(r, VmRowName) == Find(t, VmRowName) &&
            forall i :: 0 <= i < |t| ==>
              r[i].name == t[i].name && r[i].kind == t[i].kind &&
              |r[i].cols| == |StripDiffs(t[i].cols)| + CountCompared(cmp, |cmp|)
  {
    var r := CompareTable(t, prev, target);
    FindSameNames(r, t, VmRowName);
    forall i | 0 <= i < |t|
      ensures |r[i].cols| == |StripDiffs(t[i].cols)| + CountCompared(ComparedOf(t, prev, target), |ComparedOf(t, prev, target)|)
    {
      CompareRow(t, prev, target, i);
      RowRunStrip(t[i], Find(t, VmRowName) == Some(i), TotalCols(t), ComparedOf(t, prev, target), prev, target);
    }
  }

  /** The compared columns of the stripped rows agree with those of the
      processed rows, up to trailing zeros. */
  lemma ComparedColumnsAgree(s: Table, s2: Table, t1: nat, t2: nat,
                             p1: Option<int>, w1: Option<int>, p2: Option<int>, w2: Option<int>)
    requires |s2| == |s| && forall i :: 0 <= i < |s| ==> s2[i] == ProcessRow(s[i], t1, p1, w1)
    requires forall i :: 0 <= i < |s| ==> |s[i].cols| <= t1 && |s[i].cols| <= t2
    ensures SameCompared(ComparedColumns(s2, t2, p2, w2), ComparedColumns(s, t1, p2, w2))
  {
    forall k: nat, i | 0 <= i < |s|
      ensures ComparedIn(s2[i], k, p2, w2) <==> ComparedIn(s[i], k, p2, w2)
    {
      ComparedInProcessed(s[i], t1, p1, w1, k, p2, w2);
    }
  }

  lemma StripAfterRun(t: Table, p1: Option<int>, w1: Option<int>, i: nat, vm: Option<nat>, x: Table)
    requires i < |t| && vm == Find(t, VmRowName) && x == CompareTable(t, p1, w1)
    requires |x[i].cols| <= TotalCols(x)
    ensures StripRow(x[i], vm == Some(i)) == ProcessRow(StripRow(t[i], vm == Some(i)), TotalCols(t), p1, w1)
    ensures |StripRow(t[i], vm == Some(i)).cols| <= TotalCols(t)
    ensures |StripRow(t[i], vm == Some(i)).cols| <= TotalCols(x)
  {
    CompareRow(t, p1, w1, i);
    RowRunStrip(t[i], vm == Some(i), TotalCols(t), ComparedOf(t, p1, w1), p1, w1);
    StripRowCols(t[i], vm == Some(i));
  }

  /** The compared columns of a second run agree with those of a single
      run with the second baseline, up to trailing zeros. */
  lemma ComparedAgree(t: Table, p1: Option<int>, w1: Option<int>, p2: Option<int>, w2: Option<int>)
    ensures var x := CompareTable(t, p1, w1);
            SameCompared(ComparedOf(x, p2, w2), ComparedOf(t, p2, w2))
            && forall i :: 0 <= i < |t| ==> |StripDiffs(t[i].cols)| <= TotalCols(x)
  {
    var x := CompareTable(t, p1, w1);
    var vm := Find(t, VmRowName);
    CompareKeepsVm(t, p1, w1);
    StripTables(t, p1, w1, vm, x);
    ComparedColumnsAgree(StripTable(t, vm), StripTable(x, vm), TotalCols(t), TotalCols(x), p1, w1, p2, w2);
    StrippedFit(t, p1, w1);
  }

  lemma CompareKeepsVm(t: Table, p1: Option<int>, w1: Option<int>)
    ensures Find(CompareTable(t, p1, w1), VmRowName) == Find(t, VmRowName)
  {
    CompareShape(t, p1, w1);
  }

  /** The rows of a table, stripped of diff columns, fit in the compared
      table. */
  lemma StrippedFit(t: Table, p1: Option<int>, w1: Option<int>)
    ensures forall i :: 0 <= i < |t| ==> |StripDiffs(t[i].cols)| <= TotalCols(CompareTable(t, p1, w1))
  {
    CompareShape(t, p1, w1);
  }

  /** Every row of a compared table, stripped, is the stripped row of the
      original run through the comparison. */
  lemma StripTables(t: Table, p1: Option<int>, w1: Option<int>, vm: Option<nat>, x: Table)
    requires vm == Find(t, VmRowName) && x == CompareTable(t, p1, w1)
    requires |x| == |t|
    ensures var s, s2 := StripTable(t, vm), StripTable(x, vm);
      |s2| == |s| &&
      (forall i :: 0 <= i < |s| ==> s2[i] == ProcessRow(s[i], TotalCols(t), p1, w1)) &&
      (forall i :: 0 <= i < |s| ==> |s[i].cols| <= TotalCols(t) && |s[i].cols| <= TotalCols(x))
  {
    var s, s2 := StripTable(t, vm), StripTable(x, vm);
    forall i | 0 <= i < |t|
      ensures s2[i] == ProcessRow(s[i], TotalCols(t), p1, w1)
      ensures |s[i].cols| <= TotalCols(t) && |s[i].cols| <= TotalCols(x)
    {
      StripAfterRun(t, p1, w1, i, vm, x);
    }
  }

  /** Running the corrected comparison on a table whose summaries are up to
      date, then again with any other baseline, gives what the second run
      alone gives: nothing of the first run survives the second, the class
      of a cell with errors included. */
  lemma CompareReentrant(t: Table, p1: Option<int>, w1: Option<int>, p2: Option<int>, w2: Option<int>)
    requires Fresh(t)
    ensures CompareTable(CompareTable(t, p1, w1), p2, w2) == CompareTable(t, p2, w2)
  {
    var x := CompareTable(t, p1, w1);
    var vm := Find(t, VmRowName);
    CompareShape(t, p1, w1);
    ComparedAgree(t, p1, w1, p2, w2);
    forall i | 0 <= i < |t|
      ensures CompareTable(x, p2, w2)[i] == CompareTable(t, p2, w2)[i]
    {
      CompareRow(x, p2, w2, i);
      CompareRow(t, p2, w2, i);
      CompareRow(t, p1, w1, i);
      RowRunReentrant(t[i], vm == Some(i), TotalCols(t), TotalCols(x), ComparedOf(t, p1, w1),
                      ComparedOf(x, p2, w2), ComparedOf(t, p2, w2), p1, w1, p2, w2);
    }
  }

  /** Once a table has been compared, every further run of the corrected
      comparison depends only on its own baseline. */
  lemma CompareSettles(t: Table, p0: Option<int>, w0: Option<int>, p1: Option<int>, w1: Option<int>,
                       p2: Option<int>, w2: Option<int>)
    ensures var x := CompareTable(t, p0, w0);
            CompareTable(CompareTable(x, p1, w1), p2, w2) == CompareTable(x, p2, w2)
  {
    CompareFresh(t, p0, w0);
    CompareReentrant(CompareTable(t, p0, w0), p1, w1, p2, w2);
  }

  /** Where a cell of a number row ends up: column `k` of the row without
      its old diff cells moves right by the number of compared columns
      before it, holds the compared cell, and is followed by its diff cell
      when the column is compared. */
  lemma CompareNumberCell(t: Table, prev: Option<int>, target: Option<int>, i: nat, k: nat)
    requires i < |t| && t[i].kind == TypeNumber && Find(t, VmRowName) != Some(i)
    requires k < |StripDiffs(t[i].cols)|
    ensures k < |ComparedOf(t, prev, target)|
    ensures PlacedIn(CompareTable(t, prev, target)[i].cols, TypeNumber, ComparedOf(t, prev, target), k,
                     NumberCol(StripDiffs(t[i].cols), k, TotalCols(t), LowerBetterRow(StripRow(t[i], false)), prev, target))
  {
    NumberRowSpliced(t, prev, target, i);
    ProcessedNumberCell(t[i], TotalCols(t), prev, target, k);
    StrippedFitsTotal(t, prev, target, i);
    PlacedAt(CompareTable(t, prev, target)[i].cols,
             ProcessRow(StripRow(t[i], false), TotalCols(t), prev, target).cols,
             ComparedOf(t, prev, target), k,
             NumberCol(StripDiffs(t[i].cols), k, TotalCols(t), LowerBetterRow(StripRow(t[i], false)), prev, target));
  }

  /** `cell`, column `k` of a row, sits in the spliced row `r` at `k` plus
      the number of compared columns before it, followed by its diff cell
      when column `k` is compared. */
  predicate PlacedIn(r: seq<Option<Cell>>, kind: int, cmp: seq<int>, k: nat, cell: Option<Cell>)
    requires k < |cmp|
  {
    var at := k + CountCompared(cmp, k);
    at < |r| && r[at] == cell
    && (cmp[k] != 0 ==> at + 1 < |r| && r[at + 1] == Some(DiffCell(kind, cell)))
  }

  /** Where the spliced row holds column `k` of the row it splices. */
  lemma PlacedAt(r: seq<Option<Cell>>, pcols: seq<Option<Cell>>, cmp: seq<int>, k: nat, cell: Option<Cell>)
    requires r == Spliced(TypeNumber, pcols, cmp) && k < |pcols| && k < |cmp| && pcols[k] == cell
    ensures PlacedIn(r, TypeNumber, cmp, k, cell)
  {
    SplicedPlacement(TypeNumber, pcols, cmp, k);
  }

  /** The compared cells of a number row other than the VM row are its
      processed cells with the diff cells spliced in. */
  lemma NumberRowSpliced(t: Table, prev: Option<int>, target: Option<int>, i: nat)
    requires i < |t| && t[i].kind == TypeNumber && Find(t, VmRowName) != Some(i)
    ensures CompareTable(t, prev, target)[i].cols
         == Spliced(TypeNumber, ProcessRow(StripRow(t[i], false), TotalCols(t), prev, target).cols, ComparedOf(t, prev, target))
  {
    CompareRow(t, prev, target, i);
  }

  /** Column `k` of a processed number row is that column compared on its
      own. */
  lemma ProcessedNumberCell(row: Row, total: nat, prev: Option<int>, target: Option<int>, k: nat)
    requires row.kind == TypeNumber && k < |StripDiffs(row.cols)|
    ensures var s := StripRow(row, false);
      |ProcessRow(s, total, prev, target).cols| == |StripDiffs(row.cols)| &&
      ProcessRow(s, total, prev, target).cols[k] == NumberCol(StripDiffs(row.cols), k, total, LowerBetterRow(s), prev, target)
  {
    var s := StripRow(row, false);
    NumberRowPointwise(s.cols, total, LowerBetterRow(s), prev, target);
  }

  /** A row without its diff cells fits in the table's width. */
  lemma StrippedFitsTotal(t: Table, prev: Option<int>, target: Option<int>, i: nat)
    requires i < |t|
    ensures |StripDiffs(t[i].cols)| <= TotalCols(t) && |ComparedOf(t, prev, target)| == TotalCols(t)
  {
  }
}

=== FILE: configloader.dfy ===
/** How the configuration loader turns a command line into YAML text
    before handing it to the YAML reader: `k=v` properties become `k: v`
    lines, `-s` adds a literal YAML line, `-f` adds a file's lines. */
module ConfigLoader {
  import opened Wrappers
  import opened Strings

  /** `USAGE` is the one argument error; a file that cannot be read is
      reported with its name. */
  datatype LoadError = Usage | Unreadable(file: string)

  /** The YAML line of one property. */
  function PropertyLine(key: string, value: string): (r: string)
    ensures |r| > 0 && r[|r| - 1] == '\n'
  {
    key + ": " + value + "\n"
  }

  /** `addProperty`: `k=v`, split at the first '=', appended as the YAML
      line `k: v`; a missing '=' or an empty key is a usage error. */
  function AddProperty(sb: string, arg: string): (r: Result<string, LoadError>)
    ensures r.Failure? <==> '=' !in arg || arg[0] == '='
    ensures r.Failure? ==> r.error == Usage
    ensures r.Success? ==> StartsWith(r.value, sb) && |r.value| > |sb| && r.value[|r.value| - 1] == '\n'
  {
    var pos := IndexOfChar(arg, '=');
    if pos <= 0 then Failure(Usage)
    else Success(sb + PropertyLine(arg[..pos], arg[pos + 1..]))
  }

  /** A key without '=' and any value, joined by '=', yield `key: value`. */
  lemma AddPropertyOf(sb: string, key: string, value: string)
    requires |key| > 0 && '=' !in key
    ensures AddProperty(sb, key + "=" + value) == Success(sb + PropertyLine(key, value))
  {
    var arg := key + "=" + value;
    assert arg[|key|] == '=';
    assert IndexOfChar(arg, '=') == |key| by {
      IndexOfCharIs(arg, '=', |key|);
      assert arg[..|key|] == key;
    }
    assert arg[..|key|] == key && arg[|key| + 1..] == value;
  }

  predicate IsString(a: string) { a == "--string" || a == "-s" }
  predicate IsFile(a: string) { a == "--file" || a == "-f" }
  predicate IsProperty(a: string) { a == "--property" || a == "-p" }

  /** A bare `k=v` argument: its first '=' comes after the first character,
      and its first character is not '-'. */
  predicate IsBareProperty(a: string) {
    IndexOfChar(a, '=') >= 1 && IndexOfChar(a, '-') != 0
  }

  /** The same test by the first character: a bare property starts with
      neither '-' nor '=' and has a '=' somewhere. */
  lemma BarePropertyByFirst(a: string)
    requires |a| > 0
    ensures IsBareProperty(a) <==> a[0] != '-' && a[0] != '=' && '=' in a
  {
  }

  /** Every flag starts with '-', so no flag is a bare property. */
  lemma FlagsStartWithDash(a: string)
    requires IsString(a) || IsFile(a) || IsProperty(a)
    ensures |a| > 0 && a[0] == '-' && !IsBareProperty(a)
  {
  }

  /** The lines of a file as text, each line followed by a newline. */
  function Lines(lines: seq<string>): (r: string)
    ensures |lines| > 0 ==> |r| > 0 && r[|r| - 1] == '\n'
  {
    if |lines| == 0 then "" else Lines(lines[..|lines| - 1]) + lines[|lines| - 1] + "\n"
  }

  /** What a flag that takes a value appends: `-s` the value as a line,
      `-f` the file's lines, `-p` the property. */
  function FlagValue(flag: string, v: string, sb: string, files: string -> Option<seq<string>>): (r: Result<string, LoadError>)
    requires IsString(flag) || IsFile(flag) || IsProperty(flag)
    ensures r.Success? ==> StartsWith(r.value, sb)
    ensures IsString(flag) ==> r == Success(sb + v + "\n")
    ensures IsFile(flag) ==> (r.Failure? <==> files(v).None?)
  {
    if IsString(flag) then Success(sb + v + "\n")
    else if IsFile(flag) then
      (match files(v)
       case None => Failure(Unreadable(v))
       case Some(lines) => Success(sb + Lines(lines)))
    else AddProperty(sb, v)
  }

  lemma StartsWithTrans(a: string, b: string, c: string)
    requires StartsWith(b, a) && StartsWith(c, b)
    ensures StartsWith(c, a)
  {
    assert c[..|a|] == c[..|b|][..|a|];
  }

  /** One turn of the argument loop on a non-empty argument other than
      `--`: the grown buffer and how many arguments were used.  The loader
      tries the three flags, then a bare property, then gives up; since
      every flag starts with '-' and a bare property cannot, looking at the
      first character first decides the same way (`FlagsStartWithDash`,
      `BarePropertyByFirst`). */
  function Step(args: seq<string>, sb: string, files: string -> Option<seq<string>>): (r: Result<(string, nat), LoadError>)
    requires |args| > 0 && |args[0]| > 0
    ensures r.Success? ==> StartsWith(r.value.0, sb) && 1 <= r.value.1 <= |args|
    ensures !IsString(args[0]) && !IsFile(args[0]) && !IsProperty(args[0]) && !IsBareProperty(args[0]) ==> r == Failure(Usage)
  {
    var a := args[0];
    if a[0] == '-' then
      if !(IsString(a) || IsFile(a) || IsProperty(a)) then Failure(Usage)
      else if |args| < 2 then Failure(Usage)
      else
        match FlagValue(a, args[1], sb, files)
        case Failure(e) => Failure(e)
        case Success(next) => Success((next, 2))
    else if a[0] != '=' && '=' in a then
      match AddProperty(sb, a)
      case Failure(e) => Failure(e)
      case Success(next) => Success((next, 1))
    else Failure(Usage)
  }

  /** The argument loop of `loadObject(String[], ...)`: `files` gives the
      lines of each readable file, `None` for one that cannot be read. */
  function Collect(args: seq<string>, sb: string, files: string -> Option<seq<string>>): (r: Result<string, LoadError>)
    ensures r.Success? ==> StartsWith(r.value, sb)
    ensures |args| == 0 || args[0] == "--" ==> r == Success(sb)
    decreases |args|
  {
    if |args| == 0 || args[0] == "--" then Success(sb)
    else if args[0] == "" then Collect(args[1..], sb, files)
    else
      match Step(args, sb, files)
      case Failure(e) => Failure(e)
      case Success((next, used)) =>
        var r := Collect(args[used..], next, files);
        assert r.Success? ==> StartsWith(r.value, sb) by {
          if r.Success? { StartsWithTrans(sb, next, r.value); }
        }
        r
  }

  /** The YAML text the command line produces, from an empty buffer. */
  function Load(args: seq<string>, files: string -> Option<seq<string>>): (r: Result<string, LoadError>)
    ensures args == [] ==> r == Success("")
  {
    Collect(args, "", files)
  }

  /** Empty arguments are skipped. */
  lemma EmptySkipped(args: seq<string>, sb: string, files: string -> Option<seq<string>>)
    ensures Collect([""] + args, sb, files) == Collect(args, sb, files)
  {
    assert ([""] + args)[1..] == args;
  }

  /** Nothing after the first `--` is looked at. */
  lemma {:induction false} StopIgnoresRest(front: seq<string>, rest1: seq<string>, rest2: seq<string>,
                                           sb: string, files: string -> Option<seq<string>>)
    requires forall i :: 0 <= i < |front| ==> front[i] != "--" && !IsString(front[i]) && !IsFile(front[i]) && !IsProperty(front[i])
    ensures Collect(front + ["--"] + rest1, sb, files) == Collect(front + ["--"] + rest2, sb, files)
    decreases |front|
  {
    var a1, a2 := front + ["--"] + rest1, front + ["--"] + rest2;
    if |front| > 0 {
      assert a1[0] == a2[0] == front[0];
      assert a1[1..] == front[1..] + ["--"] + rest1;
      assert a2[1..] == front[1..] + ["--"] + rest2;
      StopIgnoresRest(front[1..], rest1, rest2, sb, files);
      var a := front[0];
      if a != "" {
        match Step(a1, sb, files)
        case Failure(_) =>
        case Success((next, used)) =>
          assert Step(a2, sb, files) == Step(a1, sb, files);
          StopIgnoresRest(front[1..], rest1, rest2, next, files);
      }
    } else {
      assert a1[0] == "--" && a2[0] == "--";
    }
  }

  /** A run of bare `k=v` arguments yields their `k: v` lines in order. */
  function PropertyLines(keys: seq<string>, values: seq<string>): string
    requires |keys| == |values|
  {
    if |keys| == 0 then ""
    else PropertyLine(keys[0], values[0]) + PropertyLines(keys[1..], values[1..])
  }

  function PropertyArgs(keys: seq<string>, values: seq<string>): (r: seq<string>)
    requires |keys| == |values|
    ensures |r| == |keys|
  {
    if |keys| == 0 then []
    else [keys[0] + "=" + values[0]] + PropertyArgs(keys[1..], values[1..])
  }

  predicate GoodKey(key: string) {
    |key| > 0 && '=' !in key && key[0] != '-'
  }

  /** A bare `key=value` argument with a good key is a property. */
  lemma BareProperty(key: string, value: string)
    requires GoodKey(key)
    ensures IsBareProperty(key + "=" + value)
    ensures (key + "=" + value) != "" && (key + "=" + value) != "--"
    ensures !IsString(key + "=" + value) && !IsFile(key + "=" + value) && !IsProperty(key + "=" + value)
  {
    var arg := key + "=" + value;
    assert arg[0] == key[0];
    assert arg[|key|] == '=';
    IndexOfCharIs(arg, '=', |key|);
    assert arg[..|key|] == key;
    assert arg[|arg| - |value| - 1] == '=';
  }

  lemma StepBare(key: string, value: string, args: seq<string>, sb: string, files: string -> Option<seq<string>>)
    requires GoodKey(key) && |args| > 0 && args[0] == key + "=" + value
    ensures Step(args, sb, files) == Success((sb + PropertyLine(key, value), 1))
  {
    var a := args[0];
    assert !IsString(a) && !IsFile(a) && !IsProperty(a) && IsBareProperty(a) by {
      BareProperty(key, value);
    }
    assert AddProperty(sb, a) == Success(sb + PropertyLine(key, value)) by {
      AddPropertyOf(sb, key, value);
    }
  }

  /** A bare property is consumed on its own. */
  lemma CollectBare(key: string, value: string, rest: seq<string>, sb: string, files: string -> Option<seq<string>>)
    requires GoodKey(key)
    ensures Collect([key + "=" + value] + rest, sb, files) == Collect(rest, sb + PropertyLine(key, value), files)
  {
    var args := [key + "=" + value] + rest;
    assert args[0] != "" && args[0] != "--" by {
      BareProperty(key, value);
    }
    StepBare(key, value, args, sb, files);
    assert args[1..] == rest;
  }

  /** Properties given one per argument become one YAML line each, in
      order. */
  lemma {:induction false} CollectProperties(keys: seq<string>, values: seq<string>, sb: string,
                                             files: string -> Option<seq<string>>)
    requires |keys| == |values|
    requires forall i :: 0 <= i < |keys| ==> GoodKey(keys[i])
    ensures Collect(PropertyArgs(keys, values), sb, files) == Success(sb + PropertyLines(keys, values))
    decreases |keys|
  {
    if |keys| > 0 {
      var line := PropertyLine(keys[0], values[0]);
      var tail := PropertyArgs(keys[1..], values[1..]);
      var more := PropertyLines(keys[1..], values[1..]);
      CollectProperties(keys[1..], values[1..], sb + line, files);
      CollectPropertiesCons(keys[0], values[0], tail, sb, files, more);
      assert PropertyArgs(keys, values) == [keys[0] + "=" + values[0]] + tail;
      assert PropertyLines(keys, values) == line + more;
    } else {
      assert sb + PropertyLines(keys, values) == sb;
    }
  }

  lemma CollectPropertiesCons(key: string, value: string, tail: seq<string>, sb: string,
                              files: string -> Option<seq<string>>, more: string)
    requires GoodKey(key)
    requires Collect(tail, sb + PropertyLine(key, value), files) == Success(sb + PropertyLine(key, value) + more)
    ensures Collect([key + "=" + value] + tail, sb, files) == Success(sb + (PropertyLine(key, value) + more))
  {
    CollectBare(key, value, tail, sb, files);
    Assoc(sb, PropertyLine(key, value), more);
  }

  lemma Assoc(a: string, b: string, c: string)
    ensures a + b + c == a + (b + c)
  {
  }

  /** A flag that takes a value but ends the command line is a usage error. */
  lemma MissingValue(flag: string, files: string -> Option<seq<string>>)
    requires IsString(flag) || IsFile(flag) || IsProperty(flag)
    ensures Collect([flag], "", files) == Failure(Usage)
  {
  }

  /** `-s` appends its value as one YAML line. */
  lemma StringLine(yaml: string, rest: seq<string>, sb: string, files: string -> Option<seq<string>>)
    ensures Collect(["-s", yaml] + rest, sb, files) == Collect(rest, sb + yaml + "\n", files)
  {
    assert (["-s", yaml] + rest)[2..] == rest;
  }

  /** An argument that is no flag, no property and not empty is a usage
      error. */
  lemma UnknownArgument(a: string, rest: seq<string>, sb: string, files: string -> Option<seq<string>>)
    requires a != "" && a != "--" && !IsString(a) && !IsFile(a) && !IsProperty(a) && !IsBareProperty(a)
    ensures Collect([a] + rest, sb, files) == Failure(Usage)
  {
  }
}

=== FILE: filetool.dfy ===
/** The path-stripping helpers of the file tool: the last path segment, the
    entry name inside an archive reference, and the base name without its
    extension. */
module FileTool {
  import opened Strings

  /** `clearPath`: the text after the last '/', or the whole name. */
  function ClearPath(s: string): (r: string)
    ensures '/' !in r
    ensures '/' !in s ==> r == s
    ensures '/' in s ==> |r| < |s| && s[|s| - |r| - 1] == '/'
    ensures r == s[|s| - |r|..]
  {
    var k := LastIndexOfChar(s, '/');
    if k >= 0 then
      AfterLastSlash(s, k);
      s[k + 1..]
    else s
  }

  lemma AfterLastSlash(s: string, k: int)
    requires k == LastIndexOfChar(s, '/') && k >= 0
    ensures var r := s[k + 1..];
      '/' !in r && |r| < |s| && s[|s| - |r| - 1] == '/' && r == s[|s| - |r|..]
  {
    var r := s[k + 1..];
    forall i | 0 <= i < |r| ensures r[i] != '/' {
      assert r[i] == s[k + 1 + i];
    }
  }

  /** Stripping the path twice is stripping it once. */
  lemma ClearPathIdempotent(s: string)
    ensures ClearPath(ClearPath(s)) == ClearPath(s)
  {
  }

  /** The last segment of a path ending in `name` is `name`. */
  lemma ClearPathOf(dir: string, name: string)
    requires '/' !in name
    ensures ClearPath(dir + "/" + name) == name
  {
    var s := dir + "/" + name;
    var r := ClearPath(s);
    assert s[|s| - |name|..] == name && s[|s| - |name| - 1] == '/';
  }

  /** `clearExtPath`: the last path segment, then the text after its first
      ':' (the entry name of an archive reference such as `a.zip:x.hlog`). */
  function ClearExtPath(s: string): (r: string)
    ensures '/' !in r && |r| <= |ClearPath(s)|
    ensures r == ClearPath(s)[|ClearPath(s)| - |r|..]
    ensures ':' in ClearPath(s) ==> |r| < |ClearPath(s)|
    ensures ':' !in ClearPath(s) ==> r == ClearPath(s)
  {
    var p := ClearPath(s);
    var k := IndexOfChar(p, ':');
    if k >= 0 then p[k + 1..] else p
  }

  /** An archive entry reference yields the entry's name, which may itself
      contain ':'. */
  lemma ClearExtPathOf(dir: string, archive: string, name: string)
    requires '/' !in archive && '/' !in name && ':' !in archive
    ensures ClearExtPath(dir + "/" + archive + ":" + name) == name
  {
    var seg := archive + ":" + name;
    assert dir + "/" + archive + ":" + name == dir + "/" + seg;
    assert '/' !in seg by {
      forall i | 0 <= i < |seg| ensures seg[i] != '/' {
        if i < |archive| { assert seg[i] == archive[i]; }
        else if i > |archive| { assert seg[i] == name[i - |archive| - 1]; }
      }
    }
    ClearPathOf(dir, seg);
    assert seg[|archive|] == ':';
    assert IndexOfChar(seg, ':') == |archive| by {
      IndexOfCharIs(seg, ':', |archive|);
    }
    assert seg[|archive| + 1..] == name;
  }

  /** `clearPathAndExtension`: the last path segment cut before its last '.'. */
  function ClearPathAndExtension(s: string): (r: string)
    ensures '/' !in r && |r| <= |ClearPath(s)|
    ensures r == ClearPath(s)[..|r|]
    ensures '.' in ClearPath(s) ==> |r| < |ClearPath(s)| && ClearPath(s)[|r|] == '.'
    ensures '.' !in ClearPath(s) ==> r == ClearPath(s)
  {
    var p := ClearPath(s);
    var k := LastIndexOfChar(p, '.');
    if k >= 0 then
      var r := p[..k];
      assert '/' !in r by {
        forall i | 0 <= i < |r| ensures r[i] != '/' {
          assert r[i] == p[i];
        }
      }
      r
    else p
  }

  /** The base name of `dir/base.ext` is `base`, whatever dots `base` has. */
  lemma ClearPathAndExtensionOf(dir: string, base: string, ext: string)
    requires '/' !in base && '/' !in ext && '.' !in ext
    ensures ClearPathAndExtension(dir + "/" + base + "." + ext) == base
  {
    var seg := base + "." + ext;
    var full := dir + "/" + base + "." + ext;
    assert full == dir + "/" + seg;
    assert '/' !in seg by {
      forall i | 0 <= i < |seg| ensures seg[i] != '/' {
        if i < |base| { assert seg[i] == base[i]; }
        else if i > |base| { assert seg[i] == ext[i - |base| - 1]; }
      }
    }
    ClearPathOf(dir, seg);
    LastDot(base, ext);
    assert seg[..|base|] == base;
  }

  lemma LastDot(base: string, ext: string)
    requires '.' !in ext
    ensures LastIndexOfChar(base + "." + ext, '.') == |base|
  {
    var seg := base + "." + ext;
    var k := LastIndexOfChar(seg, '.');
    assert seg[|base|] == '.';
  }
}

=== FILE: formattool.dfy ===
/** The text helpers of the benchmark framework's `FormatTool`: numbers with
    unit suffixes, nested joins, plural words, `_`-separated fields,
    `name=value` pairs and `{key}` template substitution. */
module FormatTool {
  import opened Wrappers
  import opened Strings
  import opened Numbers

  /* ---------------------------------------------------------------------
     Numbers with unit suffixes
     --------------------------------------------------------------------- */

  /** Size suffixes in the order `parseInt`/`parseValue` test them, with the
      factor each stands for. */
  const SizeSuffixes: seq<(string, int)> :=
    [("kib", 1024), ("mib", 1048576), ("gib", 1073741824),
     ("k", 1000), ("m", 1000000), ("g", 1000000000)]

  /** Time suffixes in the order `parseTimeLength` tests them, with the
      number of seconds each stands for. */
  const TimeSuffixes: seq<(string, int)> :=
    [("seconds", 1), ("minutes", 60), ("min", 60), ("hrs", 3600),
     ("m", 60), ("h", 3600), ("s", 1)]

  predicate IsLowerLetter(c: char) {
    'a' <= c <= 'z'
  }

  /** A suffix table the parsers can read unambiguously: every suffix is a
      non-empty run of lower-case letters, and no suffix ends with one that
      is tested before it (which would shadow it). */
  ghost predicate SuffixTable(t: seq<(string, int)>) {
    && (forall j :: 0 <= j < |t| ==> |t[j].0| > 0)
    && (forall j, k :: 0 <= j < |t| && 0 <= k < |t[j].0| ==> IsLowerLetter(t[j].0[k]))
    && (forall i, j :: 0 <= i < j < |t| ==> !EndsWith(t[j].0, t[i].0))
  }

  /** The index of the first suffix in `t` that `s` ends with. */
  function FirstSuffix(s: string, t: seq<(string, int)>): (r: Option<nat>)
    ensures r.Some? ==> r.value < |t| && EndsWith(s, t[r.value].0)
    ensures r.Some? ==> forall i :: 0 <= i < r.value ==> !EndsWith(s, t[i].0)
    ensures r.None? ==> forall i :: 0 <= i < |t| ==> !EndsWith(s, t[i].0)
  {
    if |t| == 0 then None
    else if EndsWith(s, t[0].0) then Some(0)
    else match FirstSuffix(s, t[1..])
      case None => None
      case Some(j) => Some(j + 1)
  }

  /** Lower-cases the text and cuts the first matching suffix: the trimmed
      numeral that is left, and the factor of the suffix (1 without one). */
  function CutSuffix(value: string, t: seq<(string, int)>): (r: (string, int))
    ensures FirstSuffix(ToLower(value), t).None? ==> r == (Trim(ToLower(value)), 1)
    ensures FirstSuffix(ToLower(value), t).Some? ==>
      var j := FirstSuffix(ToLower(value), t).value;
      var v := ToLower(value);
      r == (Trim(v[..|v| - |t[j].0|]), t[j].1)
  {
    var v := ToLower(value);
    match FirstSuffix(v, t)
    case None => (Trim(v), 1)
    case Some(j) => (Trim(v[..|v| - |t[j].0|]), t[j].1)
  }

  /** The shared body of `parseInt` and `parseTimeLength`: the numeral left
      by `CutSuffix` parsed as an `int` and multiplied by the factor with
      32-bit wrap-around.  `None` is the `NumberFormatException`. */
  function ParseScaled(value: string, t: seq<(string, int)>): (r: Option<int>)
    ensures r.Some? ==> IsInt(r.value)
    ensures r.Some? <==> ParseInt(CutSuffix(value, t).0).Some?
  {
    ScaleInt(CutSuffix(value, t))
  }

  function ScaleInt(cut: (string, int)): Option<int> {
    var n :- ParseInt(cut.0);
    Some(Wrap32(n * cut.1))
  }

  /** `parseInt`: k/m/g for powers of 1000, kib/mib/gib for powers of 1024. */
  function ParseIntValue(value: string): (r: Option<int>)
    ensures r.Some? ==> IsInt(r.value)
  {
    ParseScaled(value, SizeSuffixes)
  }

  /** `parseTimeLength`: a number of seconds, minutes or hours, in seconds. */
  function ParseTimeLength(value: string): (r: Option<int>)
    ensures r.Some? ==> IsInt(r.value)
  {
    ParseScaled(value, TimeSuffixes)
  }

  /** A decimal number scaled by its suffix's factor. */
  function ParseScaledDecimal(value: string, t: seq<(string, int)>): (r: Option<real>)
    ensures r.Some? <==> ParseDecimal(CutSuffix(value, t).0).Some?
  {
    ScaleDecimal(CutSuffix(value, t))
  }

  function ScaleDecimal(cut: (string, int)): Option<real> {
    var x :- ParseDecimal(cut.0);
    Some(x * cut.1 as real)
  }

  /** `parseValue`: the size suffixes applied to a decimal number. */
  function ParseValue(value: string): (r: Option<real>)
    ensures r.Some? <==> ParseDecimal(CutSuffix(value, SizeSuffixes).0).Some?
  {
    ParseScaledDecimal(value, SizeSuffixes)
  }

  lemma SizeSuffixesReadable()
    ensures SuffixTable(SizeSuffixes)
  {
    SizeSuffixesNonEmpty();
    SizeSuffixesLetters();
    SizeSuffixesUnshadowed();
  }

  lemma SizeSuffixesNonEmpty()
    ensures forall j :: 0 <= j < |SizeSuffixes| ==> |SizeSuffixes[j].0| > 0
  {
  }

  lemma SizeSuffixesLetters()
    ensures forall j, k :: 0 <= j < |SizeSuffixes| && 0 <= k < |SizeSuffixes[j].0| ==> IsLowerLetter(SizeSuffixes[j].0[k])
  {
  }

  lemma SizeSuffixesUnshadowed()
    ensures forall i, j :: 0 <= i < j < |SizeSuffixes| ==> !EndsWith(SizeSuffixes[j].0, SizeSuffixes[i].0)
  {
    forall i, j | 0 <= i < j < |SizeSuffixes|
      ensures !EndsWith(SizeSuffixes[j].0, SizeSuffixes[i].0)
    {
      NotEndsWith(SizeSuffixes[j].0, SizeSuffixes[i].0);
    }
  }

  lemma TimeSuffixesReadable()
    ensures SuffixTable(TimeSuffixes)
  {
    TimeSuffixesNonEmpty();
    TimeSuffixesLetters();
    TimeSuffixesUnshadowed();
  }

  lemma TimeSuffixesNonEmpty()
    ensures forall j :: 0 <= j < |TimeSuffixes| ==> |TimeSuffixes[j].0| > 0
  {
  }

  lemma TimeSuffixesLetters()
    ensures forall j, k :: 0 <= j < |TimeSuffixes| && 0 <= k < |TimeSuffixes[j].0| ==> IsLowerLetter(TimeSuffixes[j].0[k])
  {
  }

  lemma TimeSuffixesUnshadowed()
    ensures forall i, j :: 0 <= i < j < |TimeSuffixes| ==> !EndsWith(TimeSuffixes[j].0, TimeSuffixes[i].0)
  {
    forall i, j | 0 <= i < j < |TimeSuffixes|
      ensures !EndsWith(TimeSuffixes[j].0, TimeSuffixes[i].0)
    {
      NotEndsWith(TimeSuffixes[j].0, TimeSuffixes[i].0);
    }
  }

  /** Cheap reasons why `s` does not end with `p`. */
  lemma NotEndsWith(s: string, p: string)
    requires || |p| > |s|
             || (|p| > 0 && |s| > 0 && s[|s| - 1] != p[|p| - 1])
             || (|p| == |s| > 0 && s[0] != p[0])
    ensures !EndsWith(s, p)
  {
    if |p| <= |s| && |p| > 0 {
      assert s[|s| - |p|..][|p| - 1] == s[|s| - 1];
      assert |p| == |s| ==> s[|s| - |p|..][0] == s[0];
    }
  }

  lemma {:induction false} FirstSuffixIs(s: string, t: seq<(string, int)>, j: nat)
    requires j < |t| && EndsWith(s, t[j].0)
    requires forall i :: 0 <= i < j ==> !EndsWith(s, t[i].0)
    ensures FirstSuffix(s, t) == Some(j)
    decreases j
  {
    if j > 0 {
      FirstSuffixIs(s, t[1..], j - 1);
    }
  }

  /** A numeral followed by a suffix does not end with a letter suffix that
      the suffix itself does not end with: the digit before the suffix stops
      any longer match. */
  lemma NoLongerSuffix(d: string, suffix: string, e: string)
    requires |d| > 0 && IsDigit(d[|d| - 1])
    requires forall k :: 0 <= k < |e| ==> IsLowerLetter(e[k])
    requires !EndsWith(suffix, e)
    ensures !EndsWith(d + suffix, e)
  {
    var s := d + suffix;
    if |e| > |s| {
    } else if |e| <= |suffix| {
      assert s[|s| - |e|..] == suffix[|suffix| - |e|..];
    } else {
      var k := |e| - |suffix| - 1;
      assert s[|s| - |e|..][k] == d[|d| - 1];
      assert IsLowerLetter(e[k]);
    }
  }

  lemma LowerKeeps(s: string)
    requires forall k :: 0 <= k < |s| ==> s[k] == '-' || IsDigit(s[k]) || IsLowerLetter(s[k])
    ensures ToLower(s) == s
  {
  }

  /** The numeral of any `int` followed by any suffix of a readable table
      parses to the number times the suffix's factor, wrapped to 32 bits. */
  lemma ParseScaledSuffix(n: int, t: seq<(string, int)>, j: nat)
    requires IsInt(n) && SuffixTable(t) && j < |t|
    ensures ParseScaled(ShowInt(n) + t[j].0, t) == Some(Wrap32(n * t[j].1))
  {
    var d := ShowInt(n);
    var s := d + t[j].0;
    LowerKeeps(s);
    forall i | 0 <= i < j
      ensures !EndsWith(s, t[i].0)
    {
      NoLongerSuffix(d, t[j].0, t[i].0);
    }
    FirstSuffixIs(s, t, j);
    assert s[..|s| - |t[j].0|] == d;
    TrimKeeps(d);
    ParseShowInt(n);
  }

  /** A bare numeral parses to itself. */
  lemma ParseScaledPlain(n: int, t: seq<(string, int)>)
    requires IsInt(n) && SuffixTable(t)
    ensures ParseScaled(ShowInt(n), t) == Some(n)
  {
    var d := ShowInt(n);
    assert ToLower(d) == d by {
      ShowIntChars(n);
      LowerKeeps(d);
    }
    assert FirstSuffix(d, t).None? by {
      forall i | 0 <= i < |t|
        ensures !EndsWith(d, t[i].0)
      {
        NoSuffixOnDigit(d, t[i].0);
      }
    }
    assert CutSuffix(d, t) == (d, 1) by {
      TrimKeeps(d);
    }
    ParseShowInt(n);
  }

  lemma ShowIntChars(n: int)
    ensures forall k :: 0 <= k < |ShowInt(n)| ==> ShowInt(n)[k] == '-' || IsDigit(ShowInt(n)[k])
  {
    if n < 0 {
      var s := ShowNat(-n);
      assert forall k :: 1 <= k < |ShowInt(n)| ==> ShowInt(n)[k] == s[k - 1];
    }
  }

  lemma NoSuffixOnDigit(d: string, e: string)
    requires |d| > 0 && IsDigit(d[|d| - 1])
    requires |e| > 0 && IsLowerLetter(e[|e| - 1])
    ensures !EndsWith(d, e)
  {
  }

  lemma LowerTwice(value: string)
    ensures ToLower(ToLower(value)) == ToLower(value)
  {
  }

  /** The parsers do not distinguish upper from lower case. */
  lemma ParseScaledIgnoresCase(value: string, t: seq<(string, int)>)
    ensures ParseScaled(ToLower(value), t) == ParseScaled(value, t)
  {
    CutSuffixLower(value, t);
  }

  lemma CutSuffixLower(value: string, t: seq<(string, int)>)
    ensures CutSuffix(ToLower(value), t) == CutSuffix(value, t)
  {
    LowerTwice(value);
  }

  lemma ParseDecimalIgnoresCase(value: string, t: seq<(string, int)>)
    ensures ParseScaledDecimal(ToLower(value), t) == ParseScaledDecimal(value, t)
  {
    CutSuffixLower(value, t);
  }

  /** `parseInt` of a numeral with a size suffix is the number times the
      suffix's factor (k, m, g: powers of 1000; kib, mib, gib: powers of
      1024), wrapped to 32 bits. */
  lemma ParseIntSuffix(n: int, j: nat)
    requires IsInt(n) && j < |SizeSuffixes|
    ensures ParseIntValue(ShowInt(n) + SizeSuffixes[j].0) == Some(Wrap32(n * SizeSuffixes[j].1))
  {
    SizeSuffixesReadable();
    ParseScaledSuffix(n, SizeSuffixes, j);
  }

  /** `parseTimeLength` of a numeral with a time suffix is the number times
      the suffix's seconds (m, min, minutes: 60; h, hrs: 3600; s, seconds:
      1), wrapped to 32 bits; a bare numeral is a number of seconds. */
  lemma ParseTimeSuffix(n: int, j: nat)
    requires IsInt(n) && j < |TimeSuffixes|
    ensures ParseTimeLength(ShowInt(n) + TimeSuffixes[j].0) == Some(Wrap32(n * TimeSuffixes[j].1))
    ensures ParseTimeLength(ShowInt(n)) == Some(n)
  {
    TimeSuffixesReadable();
    ParseScaledSuffix(n, TimeSuffixes, j);
    ParseScaledPlain(n, TimeSuffixes);
  }

  /** `testParseInt`: "1k" is 1000. */
  lemma ParseIntKilo(v: string)
    requires v == "1k"
    ensures ParseIntValue(v) == Some(1000)
  {
    assert v == ShowInt(1) + SizeSuffixes[3].0 by { ShowOne(); }
    ParseIntSuffix(1, 3);
  }

  /** `testParseInt`: "1kib" is 1024. */
  lemma ParseIntKibi(v: string)
    requires v == "1kib"
    ensures ParseIntValue(v) == Some(1024)
  {
    assert v == ShowInt(1) + SizeSuffixes[0].0 by { ShowOne(); }
    ParseIntSuffix(1, 0);
  }

  /** `testParseInt`: "1M" is 1000000; case does not matter. */
  lemma ParseIntMega(v: string)
    requires v == "1M"
    ensures ParseIntValue(v) == Some(1000000)
  {
    var low := ShowInt(1) + SizeSuffixes[4].0;
    assert ToLower(v) == low by { ShowOne(); }
    ParseIntSuffix(1, 4);
    ParseScaledViaLower(v, low, SizeSuffixes);
  }

  /** `testParseInt`: "1MiB" is 1048576. */
  lemma ParseIntMebi(v: string)
    requires v == "1MiB"
    ensures ParseIntValue(v) == Some(1048576)
  {
    var low := ShowInt(1) + SizeSuffixes[1].0;
    assert ToLower(v) == low by { ShowOne(); }
    ParseIntSuffix(1, 1);
    ParseScaledViaLower(v, low, SizeSuffixes);
  }

  /** The documented example of `parseTimeLength`: 10m is 600 seconds. */
  lemma ParseTimeMinutes(v: string)
    requires v == "10m"
    ensures ParseTimeLength(v) == Some(600)
  {
    assert v == ShowInt(10) + TimeSuffixes[4].0 by { ShowTen(); }
    ParseTimeSuffix(10, 4);
  }

  /** The documented example of `parseTimeLength`: 1h is 3600 seconds. */
  lemma ParseTimeHours(v: string)
    requires v == "1h"
    ensures ParseTimeLength(v) == Some(3600)
  {
    assert v == ShowInt(1) + TimeSuffixes[5].0 by { ShowOne(); }
    ParseTimeSuffix(1, 5);
  }

  lemma ShowOne()
    ensures ShowInt(1) == "1"
  {
  }

  lemma ShowTen()
    ensures ShowInt(10) == "10"
  {
  }

  lemma ParseScaledViaLower(v: string, low: string, t: seq<(string, int)>)
    requires ToLower(v) == low
    ensures ParseScaled(v, t) == ParseScaled(low, t)
  {
    ParseScaledIgnoresCase(v, t);
  }

  /* ---------------------------------------------------------------------
     Nested join
     --------------------------------------------------------------------- */

  /** An element of the collection handed to `join`: a plain object (its
      `toString` text) or a nested collection or array, which `join` walks
      recursively. */
  datatype Item = Leaf(text: string) | Nest(items: seq<Item>)

  /** `join(sb, sep, c)`: appends the items from index `i` on to the builder
      `sb`; after every item but the last the separator is appended, but only
      when `sep` is not `null` and the builder is not empty at that point. */
  function JoinFrom(sb: string, sep: Option<string>, c: seq<Item>, i: nat): string
    requires i <= |c|
    decreases c, |c| - i
  {
    if i == |c| then sb
    else
      var afterItem := JoinItem(sb, sep, c[i]);
      var afterSep :=
        if sep.Some? && |afterItem| > 0 && i < |c| - 1 then afterItem + sep.value else afterItem;
      JoinFrom(afterSep, sep, c, i + 1)
  }

  /** One element of the walk: a plain text is appended, a nested collection
      is joined into the same builder. */
  function JoinItem(sb: string, sep: Option<string>, it: Item): string
    decreases it
  {
    match it
    case Leaf(t) => sb + t
    case Nest(cs) => JoinFrom(sb, sep, cs, 0)
  }

  /** `join(sep, c...)`: the same into a fresh builder. */
  function JoinItems(sep: Option<string>, c: seq<Item>): string {
    JoinFrom("", sep, c, 0)
  }

  /** The plain texts of a nested collection, in walking order. */
  function Flatten(c: seq<Item>): seq<string>
    decreases c
  {
    if |c| == 0 then [] else Texts(c[0]) + Flatten(c[1..])
  }

  function Texts(it: Item): seq<string>
    decreases it
  {
    match it
    case Leaf(t) => [t]
    case Nest(cs) => Flatten(cs)
  }

  /** Concatenation of texts. */
  function Concat(ps: seq<string>): string {
    if |ps| == 0 then "" else ps[0] + Concat(ps[1..])
  }

  /** Every plain text non-empty and every nested collection non-empty, at
      every depth. */
  predicate Dense(c: seq<Item>)
    decreases c
  {
    |c| == 0 || (DenseItem(c[0]) && Dense(c[1..]))
  }

  predicate DenseItem(it: Item)
    decreases it
  {
    match it
    case Leaf(t) => |t| > 0
    case Nest(cs) => |cs| > 0 && Dense(cs)
  }

  lemma {:induction false} ConcatAppend(a: seq<string>, b: seq<string>)
    ensures Concat(a + b) == Concat(a) + Concat(b)
    decreases |a|
  {
    if |a| > 0 {
      assert (a + b)[0] == a[0];
      assert (a + b)[1..] == a[1..] + b;
      ConcatAppend(a[1..], b);
    } else {
      assert a + b == b;
    }
  }

  lemma {:induction false} JoinAppend(a: seq<string>, b: seq<string>, sep: string)
    requires |a| > 0 && |b| > 0
    ensures Join(a + b, sep) == Join(a, sep) + sep + Join(b, sep)
    decreases |a|
  {
    if |a| == 1 {
      assert (a + b)[1..] == b;
    } else {
      assert (a + b)[1..] == a[1..] + b;
      JoinAppend(a[1..], b, sep);
    }
  }

  /** The walk from index `i` starts with item `i`. */
  lemma FromIndex(c: seq<Item>, i: nat)
    requires i < |c|
    ensures Flatten(c[i..]) == Texts(c[i]) + Flatten(c[i + 1..])
    ensures Dense(c[i..]) <==> DenseItem(c[i]) && Dense(c[i + 1..])
  {
    assert c[i..][0] == c[i] && c[i..][1..] == c[i + 1..];
  }

  /** With a `null` separator, `join` concatenates the plain texts. */
  lemma {:induction false} JoinNullConcatenates(sb: string, c: seq<Item>, i: nat)
    requires i <= |c|
    ensures JoinFrom(sb, None, c, i) == sb + Concat(Flatten(c[i..]))
    decreases c, |c| - i
  {
    if i < |c| {
      FromIndex(c, i);
      JoinItemNullConcatenates(sb, c[i]);
      var afterItem := sb + Concat(Texts(c[i]));
      JoinNullConcatenates(afterItem, c, i + 1);
      ConcatAppend(Texts(c[i]), Flatten(c[i + 1..]));
    } else {
      assert c[i..] == [];
    }
  }

  lemma {:induction false} JoinItemNullConcatenates(sb: string, it: Item)
    ensures JoinItem(sb, None, it) == sb + Concat(Texts(it))
    decreases it
  {
    match it
    case Leaf(t) =>
    case Nest(cs) =>
      assert cs[0..] == cs;
      JoinNullConcatenates(sb, cs, 0);
  }

  /** A dense collection flattens to a non-empty list of non-empty texts. */
  lemma {:induction false} DenseFlattens(c: seq<Item>)
    requires |c| > 0 && Dense(c)
    ensures |Flatten(c)| > 0
    ensures forall k :: 0 <= k < |Flatten(c)| ==> |Flatten(c)[k]| > 0
    decreases c
  {
    DenseItemTexts(c[0]);
    if |c| > 1 {
      DenseFlattens(c[1..]);
    }
  }

  lemma {:induction false} DenseItemTexts(it: Item)
    requires DenseItem(it)
    ensures |Texts(it)| > 0
    ensures forall k :: 0 <= k < |Texts(it)| ==> |Texts(it)[k]| > 0
    decreases it
  {
    match it
    case Leaf(t) =>
    case Nest(cs) => DenseFlattens(cs);
  }

  /** With a separator, a dense collection joins exactly like the flat list
      of its texts joined with the separator between neighbours. */
  lemma {:induction false} JoinSeparates(sb: string, sep: string, c: seq<Item>, i: nat)
    requires i <= |c| && Dense(c[i..])
    ensures JoinFrom(sb, Some(sep), c, i) == sb + Join(Flatten(c[i..]), sep)
    decreases c, |c| - i
  {
    if i < |c| {
      FromIndex(c, i);
      JoinItemSeparates(sb, sep, c[i]);
      DenseItemTexts(c[i]);
      if i == |c| - 1 {
        JoinSeparatesLast(sb, sep, c, i);
      } else {
        JoinEnds(Texts(c[i]), sep);
        JoinSeparates(sb + Join(Texts(c[i]), sep) + sep, sep, c, i + 1);
        DenseFlattens(c[i + 1..]);
        JoinSeparatesMore(sb, sep, c, i);
      }
    } else {
      assert c[i..] == [];
    }
  }

  lemma JoinSeparatesLast(sb: string, sep: string, c: seq<Item>, i: nat)
    requires i == |c| - 1
    requires JoinItem(sb, Some(sep), c[i]) == sb + Join(Texts(c[i]), sep)
    ensures JoinFrom(sb, Some(sep), c, i) == sb + Join(Texts(c[i]) + Flatten(c[i + 1..]), sep)
  {
    JoinStep(sb, Some(sep), c, i);
    assert c[i + 1..] == [];
    assert Texts(c[i]) + Flatten(c[i + 1..]) == Texts(c[i]);
  }

  lemma JoinSeparatesMore(sb: string, sep: string, c: seq<Item>, i: nat)
    requires i < |c| - 1
    requires |Join(Texts(c[i]), sep)| > 0 && |Texts(c[i])| > 0 && |Flatten(c[i + 1..])| > 0
    requires JoinItem(sb, Some(sep), c[i]) == sb + Join(Texts(c[i]), sep)
    requires var x := sb + Join(Texts(c[i]), sep) + sep;
      JoinFrom(x, Some(sep), c, i + 1) == x + Join(Flatten(c[i + 1..]), sep)
    ensures JoinFrom(sb, Some(sep), c, i) == sb + Join(Texts(c[i]) + Flatten(c[i + 1..]), sep)
  {
    var a := JoinItem(sb, Some(sep), c[i]);
    var j1, j2 := Join(Texts(c[i]), sep), Join(Flatten(c[i + 1..]), sep);
    JoinStep(sb, Some(sep), c, i);
    assert JoinFrom(sb, Some(sep), c, i) == JoinFrom(a + sep, Some(sep), c, i + 1);
    assert a + sep == sb + j1 + sep;
    JoinAppend(Texts(c[i]), Flatten(c[i + 1..]), sep);
    assert sb + j1 + sep + j2 == sb + (j1 + sep + j2);
  }

  lemma JoinStep(sb: string, sep: Option<string>, c: seq<Item>, i: nat)
    requires i < |c|
    ensures var a := JoinItem(sb, sep, c[i]);
      JoinFrom(sb, sep, c, i) ==
      JoinFrom(if sep.Some? && |a| > 0 && i < |c| - 1 then a + sep.value else a, sep, c, i + 1)
  {
  }

  lemma {:induction false} JoinItemSeparates(sb: string, sep: string, it: Item)
    requires DenseItem(it)
    ensures JoinItem(sb, Some(sep), it) == sb + Join(Texts(it), sep)
    decreases it
  {
    match it
    case Leaf(t) =>
    case Nest(cs) =>
      assert cs[0..] == cs;
      JoinSeparates(sb, sep, cs, 0);
  }

  /** What `join` yields for a whole collection: with a `null` separator the
      plain texts run together; with a separator, a collection whose texts
      and nested collections are all non-empty is joined exactly like the
      flat list of its texts, the separator between neighbours only. */
  lemma JoinItemsFlattens(sep: Option<string>, c: seq<Item>)
    ensures sep.None? ==> JoinItems(sep, c) == Concat(Flatten(c))
    ensures sep.Some? && Dense(c) ==> JoinItems(sep, c) == Join(Flatten(c), sep.value)
  {
    assert c[0..] == c;
    if sep.None? {
      JoinNullConcatenates("", c, 0);
    } else if Dense(c) {
      JoinSeparates("", sep.value, c, 0);
    }
  }

  /** `testJoinArray`/`testJoinCol`: two texts with a separator, and without. */
  lemma JoinTwo(x: string, y: string, sep: string)
    requires |x| > 0 && |y| > 0
    ensures JoinItems(Some(sep), [Leaf(x), Leaf(y)]) == x + sep + y
    ensures JoinItems(None, [Leaf(x), Leaf(y)]) == x + y
  {
    var c := [Leaf(x), Leaf(y)];
    assert c[1..] == [Leaf(y)] && c[1..][1..] == [];
    assert Flatten(c[1..]) == [y] + Flatten([]);
    assert Flatten(c) == [x, y];
    assert DenseItem(c[0]) && DenseItem(c[1]) && Dense(c[1..][1..]);
    assert Dense(c[1..]) && Dense(c);
    JoinItemsFlattens(Some(sep), c);
    JoinItemsFlattens(None, c);
    assert Join([x, y], sep) == x + sep + Join([y], sep);
    assert Concat([x, y]) == x + Concat([y]) && Concat([y]) == y + Concat([]);
  }

  /** `testJoinCols`: nested collections are flattened into one run of
      texts, the separator also falling between the collections. */
  lemma JoinNested(c1: seq<Item>, c2: seq<Item>, sep: string)
    requires |c1| > 0 && |c2| > 0 && Dense(c1) && Dense(c2)
    ensures JoinItems(Some(sep), [Nest(c1), Nest(c2)]) ==
      Join(Flatten(c1), sep) + sep + Join(Flatten(c2), sep)
  {
    var c := [Nest(c1), Nest(c2)];
    assert c[1..] == [Nest(c2)] && c[1..][1..] == [];
    assert Flatten(c[1..]) == Flatten(c2) + Flatten([]);
    assert Flatten(c) == Flatten(c1) + Flatten(c2);
    assert DenseItem(c[0]) && DenseItem(c[1]) && Dense(c[1..][1..]);
    assert Dense(c[1..]) && Dense(c);
    DenseFlattens(c1);
    DenseFlattens(c2);
    JoinItemsFlattens(Some(sep), c);
    JoinAppend(Flatten(c1), Flatten(c2), sep);
  }

  /** `join(null)` of nothing is the empty text. */
  lemma JoinNothing(sep: Option<string>)
    ensures JoinItems(sep, []) == ""
  {
  }

  /** The separator test looks at the whole builder, not at the item just
      appended: an empty text in front adds no separator, while an empty
      nested collection at the end still gets one. */
  lemma JoinEmptyPieces(x: string, sep: string)
    requires |x| > 0
    ensures JoinItems(Some(sep), [Leaf(""), Leaf(x)]) == x
    ensures JoinItems(Some(sep), [Leaf(x), Nest([])]) == x + sep
  {
    var c1 := [Leaf(""), Leaf(x)];
    assert JoinItem("", Some(sep), c1[0]) == "";
    assert JoinFrom(x, Some(sep), c1, 2) == x;
    assert JoinFrom("", Some(sep), c1, 1) == x;
    var c2 := [Leaf(x), Nest([])];
    assert JoinItem("", Some(sep), c2[0]) == x;
    assert JoinItem(x + sep, Some(sep), c2[1]) == x + sep;
    assert JoinFrom(x + sep, Some(sep), c2, 2) == x + sep;
    assert JoinFrom(x + sep, Some(sep), c2, 1) == x + sep;
  }

  /* ---------------------------------------------------------------------
     Plural words, fields and parameters
     --------------------------------------------------------------------- */

  /** `withS(count, name)`: the count, a space, and the name, pluralised with
      an `s` unless the count is 1 or -1. */
  function WithS(count: int, name: string): string {
    ShowInt(count) + " " + name + (if count == 1 || count == -1 then "" else "s")
  }

  /** The text before the first space reads back as the count. */
  lemma WithSCount(count: int, name: string)
    ensures var r := WithS(count, name); var k := IndexOfChar(r, ' ');
      k > 0 && ParseInteger(r[..k]) == Some(count)
  {
    WithSSpace(count, name);
    ParseShowInt(count);
  }

  /** What follows the first space is the name, with an `s` added exactly
      when the count is not 1 or -1. */
  lemma WithSPlural(count: int, name: string)
    ensures var r := WithS(count, name); var k := IndexOfChar(r, ' ');
      k >= 0 && StartsWith(r[k + 1..], name) &&
      (count == 1 || count == -1 <==> |r| == k + 1 + |name|) &&
      (count != 1 && count != -1 ==> r[|r| - 1] == 's')
  {
    WithSSpace(count, name);
  }

  lemma WithSSpace(count: int, name: string)
    ensures var r := WithS(count, name);
      IndexOfChar(r, ' ') == |ShowInt(count)| && r[..|ShowInt(count)|] == ShowInt(count) &&
      r[|ShowInt(count)| + 1..] == name + (if count == 1 || count == -1 then "" else "s")
  {
    var shown := ShowInt(count);
    var r := WithS(count, name);
    assert r == shown + (" " + name + (if count == 1 || count == -1 then "" else "s"));
    assert ' ' !in shown by {
      ShowIntChars(count);
    }
    IndexOfCharIs(r, ' ', |shown|);
  }

  /** `getStringValue(p, idx, defval)`: field `idx` of `p` split at `_`
      (Java's `split`, trailing empty fields dropped), or `defval` past the
      last field; `None` stands for the exception a negative index raises. */
  function GetStringValue(p: string, idx: int, defval: string): (r: Option<string>)
    ensures r.None? <==> idx < 0
    ensures r.Some? ==> r.value == defval || '_' !in r.value
  {
    var fields := JavaSplit(p, '_');
    if idx < 0 then None
    else if idx < |fields| then Some(fields[idx])
    else Some(defval)
  }

  /** Fields written out with `_` between them are read back one by one,
      and any index past the last field gives the default. */
  lemma GetStringValueJoin(fields: seq<string>, idx: int, defval: string)
    requires |fields| >= 1 && |fields[|fields| - 1]| > 0
    requires forall i :: 0 <= i < |fields| ==> '_' !in fields[i]
    requires idx >= 0
    ensures 0 <= idx < |fields| ==> GetStringValue(Join(fields, "_"), idx, defval) == Some(fields[idx])
    ensures idx >= |fields| ==> GetStringValue(Join(fields, "_"), idx, defval) == Some(defval)
  {
    var p := Join(fields, "_");
    if |fields| > 1 {
      assert p == fields[0] + "_" + Join(fields[1..], "_");
      assert p[|fields[0]|] == '_';
      JoinSplit(fields, '_');
      assert DropTrailingEmpty(fields) == fields;
    }
  }

  /** `splitParam(es)`: the name before the first `=` and the value after
      it; `None` stands for the exception raised when there is no `=`. */
  function SplitParam(es: string): (r: Option<(string, string)>)
    ensures r.None? <==> '=' !in es
    ensures r.Some? ==> '=' !in r.value.0 && es == r.value.0 + "=" + r.value.1
  {
    var pos := IndexOfChar(es, '=');
    if pos < 0 then None else Some((es[..pos], es[pos + 1..]))
  }

  /** A name without `=` and any value come back from `name=value`. */
  lemma SplitParamJoin(name: string, value: string)
    requires '=' !in name
    ensures SplitParam(name + "=" + value) == Some((name, value))
  {
    var es := name + "=" + value;
    assert es[..|name|] == name && es[|name|] == '=';
    IndexOfCharIs(es, '=', |name|);
    assert es[|name| + 1..] == value;
  }

  /* ---------------------------------------------------------------------
     Template substitution
     --------------------------------------------------------------------- */

  /** Where `applyArgOnce` finds its next `{key}`: the first `{` and the
      first `}` after it, or `None` when there is no `{` or no `}` after
      it. */
  function Brace(s: string): (r: Option<(nat, nat)>)
    ensures r.Some? ==> r.value.0 < r.value.1 < |s|
    ensures r.Some? ==> s[r.value.0] == '{' && s[r.value.1] == '}'
  {
    var p1 := IndexOfChar(s, '{');
    if p1 < 0 then None
    else
      var p2 := IndexOfChar(s[p1..], '}');
      if p2 <= 0 then None else Some((p1, p1 + p2))
  }

  /** The scan of `applyArgOnce`: up to the next `{` the text is copied; a
      `{key}` whose key is non-empty and known is replaced by its value,
      any other `{...}` is copied verbatim; from a `{` with no `}` after it
      the rest is copied verbatim. */
  function Substitute(s: string, params: map<string, string>): string
    decreases |s|
  {
    match Brace(s)
    case None => s
    case Some((open, close)) =>
      s[..open] + Piece(s[open + 1..close], params) + Substitute(s[close + 1..], params)
  }

  /** What a `{key}` turns into. */
  function Piece(key: string, params: map<string, string>): string {
    if |key| > 0 && key in params then params[key] else "{" + key + "}"
  }

  /** `applyArgOnce(input, params)`: a `null` or empty map leaves the input
      as it is. */
  function ApplyArgOnce(input: string, params: map<string, string>): (r: string)
    ensures |params| == 0 ==> r == input
  {
    if |params| == 0 then input
    else
      SubstituteNoKnownKey(input, params);
      Substitute(input, params)
  }

  /** With no keys at all, substitution copies the text. */
  lemma {:induction false} SubstituteNoKnownKey(s: string, params: map<string, string>)
    ensures |params| == 0 ==> Substitute(s, params) == s
    decreases |s|
  {
    if |params| == 0 {
      match Brace(s)
      case None =>
      case Some((open, close)) =>
        var rest := s[close + 1..];
        SubstituteNoKnownKey(rest, params);
        assert Piece(s[open + 1..close], params) == s[open..close + 1] by {
          assert s[open..close + 1] == [s[open]] + s[open + 1..close] + [s[close]];
        }
        assert s == s[..open] + s[open..close + 1] + rest;
    }
  }

  /** Where the scan stops for `pre{key}post`. */
  lemma BraceAt(pre: string, key: string, post: string)
    requires '{' !in pre && '}' !in key
    ensures var s := pre + "{" + key + "}" + post;
      Brace(s) == Some((|pre|, |pre| + |key| + 1)) &&
      s[..|pre|] == pre && s[|pre| + 1..|pre| + |key| + 1] == key && s[|pre| + |key| + 2..] == post
  {
    var t := "{" + key + "}" + post;
    var s := pre + t;
    assert s == pre + "{" + key + "}" + post;
    OpenAt(pre, t);
    CloseAt(key, post);
    BraceParts(pre, key, post);
    BraceIs(s, |pre|, |key| + 1);
  }

  lemma OpenAt(pre: string, t: string)
    requires '{' !in pre && |t| > 0 && t[0] == '{'
    ensures IndexOfChar(pre + t, '{') == |pre| && (pre + t)[|pre|..] == t
  {
    var s := pre + t;
    assert s[..|pre|] == pre;
    IndexOfCharIs(s, '{', |pre|);
  }

  lemma CloseAt(key: string, post: string)
    requires '}' !in key
    ensures IndexOfChar("{" + key + "}" + post, '}') == |key| + 1
  {
    var t := "{" + key + "}" + post;
    assert t[..|key| + 1] == "{" + key;
    IndexOfCharIs(t, '}', |key| + 1);
  }

  lemma BraceParts(pre: string, key: string, post: string)
    ensures var s := pre + "{" + key + "}" + post;
      s[..|pre|] == pre && s[|pre| + 1..|pre| + |key| + 1] == key && s[|pre| + |key| + 2..] == post
  {
  }

  lemma BraceIs(s: string, p1: int, p2: int)
    requires IndexOfChar(s, '{') == p1 >= 0 && IndexOfChar(s[p1..], '}') == p2 > 0
    ensures Brace(s) == Some((p1, p1 + p2))
  {
  }

  /** One step of the scan: plain text up to the first `{`, then the
      bracketed key up to the first `}`, then the rest. */
  lemma SubstituteStep(pre: string, key: string, post: string, params: map<string, string>)
    requires '{' !in pre && '}' !in key
    ensures Substitute(pre + "{" + key + "}" + post, params) == pre + Piece(key, params) + Substitute(post, params)
  {
    var s := pre + "{" + key + "}" + post;
    var open, close := |pre|, |pre| + |key| + 1;
    assert Substitute(s, params) ==
      s[..open] + Piece(s[open + 1..close], params) + Substitute(s[close + 1..], params) by {
      BraceAt(pre, key, post);
    }
    assert s[..open] == pre && s[open + 1..close] == key && s[close + 1..] == post by {
      BraceAt(pre, key, post);
    }
  }

  /** A `{` never closed afterwards leaves the rest of the text verbatim. */
  lemma SubstituteUnclosed(pre: string, post: string, params: map<string, string>)
    requires '{' !in pre && '}' !in post
    ensures Substitute(pre + "{" + post, params) == pre + "{" + post
  {
    var s := pre + "{" + post;
    assert s[..|pre|] == pre && s[|pre|] == '{';
    IndexOfCharIs(s, '{', |pre|);
    assert s[|pre|..] == "{" + post;
  }

  /** Text without any `{` is copied unchanged. */
  lemma SubstitutePlain(s: string, params: map<string, string>)
    requires '{' !in s
    ensures Substitute(s, params) == s
  {
  }

  /** `applyArg(input, params)` as written: when the first pass changes the
      text, a second pass runs on its output; when that changes it again,
      `applyArgOnce` is called a third time, but on the same input as the
      second pass. */
  function ApplyArgAsWritten(input: string, params: map<string, string>): (r: string)
    ensures |params| == 0 ==> r == input
    ensures ApplyArgOnce(input, params) == input ==> r == input
    ensures r == ApplyArgOnce(ApplyArgOnce(input, params), params)
  {
    var res := ApplyArgOnce(input, params);
    if res != input then
      var res2 := ApplyArgOnce(res, params);
      if res2 != res then ApplyArgOnce(res, params) else res2
    else res
  }

  /** As written, `applyArg` is exactly two passes: the third call repeats
      the second. */
  lemma ApplyArgAsWrittenIsTwoPasses(input: string, params: map<string, string>)
    ensures ApplyArgAsWritten(input, params) == ApplyArgOnce(ApplyArgOnce(input, params), params)
  {
  }

  /** `applyArg` as evidently intended: up to three passes, each on the
      previous pass's output, stopping as soon as a pass changes nothing. */
  function ApplyArg(input: string, params: map<string, string>): (r: string)
    ensures |params| == 0 ==> r == input
    ensures ApplyArgOnce(input, params) == input ==> r == input
  {
    var res := ApplyArgOnce(input, params);
    if res == input then res
    else
      var res2 := ApplyArgOnce(res, params);
      if res2 == res then res2 else ApplyArgOnce(res2, params)
  }

  /** Whenever two passes already reach a text the next pass leaves alone,
      both versions agree. */
  lemma ApplyArgAgrees(input: string, params: map<string, string>)
    requires var twice := ApplyArgOnce(ApplyArgOnce(input, params), params);
      ApplyArgOnce(twice, params) == twice
    ensures ApplyArg(input, params) == ApplyArgAsWritten(input, params)
  {
  }

  /** A single known `{key}` in otherwise plain text is replaced by its
      value, as long as the value brings in no `{` of its own; both versions
      of `applyArg` agree on it. */
  lemma ApplyArgKnown(pre: string, key: string, post: string, params: map<string, string>)
    requires '{' !in pre && '}' !in key && '{' !in post
    requires |key| > 0 && key in params && '{' !in params[key]
    ensures ApplyArg(pre + "{" + key + "}" + post, params) == pre + params[key] + post
    ensures ApplyArgAsWritten(pre + "{" + key + "}" + post, params) == pre + params[key] + post
  {
    var input := pre + "{" + key + "}" + post;
    var out := pre + params[key] + post;
    assert ApplyArgOnce(input, params) == out by {
      SubstituteStep(pre, key, post, params);
      SubstitutePlain(post, params);
    }
    assert ApplyArgOnce(out, params) == out by {
      SubstitutePlain(out, params);
    }
    assert input != out by {
      assert input[|pre|] == '{';
      assert |out| <= |pre| || out[|pre|] != '{';
    }
  }

  /** A `{key}` whose key is unknown (or empty) stays as it is. */
  lemma ApplyArgUnknown(pre: string, key: string, post: string, params: map<string, string>)
    requires '{' !in pre && '}' !in key && '{' !in post
    requires |key| == 0 || key !in params
    ensures ApplyArg(pre + "{" + key + "}" + post, params) == pre + "{" + key + "}" + post
    ensures ApplyArgAsWritten(pre + "{" + key + "}" + post, params) == pre + "{" + key + "}" + post
  {
    var input := pre + "{" + key + "}" + post;
    assert Substitute(input, params) == pre + Piece(key, params) + post by {
      SubstituteStep(pre, key, post, params);
      SubstitutePlain(post, params);
    }
    assert Piece(key, params) == "{" + key + "}";
    Regroup(pre, "{", key, "}", post);
  }

  lemma RegroupTail(a: string, b: string, c: string, d: string, e: string)
    ensures a + b + (c + d + e) == a + b + c + d + e
  {
  }

  lemma Regroup(a: string, b: string, c: string, d: string, e: string)
    ensures a + (b + c + d) + e == a + b + c + d + e
  {
  }

  /** A `{` left open stays as it is. */
  lemma ApplyArgUnclosed(pre: string, post: string, params: map<string, string>)
    requires '{' !in pre && '}' !in post
    ensures ApplyArg(pre + "{" + post, params) == pre + "{" + post
    ensures ApplyArgAsWritten(pre + "{" + post, params) == pre + "{" + post
  {
    SubstituteUnclosed(pre, post, params);
  }

  /** `testApply`: "TEST{targetRate}END" becomes "TEST12345END". */
  lemma ApplyArgTestKnown(params: map<string, string>, v: string)
    requires params == map["targetRate" := "12345", "warmupTime" := "777"]
    requires v == "TEST{targetRate}END"
    ensures ApplyArgAsWritten(v, params) == "TEST12345END"
  {
    var pre, key, post := "TEST", "targetRate", "END";
    assert pre + params[key] + post == "TEST12345END" by {
      assert params[key] == "12345";
    }
    assert v == pre + "{" + key + "}" + post;
    ApplyArgKnown(pre, key, post, params);
  }

  /** `testApply`: "TEST{args}END" has no known key and stays as it is. */
  lemma ApplyArgTestUnknown(params: map<string, string>, v: string)
    requires params == map["targetRate" := "12345", "warmupTime" := "777"]
    requires v == "TEST{args}END"
    ensures ApplyArgAsWritten(v, params) == v
  {
    var pre, key, post := "TEST", "args", "END";
    assert v == pre + "{" + key + "}" + post;
    ApplyArgUnknown(pre, key, post, params);
  }

  /** `testApply`: "TEST{targetRate" has no closing brace and stays. */
  lemma ApplyArgTestUnclosed(params: map<string, string>, v: string)
    requires params == map["targetRate" := "12345", "warmupTime" := "777"]
    requires v == "TEST{targetRate"
    ensures ApplyArgAsWritten(v, params) == v
  {
    var pre, post := "TEST", "targetRate";
    assert v == pre + "{" + post;
    ApplyArgUnclosed(pre, post, params);
  }

  /** Two known keys in otherwise plain text are both replaced in the first
      pass. */
  lemma ApplyArgTwoKnown(pre1: string, key1: string, pre2: string, key2: string, post: string,
                         params: map<string, string>)
    requires '{' !in pre1 && '{' !in pre2 && '{' !in post && '}' !in key1 && '}' !in key2
    requires |key1| > 0 && key1 in params && '{' !in params[key1]
    requires |key2| > 0 && key2 in params && '{' !in params[key2]
    ensures ApplyArgAsWritten(pre1 + "{" + key1 + "}" + (pre2 + "{" + key2 + "}" + post), params) ==
      pre1 + params[key1] + pre2 + params[key2] + post
  {
    var tail := pre2 + "{" + key2 + "}" + post;
    var out := pre1 + params[key1] + pre2 + params[key2] + post;
    assert Substitute(tail, params) == pre2 + params[key2] + post by {
      SubstituteStep(pre2, key2, post, params);
      SubstitutePlain(post, params);
    }
    assert Substitute(pre1 + "{" + key1 + "}" + tail, params) == pre1 + params[key1] + Substitute(tail, params) by {
      SubstituteStep(pre1, key1, tail, params);
    }
    OnceSubstitutes(pre1 + "{" + key1 + "}" + tail, params, key1);
    RegroupTail(pre1, params[key1], pre2, params[key2], post);
    assert '{' !in out;
    OncePlain(out, params);
  }

  lemma OnceSubstitutes(s: string, params: map<string, string>, key: string)
    requires key in params
    ensures ApplyArgOnce(s, params) == Substitute(s, params)
  {
  }

  lemma OncePlain(s: string, params: map<string, string>)
    requires '{' !in s
    ensures ApplyArgOnce(s, params) == s
  {
  }

  /** A text that is a single known `{key}` becomes the key's value. */
  lemma OnceSingle(s: string, key: string, params: map<string, string>)
    requires s == "{" + key + "}" && '}' !in key && |key| > 0 && key in params
    ensures ApplyArgOnce(s, params) == params[key]
  {
    assert s == "" + "{" + key + "}" + "";
    SubstituteStep("", key, "", params);
  }

  /** A chain of three references: as written `{a}` stops at `{c}`, the
      intended third pass reaches `X`. */
  lemma ApplyArgChain(params: map<string, string>, a: string, b: string, c: string, x: string)
    requires a == "{a}" && b == "{b}" && c == "{c}" && x == "X"
    requires params == map["a" := b, "b" := c, "c" := x]
    ensures ApplyArgAsWritten(a, params) == c
    ensures ApplyArg(a, params) == x
  {
    var ka, kb, kc := "a", "b", "c";
    assert a == "{" + ka + "}" && params[ka] == b;
    assert b == "{" + kb + "}" && params[kb] == c;
    assert c == "{" + kc + "}" && params[kc] == x;
    OnceSingle(a, ka, params);
    OnceSingle(b, kb, params);
    OnceSingle(c, kc, params);
  }
}

=== FILE: hdrconfig.dfy ===
/** The histogram settings every benchmark configuration carries: time
    cut-offs and intervals, the histogram unit divider, where the histogram
    files go, the default metric name and units, and the operation filters. */
module HdrConfig {
  import opened Wrappers
  import opened Numbers
  import opened Strings
  import MetricNames

  datatype HdrConfig = HdrConfig(
    hdrCutTime: int,
    hdrInterval: int,
    reportInterval: int,
    progressInterval: int,
    hdrFactor: real,
    includeWarmup: bool,
    histogramsDir: Option<string>,
    metricName: string,
    rateUnits: string,
    timeUnits: string,
    operationsInclude: Option<seq<string>>,
    operationsExclude: Option<seq<string>>,
    runProperties: Option<map<string, string>>,
    runPropertiesFile: Option<string>)

  /** The field initialisers. */
  const Default: HdrConfig := HdrConfig(
    0, 1000, 3000, 5000, 1000.0, false, Some("./histograms"),
    MetricNames.ServiceTime, "op/s", "ms", None, None, None, None)

  /** Which check of `validate` threw.  `FormatConversion` is what the
      hdrFactor check actually throws: its message formats a `double` with
      `%d`, so building the message fails before the intended exception
      exists. */
  datatype ConfigError =
    | BadHdrCutTime
    | NullHistogramsDir
    | BadHdrInterval
    | BadHdrFactor
    | BadReportInterval
    | BadProgressInterval
    | BadPattern(pattern: string)
    | FormatConversion

  /** `copy`: every field of `src` replaces the field of `dst`. */
  function Copy(dst: HdrConfig, src: HdrConfig): (r: HdrConfig)
    ensures r == src
  {
    dst.(hdrCutTime := src.hdrCutTime, hdrInterval := src.hdrInterval,
         reportInterval := src.reportInterval, progressInterval := src.progressInterval,
         hdrFactor := src.hdrFactor, includeWarmup := src.includeWarmup,
         histogramsDir := src.histogramsDir, metricName := src.metricName,
         rateUnits := src.rateUnits, timeUnits := src.timeUnits,
         operationsInclude := src.operationsInclude, operationsExclude := src.operationsExclude,
         runProperties := src.runProperties, runPropertiesFile := src.runPropertiesFile)
  }

  /** The first pattern that does not compile, if any; `compiles` stands for
      `Pattern.compile` not throwing. */
  function FirstBadPattern(patterns: Option<seq<string>>, compiles: string -> bool): (r: Option<string>)
    ensures r.Some? ==> patterns.Some? && r.value in patterns.value && !compiles(r.value)
    ensures r.None? ==> patterns.None? || forall i :: 0 <= i < |patterns.value| ==> compiles(patterns.value[i])
  {
    match patterns
    case None => None
    case Some(ps) => FirstFailing(ps, compiles)
  }

  function FirstFailing(ps: seq<string>, compiles: string -> bool): (r: Option<string>)
    ensures r.Some? ==> r.value in ps && !compiles(r.value)
    ensures r.None? ==> forall i :: 0 <= i < |ps| ==> compiles(ps[i])
  {
    if |ps| == 0 then None
    else if !compiles(ps[0]) then Some(ps[0])
    else FirstFailing(ps[1..], compiles)
  }

  /** `validate` as written: the checks in source order, the first failing
      one throws; the hdrFactor check throws a format error instead of its
      own message. */
  function Validate(c: HdrConfig, compiles: string -> bool): (r: Result<(), ConfigError>)
    ensures r.Success? <==> Valid(c, compiles)
    ensures ValidateIntended(c, compiles) == Failure(BadHdrFactor) ==> r == Failure(FormatConversion)
    ensures ValidateIntended(c, compiles) != Failure(BadHdrFactor) ==> r == ValidateIntended(c, compiles)
  {
    if c.hdrCutTime >= 0 && c.histogramsDir.Some? && c.hdrInterval >= 10 && c.hdrFactor <= 0.0 then
      Failure(FormatConversion)
    else ValidateIntended(c, compiles)
  }

  /** `validate` with each check throwing its own message. */
  function ValidateIntended(c: HdrConfig, compiles: string -> bool): (r: Result<(), ConfigError>)
    ensures r.Success? <==> Valid(c, compiles)
    ensures r == Failure(BadHdrCutTime) <==> c.hdrCutTime < 0
    ensures r == Failure(BadHdrFactor) <==>
      c.hdrCutTime >= 0 && c.histogramsDir.Some? && c.hdrInterval >= 10 && c.hdrFactor <= 0.0
    ensures r.Failure? && r.error.BadPattern? ==> !compiles(r.error.pattern)
  {
    if c.hdrCutTime < 0 then Failure(BadHdrCutTime)
    else if c.histogramsDir.None? then Failure(NullHistogramsDir)
    else if c.hdrInterval < 10 then Failure(BadHdrInterval)
    else if c.hdrFactor <= 0.0 then Failure(BadHdrFactor)
    else if c.reportInterval < c.hdrInterval then Failure(BadReportInterval)
    else if c.progressInterval < 0 then Failure(BadProgressInterval)
    else
      match FirstBadPattern(c.operationsInclude, compiles)
      case Some(p) => Failure(BadPattern(p))
      case None =>
        match FirstBadPattern(c.operationsExclude, compiles)
        case Some(p) => Failure(BadPattern(p))
        case None => Success(())
  }

  /** A zero hdrFactor with everything else at its default: as written the
      check fails while formatting its message; as intended it reports the
      factor. */
  lemma ZeroFactorMessage(compiles: string -> bool)
    ensures Validate(Default.(hdrFactor := 0.0), compiles) == Failure(FormatConversion)
    ensures ValidateIntended(Default.(hdrFactor := 0.0), compiles) == Failure(BadHdrFactor)
  {
  }

  /** Every constraint `validate` enforces. */
  predicate Valid(c: HdrConfig, compiles: string -> bool) {
    c.hdrCutTime >= 0 && c.histogramsDir.Some? && c.hdrInterval >= 10 && c.hdrFactor > 0.0 &&
    c.reportInterval >= c.hdrInterval && c.progressInterval >= 0 &&
    (c.operationsInclude.None? || forall i :: 0 <= i < |c.operationsInclude.value| ==> compiles(c.operationsInclude.value[i])) &&
    (c.operationsExclude.None? || forall i :: 0 <= i < |c.operationsExclude.value| ==> compiles(c.operationsExclude.value[i]))
  }

  /** The default settings pass validation whatever the pattern compiler. */
  lemma DefaultValid(compiles: string -> bool)
    ensures Validate(Default, compiles) == Success(())
  {
  }

  /** A copy validates exactly when its source does. */
  lemma CopyValidates(dst: HdrConfig, src: HdrConfig, compiles: string -> bool)
    ensures Validate(Copy(dst, src), compiles) == Validate(src, compiles)
  {
  }

  /** Where `saveRunArgs` and `loadRunArgs` keep the arguments of one step. */
  function RunArgsPath(c: HdrConfig, runStep: int): (r: string)
    requires c.histogramsDir.Some?
    ensures StartsWith(r, c.histogramsDir.value + "/run-args-")
  {
    c.histogramsDir.value + "/run-args-" + ShowInt(runStep) + ".json"
  }

  /** Different steps are kept in different files, so loading step `n`
      reads what saving step `n` wrote. */
  lemma RunArgsPathInjective(c: HdrConfig, a: int, b: int)
    requires c.histogramsDir.Some?
    requires RunArgsPath(c, a) == RunArgsPath(c, b)
    ensures a == b
  {
    var pre := c.histogramsDir.value + "/run-args-";
    var sa, sb := ShowInt(a), ShowInt(b);
    var pa := pre + sa + ".json";
    var pb := pre + sb + ".json";
    assert |sa| == |sb|;
    assert sa == pa[|pre|..|pre| + |sa|];
    assert sb == pb[|pre|..|pre| + |sb|];
    ParseShowInt(a);
    ParseShowInt(b);
  }
}

=== FILE: hdrresult.dfy ===
/** What the analyser learns about one histogram file from its name alone:
    operation, metric and run parameters (`detectValues`), or, for the
    stress tool's own histograms, the operation after the `.hdr-` mark
    (`getIterationResult`). */
module HdrResult {
  import opened Wrappers
  import opened Strings
  import opened Numbers
  import opened MetricNames
  import RunArgs
  import FileTool
  import MetricInfo
  import HdrConfig

  const TlpPrefix: string := "tlp_stress_metrics"
  const HdrMark: string := ".hdr-"
  const IntendedPref: string := "INTENDED-"

  /** The divider from recorded values to milliseconds: histograms of the
      stress tool are in microseconds, all others in nanoseconds. */
  const TlpFactor: real := 1000.0
  const NanoFactor: real := 1000000.0
  const IntervalLength: int := 1000

  /** The fields `getIterationResult` sets; `runArgs.count` is the number of
      trailing fields `detectValues` took as numbers. */
  datatype HdrResult = HdrResult(
    hdrFile: string, operationName: string, metricName: string,
    runArgs: RunArgs.Filled, histogramFactor: real, intervalLength: int)

  /** What `detectValues` fills in. */
  datatype Detected = Detected(operationName: string, metricName: string, runArgs: RunArgs.Filled)

  /** A name whose last field is a step and whose field before it is no
      number. */
  predicate StepOnly(parts: seq<string>) {
    |parts| >= 2 && ParseInt(parts[|parts| - 1]).Some? && ParseDecimal(parts[|parts| - 2]).None?
  }

  /** The two nested attempts of `detectValues`: percent, rate and step;
      else percent and step; else nothing.  Unlike `RunArgs.fillValues`
      there is no third attempt, so a step after a non-number is not
      read at all.  A field index below 0 throws out of the method. */
  function DetectNumbers(parts: seq<string>): (r: Result<RunArgs.Filled, string>)
    ensures r.Failure? <==> RunArgs.FillValues(parts).Failure?
    ensures StepOnly(parts) ==> r == Success(RunArgs.Filled(0, 0, 0.0, 0.0))
    ensures !StepOnly(parts) ==> r == RunArgs.FillValues(parts)
    ensures r.Success? ==> r.value.count <= |parts|
  {
    var n := |parts|;
    if n == 0 then Failure(RunArgs.IndexError)
    else
      match ParseInt(parts[n - 1])
      case None => Success(RunArgs.Filled(0, 0, 0.0, 0.0))
      case Some(step) =>
        if n == 1 then Failure(RunArgs.IndexError)
        else
          match ParseDecimal(parts[n - 2])
          case None => Success(RunArgs.Filled(0, 0, 0.0, 0.0))
          case Some(rate) =>
            if n == 2 then Failure(RunArgs.IndexError)
            else
              match ParseDecimal(parts[n - 3])
              case None => Success(RunArgs.Filled(2, step, 0.0, rate))
              case Some(pct) => Success(RunArgs.Filled(3, step, rate, pct))
  }

  /** The '_' fields of a file name, the two metric names hyphenated first
      so that they stay one field each. */
  function Fields(fileName: string): seq<string> {
    JavaSplit(Hyphenate(fileName), '_')
  }

  /** `detectValues` on the fields of a name: the fields before the numbers
      are joined again; the text before the first '_' (when at a positive
      index) is the operation and the rest the metric, otherwise the whole
      text is the metric and the operation is the default one. */
  function DetectFrom(parts: seq<string>, defOp: string): (r: Result<Detected, string>)
    ensures r.Failure? <==> RunArgs.FillValues(parts).Failure?
    ensures r.Success? ==> DetectNumbers(parts) == Success(r.value.runArgs)
    ensures r.Success? ==>
      var name := MetricInfo.LeadingName(parts, r.value.runArgs.count);
      if IndexOfChar(name, '_') > 0 then
        |r.value.operationName| > 0 && '_' !in r.value.operationName &&
        StartsWith(name, r.value.operationName + "_") &&
        r.value.metricName == Restore(name[|r.value.operationName| + 1..])
      else r.value.operationName == defOp && r.value.metricName == Restore(name)
  {
    match DetectNumbers(parts)
    case Failure(e) => Failure(e)
    case Success(nums) =>
      var name := MetricInfo.LeadingName(parts, nums.count);
      var split := OperationCut(name, defOp);
      if IndexOfChar(name, '_') > 0 then
        MetricInfo.CutAfter(name, split.0, split.1);
        Success(Detected(split.0, Restore(split.1), nums))
      else Success(Detected(split.0, Restore(split.1), nums))
  }

  /** The cut of `detectValues`: operation and rest at the first '_' when
      it is at a positive index, else the default operation and the whole
      name. */
  function OperationCut(name: string, defOp: string): (r: (string, string))
    ensures IndexOfChar(name, '_') > 0 ==>
      |r.0| > 0 && '_' !in r.0 && name == r.0 + "_" + r.1
    ensures IndexOfChar(name, '_') <= 0 ==> r == (defOp, name)
  {
    var pos := IndexOfChar(name, '_');
    if pos > 0 then
      var op := name[..pos];
      assert '_' !in op by {
        assert forall i :: 0 <= i < |op| ==> op[i] == name[i];
      }
      assert name == op + "_" + name[pos + 1..];
      (op, name[pos + 1..])
    else (defOp, name)
  }

  /** `detectValues` on a file name without path and extension. */
  function DetectValues(fileName: string, defOp: string): Result<Detected, string> {
    DetectFrom(Fields(fileName), defOp)
  }

  /** A histogram file of the stress tool: the prefix and the mark. */
  predicate IsTlp(fileName: string) {
    StartsWith(fileName, TlpPrefix) && IndexOf(fileName, HdrMark) >= 0
  }

  /** The operation and metric of a stress-tool histogram: the text after
      the first mark, where an `INTENDED-` operation (exact case) loses the
      prefix and measures response time. */
  function TlpNames(fileName: string): (r: (string, string))
    requires IndexOf(fileName, HdrMark) >= 0
    ensures r.1 == ResponseTime || r.1 == ServiceTime
    ensures var op := fileName[IndexOf(fileName, HdrMark) + |HdrMark|..];
      if StartsWith(op, IntendedPref) then op == IntendedPref + r.0 && r.1 == ResponseTime
      else r == (op, ServiceTime)
  {
    var op := fileName[IndexOf(fileName, HdrMark) + |HdrMark|..];
    if StartsWith(op, IntendedPref) then
      assert op == op[..|IntendedPref|] + op[|IntendedPref|..];
      (op[|IntendedPref|..], ResponseTime)
    else (op, ServiceTime)
  }

  /** `getIterationResult`: the names of a stress-tool histogram, or those
      `detectValues` reads from the base name of any other file. */
  function GetIterationResult(fileName: string, defOp: string): (r: Result<HdrResult, string>)
    ensures r.Success? ==> r.value.hdrFile == fileName && r.value.intervalLength == IntervalLength
    ensures IsTlp(fileName) ==>
      r.Success? && r.value.histogramFactor == TlpFactor &&
      r.value.runArgs == RunArgs.Filled(0, 0, 0.0, 0.0) &&
      (r.value.operationName, r.value.metricName) == TlpNames(fileName)
    ensures !IsTlp(fileName) ==>
      var d := DetectValues(FileTool.ClearPathAndExtension(fileName), defOp);
      (r.Failure? <==> d.Failure?) &&
      (r.Success? ==>
        r.value.histogramFactor == NanoFactor &&
        r.value.operationName == d.value.operationName && r.value.metricName == d.value.metricName &&
        r.value.runArgs == d.value.runArgs)
  {
    if IsTlp(fileName) then
      var names := TlpNames(fileName);
      Success(HdrResult(fileName, names.0, names.1, RunArgs.Filled(0, 0, 0.0, 0.0), TlpFactor, IntervalLength))
    else
      match DetectValues(FileTool.ClearPathAndExtension(fileName), defOp)
      case Failure(e) => Failure(e)
      case Success(d) =>
        Success(HdrResult(fileName, d.operationName, d.metricName, d.runArgs, NanoFactor, IntervalLength))
  }

  /** Fields joined with '_' contain a character that none of them does
      when that character is not '_'. */
  lemma SepFree(a: string, b: string, c: char)
    requires c !in a && c !in b && c != '_'
    ensures c !in a + "_" + b
  {
    var s := a + "_" + b;
    forall i | 0 <= i < |s| ensures s[i] != c {
      if i < |a| { assert s[i] == a[i]; }
      else if i > |a| { assert s[i] == b[i - |a| - 1]; }
    }
  }

  lemma ShowIntNoSlash(n: int)
    ensures '/' !in ShowInt(n)
  {
    var s := ShowInt(n);
    if n < 0 {
      assert s == "-" + ShowNat(-n);
      assert forall i :: 1 <= i < |s| ==> s[i] == ShowNat(-n)[i - 1];
    }
  }

  /** A written base name is one path segment. */
  lemma BaseNoSlash(op: string, metric: string, pctText: string, rateText: string, runStep: int)
    requires '/' !in op && '/' !in metric && '/' !in pctText && '/' !in rateText
    ensures '/' !in MetricInfo.FileBase(op, metric, pctText, rateText, runStep)
  {
    ShowIntNoSlash(runStep);
    var st := ShowInt(runStep);
    SepFree(op, metric, '/');
    SepFree(op + "_" + metric, pctText, '/');
    SepFree(op + "_" + metric + "_" + pctText, rateText, '/');
    SepFree(op + "_" + metric + "_" + pctText + "_" + rateText, st, '/');
  }

  /** The numbers and names `detectValues` reads from a base name written
      with all five fields are the ones written. */
  lemma DetectOfBase(op: string, metric: string, pctText: string, rateText: string,
                     pct: real, rate: real, runStep: int, defOp: string)
    requires |op| > 0 && '_' !in op && Encodable(metric)
    requires MetricInfo.Field(pctText) && MetricInfo.Field(rateText) && IsInt(runStep)
    requires ParseDecimal(pctText) == Some(pct) && ParseDecimal(rateText) == Some(rate)
    ensures DetectValues(MetricInfo.FileBase(op, metric, pctText, rateText, runStep), defOp)
         == Success(Detected(op, metric, RunArgs.Filled(3, runStep, rate, pct)))
  {
    MetricInfo.SplitFileBase(op, metric, pctText, rateText, runStep);
    ParseShowInt(runStep);
    DetectFive(op, Hyphen(metric), pctText, rateText, ShowInt(runStep), pct, rate, runStep, defOp);
    RestoreHyphen(metric);
  }

  /** Five fields, the last three numbers: the first is the operation and
      the second the metric. */
  lemma DetectFive(op: string, h: string, p: string, q: string, st: string,
                   pct: real, rate: real, runStep: int, defOp: string)
    requires |op| > 0 && '_' !in op
    requires ParseInt(st) == Some(runStep) && ParseDecimal(q) == Some(rate) && ParseDecimal(p) == Some(pct)
    ensures DetectFrom([op, h, p, q, st], defOp) == Success(Detected(op, Restore(h), RunArgs.Filled(3, runStep, rate, pct)))
  {
    var parts := [op, h, p, q, st];
    RunArgs.FillParsedThree(parts, pct, rate, runStep);
    LeadingTwo(op, h, p, q, st);
    MetricInfo.NameSplit(op, h);
    assert OperationCut(op + "_" + h, defOp) == (op, h);
  }

  lemma LeadingTwo(op: string, h: string, p: string, q: string, st: string)
    requires |op| > 0
    ensures MetricInfo.LeadingName([op, h, p, q, st], 3) == JoinFields([op, h])
  {
    assert [op, h, p, q, st][..2] == [op, h];
  }

  /** A path whose first character is not 't' is no stress-tool file. */
  lemma NotTlp(dir: string, rest: string)
    requires |dir| == 0 || dir[0] != 't'
    ensures !IsTlp(dir + "/" + rest)
  {
    var s := dir + "/" + rest;
    assert s[0] != TlpPrefix[0];
  }

  /** Reading a written histogram path back: `getIterationResult` of
      `dir/op_metric_pct_rate_step.hlog` gives the operation, metric and
      run parameters that were written, whatever the default operation. */
  lemma IterationOfFileName(path: string, dir: string, m: MetricInfo.MetricInfo, pctText: string, rateText: string,
                            pct: real, rate: real, runStep: int, defOp: string)
    requires |dir| == 0 || dir[0] != 't'
    requires |m.operationName| > 0 && '_' !in m.operationName && '/' !in m.operationName
    requires Encodable(m.metricName) && '/' !in m.metricName
    requires MetricInfo.Field(pctText) && MetricInfo.Field(rateText) && '/' !in pctText && '/' !in rateText
    requires IsInt(runStep) && ParseDecimal(pctText) == Some(pct) && ParseDecimal(rateText) == Some(rate)
    requires path == dir + "/" + MetricInfo.FormatFileName(m, pctText, rateText, runStep)
    ensures GetIterationResult(path, defOp)
         == Success(HdrResult(path, m.operationName, m.metricName, RunArgs.Filled(3, runStep, rate, pct),
                              NanoFactor, IntervalLength))
  {
    var base := MetricInfo.FileBase(m.operationName, m.metricName, pctText, rateText, runStep);
    BaseOfPath(path, dir, m, pctText, rateText, runStep);
    DetectOfBase(m.operationName, m.metricName, pctText, rateText, pct, rate, runStep, defOp);
    IterationOfDetected(path, base, defOp, Detected(m.operationName, m.metricName, RunArgs.Filled(3, runStep, rate, pct)));
  }

  /** A written histogram path is not a `tlp` file and its base name is
      the one written. */
  lemma BaseOfPath(path: string, dir: string, m: MetricInfo.MetricInfo, pctText: string, rateText: string, runStep: int)
    requires |dir| == 0 || dir[0] != 't'
    requires '/' !in m.operationName && '/' !in m.metricName && '/' !in pctText && '/' !in rateText
    requires path == dir + "/" + MetricInfo.FormatFileName(m, pctText, rateText, runStep)
    ensures !IsTlp(path)
    ensures FileTool.ClearPathAndExtension(path) == MetricInfo.FileBase(m.operationName, m.metricName, pctText, rateText, runStep)
  {
    PathOfBase(path, dir, m, pctText, rateText, runStep);
    NotTlp(dir, MetricInfo.FormatFileName(m, pctText, rateText, runStep));
    BaseNoSlash(m.operationName, m.metricName, pctText, rateText, runStep);
    FileTool.ClearPathAndExtensionOf(dir, MetricInfo.FileBase(m.operationName, m.metricName, pctText, rateText, runStep), "hlog");
  }

  lemma PathOfBase(path: string, dir: string, m: MetricInfo.MetricInfo, pctText: string, rateText: string, runStep: int)
    requires path == dir + "/" + MetricInfo.FormatFileName(m, pctText, rateText, runStep)
    ensures path == dir + "/" + MetricInfo.FileBase(m.operationName, m.metricName, pctText, rateText, runStep) + "." + "hlog"
  {
  }

  lemma IterationOfDetected(path: string, base: string, defOp: string, d: Detected)
    requires !IsTlp(path) && FileTool.ClearPathAndExtension(path) == base
    requires DetectValues(base, defOp) == Success(d)
    ensures GetIterationResult(path, defOp)
         == Success(HdrResult(path, d.operationName, d.metricName, d.runArgs, NanoFactor, IntervalLength))
  {
  }

  /** A name with a step after a non-number, `op_metric_step`: no number is
      read, the step stays in the metric name and the step is 0. */
  lemma StepOnlyInMetric(op: string, h: string, st: string, defOp: string)
    requires |op| > 0 && '_' !in op
    requires ParseDecimal(h).None? && ParseInt(st).Some?
    ensures DetectFrom([op, h, st], defOp)
         == Success(Detected(op, Restore(h + "_" + st), RunArgs.Filled(0, 0, 0.0, 0.0)))
  {
    assert StepOnly([op, h, st]);
    ThreeJoined(op, h, st);
    MetricInfo.NameSplit(op, h + "_" + st);
    assert OperationCut(op + "_" + (h + "_" + st), defOp) == (op, h + "_" + st);
  }

  lemma ThreeJoined(op: string, h: string, st: string)
    requires |op| > 0
    ensures MetricInfo.LeadingName([op, h, st], 0) == op + "_" + (h + "_" + st)
  {
    var ps := [op, h, st];
    assert ps[..3] == ps;
    assert DropLeadingEmpty(ps) == ps;
    JoinCons(h, [st], "_");
    JoinCons(op, [h, st], "_");
    assert [h] + [st] == [h, st];
    assert [op] + [h, st] == ps;
  }

  /** Where `detectValues` and the metric-info reader of the same fields
      both find an operation, they find the same operation and metric,
      unless the name ends in a step after a non-number. */
  lemma DetectAgreesWithMetricInfo(parts: seq<string>, defOp: string, m: MetricInfo.MetricInfo, c: HdrConfig.HdrConfig)
    requires !StepOnly(parts) && DetectFrom(parts, defOp).Success?
    requires IndexOfChar(MetricInfo.LeadingName(parts, DetectFrom(parts, defOp).value.runArgs.count), '_') > 0
    ensures var d := DetectFrom(parts, defOp).value;
      RunArgs.FillValues(parts) == Success(d.runArgs) &&
      MetricInfo.FillValues(m, parts, d.runArgs.count, c).operationName == d.operationName &&
      MetricInfo.FillValues(m, parts, d.runArgs.count, c).metricName == d.metricName
  {
    var d := DetectFrom(parts, defOp).value;
    var name := MetricInfo.LeadingName(parts, d.runArgs.count);
    var r := MetricInfo.FillValues(m, parts, d.runArgs.count, c);
    SameCut(name, d.operationName, r.operationName);
  }

  /** Two '_'-free texts that each end at an '_' starting the same name are
      equal. */
  lemma SameCut(name: string, a: string, b: string)
    requires '_' !in a && '_' !in b
    requires StartsWith(name, a + "_") && StartsWith(name, b + "_")
    ensures a == b
  {
    assert name[..|a|] == a && name[|a|] == '_';
    assert name[..|b|] == b && name[|b|] == '_';
    IndexOfCharIs(name, '_', |a|);
    IndexOfCharIs(name, '_', |b|);
  }

  /** `indexOf` of a text is its first occurrence. */
  lemma IndexOfIs(s: string, p: string, k: nat)
    requires OccursAt(s, p, k) && forall j :: 0 <= j < k ==> !OccursAt(s, p, j)
    ensures IndexOf(s, p) == k
  {
  }

  lemma OccursHead(s: string, p: string, j: int)
    requires |p| > 0
    ensures OccursAt(s, p, j) ==> s[j] == p[0]
  {
    if OccursAt(s, p, j) {
      assert s[j..j + |p|][0] == s[j];
    }
  }

  lemma TlpPrefixShape()
    ensures '.' !in TlpPrefix && |TlpPrefix| == 18 && HdrMark[0] == '.' && |HdrMark| == 5
  {
  }

  /** In a stress-tool name whose middle has no '.', the mark is found
      right after the middle. */
  lemma TlpMark(name: string, mid: string, rest: string)
    requires '.' !in mid && name == TlpPrefix + mid + HdrMark + rest
    ensures IsTlp(name) && IndexOf(name, HdrMark) == |TlpPrefix + mid|
    ensures name[IndexOf(name, HdrMark) + |HdrMark|..] == rest
  {
    TlpPrefixShape();
    var pre := TlpPrefix + mid;
    assert OccursAt(name, HdrMark, |pre|) by {
      assert name[|pre|..|pre| + |HdrMark|] == HdrMark;
    }
    forall j | 0 <= j < |pre| ensures !OccursAt(name, HdrMark, j) {
      assert name[j] == pre[j];
      if j < |TlpPrefix| {
        assert pre[j] == TlpPrefix[j];
      } else {
        assert pre[j] == mid[j - |TlpPrefix|];
      }
      OccursHead(name, HdrMark, j);
    }
    IndexOfIs(name, HdrMark, |pre|);
    assert name[..|TlpPrefix|] == TlpPrefix;
    assert name[|pre| + |HdrMark|..] == rest;
  }

  /** A stress-tool histogram is read as service time of the operation
      after the mark. */
  lemma TlpService(name: string, mid: string, op: string, defOp: string)
    requires '.' !in mid && name == TlpPrefix + mid + HdrMark + op
    requires !StartsWith(op, IntendedPref)
    ensures GetIterationResult(name, defOp)
         == Success(HdrResult(name, op, ServiceTime, RunArgs.Filled(0, 0, 0.0, 0.0), TlpFactor, IntervalLength))
  {
    TlpMark(name, mid, op);
  }

  /** An `INTENDED-` stress-tool histogram is read as response time of the
      operation without the prefix. */
  lemma TlpIntended(name: string, mid: string, op: string, defOp: string)
    requires '.' !in mid && name == TlpPrefix + mid + HdrMark + IntendedPref + op
    ensures GetIterationResult(name, defOp)
         == Success(HdrResult(name, op, ResponseTime, RunArgs.Filled(0, 0, 0.0, 0.0), TlpFactor, IntervalLength))
  {
    assert name == TlpPrefix + mid + HdrMark + (IntendedPref + op);
    TlpMark(name, mid, IntendedPref + op);
    assert (IntendedPref + op)[..|IntendedPref|] == IntendedPref;
  }
}

=== FILE: informator.dfy ===
/** How the system-information report turns property names such as
    `java.vm.version` into readable keys such as "Version": known prefixes
    are dropped, the rest is split at its dots and every part capitalised,
    with the abbreviations OS, JVM and JDK written in capitals. */
module Informator {
  import opened Strings

  const OsPrefix: string := "os."
  const JavaPrefix: string := "java."
  const VmPrefix: string := "vm."
  const SunPrefix: string := "sun.management."

  /** The words written entirely in capitals. */
  predicate IsAbbreviation(s: string) {
    s == "os" || s == "jvm" || s == "jdk"
  }

  /** `capitalize`: the abbreviations in capitals, any other word with its
      first character in upper case (ASCII case mapping). */
  function Capitalize(s: string): (r: string)
    ensures |r| == |s|
    ensures IsAbbreviation(s) ==> forall i :: 0 <= i < |s| ==> r[i] == UpperChar(s[i])
    ensures !IsAbbreviation(s) && |s| > 0 ==> r[0] == UpperChar(s[0]) && r[1..] == s[1..]
    ensures forall i :: 0 <= i < |s| ==> (r[i] == '.' <==> s[i] == '.')
  {
    if s == "os" then "OS"
    else if s == "jvm" then "JVM"
    else if s == "jdk" then "JDK"
    else if |s| > 0 then [UpperChar(s[0])] + s[1..]
    else s
  }

  /** Capitalising twice changes nothing more. */
  lemma CapitalizeIdempotent(s: string)
    ensures Capitalize(Capitalize(s)) == Capitalize(s)
  {
    var c := Capitalize(s);
    if IsAbbreviation(s) {
      assert c == "OS" || c == "JVM" || c == "JDK";
    } else if |s| > 0 {
      assert !('a' <= c[0] <= 'z');
    }
  }

  /** The property name without its leading `os.`, `java.` (and a `vm.`
      after it) or `sun.management.`. */
  function StripPrefix(key: string): (r: string)
    ensures |r| <= |key| && r == key[|key| - |r|..]
  {
    if StartsWith(key, OsPrefix) then key[|OsPrefix|..]
    else if StartsWith(key, JavaPrefix) then
      var rest := key[|JavaPrefix|..];
      if StartsWith(rest, VmPrefix) then rest[|VmPrefix|..] else rest
    else if StartsWith(key, SunPrefix) then key[|SunPrefix|..]
    else key
  }

  /** The loop of `makeKey` over the first `|parts|` parts: each part
      capitalised, a space before it once the text is not empty. */
  function Build(parts: seq<string>): (r: string)
    ensures (forall i :: 0 <= i < |parts| ==> '.' !in parts[i]) ==> '.' !in r
    ensures |r| == 0 <==> forall i :: 0 <= i < |parts| ==> parts[i] == ""
  {
    if |parts| == 0 then ""
    else
      var sb := Build(parts[..|parts| - 1]);
      assert forall i :: 0 <= i < |parts| - 1 ==> parts[..|parts| - 1][i] == parts[i];
      var last := Capitalize(parts[|parts| - 1]);
      assert '.' !in parts[|parts| - 1] ==> '.' !in last;
      (if |sb| > 0 then sb + " " else sb) + last
  }

  /** `makeKey`. */
  function MakeKey(key: string): (r: string)
    ensures '.' !in r
  {
    Build(JavaSplit(StripPrefix(key), '.'))
  }

  function CapitalizeAll(parts: seq<string>): (r: seq<string>)
    ensures |r| == |parts| && forall i :: 0 <= i < |parts| ==> r[i] == Capitalize(parts[i])
  {
    if |parts| == 0 then [] else CapitalizeAll(parts[..|parts| - 1]) + [Capitalize(parts[|parts| - 1])]
  }

  /** Without empty parts, the loop of `makeKey` joins the capitalised parts
      with single spaces. */
  lemma {:induction false} BuildJoins(parts: seq<string>)
    requires forall i :: 0 <= i < |parts| ==> parts[i] != ""
    ensures Build(parts) == Join(CapitalizeAll(parts), " ")
    decreases |parts|
  {
    if |parts| > 1 {
      var front := parts[..|parts| - 1];
      assert forall i :: 0 <= i < |front| ==> front[i] == parts[i];
      BuildJoins(front);
      assert Build(front) != "" by {
        assert front[0] != "";
      }
      assert CapitalizeAll(parts) == CapitalizeAll(front) + [Capitalize(parts[|parts| - 1])];
      JoinSnoc(CapitalizeAll(front), Capitalize(parts[|parts| - 1]), " ");
    }
  }

  /** A property name made of a prefix that `makeKey` drops and dot-free,
      non-empty words becomes those words, capitalised, between single
      spaces. */
  lemma {:induction false} MakeKeyOfWords(key: string, words: seq<string>)
    requires |words| >= 1 && forall i :: 0 <= i < |words| ==> words[i] != "" && '.' !in words[i]
    requires StripPrefix(key) == Join(words, ".")
    ensures MakeKey(key) == Join(CapitalizeAll(words), " ")
  {
    JavaSplitJoin(words, '.');
    BuildJoins(words);
  }

  lemma PrefixCut(pre: string, rest: string)
    ensures StartsWith(pre + rest, pre) && (pre + rest)[|pre|..] == rest
  {
    assert (pre + rest)[..|pre|] == pre;
  }

  /** The prefixes `makeKey` drops, one lemma each. */
  lemma StripOs(key: string, rest: string)
    requires key == OsPrefix + rest
    ensures StripPrefix(key) == rest
  {
    PrefixCut(OsPrefix, rest);
  }

  lemma StripJavaVm(key: string, rest: string)
    requires key == JavaPrefix + VmPrefix + rest
    ensures StripPrefix(key) == rest
  {
    assert key == JavaPrefix + (VmPrefix + rest);
    assert key[0] == 'j';
    PrefixCut(JavaPrefix, VmPrefix + rest);
    PrefixCut(VmPrefix, rest);
  }

  lemma StripJava(key: string, rest: string)
    requires key == JavaPrefix + rest && !StartsWith(rest, VmPrefix)
    ensures StripPrefix(key) == rest
  {
    assert key[0] == 'j';
    PrefixCut(JavaPrefix, rest);
  }

  lemma StripSun(key: string, rest: string)
    requires key == SunPrefix + rest
    ensures StripPrefix(key) == rest
  {
    assert key[0] == 's';
    PrefixCut(SunPrefix, rest);
  }
}

=== FILE: interval.dfy ===
/** A time interval of the metrics code: `long` bounds where `Long.MIN_VALUE`
    and `Long.MAX_VALUE` stand for "no bound yet", a name, and a flag that
    records whether the interval was already shifted to absolute time. */
module Interval {
  import opened Numbers

  datatype Interval = Interval(start: int, finish: int, name: string, adjusted: bool)

  /** Both bounds fit a Java `long`. */
  predicate Valid(i: Interval) {
    IsLong(i.start) && IsLong(i.finish)
  }

  /** The interval a fresh `Interval` object holds: no bounds at all. */
  const Unbounded: Interval := Interval(LongMin, LongMax, "", false)

  /** A bound that is not one of the two sentinels. */
  predicate Proper(v: int) {
    LongMin < v < LongMax
  }

  /** `contains(s, f)`: the range from `s` to `f` is well ordered, ends after
      the interval starts and starts no later than the interval finishes. */
  predicate Contains(i: Interval, s: int, f: int) {
    s <= f && i.start < f && s <= i.finish
  }

  /** `mul(v, m)`: a sentinel stays a sentinel; any other bound is multiplied
      with 64-bit wrap-around. */
  function Mul(v: int, m: int): (r: int)
    requires IsLong(v) && IsLong(m)
    ensures IsLong(r)
    ensures !Proper(v) ==> r == v
    ensures Proper(v) ==> (r - v * m) % 0x1_0000_0000_0000_0000 == 0
    ensures Proper(v) && IsLong(v * m) ==> r == v * m
  {
    if v == LongMax || v == LongMin then v else Wrap64(v * m)
  }

  /** `scale(m)`: both bounds scaled by `mul`; name and flag kept. */
  function Scale(i: Interval, m: int): (r: Interval)
    requires Valid(i) && IsLong(m)
    ensures Valid(r) && r.name == i.name && r.adjusted == i.adjusted
    ensures r.start == Mul(i.start, m) && r.finish == Mul(i.finish, m)
  {
    Interval(Mul(i.start, m), Mul(i.finish, m), i.name, i.adjusted)
  }

  /** Scaling by one changes nothing. */
  lemma ScaleOne(i: Interval)
    requires Valid(i)
    ensures Scale(i, 1) == i
  {
  }

  /** Scaling an open interval leaves it open. */
  lemma ScaleUnbounded(m: int)
    requires IsLong(m)
    ensures Scale(Unbounded, m) == Unbounded
  {
  }

  /** `adjust(stamp)`: the first call shifts every bound that is not a
      sentinel by `stamp` (64-bit addition) and sets the flag; any later call
      does nothing. */
  function Adjust(i: Interval, stamp: int): (r: Interval)
    requires Valid(i) && IsLong(stamp)
    ensures Valid(r) && r.adjusted && r.name == i.name
    ensures i.adjusted ==> r == i
    ensures !i.adjusted && i.start != LongMin ==> r.start == Wrap64(i.start + stamp)
    ensures !i.adjusted && i.finish != LongMax ==> r.finish == Wrap64(i.finish + stamp)
    ensures i.start == LongMin ==> r.start == LongMin
    ensures i.finish == LongMax ==> r.finish == LongMax
  {
    if i.adjusted then i
    else
      Interval(if i.start != LongMin then Wrap64(i.start + stamp) else i.start,
               if i.finish != LongMax then Wrap64(i.finish + stamp) else i.finish,
               i.name, true)
  }

  /** Only the first adjustment takes effect. */
  lemma AdjustOnce(i: Interval, a: int, b: int)
    requires Valid(i) && IsLong(a) && IsLong(b)
    ensures Adjust(Adjust(i, a), b) == Adjust(i, a)
  {
  }

  /** Without overflow, adjusting shifts the length-defining bounds alike:
      the length of a bounded interval is unchanged. */
  lemma AdjustKeepsLength(i: Interval, stamp: int)
    requires Valid(i) && IsLong(stamp) && !i.adjusted
    requires Proper(i.start) && Proper(i.finish)
    requires IsLong(i.start + stamp) && IsLong(i.finish + stamp)
    ensures Adjust(i, stamp).finish - Adjust(i, stamp).start == i.finish - i.start
  {
  }

  /** `update(stamp)`: a missing or later start becomes the stamp, and so
      does a missing or earlier finish. */
  function Update(i: Interval, stamp: int): (r: Interval)
    ensures r.name == i.name && r.adjusted == i.adjusted
    ensures r.start <= stamp <= r.finish
    ensures i.start != LongMin ==> r.start <= i.start
    ensures i.finish != LongMax ==> r.finish >= i.finish
    ensures r.start == stamp || r.start == i.start
    ensures r.finish == stamp || r.finish == i.finish
  {
    Interval(if i.start == LongMin || i.start > stamp then stamp else i.start,
             if i.finish == LongMax || i.finish < stamp then stamp else i.finish,
             i.name, i.adjusted)
  }

  /** `update(s, f)`: both stamps, in that order. */
  function UpdateRange(i: Interval, s: int, f: int): (r: Interval)
    ensures r.start <= f <= r.finish
    ensures Proper(s) ==> r.start <= s <= r.finish
    ensures r.name == i.name && r.adjusted == i.adjusted
  {
    Update(Update(i, s), f)
  }

  /** Recording the same stamp twice is recording it once. */
  lemma UpdateIdempotent(i: Interval, stamp: int)
    ensures Update(Update(i, stamp), stamp) == Update(i, stamp)
  {
  }

  /** Stamps that are not sentinels may be recorded in any order. */
  lemma UpdateCommutes(i: Interval, a: int, b: int)
    requires Proper(a) && Proper(b)
    ensures Update(Update(i, a), b) == Update(Update(i, b), a)
  {
  }

  /** A sentinel stamp breaks the order independence: recording the
      smallest `long` first is forgotten by the next stamp. */
  lemma UpdateSentinelOrder(x: int)
    requires Proper(x)
    ensures Update(Update(Unbounded, LongMin), x).start == x
    ensures Update(Update(Unbounded, x), LongMin).start == LongMin
  {
  }

  /** Records every stamp of a sequence, first to last. */
  function UpdateAll(i: Interval, stamps: seq<int>): Interval {
    if |stamps| == 0 then i else Update(UpdateAll(i, stamps[..|stamps| - 1]), stamps[|stamps| - 1])
  }

  predicate AllProper(stamps: seq<int>) {
    forall k :: 0 <= k < |stamps| ==> Proper(stamps[k])
  }

  /** From an open interval, recording proper stamps yields exactly the
      smallest and the largest of them. */
  lemma {:induction false} UpdateAllSpan(stamps: seq<int>)
    requires |stamps| > 0 && AllProper(stamps)
    ensures var r := UpdateAll(Unbounded, stamps);
      (forall k :: 0 <= k < |stamps| ==> r.start <= stamps[k] <= r.finish) &&
      r.start in stamps && r.finish in stamps
  {
    var n := |stamps|;
    if n > 1 {
      var init := stamps[..n - 1];
      UpdateAllSpan(init);
      var p := UpdateAll(Unbounded, init);
      assert Proper(p.start) && Proper(p.finish) by {
        assert p.start in init && p.finish in init;
      }
      forall k | 0 <= k < n - 1
        ensures p.start <= stamps[k] <= p.finish
      {
        assert stamps[k] == init[k];
      }
      assert p.start in stamps && p.finish in stamps by {
        assert init <= stamps;
      }
    }
  }

  /** After recording a start and a later finish in a fresh interval, the
      interval contains that range. */
  lemma UpdateRangeContains(s: int, f: int)
    requires Proper(s) && s < f <= LongMax
    ensures UpdateRange(Unbounded, s, f) == Interval(s, f, "", false)
    ensures Contains(UpdateRange(Unbounded, s, f), s, f)
  {
  }

  /** An open interval contains exactly the well-ordered ranges that end
      after the smallest `long`. */
  lemma UnboundedContains(s: int, f: int)
    requires IsLong(s) && IsLong(f)
    ensures Contains(Unbounded, s, f) <==> s <= f && f > LongMin
  {
  }

  /** Widening the interval keeps every range it contains. */
  lemma ContainsWiden(i: Interval, j: Interval, s: int, f: int)
    requires j.start <= i.start && i.finish <= j.finish
    requires Contains(i, s, f)
    ensures Contains(j, s, f)
  {
  }

  /** A single recorded stamp does not contain the one-point range at that
      stamp: `contains` wants the range to end strictly after the start. */
  lemma SinglePointNotContained(x: int)
    requires Proper(x)
    ensures !Contains(Update(Unbounded, x), x, x)
    ensures Contains(Update(Unbounded, x), x, x + 1)
  {
  }
}

=== FILE: metricinfo.dfy ===
/** The metric identity of a histogram file: which operation, which
    metric, in which units, on which host.  `formatFileName` writes it into
    the file name together with the run parameters, and `fillValues` reads
    it back from the '_' fields of such a name. */
module MetricInfo {
  import opened Wrappers
  import opened Strings
  import opened Numbers
  import opened MetricNames
  import RunArgs
  import HdrConfig

  datatype MetricInfo = MetricInfo(
    operationName: string, metricName: string, rateUnits: string, timeUnits: string, hostName: string)

  const IntendedPref: string := "intended-"

  /** The name `formatFileName` gives a run's histogram, without the
      extension: operation, metric, percent of the high bound, target rate
      and step, '_'-separated.  `pctText` and `rateText` stand for the
      decimal texts `roundFormatPercent` and `format` produce. */
  function FileBase(op: string, metric: string, pctText: string, rateText: string, runStep: int): string {
    op + "_" + metric + "_" + pctText + "_" + rateText + "_" + ShowInt(runStep)
  }

  /** `formatFileName`: the base name with extension `hlog`. */
  function FormatFileName(m: MetricInfo, pctText: string, rateText: string, runStep: int): (r: string)
    ensures EndsWith(r, ".hlog") && '/' !in r[|r| - 5..]
    ensures StartsWith(r, m.operationName + "_" + m.metricName + "_")
  {
    var base := FileBase(m.operationName, m.metricName, pctText, rateText, runStep);
    var r := base + ".hlog";
    assert r[|r| - 5..] == ".hlog";
    assert r[..|m.operationName + "_" + m.metricName + "_"|] == m.operationName + "_" + m.metricName + "_";
    r
  }

  /** The name `fillValues` rebuilds from all but the last `filled`
      fields. */
  function LeadingName(parts: seq<string>, filled: nat): string {
    JoinFields(parts[..if filled <= |parts| then |parts| - filled else 0])
  }

  /** Operation and (still hyphenated) metric of a rebuilt name: text before
      its first '_', when that is at a positive index, and the rest;
      otherwise the whole name and the configured metric, where an
      `intended-` operation (in any case) with a service-time metric loses
      the prefix and measures response time. */
  function SplitName(name: string, defMetric: string): (r: (string, string))
    ensures IndexOfChar(name, '_') > 0 ==>
      |r.0| > 0 && '_' !in r.0 && name == r.0 + "_" + r.1
    ensures IndexOfChar(name, '_') <= 0 ==>
      if StartsWith(ToLower(name), IntendedPref) && (defMetric == ServiceTime2 || defMetric == ServiceTime)
      then r == (name[|IntendedPref|..], ResponseTime)
      else r == (name, defMetric)
  {
    var pos := IndexOfChar(name, '_');
    if pos > 0 then
      var op := name[..pos];
      assert '_' !in op by {
        assert forall i :: 0 <= i < |op| ==> op[i] == name[i];
      }
      assert name == op + "_" + name[pos + 1..];
      (op, name[pos + 1..])
    else if StartsWith(ToLower(name), IntendedPref) && (defMetric == ServiceTime2 || defMetric == ServiceTime)
    then (name[|IntendedPref|..], ResponseTime)
    else (name, defMetric)
  }

  /** `fillValues`: the operation and metric of the rebuilt name, the
      metric with its underscores restored, the units of the configuration,
      the host kept. */
  function FillValues(m: MetricInfo, parts: seq<string>, filled: nat, c: HdrConfig.HdrConfig): (r: MetricInfo)
    ensures r.hostName == m.hostName && r.rateUnits == c.rateUnits && r.timeUnits == c.timeUnits
    ensures var name := LeadingName(parts, filled);
      IndexOfChar(name, '_') > 0 ==>
        (|r.operationName| > 0 && '_' !in r.operationName &&
         StartsWith(name, r.operationName + "_") &&
         r.metricName == Restore(name[|r.operationName| + 1..]))
    ensures var name := LeadingName(parts, filled);
      IndexOfChar(name, '_') <= 0 ==>
        if StartsWith(ToLower(name), IntendedPref) && (c.metricName == ServiceTime2 || c.metricName == ServiceTime)
        then r.operationName == name[|IntendedPref|..] && r.metricName == ResponseTime
        else r.operationName == name && r.metricName == Restore(c.metricName)
  {
    var name := LeadingName(parts, filled);
    var split := SplitName(name, c.metricName);
    if IndexOfChar(name, '_') > 0 then
      CutAfter(name, split.0, split.1);
      MetricInfo(split.0, Restore(split.1), c.rateUnits, c.timeUnits, m.hostName)
    else
      NamesRestored();
      MetricInfo(split.0, Restore(split.1), c.rateUnits, c.timeUnits, m.hostName)
  }

  lemma CutAfter(name: string, op: string, raw: string)
    requires name == op + "_" + raw
    ensures StartsWith(name, op + "_") && name[|op| + 1..] == raw
  {
    assert name[..|op| + 1] == op + "_";
  }

  /** A field `fillValues` gets back unchanged: no '_' of its own, and no
      leading 't' that an '_' before it could turn into "_time". */
  predicate Field(t: string) {
    '_' !in t && (|t| == 0 || t[0] != 't')
  }

  lemma FieldClean(t: string)
    requires Field(t)
    ensures Clean(t)
  {
  }

  lemma ShowIntField(n: int)
    ensures Field(ShowInt(n)) && ShowInt(n) != ""
  {
    var s := ShowInt(n);
    if n < 0 {
      assert s == "-" + ShowNat(-n);
      assert forall i :: 1 <= i < |s| ==> s[i] == ShowNat(-n)[i - 1];
    }
  }

  lemma FileBaseNested(op: string, metric: string, p: string, q: string, st: string)
    ensures op + "_" + metric + "_" + p + "_" + q + "_" + st == op + "_" + (metric + "_" + (p + "_" + (q + "_" + st)))
    ensures Join([op, metric, p, q, st], "_") == op + "_" + (metric + "_" + (p + "_" + (q + "_" + st)))
  {
    JoinCons(q, [st], "_");
    JoinCons(p, [q, st], "_");
    JoinCons(metric, [p, q, st], "_");
    JoinCons(op, [metric, p, q, st], "_");
    assert [q] + [st] == [q, st];
    assert [p] + [q, st] == [p, q, st];
    assert [metric] + [p, q, st] == [metric, p, q, st];
    assert [op] + [metric, p, q, st] == [op, metric, p, q, st];
  }

  /** Hyphenating the base name changes the metric field only. */
  lemma HyphenateFileBase(op: string, metric: string, pctText: string, rateText: string, runStep: int)
    requires '_' !in op && Encodable(metric) && Field(pctText) && Field(rateText)
    ensures Hyphenate(FileBase(op, metric, pctText, rateText, runStep))
         == Join([op, Hyphen(metric), pctText, rateText, ShowInt(runStep)], "_")
  {
    var st := ShowInt(runStep);
    ShowIntField(runStep);
    var tail := pctText + "_" + (rateText + "_" + st);
    assert Clean(tail) by {
      FieldClean(pctText);
      FieldClean(rateText);
      FieldClean(st);
      SepClean(rateText, st);
      SepClean(pctText, rateText + "_" + st);
    }
    FileBaseNested(op, metric, pctText, rateText, st);
    FileBaseNested(op, Hyphen(metric), pctText, rateText, st);
    if metric == ServiceTime || metric == ResponseTime {
      HyphenateName(op, metric, tail);
    } else {
      assert Clean(metric);
      SepClean(metric, tail);
      SepNoUnderT(op, metric + "_" + tail);
      HyphenateClean(op + "_" + (metric + "_" + tail));
    }
  }

  /** A hyphenated metric has no '_'. */
  lemma HyphenField(metric: string)
    requires Encodable(metric)
    ensures '_' !in Hyphen(metric)
  {
    if metric == ServiceTime {
      assert Hyphen(metric) == "service-time";
    } else if metric == ResponseTime {
      assert Hyphen(metric) == "response-time";
    }
  }

  /** The '_' fields of a written name, after hyphenation: exactly the five
      values written. */
  lemma SplitFileBase(op: string, metric: string, pctText: string, rateText: string, runStep: int)
    requires '_' !in op && Encodable(metric) && Field(pctText) && Field(rateText)
    ensures JavaSplit(Hyphenate(FileBase(op, metric, pctText, rateText, runStep)), '_')
         == [op, Hyphen(metric), pctText, rateText, ShowInt(runStep)]
  {
    HyphenateFileBase(op, metric, pctText, rateText, runStep);
    HyphenField(metric);
    ShowIntField(runStep);
    var ps := [op, Hyphen(metric), pctText, rateText, ShowInt(runStep)];
    assert forall i :: 0 <= i < |ps| ==> '_' !in ps[i];
    JavaSplitJoin(ps, '_');
  }

  /** The name rebuilt from an operation and a metric field splits back at
      the '_' between them. */
  lemma NameSplit(op: string, h: string)
    requires |op| > 0 && '_' !in op
    ensures JoinFields([op, h]) == op + "_" + h
    ensures var name := op + "_" + h;
      IndexOfChar(name, '_') == |op| && name[..|op|] == op && name[|op| + 1..] == h
  {
    var ps := [op, h];
    assert DropLeadingEmpty(ps) == ps;
    assert ps[1..] == [h];
    var name := op + "_" + h;
    assert name[..|op|] == op;
    IndexOfCharIs(name, '_', |op|);
  }

  /** Reading a written name back: the fields are numbers as written, and
      the operation and metric are the ones written, whatever the
      configuration's default metric. */
  lemma FillValuesOfFileName(m0: MetricInfo, m: MetricInfo, pctText: string, rateText: string,
                             pct: real, rate: real, runStep: int, c: HdrConfig.HdrConfig)
    requires |m.operationName| > 0 && '_' !in m.operationName && Encodable(m.metricName)
    requires Field(pctText) && Field(rateText) && IsInt(runStep)
    requires ParseDecimal(pctText) == Some(pct) && ParseDecimal(rateText) == Some(rate)
    ensures var parts := JavaSplit(Hyphenate(FileBase(m.operationName, m.metricName, pctText, rateText, runStep)), '_');
      RunArgs.FillValuesIntended(parts) == Success(RunArgs.Filled(3, runStep, rate, pct)) &&
      FillValues(m0, parts, 3, c) == MetricInfo(m.operationName, m.metricName, c.rateUnits, c.timeUnits, m0.hostName)
  {
    var op, h := m.operationName, Hyphen(m.metricName);
    SplitFileBase(op, m.metricName, pctText, rateText, runStep);
    var parts := [op, h, pctText, rateText, ShowInt(runStep)];
    ParseShowInt(runStep);
    RunArgs.FillParsedThree(parts, pct, rate, runStep);
    FiveFieldsMetric(m0, m, parts, c);
  }

  /** With three trailing values used, the operation and the metric come
      back from the first two fields. */
  lemma FiveFieldsMetric(m0: MetricInfo, m: MetricInfo, parts: seq<string>, c: HdrConfig.HdrConfig)
    requires |m.operationName| > 0 && '_' !in m.operationName && Encodable(m.metricName)
    requires |parts| == 5 && parts[0] == m.operationName && parts[1] == Hyphen(m.metricName)
    ensures FillValues(m0, parts, 3, c) == MetricInfo(m.operationName, m.metricName, c.rateUnits, c.timeUnits, m0.hostName)
  {
    var op, h := m.operationName, Hyphen(m.metricName);
    assert parts[..2] == [op, h];
    NameSplit(op, h);
    RestoreHyphen(m.metricName);
    var name := op + "_" + h;
    assert LeadingName(parts, 3) == name;
    assert SplitName(name, c.metricName) == (op, h);
  }

  /** As written, a name with only a step after the metric loses the
      metric: two fields count as used, the rebuilt name is the operation
      alone, and the metric is the configuration's. */
  lemma StepOnlyLosesMetric(m0: MetricInfo, op: string, h: string, st: string, runStep: int, c: HdrConfig.HdrConfig)
    requires |op| > 0 && '_' !in op && !StartsWith(ToLower(op), IntendedPref)
    requires ParseDecimal(h).None? && ParseInt(st) == Some(runStep)
    ensures RunArgs.FillValues([op, h, st]) == Success(RunArgs.Filled(2, runStep, 0.0, 0.0))
    ensures FillValues(m0, [op, h, st], 2, c).metricName == Restore(c.metricName)
  {
    RunArgs.FillStepOnly([op, h, st], runStep);
    LeadingFirst(op, h, st);
    OperationOnly(m0, [op, h, st], 2, c, op);
  }

  lemma LeadingFirst(op: string, h: string, st: string)
    requires |op| > 0
    ensures LeadingName([op, h, st], 2) == op
  {
    assert [op, h, st][..1] == [op];
    assert DropLeadingEmpty([op]) == [op];
  }

  /** A rebuilt name without '_' and without the `intended-` prefix is the
      operation, and the metric is the configured one. */
  lemma OperationOnly(m0: MetricInfo, parts: seq<string>, filled: nat, c: HdrConfig.HdrConfig, op: string)
    requires LeadingName(parts, filled) == op && '_' !in op && !StartsWith(ToLower(op), IntendedPref)
    ensures FillValues(m0, parts, filled, c).operationName == op
    ensures FillValues(m0, parts, filled, c).metricName == Restore(c.metricName)
  {
    assert IndexOfChar(op, '_') < 0;
  }

  /** With the intended count of one field, the same name keeps its metric. */
  lemma StepOnlyKeepsMetric(m0: MetricInfo, op: string, h: string, st: string, runStep: int, c: HdrConfig.HdrConfig)
    requires |op| > 0 && '_' !in op
    requires ParseDecimal(h).None? && ParseInt(st) == Some(runStep)
    ensures RunArgs.FillValuesIntended([op, h, st]) == Success(RunArgs.Filled(1, runStep, 0.0, 0.0))
    ensures FillValues(m0, [op, h, st], 1, c).operationName == op
    ensures FillValues(m0, [op, h, st], 1, c).metricName == Restore(h)
  {
    var parts := [op, h, st];
    RunArgs.FillStepOnly(parts, runStep);
    assert parts[..2] == [op, h];
    NameSplit(op, h);
    var name := op + "_" + h;
    assert LeadingName(parts, 1) == name;
    assert SplitName(name, c.metricName) == (op, h);
  }

  /** `writes_response-time_0`, a name in the documented
      `{operation-name}_{metric-name}_{numeric-step}` format: as written the
      response-time histogram is reported under the default metric,
      service time. */
  lemma WritesResponseTime(m0: MetricInfo)
    ensures RunArgs.FillValues(["writes", ResponseTime2, "0"]) == Success(RunArgs.Filled(2, 0, 0.0, 0.0))
    ensures FillValues(m0, ["writes", ResponseTime2, "0"], 2, HdrConfig.Default).metricName == ServiceTime
  {
    ExampleFields();
    StepOnlyLosesMetric(m0, "writes", ResponseTime2, "0", 0, HdrConfig.Default);
    NamesRestored();
  }

  /** The same example read with the intended count keeps response time. */
  lemma WritesResponseTimeIntended(m0: MetricInfo)
    ensures RunArgs.FillValuesIntended(["writes", ResponseTime2, "0"]) == Success(RunArgs.Filled(1, 0, 0.0, 0.0))
    ensures FillValues(m0, ["writes", ResponseTime2, "0"], 1, HdrConfig.Default).metricName == ResponseTime
  {
    ExampleFields();
    StepOnlyKeepsMetric(m0, "writes", ResponseTime2, "0", 0, HdrConfig.Default);
    ResponseTimeRestored();
  }

  lemma ExampleFields()
    ensures ParseInt("0") == Some(0) && ParseDecimal(ResponseTime2).None?
    ensures !StartsWith(ToLower("writes"), IntendedPref)
  {
    assert |ToLower("writes")| < |IntendedPref|;
  }

  lemma ResponseTimeRestored()
    ensures Restore(ResponseTime2) == ResponseTime
  {
    assert |ResponseTime| != |ServiceTime|;
    RestoreHyphen(ResponseTime);
  }



}

=== FILE: metricnames.dfy ===
/** The two metric names that contain '_' and their hyphenated spellings.
    A histogram file name is split at '_', so these two names are
    hyphenated before the split and restored after it.

    Both names contain an underscore followed by 't'; a text without that
    pair contains neither name, and in a text with exactly one such pair
    the names can only occur at the one place the pair allows. */
module MetricNames {
  import opened Strings

  const ServiceTime: string := "service_time"
  const ServiceTime2: string := "service-time"
  const ResponseTime: string := "response_time"
  const ResponseTime2: string := "response-time"

  /** Before splitting: both names take their '-' spelling. */
  function Hyphenate(s: string): string {
    Replace(Replace(s, ServiceTime, ServiceTime2), ResponseTime, ResponseTime2)
  }

  /** After splitting: both names take back their '_' spelling. */
  function Restore(s: string): string {
    Replace(Replace(s, ServiceTime2, ServiceTime), ResponseTime2, ResponseTime)
  }

  /** The '-' spelling of a single metric name. */
  function Hyphen(m: string): string {
    if m == ServiceTime then ServiceTime2
    else if m == ResponseTime then ResponseTime2
    else m
  }

  /** A metric name that survives being written into a file name and read
      back: one of the two names, or a name with neither '_' nor '-' that
      does not start with 't'. */
  predicate Encodable(m: string) {
    m == ServiceTime || m == ResponseTime ||
    ('_' !in m && '-' !in m && (|m| == 0 || m[0] != 't'))
  }

  /** An underscore followed by 't' starts at index `i`. */
  predicate UnderT(s: string, i: int) {
    0 <= i && i + 1 < |s| && s[i] == '_' && s[i + 1] == 't'
  }

  predicate NoUnderT(s: string) {
    forall i :: 0 <= i < |s| ==> !UnderT(s, i)
  }

  /** A text that starts with neither 't' nor such a pair. */
  predicate Clean(s: string) {
    NoUnderT(s) && (|s| == 0 || s[0] != 't')
  }

  /** Where the pair sits inside each name. */
  function UnderIndex(n: string): nat {
    if n == ServiceTime then 7 else 8
  }

  lemma ServiceTimeShape()
    ensures UnderT(ServiceTime, 7)
    ensures forall i :: UnderT(ServiceTime, i) ==> i == 7
  {
    forall i | UnderT(ServiceTime, i) ensures i == 7 {
      assert ServiceTime[i] == '_';
    }
  }

  lemma ResponseTimeShape()
    ensures UnderT(ResponseTime, 8)
    ensures forall i :: UnderT(ResponseTime, i) ==> i == 8
  {
    forall i | UnderT(ResponseTime, i) ensures i == 8 {
      assert ResponseTime[i] == '_';
    }
  }

  /** An occurrence of a text carries the text's pairs along. */
  lemma OccursUnderT(s: string, t: string, k: int, m: int)
    requires OccursAt(s, t, k) && UnderT(t, m)
    ensures UnderT(s, k + m)
  {
    assert s[k + m] == s[k..k + |t|][m];
    assert s[k + m + 1] == s[k..k + |t|][m + 1];
  }

  /** A pair in a suffix is a pair in the whole text. */
  lemma SuffixUnderT(s: string, j: nat, i: int)
    requires j <= |s| && UnderT(s[j..], i)
    ensures UnderT(s, j + i)
  {
    assert s[j + i] == s[j..][i] && s[j + i + 1] == s[j..][i + 1];
  }

  /** The pairs of `a_b`: those of `a`, one at the joint when `b` starts
      with 't', and those of `b` shifted past the joint. */
  lemma SepUnderT(a: string, b: string, i: int)
    requires UnderT(a + "_" + b, i)
    ensures (i + 1 < |a| && UnderT(a, i)) ||
            (i == |a| && |b| > 0 && b[0] == 't') ||
            (i > |a| && UnderT(b, i - |a| - 1))
  {
    var s := a + "_" + b;
    if i + 1 < |a| {
      assert s[i] == a[i] && s[i + 1] == a[i + 1];
    } else if i > |a| {
      assert s[i] == b[i - |a| - 1] && s[i + 1] == b[i - |a|];
    } else if i == |a| {
      assert s[i + 1] == b[0];
    }
  }

  /** Joining a text without pairs and a clean text with '_' makes no
      pair. */
  lemma SepNoUnderT(a: string, b: string)
    requires NoUnderT(a) && Clean(b)
    ensures NoUnderT(a + "_" + b)
  {
    var s := a + "_" + b;
    forall i | 0 <= i < |s| ensures !UnderT(s, i) {
      if UnderT(s, i) {
        SepUnderT(a, b, i);
      }
    }
  }

  /** Joining clean texts with '_' gives a clean text. */
  lemma SepClean(a: string, b: string)
    requires Clean(a) && Clean(b)
    ensures Clean(a + "_" + b)
  {
    SepNoUnderT(a, b);
    if |a| > 0 {
      assert (a + "_" + b)[0] == a[0];
    }
  }

  /** A clean text contains neither name, so hyphenating leaves it as it
      is. */
  lemma HyphenateClean(s: string)
    requires NoUnderT(s)
    ensures Hyphenate(s) == s
  {
    NoOccurrence(s, ServiceTime, ServiceTime2, 7);
    NoOccurrence(s, ResponseTime, ResponseTime2, 8);
  }

  lemma NoOccurrence(s: string, t: string, r: string, m: int)
    requires NoUnderT(s) && UnderT(t, m)
    ensures Replace(s, t, r) == s
  {
    forall k | 0 <= k ensures !OccursAt(s, t, k) {
      if OccursAt(s, t, k) {
        OccursUnderT(s, t, k, m);
      }
    }
    ReplaceAbsent(s, t, r);
  }

  /** A text with neither hyphenated name is left as it is by `Restore`. */
  lemma RestorePlain(m: string)
    requires '-' !in m
    ensures Restore(m) == m
  {
    forall k | 0 <= k ensures !OccursAt(m, ServiceTime2, k) && !OccursAt(m, ResponseTime2, k) {
      if OccursAt(m, ServiceTime2, k) {
        OccursChar(m, ServiceTime2, k, 7);
      }
      if OccursAt(m, ResponseTime2, k) {
        OccursChar(m, ResponseTime2, k, 8);
      }
    }
    ReplaceAbsent(m, ServiceTime2, ServiceTime);
    ReplaceAbsent(m, ResponseTime2, ResponseTime);
  }

  /** The characters of an occurrence are the target's. */
  lemma OccursChar(s: string, t: string, k: int, j: int)
    requires OccursAt(s, t, k) && 0 <= j < |t|
    ensures s[k + j] == t[j]
  {
    assert s[k..k + |t|][j] == s[k + j];
  }

  /** Hyphenating a name and restoring it gives the name back. */
  lemma RestoreHyphen(m: string)
    requires Encodable(m)
    ensures Restore(Hyphen(m)) == m
  {
    if m == ServiceTime {
      ReplaceWhole(ServiceTime2, ServiceTime);
      ServiceTimeHasNoHyphen();
    } else if m == ResponseTime {
      ResponseTimeHasNoService();
      ReplaceWhole(ResponseTime2, ResponseTime);
    } else {
      RestorePlain(m);
    }
  }

  /** Replacing a whole text. */
  lemma ReplaceWhole(t: string, r: string)
    requires |t| > 0
    ensures Replace(t, t, r) == r
  {
    assert OccursAt(t, t, 0) by {
      assert t[0..|t|] == t;
    }
    ReplaceFirst(t, t, r, 0);
    assert t[..0] == [] && t[|t|..] == [];
  }

  /** Neither hyphenated name occurs in `service_time`. */
  lemma ServiceTimeHasNoHyphen()
    ensures Replace(ServiceTime, ResponseTime2, ResponseTime) == ServiceTime
  {
  }

  /** `service-time` does not occur in `response-time`. */
  lemma ResponseTimeHasNoService()
    ensures Replace(ResponseTime2, ServiceTime2, ServiceTime) == ResponseTime2
  {
    var s := ResponseTime2;
    forall k | 0 <= k ensures !OccursAt(s, ServiceTime2, k) {
      if OccursAt(s, ServiceTime2, k) {
        OccursChar(s, ServiceTime2, k, 7);
        OccursChar(s, ServiceTime2, k, 0);
      }
    }
    ReplaceAbsent(s, ServiceTime2, ServiceTime);
  }

  /** When the only pair of `s` lies inside an occurrence of `t` at `k`,
      replacing `t` rewrites that one occurrence. */
  lemma ReplaceUnique(s: string, t: string, r: string, k: nat, m: nat)
    requires UnderT(t, m) && OccursAt(s, t, k)
    requires forall i :: UnderT(s, i) ==> i == k + m
    ensures Replace(s, t, r) == s[..k] + r + s[k + |t|..]
  {
    forall j | 0 <= j < k ensures !OccursAt(s, t, j) {
      if OccursAt(s, t, j) {
        OccursUnderT(s, t, j, m);
      }
    }
    ReplaceFirst(s, t, r, k);
    var rest := s[k + |t|..];
    forall i | 0 <= i < |rest| ensures !UnderT(rest, i) {
      if UnderT(rest, i) {
        SuffixUnderT(s, k + |t|, i);
      }
    }
    NoOccurrence(rest, t, r, m);
  }

  /** When the only pair of `s` sits where an occurrence of `t` would have
      to start at `j`, and `t` does not start there, replacing `t` changes
      nothing. */
  lemma ReplaceMissed(s: string, t: string, r: string, m: nat, q: int)
    requires UnderT(t, m) && |t| > 0
    requires forall i :: UnderT(s, i) ==> i == q
    requires 0 <= q - m < |s| ==> s[q - m] != t[0]
    ensures Replace(s, t, r) == s
  {
    forall k | 0 <= k ensures !OccursAt(s, t, k) {
      if OccursAt(s, t, k) {
        OccursUnderT(s, t, k, m);
        OccursChar(s, t, k, 0);
      }
    }
    ReplaceAbsent(s, t, r);
  }

  /** The pairs of `a_n_tail` for a name `n`: exactly the one inside `n`. */
  lemma LayoutUnderT(a: string, n: string, tail: string)
    requires n == ServiceTime || n == ResponseTime
    requires NoUnderT(a) && Clean(tail)
    ensures forall i :: UnderT(a + "_" + (n + "_" + tail), i) ==> i == |a| + 1 + UnderIndex(n)
  {
    var b := n + "_" + tail;
    ServiceTimeShape();
    ResponseTimeShape();
    forall i | UnderT(a + "_" + b, i) ensures i == |a| + 1 + UnderIndex(n) {
      SepUnderT(a, b, i);
      if i > |a| {
        SepUnderT(n, tail, i - |a| - 1);
      }
    }
  }

  lemma Assoc(x: string, y: string, z: string)
    ensures x + y + z == x + (y + z)
  {
  }

  /** The hyphenated names hold no '_' and do not start with 't'. */
  lemma HyphenClean(n: string, tail: string)
    requires n == ServiceTime || n == ResponseTime
    requires Clean(tail)
    ensures Clean(Hyphen(n) + "_" + tail)
  {
    var h := Hyphen(n);
    assert Clean(h) by {
      forall i | 0 <= i < |h| ensures h[i] != '_' {
      }
    }
    SepClean(h, tail);
  }

  /** `a_n_tail` holds `n` right after `a_`. */
  lemma LayoutParts(a: string, n: string, tail: string)
    ensures var s := a + "_" + (n + "_" + tail);
      OccursAt(s, n, |a| + 1) && s[..|a| + 1] == a + "_" && s[|a| + 1 + |n|..] == "_" + tail
  {
    var s := a + "_" + (n + "_" + tail);
    assert s[|a| + 1..|a| + 1 + |n|] == n;
  }

  /** Hyphenating `a_n_tail` for a name `n` rewrites `n` alone. */
  lemma HyphenateName(a: string, n: string, tail: string)
    requires n == ServiceTime || n == ResponseTime
    requires NoUnderT(a) && Clean(tail)
    ensures Hyphenate(a + "_" + (n + "_" + tail)) == a + "_" + (Hyphen(n) + "_" + tail)
  {
    if n == ServiceTime {
      HyphenateService(a, tail);
    } else {
      HyphenateResponse(a, tail);
    }
  }

  lemma HyphenateService(a: string, tail: string)
    requires NoUnderT(a) && Clean(tail)
    ensures Hyphenate(a + "_" + (ServiceTime + "_" + tail)) == a + "_" + (ServiceTime2 + "_" + tail)
  {
    ReplaceNameAt(a, ServiceTime, tail);
    var out := a + "_" + (ServiceTime2 + "_" + tail);
    assert NoUnderT(out) by {
      HyphenClean(ServiceTime, tail);
      SepNoUnderT(a, ServiceTime2 + "_" + tail);
    }
    ResponseTimeShape();
    NoOccurrence(out, ResponseTime, ResponseTime2, 8);
  }

  lemma HyphenateResponse(a: string, tail: string)
    requires NoUnderT(a) && Clean(tail)
    ensures Hyphenate(a + "_" + (ResponseTime + "_" + tail)) == a + "_" + (ResponseTime2 + "_" + tail)
  {
    ServiceMissed(a, tail);
    ReplaceNameAt(a, ResponseTime, tail);
  }

  /** `service_time` does not occur in `a_response_time_tail`. */
  lemma ServiceMissed(a: string, tail: string)
    requires NoUnderT(a) && Clean(tail)
    ensures var s := a + "_" + (ResponseTime + "_" + tail);
      Replace(s, ServiceTime, ServiceTime2) == s
  {
    var s := a + "_" + (ResponseTime + "_" + tail);
    var p := |a| + 1;
    LayoutUnderT(a, ResponseTime, tail);
    LayoutParts(a, ResponseTime, tail);
    ServiceTimeShape();
    OccursChar(s, ResponseTime, p, 1);
    ReplaceMissed(s, ServiceTime, ServiceTime2, 7, p + 8);
  }

  /** Replacing the name `n` of `a_n_tail` by its hyphenated spelling. */
  lemma ReplaceNameAt(a: string, n: string, tail: string)
    requires n == ServiceTime || n == ResponseTime
    requires NoUnderT(a) && Clean(tail)
    ensures Replace(a + "_" + (n + "_" + tail), n, Hyphen(n)) == a + "_" + (Hyphen(n) + "_" + tail)
  {
    var s := a + "_" + (n + "_" + tail);
    var h := Hyphen(n);
    LayoutUnderT(a, n, tail);
    LayoutParts(a, n, tail);
    ServiceTimeShape();
    ResponseTimeShape();
    ReplaceUnique(s, n, h, |a| + 1, UnderIndex(n));
    Regroup(a + "_", h, "_", tail, s[..|a| + 1], s[|a| + 1 + |n|..]);
  }

  lemma Regroup(x: string, y: string, u: string, z: string, x': string, z': string)
    requires x' == x && z' == u + z
    ensures x' + y + z' == x + (y + u + z)
  {
  }

  /** The underscore names are their own restored form. */
  lemma NamesRestored()
    ensures Restore(ServiceTime) == ServiceTime && Restore(ResponseTime) == ResponseTime
  {
    RestorePlain(ServiceTime);
    RestorePlain(ResponseTime);
  }

  /** The fields left after dropping the leading empty ones. */
  function DropLeadingEmpty(ps: seq<string>): (r: seq<string>)
    ensures |r| <= |ps| && r == ps[|ps| - |r|..]
    ensures |r| > 0 ==> r[0] != ""
    ensures forall i :: 0 <= i < |ps| - |r| ==> ps[i] == ""
  {
    if |ps| == 0 then []
    else if ps[0] == "" then DropLeadingEmpty(ps[1..])
    else ps
  }

  /** The name part of a file name, as the `StringBuilder` loop of
      `fillValues` and `detectValues` rebuilds it from the leading fields:
      an '_' goes in front of a field only once the text is non-empty, so
      leading empty fields vanish and later ones leave a doubled '_'. */
  function JoinFields(ps: seq<string>): string {
    Join(DropLeadingEmpty(ps), "_")
  }

  /** The loop itself, over the first `|parts| - used` fields (none when
      that is negative). */
  method BuildName(parts: seq<string>, used: nat) returns (name: string)
    ensures name == JoinFields(parts[..if used <= |parts| then |parts| - used else 0])
  {
    var upto := if used <= |parts| then |parts| - used else 0;
    var sb := "";
    var i := 0;
    assert parts[..0] == [];
    while i < upto
      invariant 0 <= i <= upto
      invariant sb == JoinFields(parts[..i])
    {
      BuildStep(parts, i, sb);
      if |sb| > 0 {
        sb := sb + "_";
      }
      sb := sb + parts[i];
      i := i + 1;
    }
    name := sb;
  }

  lemma BuildStep(parts: seq<string>, i: nat, sb: string)
    requires i < |parts| && sb == JoinFields(parts[..i])
    ensures (if |sb| > 0 then sb + "_" else sb) + parts[i] == JoinFields(parts[..i + 1])
  {
    assert parts[..i + 1] == parts[..i] + [parts[i]];
    AppendField(sb, parts[..i], parts[i]);
  }

  lemma AppendField(sb: string, pre: seq<string>, p: string)
    requires sb == JoinFields(pre)
    ensures (if |sb| > 0 then sb + "_" else sb) + p == JoinFields(pre + [p])
  {
    JoinFieldsSnoc(pre, p);
  }

  /** One more field: appended after an '_', or on its own while the text
      is still empty. */
  lemma JoinFieldsSnoc(ps: seq<string>, p: string)
    ensures JoinFields(ps + [p]) == if JoinFields(ps) == "" then p else JoinFields(ps) + "_" + p
  {
    var d := DropLeadingEmpty(ps);
    DropSnoc(ps, p);
    if |d| > 0 {
      JoinSnoc(d, p, "_");
      JoinStartsWithFirst(d, "_");
    }
  }

  lemma {:induction false} DropSnoc(ps: seq<string>, p: string)
    ensures DropLeadingEmpty(ps + [p]) ==
      if |DropLeadingEmpty(ps)| > 0 then DropLeadingEmpty(ps) + [p]
      else if p == "" then [] else [p]
  {
    if |ps| > 0 {
      assert (ps + [p])[1..] == ps[1..] + [p];
      if ps[0] == "" {
        DropSnoc(ps[1..], p);
      }
    }
  }

  /** A join is at least as long as its first field. */
  lemma JoinStartsWithFirst(ps: seq<string>, sep: string)
    requires |ps| > 0
    ensures |Join(ps, sep)| >= |ps[0]|
  {
  }
}

=== FILE: metricvalue.dfy ===
/** The summaries of a metric's list of values: the largest value, and the
    mean and the sum of the positive ones.  A missing list (`None`) is
    treated as empty.  Values are exact reals. */
module MetricValue {
  import opened Wrappers

  /** `maxValue` over a list: the running maximum, starting from -1. */
  function Max(vs: seq<real>): (r: real)
    ensures r >= -1.0
    ensures forall i :: 0 <= i < |vs| ==> vs[i] <= r
    ensures r == -1.0 || exists i :: 0 <= i < |vs| && vs[i] == r
  {
    if |vs| == 0 then -1.0
    else
      var m := Max(vs[..|vs| - 1]);
      assert forall i :: 0 <= i < |vs| - 1 ==> vs[..|vs| - 1][i] == vs[i];
      if m < vs[|vs| - 1] then vs[|vs| - 1] else m
  }

  /** `maxValue`. */
  function MaxValue(values: Option<seq<real>>): (r: real)
    ensures values.None? || |values.value| == 0 ==> r == -1.0
    ensures values.Some? ==> r == Max(values.value)
  {
    if values.None? then -1.0 else Max(values.value)
  }

  /** The sum of the positive values. */
  function SumPositive(vs: seq<real>): (r: real)
    ensures r >= 0.0
    ensures (forall i :: 0 <= i < |vs| ==> vs[i] <= 0.0) ==> r == 0.0
  {
    if |vs| == 0 then 0.0
    else
      var v := vs[|vs| - 1];
      assert forall i :: 0 <= i < |vs| - 1 ==> vs[..|vs| - 1][i] == vs[i];
      SumPositive(vs[..|vs| - 1]) + (if v > 0.0 then v else 0.0)
  }

  /** How many values are positive. */
  function CountPositive(vs: seq<real>): (r: nat)
    ensures r <= |vs|
    ensures r == 0 <==> forall i :: 0 <= i < |vs| ==> vs[i] <= 0.0
  {
    if |vs| == 0 then 0
    else
      var v := vs[|vs| - 1];
      assert forall i :: 0 <= i < |vs| - 1 ==> vs[..|vs| - 1][i] == vs[i];
      CountPositive(vs[..|vs| - 1]) + (if v > 0.0 then 1 else 0)
  }

  /** `sumValue`. */
  function SumValue(values: Option<seq<real>>): (r: real)
    ensures r >= 0.0
    ensures values.None? ==> r == 0.0
  {
    if values.None? then 0.0 else SumPositive(values.value)
  }

  /** `n` copies of `b` added up. */
  function Scale(n: nat, b: real): (r: real)
    ensures b >= 0.0 ==> r >= 0.0
    ensures b <= 0.0 ==> r <= 0.0
    ensures n > 0 && b > 0.0 ==> r > 0.0
  {
    if n == 0 then 0.0 else Scale(n - 1, b) + b
  }

  lemma {:induction false} ScaleIsProduct(n: nat, b: real)
    ensures Scale(n, b) == (n as real) * b
  {
    if n > 0 {
      ScaleIsProduct(n - 1, b);
      assert ((n - 1) as real) * b + b == (n as real) * b;
    }
  }

  /** Adding up more of the larger number gives more. */
  lemma {:induction false} ScaleMonotone(n: nat, a: real, b: real)
    requires n > 0 && a > b
    ensures Scale(n, a) > Scale(n, b)
  {
    if n > 1 {
      ScaleMonotone(n - 1, a, b);
    }
  }

  lemma MeanScale(s: real, n: nat)
    requires n > 0
    ensures Scale(n, s / (n as real)) == s
  {
    ScaleIsProduct(n, s / (n as real));
  }

  /** `avgValue`: the mean of the positive values, -1 when there are none:
      added up once per positive value, it gives their sum. */
  function AvgValue(values: Option<seq<real>>): (r: real)
    ensures values.None? || CountPositive(values.value) == 0 ==> r == -1.0
    ensures values.Some? && CountPositive(values.value) > 0 ==>
      Scale(CountPositive(values.value), r) == SumValue(values)
  {
    if values.None? then -1.0
    else
      var n := CountPositive(values.value);
      if n > 0 then
        MeanScale(SumPositive(values.value), n);
        SumPositive(values.value) / (n as real)
      else -1.0
  }

  /** The positive values sum to at most their count times any bound of
      the values, and to more than zero when there are any. */
  lemma {:induction false} SumBounds(vs: seq<real>, bound: real)
    requires forall i :: 0 <= i < |vs| ==> vs[i] <= bound
    ensures SumPositive(vs) <= Scale(CountPositive(vs), bound)
    ensures CountPositive(vs) > 0 ==> SumPositive(vs) > 0.0
  {
    if |vs| > 0 {
      var front := vs[..|vs| - 1];
      assert forall i :: 0 <= i < |front| ==> front[i] == vs[i];
      SumBounds(front, bound);
    }
  }

  /** When some value is positive, the average is positive and at most the
      maximum. */
  lemma AverageBetween(values: Option<seq<real>>, avg: real, max: real)
    requires values.Some? && CountPositive(values.value) > 0
    requires avg == AvgValue(values) && max == MaxValue(values)
    ensures 0.0 < avg <= max
  {
    var vs := values.value;
    var n := CountPositive(vs);
    SumBounds(vs, Max(vs));
    if avg > max {
      ScaleMonotone(n, avg, max);
    }
  }

  /** When some value is positive, the sum is the average times the number
      of positive values. */
  lemma SumIsAverageTimesCount(values: Option<seq<real>>, avg: real)
    requires values.Some? && CountPositive(values.value) > 0
    requires avg == AvgValue(values)
    ensures SumValue(values) == avg * (CountPositive(values.value) as real)
  {
    ScaleIsProduct(CountPositive(values.value), avg);
  }
}

=== FILE: numbers.dfy ===
/** Java's fixed-width integer arithmetic and the digit-string conversions
    behind `Integer.parseInt`, `Double.valueOf` (plain decimal notation) and
    `String.valueOf` of an integer. */
module Numbers {
  import opened Wrappers
  import opened Strings

  const IntMin: int := -0x8000_0000
  const IntMax: int := 0x7fff_ffff
  const LongMin: int := -0x8000_0000_0000_0000
  const LongMax: int := 0x7fff_ffff_ffff_ffff

  predicate IsInt(x: int) {
    IntMin <= x <= IntMax
  }

  predicate IsLong(x: int) {
    LongMin <= x <= LongMax
  }

  /** The value a 32-bit `int` operation yields for the exact result `x`:
      the one `int` congruent to `x` modulo 2^32. */
  function Wrap32(x: int): (r: int)
    ensures IsInt(r)
    ensures (x - r) % 0x1_0000_0000 == 0
    ensures IsInt(x) ==> r == x
  {
    var k := (x - IntMin) % 0x1_0000_0000;
    assert x - IntMin == ((x - IntMin) / 0x1_0000_0000) * 0x1_0000_0000 + k;
    k + IntMin
  }

  /** The value a 64-bit `long` operation yields for the exact result `x`. */
  function Wrap64(x: int): (r: int)
    ensures IsLong(r)
    ensures (x - r) % 0x1_0000_0000_0000_0000 == 0
    ensures IsLong(x) ==> r == x
  {
    var k := (x - LongMin) % 0x1_0000_0000_0000_0000;
    assert x - LongMin == ((x - LongMin) / 0x1_0000_0000_0000_0000) * 0x1_0000_0000_0000_0000 + k;
    k + LongMin
  }

  predicate IsDigit(c: char) {
    '0' <= c <= '9'
  }

  predicate AllDigits(s: string) {
    forall i :: 0 <= i < |s| ==> IsDigit(s[i])
  }

  function DigitValue(c: char): nat
    requires IsDigit(c)
  {
    c as int - '0' as int
  }

  function DigitChar(d: nat): (c: char)
    requires d < 10
    ensures IsDigit(c) && DigitValue(c) == d
  {
    ('0' as int + d) as char
  }

  /** The number a string of decimal digits denotes, most significant first. */
  function DigitsValue(s: string): nat
    requires AllDigits(s)
  {
    if |s| == 0 then 0 else DigitsValue(s[..|s| - 1]) * 10 + DigitValue(s[|s| - 1])
  }

  /** The shortest decimal numeral of `n`. */
  function ShowNat(n: nat): (r: string)
    ensures |r| >= 1 && AllDigits(r)
    ensures |r| > 1 ==> r[0] != '0'
  {
    if n < 10 then [DigitChar(n)] else ShowNat(n / 10) + [DigitChar(n % 10)]
  }

  /** `String.valueOf` of an integer: a minus sign for negative values. */
  function ShowInt(n: int): (r: string)
    ensures |r| >= 1 && IsDigit(r[|r| - 1])
    ensures r[0] == '-' || IsDigit(r[0])
  {
    if n < 0 then "-" + ShowNat(-n) else ShowNat(n)
  }

  lemma {:induction false} DigitsShowNat(n: nat)
    ensures DigitsValue(ShowNat(n)) == n
  {
    if n >= 10 {
      var s := ShowNat(n);
      assert s[..|s| - 1] == ShowNat(n / 10);
      DigitsShowNat(n / 10);
    }
  }

  /** `Integer.parseInt` without the range check: an optional sign followed by
      at least one decimal digit, nothing else (no white space). */
  function ParseInteger(s: string): (r: Option<int>)
    ensures r.Some? ==> |s| > 0 && IsDigit(s[|s| - 1])
    ensures r.Some? ==> s[0] == '-' || s[0] == '+' || IsDigit(s[0])
  {
    if |s| == 0 then None
    else
      var digits := if s[0] == '-' || s[0] == '+' then s[1..] else s;
      if |digits| == 0 || !AllDigits(digits) then None
      else if s[0] == '-' then Some(-(DigitsValue(digits) as int))
      else Some(DigitsValue(digits))
  }

  /** `Integer.parseInt`/`Integer.valueOf`: `None` stands for the
      `NumberFormatException` thrown on a malformed or out-of-range numeral. */
  function ParseInt(s: string): (r: Option<int>)
    ensures r.Some? ==> IsInt(r.value) && ParseInteger(s) == r
    ensures ParseInteger(s).Some? && IsInt(ParseInteger(s).value) ==> r.Some?
  {
    match ParseInteger(s)
    case None => None
    case Some(v) => if IsInt(v) then Some(v) else None
  }

  /** Reading back the numeral of an integer gives the integer. */
  lemma ParseShowInt(n: int)
    ensures ParseInteger(ShowInt(n)) == Some(n)
    ensures IsInt(n) ==> ParseInt(ShowInt(n)) == Some(n)
  {
    if n < 0 {
      ParseShowNeg(-n);
    } else {
      ParseShowNat(n);
    }
  }

  lemma ParseShowNat(n: nat)
    ensures ParseInteger(ShowNat(n)) == Some(n)
  {
    DigitsShowNat(n);
  }

  lemma ParseShowNeg(n: nat)
    ensures ParseInteger("-" + ShowNat(n)) == Some(-(n as int))
  {
    DigitsShowNat(n);
    assert ("-" + ShowNat(n))[1..] == ShowNat(n);
  }

  function Pow10(n: nat): (r: nat)
    ensures r >= 1
  {
    if n == 0 then 1 else 10 * Pow10(n - 1)
  }

  /** `Double.valueOf` restricted to plain decimal notation: surrounding
      white space, an optional sign, digits with an optional fraction, and at
      least one digit in all. */
  function ParseDecimal(s: string): (r: Option<real>)
    ensures r.Some? ==> |Trim(s)| > 0
  {
    var t := Trim(s);
    if |t| == 0 then None
    else
      var body := if t[0] == '-' || t[0] == '+' then t[1..] else t;
      var dot := IndexOfChar(body, '.');
      var whole := if dot < 0 then body else body[..dot];
      var frac := if dot < 0 then "" else body[dot + 1..];
      if |whole| + |frac| == 0 || !AllDigits(whole) || !AllDigits(frac) then None
      else
        var v := DigitsValue(whole) as real + DigitsValue(frac) as real / Pow10(|frac|) as real;
        Some(if t[0] == '-' then -v else v)
  }

  /** Every numeral `Integer.valueOf` accepts, `Double.valueOf` accepts with
      the same value. */
  lemma IntIsDecimal(s: string)
    requires ParseInteger(s).Some?
    ensures ParseDecimal(s) == Some(ParseInteger(s).value as real)
  {
    TrimKeeps(s);
  }

  /** In particular the numeral of any integer reads back as a decimal. */
  lemma ParseDecimalShowInt(n: int)
    ensures ParseDecimal(ShowInt(n)) == Some(n as real)
  {
    ParseShowInt(n);
    IntIsDecimal(ShowInt(n));
  }
}

=== FILE: reduce.dfy ===
/** `reduceResultsTable` (app.js:1296-1522): the columns of a trimmed
    results table are grouped by the values of the selected group-by rows,
    and each group becomes one output column whose cells merge the group's
    cells row by row.  The reduction is built from the corrected header,
    class and results-directory merges (`MergeText`, `MergeClasses`,
    `MergeResultsDir`); the merges as written are modelled beside them. */
module Reduce {
  import opened Wrappers
  import opened Strings
  import opened Utils
  import opened Table

  // ---------------------------------------------------------------------
  // Column equivalence (app.js:1414-1435)
  // ---------------------------------------------------------------------

  /** The group-by toggles and the `groupByEnabled` switch. */
  datatype Grouping = Grouping(toggles: seq<Toggle>, enabled: bool)

  /** Every selected group-by toggle carries a name (the code capitalises
      it). */
  predicate Named(g: Grouping) {
    forall k :: 0 <= k < |g.toggles| && g.toggles[k].selected ==> g.toggles[k].name.Some?
  }

  /** The value in column `i` of a row; a trimmed table holds a cell in
      every column below its width. */
  function ValueAt(row: Row, i: nat): Val {
    if At(row, i).Some? then At(row, i).value.value else Null
  }

  /** The row a group-by toggle reads: the row with its name, else the row
      with its capitalised name. */
  function KeyRow(t: Table, name: string): (r: Option<Row>)
    ensures r.Some? ==> r.value in t
    ensures r.None? <==> Get(t, name).None? && Get(t, Capitalize(name)).None?
  {
    if Get(t, name).Some? then Get(t, name) else Get(t, Capitalize(name))
  }

  /** Columns `i` and `j` agree on one toggle; a toggle whose row is missing
      counts as agreeing. */
  predicate Agree(t: Table, item: Toggle, i: nat, j: nat) {
    item.name.Some? ==>
      var kr := KeyRow(t, item.name.value);
      kr.None? || ValueAt(kr.value, i) == ValueAt(kr.value, j)
  }

  /** Two columns belong together when they agree on every selected toggle;
      with grouping switched off every column stands alone. */
  predicate Related(t: Table, g: Grouping, i: nat, j: nat) {
    if g.enabled then
      forall k :: 0 <= k < |g.toggles| && g.toggles[k].selected ==> Agree(t, g.toggles[k], i, j)
    else i == j
  }

  /** The counting loop of the code: `equal` and `total` over the selected
      toggles, with `equal === total` deciding. */
  method CountEqual(t: Table, g: Grouping, i: nat, j: nat) returns (equal: nat, total: nat)
    requires Named(g) && g.enabled
    ensures equal <= total
    ensures equal == total <==> Related(t, g, i, j)
  {
    var items := g.toggles;
    equal, total := 0, 0;
    var k := 0;
    while k < |items|
      invariant k <= |items|
      invariant equal <= total
      invariant equal == total <==> forall m :: 0 <= m < k && items[m].selected ==> Agree(t, items[m], i, j)
    {
      var item := items[k];
      if item.selected {
        total := total + 1;
        var name := item.name.value;
        var row := Get(t, name);
        if row.Some? {
          equal := equal + IsEqual(ValueAt(row.value, i), ValueAt(row.value, j));
        } else {
          var cap := Get(t, Capitalize(name));
          if cap.Some? {
            equal := equal + IsEqual(ValueAt(cap.value, i), ValueAt(cap.value, j));
          } else {
            equal := equal + 1;
          }
        }
      }
      k := k + 1;
    }
  }

  ghost predicate Equivalence(rel: (nat, nat) -> bool) {
    && (forall i :: rel(i, i))
    && (forall i, j :: rel(i, j) ==> rel(j, i))
    && (forall i, j, k :: rel(i, j) && rel(j, k) ==> rel(i, k))
  }

  /** The column relation of a table and grouping. */
  function Relation(t: Table, g: Grouping): (nat, nat) -> bool {
    (i: nat, j: nat) => Related(t, g, i, j)
  }

  /** `rel` decides relatedness of the columns of `t` under `g`.  The
      quantifier only fires on `Related` terms, so contexts that speak of
      `rel` alone do not unfold the column comparison. */
  ghost predicate Models(rel: (nat, nat) -> bool, t: Table, g: Grouping) {
    forall i: nat, j: nat {:trigger Related(t, g, i, j)} :: rel(i, j) == Related(t, g, i, j)
  }

  lemma RelationModels(t: Table, g: Grouping)
    ensures Models(Relation(t, g), t, g)
  {
  }

  /** Relatedness is an equivalence. */
  lemma RelatedEquivalence(rel: (nat, nat) -> bool, t: Table, g: Grouping)
    requires Models(rel, t, g)
    ensures Equivalence(rel)
  {
    forall i: nat ensures rel(i, i) {
      assert Related(t, g, i, i);
    }
    forall i: nat, j: nat | rel(i, j) ensures rel(j, i) {
      assert Related(t, g, i, j) && Related(t, g, j, i);
    }
    forall i: nat, j: nat, k: nat | rel(i, j) && rel(j, k) ensures rel(i, k) {
      assert Related(t, g, i, j) && Related(t, g, j, k);
      if g.enabled {
        forall m | 0 <= m < |g.toggles| && g.toggles[m].selected ensures Agree(t, g.toggles[m], i, k) {
          assert Agree(t, g.toggles[m], i, j) && Agree(t, g.toggles[m], j, k);
        }
      }
      assert Related(t, g, i, k);
    }
  }

  // ---------------------------------------------------------------------
  // Grouping (app.js:1305-1309, 1411-1520)
  // ---------------------------------------------------------------------

  /** The first column in `[k, j]` related to column `j` (`j` itself when
      no earlier one is). */
  function LeastRelatedFrom(rel: (nat, nat) -> bool, j: nat, k: nat): (r: nat)
    requires k <= j
    ensures k <= r <= j && (r < j ==> rel(r, j))
    ensures forall m :: k <= m < r ==> !rel(m, j)
    decreases j - k
  {
    if k == j || rel(k, j) then k else LeastRelatedFrom(rel, j, k + 1)
  }

  /** The column whose group takes column `j`: the first column related to
      it. */
  function Anchor(rel: (nat, nat) -> bool, j: nat): (r: nat)
    requires 1 <= j
    ensures 1 <= r <= j && (r < j ==> rel(r, j))
    ensures forall m :: 1 <= m < r ==> !rel(m, j)
  {
    LeastRelatedFrom(rel, j, 1)
  }

  /** An anchor takes exactly the later columns related to it, and the
      anchor of any column is an anchor of itself. */
  lemma AnchorTakes(rel: (nat, nat) -> bool, a: nat, j: nat)
    requires Equivalence(rel) && 1 <= a <= j
    ensures rel(Anchor(rel, j), j)
    ensures Anchor(rel, Anchor(rel, j)) == Anchor(rel, j)
    ensures Anchor(rel, a) == a ==> (rel(a, j) <==> Anchor(rel, j) == a)
  {
    var b := Anchor(rel, j);
    var c := Anchor(rel, b);
    assert rel(b, j);
    assert c < b ==> rel(c, b);
  }

  /** `AnchorTakes` for the columns of a table. */
  lemma ColumnAnchorTakes(rel: (nat, nat) -> bool, t: Table, g: Grouping, a: nat, j: nat)
    requires Models(rel, t, g) && 1 <= a <= j
    ensures rel(Anchor(rel, j), j)
    ensures Anchor(rel, Anchor(rel, j)) == Anchor(rel, j)
    ensures Anchor(rel, a) == a ==> (rel(a, j) <==> Anchor(rel, j) == a)
  {
    RelatedEquivalence(rel, t, g);
    AnchorTakes(rel, a, j);
  }

  /** One output column: the anchor column and the later columns merged
      into it, in column order. */
  datatype Group = Group(anchor: nat, peers: seq<nat>)

  function Members(gr: Group): seq<nat> {
    [gr.anchor] + gr.peers
  }

  /** The columns in `[j, total)` related to anchor `a`, in order. */
  function PeersFrom(rel: (nat, nat) -> bool, a: nat, j: nat, total: nat): seq<nat>
    decreases total - j
  {
    if j >= total then []
    else (if rel(a, j) then [j] else []) + PeersFrom(rel, a, j + 1, total)
  }

  /** A column is a peer exactly when it lies in the range and is related
      to the anchor. */
  lemma {:induction false} PeersFromMembers(rel: (nat, nat) -> bool, a: nat, j: nat, total: nat, m: nat)
    ensures m in PeersFrom(rel, a, j, total) <==> j <= m < total && rel(a, m)
    decreases total - j
  {
    if j < total {
      PeersFromMembers(rel, a, j + 1, total, m);
    }
  }

  /** The peers come in increasing column order, after the anchor. */
  lemma {:induction false} PeersFromOrdered(rel: (nat, nat) -> bool, a: nat, j: nat, total: nat)
    ensures forall k :: 0 <= k < |PeersFrom(rel, a, j, total)| ==> j <= PeersFrom(rel, a, j, total)[k] < total
    ensures forall k, l :: 0 <= k < l < |PeersFrom(rel, a, j, total)| ==>
              PeersFrom(rel, a, j, total)[k] < PeersFrom(rel, a, j, total)[l]
    decreases total - j
  {
    if j < total {
      PeersFromOrdered(rel, a, j + 1, total);
    }
  }

  /** The reference grouping of the columns in `[i, total)`: one group per
      anchor, in column order. */
  function GroupsFrom(rel: (nat, nat) -> bool, i: nat, total: nat): (r: seq<Group>)
    requires 1 <= i
    ensures forall k :: 0 <= k < |r| ==> i <= r[k].anchor < total && Anchor(rel, r[k].anchor) == r[k].anchor
    ensures forall k :: 0 <= k < |r| ==> r[k].peers == PeersFrom(rel, r[k].anchor, r[k].anchor + 1, total)
    ensures forall k, l :: 0 <= k < l < |r| ==> r[k].anchor < r[l].anchor
    decreases total - i
  {
    if i >= total then []
    else
      var rest := GroupsFrom(rel, i + 1, total);
      if Anchor(rel, i) == i then [Group(i, PeersFrom(rel, i, i + 1, total))] + rest else rest
  }

  /** Every anchor in `[i, total)` opens a group. */
  lemma {:induction false} GroupsFromComplete(rel: (nat, nat) -> bool, i: nat, total: nat, m: nat)
    requires 1 <= i <= m < total && Anchor(rel, m) == m
    ensures exists k :: 0 <= k < |GroupsFrom(rel, i, total)| && GroupsFrom(rel, i, total)[k].anchor == m
    decreases total - i
  {
    var r := GroupsFrom(rel, i, total);
    if i == m {
      assert r[0].anchor == m;
    } else {
      GroupsFromComplete(rel, i + 1, total, m);
      var rest := GroupsFrom(rel, i + 1, total);
      var k :| 0 <= k < |rest| && rest[k].anchor == m;
      if Anchor(rel, i) == i {
        assert r[k + 1] == rest[k];
      }
    }
  }

  /** The output columns of a table: the groups of its data columns. */
  function Groups(t: Table, g: Grouping, total: nat): (r: seq<Group>)
    ensures InRange(r, total)
  {
    GroupsFromInRange(Relation(t, g), total);
    GroupsFrom(Relation(t, g), 1, total)
  }

  /** The anchor of column `j` in a table. */
  function ColumnAnchor(t: Table, g: Grouping, j: nat): nat
    requires 1 <= j
  {
    Anchor(Relation(t, g), j)
  }

  /** What the outer loop keeps before column `i`: a later column is
      processed exactly when an earlier anchor took it, and the groups so
      far are the reference groups up to `i`. */
  predicate ScanInv(rel: (nat, nat) -> bool, i: nat, total: nat, groups: seq<Group>, processed: seq<bool>) {
    && 1 <= i <= total && |processed| == total
    && (forall m :: i <= m < total ==> (processed[m] <==> Anchor(rel, m) < i))
    && groups + GroupsFrom(rel, i, total) == GroupsFrom(rel, 1, total)
  }

  /** What the inner loop keeps before column `j`: the columns it took are
      processed, and the peers so far are the reference peers up to `j`. */
  predicate TakeInv(rel: (nat, nat) -> bool, i: nat, j: nat, total: nat, peers: seq<nat>, processed: seq<bool>) {
    && i + 1 <= j <= total && |processed| == total
    && (forall m :: i < m < total ==>
          (processed[m] <==> Anchor(rel, m) < i || (m < j && Anchor(rel, m) == i)))
    && peers + PeersFrom(rel, i, j, total) == PeersFrom(rel, i, i + 1, total)
  }

  /** The grouping loop as written: a column already taken by an earlier
      group is skipped; otherwise it opens a group and takes every later
      column related to it. */
  method ScanGroups(t: Table, g: Grouping, total: nat) returns (groups: seq<Group>)
    requires Named(g)
    ensures groups == Groups(t, g, total)
  {
    var processed := seq(total, _ => false);
    groups := [];
    if total <= 1 {
      return;
    }
    ghost var rel := Relation(t, g);
    RelationModels(t, g);
    var i := 1;
    while i < total
      invariant ScanInv(rel, i, total, groups, processed)
    {
      groups, processed := ScanColumn(t, g, rel, i, total, groups, processed);
      i := i + 1;
    }
  }

  /** One round of the outer loop. */
  method ScanColumn(t: Table, g: Grouping, ghost rel: (nat, nat) -> bool, i: nat, total: nat, groups0: seq<Group>, processed0: seq<bool>)
    returns (groups: seq<Group>, processed: seq<bool>)
    requires Named(g) && Models(rel, t, g) && i < total && ScanInv(rel, i, total, groups0, processed0)
    ensures ScanInv(rel, i + 1, total, groups, processed)
  {
    groups, processed := groups0, processed0;
    if !processed[i] {
      var peers;
      peers, processed := TakePeers(t, g, rel, i, total, processed);
      groups := groups + [Group(i, peers)];
    } else {
      SkippedColumn(rel, t, g, i);
    }
  }

  /** A column taken by an earlier group is the anchor of no later column. */
  lemma SkippedColumn(rel: (nat, nat) -> bool, t: Table, g: Grouping, i: nat)
    requires Models(rel, t, g) && 1 <= i && Anchor(rel, i) < i
    ensures forall m :: i < m ==> Anchor(rel, m) != i
  {
    forall m | i < m ensures Anchor(rel, m) != i {
      ColumnAnchorTakes(rel, t, g, i, m);
    }
  }

  /** The inner loop: anchor `i` takes every later related column and marks
      it processed. */
  method TakePeers(t: Table, g: Grouping, ghost rel: (nat, nat) -> bool, i: nat, total: nat, processed0: seq<bool>)
    returns (peers: seq<nat>, processed: seq<bool>)
    requires Named(g) && Models(rel, t, g) && 1 <= i < total && |processed0| == total
    requires Anchor(rel, i) == i
    requires forall m :: i < m < total ==> (processed0[m] <==> Anchor(rel, m) < i)
    ensures |processed| == total
    ensures forall m :: i < m < total ==> (processed[m] <==> Anchor(rel, m) < i + 1)
    ensures peers == PeersFrom(rel, i, i + 1, total)
  {
    if !g.enabled {
      processed, peers := processed0, [];
      UngroupedAnchor(rel, t, g, i, total);
    } else {
      peers, processed := TakeLoop(t, g, rel, i, total, processed0);
    }
  }

  /** The inner loop with grouping switched on. */
  method TakeLoop(t: Table, g: Grouping, ghost rel: (nat, nat) -> bool, i: nat, total: nat, processed0: seq<bool>)
    returns (peers: seq<nat>, processed: seq<bool>)
    requires Named(g) && g.enabled && Models(rel, t, g) && 1 <= i < total && Anchor(rel, i) == i
    requires TakeInv(rel, i, i + 1, total, [], processed0)
    ensures TakeInv(rel, i, total, total, peers, processed)
  {
    processed, peers := processed0, [];
    var j := i + 1;
    while j < total
      invariant TakeInv(rel, i, j, total, peers, processed)
    {
      var take := Takes(t, g, rel, i, j);
      peers, processed := TakeColumn(rel, i, j, total, peers, processed, take);
      j := j + 1;
    }
  }

  /** The counting test of the inner loop decides whether anchor `i` takes
      column `j`. */
  method Takes(t: Table, g: Grouping, ghost rel: (nat, nat) -> bool, i: nat, j: nat) returns (take: bool)
    requires Named(g) && g.enabled && Models(rel, t, g) && 1 <= i < j && Anchor(rel, i) == i
    ensures take == rel(i, j) && (take <==> Anchor(rel, j) == i)
  {
    var equal, count := CountEqual(t, g, i, j);
    ColumnAnchorTakes(rel, t, g, i, j);
    take := equal == count;
  }

  /** One round of the inner loop: column `j` is taken when it is related
      to anchor `i`. */
  method TakeColumn(ghost rel: (nat, nat) -> bool, i: nat, j: nat, total: nat, peers0: seq<nat>, processed0: seq<bool>, take: bool)
    returns (peers: seq<nat>, processed: seq<bool>)
    requires 1 <= i < j < total && take == rel(i, j) && (take <==> Anchor(rel, j) == i)
    requires TakeInv(rel, i, j, total, peers0, processed0)
    ensures TakeInv(rel, i, j + 1, total, peers, processed)
  {
    peers, processed := peers0, processed0;
    PeersStep(rel, i, j, total);
    if take {
      AppendAssoc(peers, j, PeersFrom(rel, i, j + 1, total));
      peers := peers + [j];
      processed := processed[j := true];
    }
  }

  lemma AppendAssoc(a: seq<nat>, x: nat, b: seq<nat>)
    ensures (a + [x]) + b == a + ([x] + b)
  {
  }

  lemma PeersStep(rel: (nat, nat) -> bool, a: nat, j: nat, total: nat)
    requires j < total
    ensures PeersFrom(rel, a, j, total) == (if rel(a, j) then [j] else []) + PeersFrom(rel, a, j + 1, total)
  {
  }

  /** With grouping switched off an anchor takes no column. */
  lemma UngroupedAnchor(rel: (nat, nat) -> bool, t: Table, g: Grouping, i: nat, total: nat)
    requires Models(rel, t, g) && !g.enabled && 1 <= i
    ensures PeersFrom(rel, i, i + 1, total) == []
    ensures forall m :: i < m ==> Anchor(rel, m) != i
  {
    NoPeersWhenUngrouped(rel, t, g, i, i + 1, total);
    forall m | i < m ensures Anchor(rel, m) != i {
      assert !Related(t, g, i, m);
    }
  }

  lemma {:induction false} NoPeersWhenUngrouped(rel: (nat, nat) -> bool, t: Table, g: Grouping, a: nat, j: nat, total: nat)
    requires Models(rel, t, g) && !g.enabled && a < j
    ensures PeersFrom(rel, a, j, total) == []
    decreases total - j
  {
    if j < total {
      assert !Related(t, g, a, j);
      NoPeersWhenUngrouped(rel, t, g, a, j + 1, total);
    }
  }

  /** Every column of the table lies in exactly one group: the group of its
      anchor. */
  lemma GroupsPartition(t: Table, g: Grouping, total: nat, j: nat)
    requires 1 <= j < total
    ensures forall k :: 0 <= k < |Groups(t, g, total)| ==>
              (j in Members(Groups(t, g, total)[k]) <==> Groups(t, g, total)[k].anchor == ColumnAnchor(t, g, j))
    ensures exists k :: 0 <= k < |Groups(t, g, total)| && j in Members(Groups(t, g, total)[k])
  {
    var rel := Relation(t, g);
    RelationModels(t, g);
    var gs := Groups(t, g, total);
    var a := Anchor(rel, j);
    ColumnAnchorTakes(rel, t, g, a, j);
    forall k | 0 <= k < |gs| ensures j in Members(gs[k]) <==> gs[k].anchor == a {
      var c := gs[k].anchor;
      PeersFromMembers(rel, c, c + 1, total, j);
      if c <= j {
        ColumnAnchorTakes(rel, t, g, c, j);
      }
    }
    GroupsFromComplete(rel, 1, total, a);
  }

  /** With grouping switched off every column is a group of its own. */
  lemma UngroupedColumns(t: Table, g: Grouping, total: nat)
    requires !g.enabled
    ensures |Groups(t, g, total)| == (if total > 1 then total - 1 else 0)
    ensures forall k :: 0 <= k < |Groups(t, g, total)| ==> Groups(t, g, total)[k] == Group(k + 1, [])
  {
    RelationModels(t, g);
    UngroupedFrom(Relation(t, g), t, g, 1, total);
  }

  lemma {:induction false} UngroupedFrom(rel: (nat, nat) -> bool, t: Table, g: Grouping, i: nat, total: nat)
    requires Models(rel, t, g) && !g.enabled && 1 <= i
    ensures |GroupsFrom(rel, i, total)| == (if total > i then total - i else 0)
    ensures forall k :: 0 <= k < |GroupsFrom(rel, i, total)| ==> GroupsFrom(rel, i, total)[k] == Group(k + i, [])
    decreases total - i
  {
    if i < total {
      UngroupedFrom(rel, t, g, i + 1, total);
      NoPeersWhenUngrouped(rel, t, g, i, i + 1, total);
      assert Related(t, g, Anchor(rel, i), i) ==> Anchor(rel, i) == i;
    }
  }

  // ---------------------------------------------------------------------
  // Merging header text (app.js:1464-1471)
  // ---------------------------------------------------------------------

  /** Header and parameter cells are assumed to hold text or null; the
      model does not follow a number or another value through the merge. */
  predicate Text(v: Val) {
    v.Null? || v.Str?
  }

  /** `w` is one of the space-delimited phrases of `s`: the whole text, its
      leading or trailing part, or a part between two spaces. */
  predicate PhraseIn(s: string, w: string) {
    s == w || StartsWith(s, w + " ") || Contains(s, " " + w + " ") || EndsWith(s, " " + w)
  }

  /** The header merge as written: a value is appended unless it equals the
      text, occurs between two spaces or ends it.  A value that begins the
      text is not recognised. */
  function MergeTextAsWritten(v1: Val, v2: Val): (r: Val)
    requires Text(v1) && Text(v2)
    ensures Text(r)
  {
    if !Truthy(v1) then v2
    else if Truthy(v2) && v1 != v2 && !Contains(v1.s, " " + v2.s + " ") && !EndsWith(v1.s, " " + v2.s) then
      Str(v1.s + " " + v2.s)
    else v1
  }

  /** The header merge with the leading phrase recognised too. */
  function MergeText(v1: Val, v2: Val): (r: Val)
    requires Text(v1) && Text(v2)
    ensures Text(r)
    ensures Truthy(v1) ==> Truthy(r)
    ensures Truthy(v2) ==> Truthy(r) && PhraseIn(r.s, v2.s)
    ensures Truthy(v1) && Truthy(v2) && PhraseIn(v1.s, v2.s) ==> r == v1
    ensures Truthy(v1) && Truthy(v2) && !PhraseIn(v1.s, v2.s) ==> r == Str(v1.s + " " + v2.s)
    ensures Truthy(v1) ==> r == v1 || (Truthy(v2) && r == Str(v1.s + " " + v2.s))
    ensures !Truthy(v1) ==> r == v2
  {
    if !Truthy(v1) then (assert Truthy(v2) ==> PhraseIn(v2.s, v2.s); v2)
    else if Truthy(v2) && !PhraseIn(v1.s, v2.s) then
      PhraseAtEnd(v1.s, v2.s);
      Str(v1.s + " " + v2.s)
    else v1
  }

  lemma PhraseAtEnd(s: string, w: string)
    ensures EndsWith(s + " " + w, " " + w)
  {
    assert (s + " " + w)[|s + " " + w| - |" " + w|..] == " " + w;
  }

  lemma ContainsAt(s: string, p: string, k: nat)
    requires OccursAt(s, p, k)
    ensures Contains(s, p)
  {
  }

  lemma ContainsExtend(s: string, p: string, v: string)
    requires Contains(s, p)
    ensures Contains(s + v, p)
  {
    var k := IndexOf(s, p);
    assert (s + v)[k..k + |p|] == s[k..k + |p|];
    ContainsAt(s + v, p, k);
  }

  /** Appending a value keeps every phrase the text already had. */
  lemma PhraseExtend(s: string, w: string, v: string)
    requires PhraseIn(s, w)
    ensures PhraseIn(s + " " + v, w)
  {
    var s' := s + " " + v;
    if s == w {
      assert s'[..|w + " "|] == w + " ";
    } else if StartsWith(s, w + " ") {
      assert s'[..|w + " "|] == s[..|w + " "|];
    } else if Contains(s, " " + w + " ") {
      ContainsExtend(s, " " + w + " ", " " + v);
      assert s + (" " + v) == s';
    } else {
      var p := " " + w + " ";
      var k := |s| - |" " + w|;
      assert s'[k..k + |p|] == s[k..] + " ";
      ContainsAt(s', p, k);
    }
  }

  /** The merged header keeps every phrase of the text it merges into. */
  lemma MergeTextKeeps(v1: Val, v2: Val, w: string)
    requires Text(v1) && Text(v2) && Truthy(v1) && PhraseIn(v1.s, w)
    ensures PhraseIn(MergeText(v1, v2).s, w)
  {
    if Truthy(v2) && !PhraseIn(v1.s, v2.s) {
      PhraseExtend(v1.s, w, v2.s);
    }
  }

  /** Merging the header values `A`, `B`, `A` as written gives `A B A`: the
      repeated leading value is appended again.  With the leading phrase
      recognised the result is `A B`. */
  lemma HeaderMergeCounterexample()
    ensures MergeTextAsWritten(MergeTextAsWritten(Str("A"), Str("B")), Str("A")) == Str("A B A")
    ensures MergeText(MergeText(Str("A"), Str("B")), Str("A")) == Str("A B")
  {
    assert MergeTextAsWritten(Str("A"), Str("B")) == Str("A B") by {
      assert !Contains("A", " B ");
      assert !EndsWith("A", " B");
    }
    assert !Contains("A B", " A ") by {
      assert forall k :: !OccursAt("A B", " A ", k);
    }
    assert !EndsWith("A B", " A");
    assert MergeText(Str("A"), Str("B")) == Str("A B") by {
      assert !Contains("A", " B ");
      assert !PhraseIn("A", "B");
    }
    assert StartsWith("A B", "A" + " ");
  }

  // ---------------------------------------------------------------------
  // Merging number-cell classes (app.js:1483, utils.js:852-854)
  // ---------------------------------------------------------------------

  /** A class as JavaScript concatenates it: an absent class reads
      `undefined`. */
  function ClsText(c: Option<string>): string {
    c.GetOr("undefined")
  }

  /** The class merge as written: `removeDups()` without a separator splits
      nothing, so only the trim happens and every class repeats. */
  function MergeClassesAsWritten(c1: Option<string>, c2: Option<string>): (r: string)
    ensures r == JsTrim(ClsText(c1) + " " + ClsText(c2))
  {
    StrRemoveDups(ClsText(c1) + " " + ClsText(c2), None)
  }

  /** The class merge with the space separator the code evidently means. */
  function MergeClasses(c1: Option<string>, c2: Option<string>): string {
    StrRemoveDups(ClsText(c1) + " " + ClsText(c2), Some(' '))
  }

  /** A class name: non-empty, without white space. */
  predicate ClassName(w: string) {
    |w| > 0 && forall k :: 0 <= k < |w| ==> !JsSpace(w[k])
  }

  predicate ClassNames(ws: seq<string>) {
    forall i :: 0 <= i < |ws| ==> ClassName(ws[i])
  }

  /** A class attribute: class names separated by single spaces. */
  predicate ClassList(s: string) {
    ClassNames(Split(s, ' '))
  }

  /** A class list is the join of its names and has no surrounding white
      space. */
  lemma ClassListShape(s: string)
    requires ClassList(s)
    ensures s == Join(Split(s, ' '), " ")
    ensures |s| > 0 && !JsSpace(s[0]) && !JsSpace(s[|s| - 1])
  {
    SplitJoin(s, ' ');
    JoinEnds(Split(s, ' '), " ");
  }

  /** Joining class names gives a class list with those names. */
  lemma JoinClassNames(ws: seq<string>)
    requires |ws| >= 1 && ClassNames(ws)
    ensures Split(Join(ws, " "), ' ') == ws
    ensures JsTrim(Join(ws, " ")) == Join(ws, " ")
  {
    forall i | 0 <= i < |ws| ensures ' ' !in ws[i] {
      assert forall k :: 0 <= k < |ws[i]| ==> ws[i][k] != ' ';
    }
    JoinSplit(ws, ' ');
    JoinEnds(ws, " ");
    JsTrimKeeps(Join(ws, " "));
  }

  lemma MergeClassesText(a: string, b: string)
    ensures MergeClassesAsWritten(Some(a), Some(b)) == JsTrim(a + [' '] + b)
    ensures MergeClasses(Some(a), Some(b)) == JsTrim(Join(RemoveDups(Split(a + [' '] + b, ' ')), " "))
  {
    assert a + " " + b == a + [' '] + b;
  }

  /** The names of two class lists, side by side, are class names. */
  lemma ClassNamesConcat(a: string, b: string)
    requires ClassList(a) && ClassList(b)
    ensures Split(a + [' '] + b, ' ') == Split(a, ' ') + Split(b, ' ')
    ensures ClassNames(Split(a, ' ') + Split(b, ' '))
  {
    SplitConcat(a, b, ' ');
    ClassNamesAppend(Split(a, ' '), Split(b, ' '));
  }

  lemma ClassNamesAppend(p: seq<string>, q: seq<string>)
    requires ClassNames(p) && ClassNames(q)
    ensures ClassNames(p + q)
  {
    forall i | 0 <= i < |p + q| ensures ClassName((p + q)[i]) {
      if i < |p| {
        assert (p + q)[i] == p[i];
      } else {
        assert (p + q)[i] == q[i - |p|];
      }
    }
  }

  lemma ClassNamesRemoveDups(ws: seq<string>)
    requires |ws| >= 1 && ClassNames(ws)
    ensures |RemoveDups(ws)| >= 1 && ClassNames(RemoveDups(ws))
  {
    var ds := RemoveDups(ws);
    assert ws[0] in ds;
    forall i | 0 <= i < |ds| ensures ClassName(ds[i]) {
      assert ds[i] in ws;
    }
  }

  /** As written, the merged class text is the two lists side by side, so a
      class both cells carry appears twice. */
  lemma MergeClassesAsWrittenRepeats(a: string, b: string)
    requires ClassList(a) && ClassList(b)
    ensures Split(MergeClassesAsWritten(Some(a), Some(b)), ' ') == Split(a, ' ') + Split(b, ' ')
    ensures a == b ==> !NoDups(Split(MergeClassesAsWritten(Some(a), Some(b)), ' '))
  {
    MergeClassesText(a, b);
    ClassNamesConcat(a, b);
    var ws := Split(a, ' ') + Split(b, ' ');
    JoinClassNames(ws);
    SplitJoinAround(a, b);
    if a == b {
      var p := Split(a, ' ');
      assert ws[0] == ws[|p|];
    }
  }

  lemma SplitJoinAround(a: string, b: string)
    requires ClassList(a) && ClassList(b)
    ensures a + [' '] + b == Join(Split(a, ' ') + Split(b, ' '), " ")
  {
    SplitConcat(a, b, ' ');
    SplitJoin(a + [' '] + b, ' ');
  }

  /** The corrected merged class list, as the join of the merged names. */
  lemma MergedClasses(a: string, b: string)
    requires ClassList(a) && ClassList(b)
    ensures MergeClasses(Some(a), Some(b)) == Join(RemoveDups(Split(a, ' ') + Split(b, ' ')), " ")
    ensures ClassNames(RemoveDups(Split(a, ' ') + Split(b, ' ')))
    ensures |RemoveDups(Split(a, ' ') + Split(b, ' '))| >= 1
  {
    MergeClassesText(a, b);
    ClassNamesConcat(a, b);
    ClassNamesRemoveDups(Split(a, ' ') + Split(b, ' '));
    JoinClassNames(RemoveDups(Split(a, ' ') + Split(b, ' ')));
  }

  /** With the separator, the merged class list holds every class of either
      cell exactly once, first occurrences first. */
  lemma MergeClassesUnion(a: string, b: string)
    requires ClassList(a) && ClassList(b)
    ensures ClassList(MergeClasses(Some(a), Some(b)))
    ensures Split(MergeClasses(Some(a), Some(b)), ' ') == RemoveDups(Split(a, ' ') + Split(b, ' '))
    ensures NoDups(Split(MergeClasses(Some(a), Some(b)), ' '))
    ensures forall w :: w in Split(MergeClasses(Some(a), Some(b)), ' ') <==> w in Split(a, ' ') || w in Split(b, ' ')
  {
    MergedClasses(a, b);
    JoinClassNames(RemoveDups(Split(a, ' ') + Split(b, ' ')));
  }

  /** Merging a duplicate-free class list into itself gives it back. */
  lemma MergeClassesIdempotent(a: string)
    requires ClassList(a) && NoDups(Split(a, ' '))
    ensures MergeClasses(Some(a), Some(a)) == a
  {
    MergedClasses(a, a);
    RemoveDupsDoubled(Split(a, ' '));
    ClassListShape(a);
  }

  // ---------------------------------------------------------------------
  // Cell initialisation and peer merging (app.js:1311-1408, 1440-1517)
  // ---------------------------------------------------------------------

  /** Whether the chart builder (`getMetricValuesChart` and its siblings)
      yields a chart for this chart kind and metric. */
  type ChartOf = (int, Val) -> bool

  function AsNumber(v: Val): Option<real> {
    match v
    case Num(x) => Some(x)
    case _ => None
  }

  function NumberList(v: Val): seq<real> {
    match v
    case Num(x) => [x]
    case _ => []
  }

  function Link(k: SubKind): Sub {
    Sub(k, Some("link"), Always)
  }

  function DateSubs(v: Val, withTime: bool): seq<Sub> {
    if Truthy(v) then [Sub(DateText(v, withTime), None, Always)] else []
  }

  function IdSubs(v: Val): seq<Sub> {
    [Link(IdLink(v)), Link(ExcludeLink(v))]
  }

  function ChartsFor(kind: int, v: Val, chartOf: ChartOf): seq<Chart> {
    if Truthy(v) && chartOf(kind, v) then [Chart(kind, v)] else []
  }

  /** A number cell shows `-` for null. */
  function Dash(v: Val): Val {
    if v == Null then Str("-") else v
  }

  /** `cell.value += ' ' + v`: the parts of the concatenation. */
  function AppendText(v: Val, w: Val): (r: Val)
    ensures r.Joined? && |r.parts| >= 1 && r.parts[|r.parts| - 1] == w
    ensures !v.Joined? ==> r.parts == [v, w] && Truthy(r)
  {
    match v
    case Joined(ps) => Joined(ps + [w])
    case _ => Joined([v, w])
  }

  /** The copy of the anchor column's cell; a missing cell becomes a null
      one. */
  function AnchorCell(o: Option<Cell>): (r: Cell)
    ensures o.Some? ==> r.value == o.value.value && r.orig == o.value.orig && r.errorRate == o.value.errorRate
  {
    if o.Some? then CopyValue(o).value else PlainCell(Null, Null, None)
  }

  /** The first loop over the rows: the anchor cell prepared for its row
      type. */
  function InitCell(kind: int, c: Cell, chartOf: ChartOf): Cell {
    if kind == TypeResultsDir && Truthy(c.value) then c.(values := Some([Link(ResDirLink(1, c.value))]))
    else if kind == TypeId then c.(values := Some(IdSubs(c.value)))
    else if kind == TypeDateTime then c.(values := Some(DateSubs(c.value, true)))
    else if kind == TypeDate then c.(values := Some(DateSubs(c.value, false)))
    else if kind == TypeNumber then
      c.(stats := Some(Stats(NumberList(c.orig), AsNumber(c.orig), AsNumber(c.orig))), value := Dash(c.value))
    else if IsDataChart(kind) then c.(charts := Some(ChartsFor(kind, c.value, chartOf)))
    else c
  }

  /** The number-row merge: the value text, minimum, maximum, original
      values, class and accumulated error rate. */
  function MergeNumber(cell: Cell, peer: Cell): Cell {
    var st := cell.stats.GetOr(Stats([], None, None));
    var n := AsNumber(peer.orig);
    cell.(value := AppendText(cell.value, Dash(peer.value)),
          stats := Some(Stats(st.origValues + NumberList(peer.orig), MinNumber(st.min, n), MaxNumber(st.max, n))),
          cls := Some(MergeClasses(cell.cls, peer.cls)),
          errorRate := if peer.errorRate.Some? && peer.errorRate.value > 0.0
                       then Some(cell.errorRate.GetOr(0.0) + peer.errorRate.value)
                       else cell.errorRate)
  }

  /** The results-directory merge as written: `cell.values` was only set
      when the anchor held a directory, so otherwise `push` fails (`None`). */
  function MergeResultsDirAsWritten(cell: Cell, peer: Cell): (r: Option<Cell>)
    ensures r.None? <==> cell.values.None?
  {
    if cell.values.None? then None
    else Some(cell.(values := Some(cell.values.value + [Link(ResDirLink(|cell.values.value| + 1, peer.value))])))
  }

  /** The results-directory merge reading a missing list as empty. */
  function MergeResultsDir(cell: Cell, peer: Cell): (r: Cell)
    ensures cell.values.Some? ==> Some(r) == MergeResultsDirAsWritten(cell, peer)
  {
    var vs := cell.values.GetOr([]);
    cell.(values := Some(vs + [Link(ResDirLink(|vs| + 1, peer.value))]))
  }

  /** The second loop over the rows: one peer cell merged into the output
      cell, by row type. */
  function MergePeer(kind: int, cell: Cell, peer: Cell, chartOf: ChartOf): Cell
    requires kind == TypeHeader || kind == TypeParams ==> Text(cell.value) && Text(peer.value)
  {
    if kind == TypeResultsDir then MergeResultsDir(cell, peer)
    else if kind == TypeId then cell.(values := Some(cell.values.GetOr([]) + IdSubs(peer.value)))
    else if kind == TypeDateTime then cell.(values := Some(cell.values.GetOr([]) + DateSubs(peer.value, true)))
    else if kind == TypeDate then cell.(values := Some(cell.values.GetOr([]) + DateSubs(peer.value, false)))
    else if kind == TypeHeader || kind == TypeParams then cell.(value := MergeText(cell.value, peer.value))
    else if kind == TypeNumber then MergeNumber(cell, peer)
    else if IsDataChart(kind) then cell.(charts := Some(cell.charts.GetOr([]) + ChartsFor(kind, peer.value, chartOf)))
    else cell
  }

  /** The output cell of one group in one row: the anchor (first) cell
      prepared, then every peer merged in column order. */
  function ReduceCells(kind: int, cs: seq<Cell>, chartOf: ChartOf): (r: Cell)
    requires |cs| >= 1
    requires kind == TypeHeader || kind == TypeParams ==> forall k :: 0 <= k < |cs| ==> Text(cs[k].value)
    ensures kind == TypeHeader || kind == TypeParams ==> Text(r.value)
    decreases |cs|
  {
    if |cs| == 1 then InitCell(kind, cs[0], chartOf)
    else MergePeer(kind, ReduceCells(kind, cs[..|cs| - 1], chartOf), cs[|cs| - 1], chartOf)
  }
  // ---------------------------------------------------------------------
  // What one output cell holds, row type by row type
  // ---------------------------------------------------------------------

  /** The identifier and exclude links of the cells, in order. */
  function IdList(cs: seq<Cell>): seq<Sub>
    decreases |cs|
  {
    if |cs| == 0 then [] else IdList(cs[..|cs| - 1]) + IdSubs(cs[|cs| - 1].value)
  }

  /** The formatted dates of the cells that have one, in order. */
  function DateList(cs: seq<Cell>, withTime: bool): seq<Sub>
    decreases |cs|
  {
    if |cs| == 0 then [] else DateList(cs[..|cs| - 1], withTime) + DateSubs(cs[|cs| - 1].value, withTime)
  }

  /** The charts the builder yields for the cells, in order. */
  function ChartList(kind: int, cs: seq<Cell>, chartOf: ChartOf): seq<Chart>
    decreases |cs|
  {
    if |cs| == 0 then [] else ChartList(kind, cs[..|cs| - 1], chartOf) + ChartsFor(kind, cs[|cs| - 1].value, chartOf)
  }

  /** The original numbers of the cells that hold one, in order. */
  function OrigNumbers(cs: seq<Cell>): seq<real>
    decreases |cs|
  {
    if |cs| == 0 then [] else OrigNumbers(cs[..|cs| - 1]) + NumberList(cs[|cs| - 1].orig)
  }

  lemma OneCell(kind: int, cs: seq<Cell>, chartOf: ChartOf)
    requires |cs| == 1
    requires kind == TypeHeader || kind == TypeParams ==> Text(cs[0].value)
    ensures cs[..0] == []
    ensures ReduceCells(kind, cs, chartOf) == InitCell(kind, cs[0], chartOf)
  {
  }

  /** An identifier row lists an identifier link and an exclude link for
      every merged column, in column order. */
  lemma {:induction false} ReduceIds(cs: seq<Cell>, chartOf: ChartOf)
    requires |cs| >= 1
    ensures ReduceCells(TypeId, cs, chartOf).values == Some(IdList(cs))
    decreases |cs|
  {
    if |cs| > 1 {
      ReduceIds(cs[..|cs| - 1], chartOf);
    } else {
      OneCell(TypeId, cs, chartOf);
      assert IdList(cs) == IdSubs(cs[0].value);
    }
  }

  /** A date row lists the formatted date of every merged column that has
      one, in column order. */
  lemma {:induction false} ReduceDates(kind: int, cs: seq<Cell>, chartOf: ChartOf)
    requires kind == TypeDate || kind == TypeDateTime
    requires |cs| >= 1
    ensures ReduceCells(kind, cs, chartOf).values == Some(DateList(cs, kind == TypeDateTime))
    decreases |cs|
  {
    if |cs| > 1 {
      ReduceDates(kind, cs[..|cs| - 1], chartOf);
    } else {
      OneCell(kind, cs, chartOf);
      assert DateList(cs, kind == TypeDateTime) == DateSubs(cs[0].value, kind == TypeDateTime);
    }
  }

  /** A chart row holds the chart of every merged column with a value the
      chart builder accepts, in column order. */
  lemma {:induction false} ReduceCharts(kind: int, cs: seq<Cell>, chartOf: ChartOf)
    requires IsDataChart(kind)
    requires |cs| >= 1
    ensures ReduceCells(kind, cs, chartOf).charts == Some(ChartList(kind, cs, chartOf))
    decreases |cs|
  {
    if |cs| > 1 {
      ReduceCharts(kind, cs[..|cs| - 1], chartOf);
    } else {
      OneCell(kind, cs, chartOf);
      assert ChartList(kind, cs, chartOf) == ChartsFor(kind, cs[0].value, chartOf);
    }
  }

  /** The directories a results-directory cell links to: the anchor's when
      it has one, then every peer's. */
  function DirTargets(cs: seq<Cell>): seq<Val>
    requires |cs| >= 1
    decreases |cs|
  {
    if |cs| == 1 then (if Truthy(cs[0].value) then [cs[0].value] else [])
    else DirTargets(cs[..|cs| - 1]) + [cs[|cs| - 1].value]
  }

  /** The links numbered `res_dir1`, `res_dir2`, ... in list order. */
  function Numbered(ts: seq<Val>): (r: seq<Sub>)
    ensures |r| == |ts|
  {
    seq(|ts|, k requires 0 <= k < |ts| => Link(ResDirLink(k + 1, ts[k])))
  }

  /** A results-directory row links every directory, numbered by its place
      in the list. */
  lemma {:induction false} ReduceResultsDirs(cs: seq<Cell>, chartOf: ChartOf)
    requires |cs| >= 1 && cs[0].values.None?
    ensures ReduceCells(TypeResultsDir, cs, chartOf).values.GetOr([]) == Numbered(DirTargets(cs))
    decreases |cs|
  {
    if |cs| > 1 {
      var prefix := cs[..|cs| - 1];
      assert prefix[0] == cs[0];
      ReduceResultsDirs(prefix, chartOf);
      var ts := DirTargets(prefix);
      assert Numbered(ts) + [Link(ResDirLink(|ts| + 1, cs[|cs| - 1].value))] == Numbered(ts + [cs[|cs| - 1].value]);
    }
  }

  /** As written, a group whose anchor has no results directory fails on
      its first peer: the link list was never created. */
  lemma ResultsDirCounterexample(anchor: Cell, peer: Cell, chartOf: ChartOf)
    requires !Truthy(anchor.value) && anchor.values.None?
    ensures MergeResultsDirAsWritten(InitCell(TypeResultsDir, anchor, chartOf), peer).None?
    ensures ReduceCells(TypeResultsDir, [anchor, peer], chartOf).values == Some([Link(ResDirLink(1, peer.value))])
  {
    var init := InitCell(TypeResultsDir, anchor, chartOf);
    assert init == anchor;
    assert [anchor, peer][..1] == [anchor];
    OneCell(TypeResultsDir, [anchor], chartOf);
    assert ReduceCells(TypeResultsDir, [anchor, peer], chartOf) == MergeResultsDir(init, peer);
    assert init.values.GetOr([]) == [];
    assert [] + [Link(ResDirLink(0 + 1, peer.value))] == [Link(ResDirLink(1, peer.value))];
  }

  /** A header or parameter row keeps every value of the group as a phrase
      of the merged text, and is empty only when every value is. */
  lemma {:induction false} ReduceHeaders(kind: int, cs: seq<Cell>, chartOf: ChartOf)
    requires kind == TypeHeader || kind == TypeParams
    requires |cs| >= 1 && forall k :: 0 <= k < |cs| ==> Text(cs[k].value)
    ensures Truthy(ReduceCells(kind, cs, chartOf).value) <==> exists k :: 0 <= k < |cs| && Truthy(cs[k].value)
    ensures forall k :: 0 <= k < |cs| && Truthy(cs[k].value) ==> PhraseIn(ReduceCells(kind, cs, chartOf).value.s, cs[k].value.s)
    decreases |cs|
  {
    if |cs| > 1 {
      var n := |cs| - 1;
      var prefix := cs[..n];
      ReduceHeaders(kind, prefix, chartOf);
      var v1 := ReduceCells(kind, prefix, chartOf).value;
      forall k | 0 <= k < n && Truthy(cs[k].value) ensures PhraseIn(MergeText(v1, cs[n].value).s, cs[k].value.s) {
        assert prefix[k] == cs[k];
        MergeTextKeeps(v1, cs[n].value, cs[k].value.s);
      }
      if exists k :: 0 <= k < n && Truthy(cs[k].value) {
        var k :| 0 <= k < n && Truthy(cs[k].value);
        assert prefix[k] == cs[k];
      }
    }
  }

  /** The number texts of the merged columns, `-` standing for a missing
      number. */
  function Dashes(cs: seq<Cell>): (r: seq<Val>)
    ensures |r| == |cs|
  {
    seq(|cs|, k requires 0 <= k < |cs| => Dash(cs[k].value))
  }

  /** One more column of a number row merges its cell into the rest. */
  lemma NumberStep(cs: seq<Cell>, chartOf: ChartOf)
    requires |cs| > 1
    ensures ReduceCells(TypeNumber, cs, chartOf)
      == MergeNumber(ReduceCells(TypeNumber, cs[..|cs| - 1], chartOf), cs[|cs| - 1])
  {
    var c := ReduceCells(TypeNumber, cs[..|cs| - 1], chartOf);
    assert ReduceCells(TypeNumber, cs, chartOf) == MergePeer(TypeNumber, c, cs[|cs| - 1], chartOf);
    MergePeerNumber(c, cs[|cs| - 1], chartOf);
  }

  lemma MergePeerNumber(cell: Cell, peer: Cell, chartOf: ChartOf)
    ensures MergePeer(TypeNumber, cell, peer, chartOf) == MergeNumber(cell, peer)
  {
  }

  /** A number row shows the numbers of all merged columns, separated by
      spaces. */
  lemma {:induction false} ReduceNumberText(cs: seq<Cell>, chartOf: ChartOf)
    requires |cs| >= 1 && !cs[0].value.Joined?
    ensures |cs| == 1 ==> ReduceCells(TypeNumber, cs, chartOf).value == Dash(cs[0].value)
    ensures |cs| >= 2 ==> ReduceCells(TypeNumber, cs, chartOf).value == Joined(Dashes(cs))
    decreases |cs|
  {
    if |cs| > 1 {
      var n := |cs| - 1;
      var prefix := cs[..n];
      assert prefix[0] == cs[0];
      ReduceNumberText(prefix, chartOf);
      NumberStep(cs, chartOf);
      DashesSnoc(cs);
    } else {
      OneCell(TypeNumber, cs, chartOf);
    }
  }

  lemma DashesSnoc(cs: seq<Cell>)
    requires |cs| > 1
    ensures Dashes(cs) == Dashes(cs[..|cs| - 1]) + [Dash(cs[|cs| - 1].value)]
    ensures |cs| == 2 ==> Dashes(cs) == [Dash(cs[0].value), Dash(cs[1].value)]
  {
  }

  /** `m` is the least of `xs`, and absent exactly when `xs` is empty. */
  predicate IsMin(m: Option<real>, xs: seq<real>) {
    && (m.None? <==> |xs| == 0)
    && (m.Some? ==> m.value in xs && forall x :: x in xs ==> m.value <= x)
  }

  predicate IsMax(m: Option<real>, xs: seq<real>) {
    && (m.None? <==> |xs| == 0)
    && (m.Some? ==> m.value in xs && forall x :: x in xs ==> m.value >= x)
  }

  lemma MinMaxStep(lo: Option<real>, hi: Option<real>, xs: seq<real>, o: Val)
    requires IsMin(lo, xs) && IsMax(hi, xs)
    ensures IsMin(MinNumber(lo, AsNumber(o)), xs + NumberList(o))
    ensures IsMax(MaxNumber(hi, AsNumber(o)), xs + NumberList(o))
  {
  }

  /** A number row collects the original numbers of all merged columns, in
      column order, with their least and greatest. */
  lemma {:induction false} ReduceNumberStats(cs: seq<Cell>, chartOf: ChartOf)
    requires |cs| >= 1
    ensures ReduceCells(TypeNumber, cs, chartOf).stats.Some?
    ensures ReduceCells(TypeNumber, cs, chartOf).stats.value.origValues == OrigNumbers(cs)
    ensures IsMin(ReduceCells(TypeNumber, cs, chartOf).stats.value.min, ReduceCells(TypeNumber, cs, chartOf).stats.value.origValues)
    ensures IsMax(ReduceCells(TypeNumber, cs, chartOf).stats.value.max, ReduceCells(TypeNumber, cs, chartOf).stats.value.origValues)
    decreases |cs|
  {
    if |cs| > 1 {
      var n := |cs| - 1;
      ReduceNumberStats(cs[..n], chartOf);
      var st := ReduceCells(TypeNumber, cs[..n], chartOf).stats.value;
      MinMaxStep(st.min, st.max, st.origValues, cs[n].orig);
    } else {
      OneCell(TypeNumber, cs, chartOf);
      assert OrigNumbers(cs) == NumberList(cs[0].orig);
    }
  }

  /** The error rate a peer contributes: only a positive one counts. */
  function PeerRate(c: Cell): real {
    if c.errorRate.Some? && c.errorRate.value > 0.0 then c.errorRate.value else 0.0
  }

  /** The summed positive error rates of the peers (every cell but the
      first). */
  function PeerRates(cs: seq<Cell>): real
    decreases |cs|
  {
    if |cs| <= 1 then 0.0 else PeerRates(cs[..|cs| - 1]) + PeerRate(cs[|cs| - 1])
  }

  /** A number row's error rate is the anchor's plus every positive peer
      rate. */
  lemma {:induction false} ReduceNumberRates(cs: seq<Cell>, chartOf: ChartOf)
    requires |cs| >= 1
    ensures ReduceCells(TypeNumber, cs, chartOf).errorRate.GetOr(0.0) == cs[0].errorRate.GetOr(0.0) + PeerRates(cs)
    decreases |cs|
  {
    if |cs| > 1 {
      var n := |cs| - 1;
      var prefix := cs[..n];
      assert prefix[0] == cs[0];
      ReduceNumberRates(prefix, chartOf);
      NumberStep(cs, chartOf);
    }
  }

  /** Some peer (a cell after the first) has a positive error rate. */
  predicate AnyPeerRate(cs: seq<Cell>) {
    exists k :: 1 <= k < |cs| && PeerRate(cs[k]) > 0.0
  }

  lemma AnyPeerRateStep(cs: seq<Cell>)
    requires |cs| > 1
    ensures AnyPeerRate(cs) <==> AnyPeerRate(cs[..|cs| - 1]) || PeerRate(cs[|cs| - 1]) > 0.0
  {
    var n := |cs| - 1;
    var prefix := cs[..n];
    if AnyPeerRate(prefix) {
      var k :| 1 <= k < n && PeerRate(prefix[k]) > 0.0;
      assert cs[k] == prefix[k];
    }
    if AnyPeerRate(cs) {
      var k :| 1 <= k < |cs| && PeerRate(cs[k]) > 0.0;
      assert k < n ==> cs[k] == prefix[k];
    }
  }

  /** The error rate stays unset exactly when neither the anchor nor any
      peer brings a positive one. */
  lemma {:induction false} ReduceNumberRateUnset(cs: seq<Cell>, chartOf: ChartOf)
    requires |cs| >= 1
    ensures ReduceCells(TypeNumber, cs, chartOf).errorRate.None? <==> cs[0].errorRate.None? && !AnyPeerRate(cs)
    decreases |cs|
  {
    if |cs| > 1 {
      var n := |cs| - 1;
      var prefix := cs[..n];
      assert prefix[0] == cs[0];
      ReduceNumberRateUnset(prefix, chartOf);
      AnyPeerRateStep(cs);
      NumberStep(cs, chartOf);
    } else {
      OneCell(TypeNumber, cs, chartOf);
    }
  }
  // ---------------------------------------------------------------------
  // The reduced table (app.js:1296-1309, 1517-1521)
  // ---------------------------------------------------------------------

  /** Every column of every group lies in `[1, total)`. */
  predicate InRange(groups: seq<Group>, total: nat) {
    forall k :: 0 <= k < |groups| ==>
      1 <= groups[k].anchor < total && forall p :: 0 <= p < |groups[k].peers| ==> 1 <= groups[k].peers[p] < total
  }

  lemma GroupsFromInRange(rel: (nat, nat) -> bool, total: nat)
    ensures InRange(GroupsFrom(rel, 1, total), total)
  {
    var gs := GroupsFrom(rel, 1, total);
    forall k | 0 <= k < |gs| ensures forall p :: 0 <= p < |gs[k].peers| ==> 1 <= gs[k].peers[p] < total {
      PeersFromOrdered(rel, gs[k].anchor, gs[k].anchor + 1, total);
    }
  }

  /** Header and parameter rows hold text in every cell. */
  predicate RowText(row: Row) {
    row.kind == TypeHeader || row.kind == TypeParams ==>
      forall k :: 0 <= k < |row.cols| && row.cols[k].Some? ==> Text(row.cols[k].value.value)
  }

  /** A row holds a cell in every column below `total` but the label. */
  predicate Full(row: Row, total: nat) {
    |row.cols| == total && forall k :: 1 <= k < total ==> row.cols[k].Some?
  }

  /** The cells of one row that a group merges: a copy of the anchor's,
      then the peers' in column order. */
  function GroupCells(row: Row, gr: Group, total: nat): (r: seq<Cell>)
    requires Full(row, total) && 1 <= gr.anchor < total
    requires forall p :: 0 <= p < |gr.peers| ==> 1 <= gr.peers[p] < total
    ensures |r| == 1 + |gr.peers|
    ensures RowText(row) && (row.kind == TypeHeader || row.kind == TypeParams) ==>
              forall k :: 0 <= k < |r| ==> Text(r[k].value)
  {
    [AnchorCell(At(row, gr.anchor))] + seq(|gr.peers|, p requires 0 <= p < |gr.peers| => row.cols[gr.peers[p]].value)
  }

  /** One output row: the label cell, then one merged cell per group. */
  function ReduceRow(row: Row, groups: seq<Group>, total: nat, chartOf: ChartOf): (r: Row)
    requires Full(row, total) && RowText(row) && InRange(groups, total)
  {
    var cells := seq(|groups|, k requires 0 <= k < |groups| => Some(ReduceCells(row.kind, GroupCells(row, groups[k], total), chartOf)));
    Row(row.name, row.kind, row.position, [At(row, 0)] + cells)
  }

  /** The shape of an output row: same key, type and position, the label,
      and one cell per group. */
  lemma ReduceRowShape(row: Row, groups: seq<Group>, total: nat, chartOf: ChartOf)
    requires Full(row, total) && RowText(row) && InRange(groups, total)
    ensures ReduceRow(row, groups, total, chartOf).name == row.name
    ensures ReduceRow(row, groups, total, chartOf).kind == row.kind
    ensures ReduceRow(row, groups, total, chartOf).position == row.position
    ensures At(ReduceRow(row, groups, total, chartOf), 0) == At(row, 0)
    ensures Full(ReduceRow(row, groups, total, chartOf), |groups| + 1)
  {
  }

  /** Every row of a dense, labelled table is full and labelled. */
  predicate Reducible(t: Table) {
    WellFormed(t) && Dense(t) && forall i :: 0 <= i < |t| ==> RowText(t[i])
  }

  lemma ReducibleRows(t: Table, i: nat)
    requires Reducible(t) && i < |t|
    ensures Full(t[i], TotalCols(t)) && RowText(t[i]) && At(t[i], 0).Some?
  {
  }

  /** `reduceResultsTable`: the groups the scan finds, then every row
      reduced over them. */
  method ReduceResultsTable(t: Table, g: Grouping, chartOf: ChartOf) returns (r: Table)
    requires Reducible(t) && Named(g)
    ensures |r| == |t|
    ensures forall i :: 0 <= i < |t| ==> r[i] == ReduceRow(t[i], Groups(t, g, TotalCols(t)), TotalCols(t), chartOf)
    ensures WellFormed(r)
    ensures Dense(r)
  {
    var total := TotalCols(t);
    var groups := ScanGroups(t, g, total);
    r := [];
    var i := 0;
    while i < |t|
      invariant i <= |t| && |r| == i
      invariant forall j :: 0 <= j < i ==> r[j] == ReduceRow(t[j], groups, total, chartOf)
    {
      ReducibleRows(t, i);
      r := r + [ReduceRow(t[i], groups, total, chartOf)];
      i := i + 1;
    }
    ReducedShape(t, groups, total, chartOf, r);
  }

  lemma ReducedShape(t: Table, groups: seq<Group>, total: nat, chartOf: ChartOf, r: Table)
    requires Reducible(t) && total == TotalCols(t) && InRange(groups, total)
    requires |r| == |t| && forall i :: 0 <= i < |t| ==> Full(t[i], total) && r[i] == ReduceRow(t[i], groups, total, chartOf)
    ensures WellFormed(r) && Dense(r)
  {
    forall i | 0 <= i < |t|
      ensures r[i].name == t[i].name && At(r[i], 0).Some? && Full(r[i], |groups| + 1)
    {
      ReducibleRows(t, i);
      ReduceRowShape(t[i], groups, total, chartOf);
    }
    SameNamesUnique(t, r);
    FullRowsDense(r, |groups| + 1);
  }

  lemma SameNamesUnique(t: Table, r: Table)
    requires UniqueNames(t) && |r| == |t| && forall i :: 0 <= i < |t| ==> r[i].name == t[i].name
    ensures UniqueNames(r)
  {
  }

  lemma FullRowsDense(r: Table, width: nat)
    requires forall i :: 0 <= i < |r| ==> Full(r[i], width)
    ensures Dense(r)
  {
    if |r| > 0 {
      TotalColsUniform(r, width);
    }
  }

  /** With grouping switched off, every data column stays a column of its
      own and each cell is only prepared for its row type. */
  lemma UngroupedReduce(t: Table, g: Grouping, chartOf: ChartOf, i: nat, k: nat)
    requires Reducible(t) && !g.enabled && i < |t| && 1 <= k < TotalCols(t)
    ensures |Groups(t, g, TotalCols(t))| == TotalCols(t) - 1
    ensures ReduceRow(t[i], Groups(t, g, TotalCols(t)), TotalCols(t), chartOf).cols[k]
              == Some(InitCell(t[i].kind, AnchorCell(At(t[i], k)), chartOf))
  {
    var total := TotalCols(t);
    UngroupedColumns(t, g, total);
    ReducibleRows(t, i);
    UngroupedCell(t[i], Groups(t, g, total), total, chartOf, k);
  }

  /** The output cell of a group made of its anchor column alone. */
  lemma UngroupedCell(row: Row, gs: seq<Group>, total: nat, chartOf: ChartOf, k: nat)
    requires Full(row, total) && RowText(row) && InRange(gs, total)
    requires 1 <= k <= |gs| && gs[k - 1] == Group(k, [])
    ensures ReduceRow(row, gs, total, chartOf).cols[k] == Some(InitCell(row.kind, AnchorCell(At(row, k)), chartOf))
  {
    OneCell(row.kind, GroupCells(row, gs[k - 1], total), chartOf);
  }
}

=== FILE: run.dfy ===
/** How the launcher divides its command line: the arguments before a
    literal `--` are its own; among them, those before `--runner` go to the
    benchmark and those after it to the runner. */
module Run {

  const Stop: string := "--"
  const RunnerFlag: string := "--runner"

  /** The index of the first argument equal to `a`, or the argument count. */
  function FirstIndex(args: seq<string>, a: string): (r: nat)
    ensures r <= |args|
    ensures r < |args| ==> args[r] == a
    ensures forall i :: 0 <= i < r ==> args[i] != a
    ensures a !in args ==> r == |args|
  {
    if |args| == 0 then 0
    else if args[0] == a then 0
    else 1 + FirstIndex(args[1..], a)
  }

  /** The launcher's own arguments: everything before the first `--`. */
  function Own(args: seq<string>): (r: seq<string>)
    ensures Stop !in r && |r| <= |args|
    ensures r == args[..|r|]
    ensures |r| < |args| ==> args[|r|] == Stop
  {
    args[..FirstIndex(args, Stop)]
  }

  /** `benchmarkArgs`: the own arguments before the first `--runner`. */
  function BenchmarkArgs(args: seq<string>): (r: seq<string>)
    ensures Stop !in r && RunnerFlag !in r && |r| <= |Own(args)|
    ensures r == args[..|r|]
    ensures |r| < |Own(args)| ==> args[|r|] == RunnerFlag
  {
    var own := Own(args);
    own[..FirstIndex(own, RunnerFlag)]
  }

  /** `runnerArgs`: the own arguments after the first `--runner`, or `def`
      when there is no such flag. */
  function RunnerArgs(args: seq<string>, def: seq<string>): (r: seq<string>)
    ensures RunnerFlag in Own(args) ==> Stop !in r
    ensures RunnerFlag in Own(args) ==> r == Own(args)[|BenchmarkArgs(args)| + 1..]
    ensures RunnerFlag !in Own(args) ==> r == def
  {
    var own := Own(args);
    var idx := FirstIndex(own, RunnerFlag);
    if idx < |own| then own[idx + 1..] else def
  }

  /** A command line laid out as benchmark arguments, `--runner`, runner
      arguments, `--` and anything else is split back into its parts. */
  lemma SplitLayout(bench: seq<string>, runner: seq<string>, rest: seq<string>, def: seq<string>)
    requires Stop !in bench && RunnerFlag !in bench && Stop !in runner
    ensures BenchmarkArgs(bench + [RunnerFlag] + runner + [Stop] + rest) == bench
    ensures RunnerArgs(bench + [RunnerFlag] + runner + [Stop] + rest, def) == runner
  {
    var args := bench + [RunnerFlag] + runner + [Stop] + rest;
    var own := bench + [RunnerFlag] + runner;
    assert Own(args) == own by {
      FirstIndexAt(args, Stop, |own|);
      assert args[..|own|] == own;
    }
    assert FirstIndex(own, RunnerFlag) == |bench| by {
      FirstIndexAt(own, RunnerFlag, |bench|);
    }
    assert own[..|bench|] == bench;
    assert own[|bench| + 1..] == runner;
  }

  /** Without `--runner` the benchmark gets all own arguments and the runner
      the default. */
  lemma SplitNoRunner(bench: seq<string>, rest: seq<string>, def: seq<string>)
    requires Stop !in bench && RunnerFlag !in bench
    ensures BenchmarkArgs(bench + [Stop] + rest) == bench
    ensures RunnerArgs(bench + [Stop] + rest, def) == def
  {
    var args := bench + [Stop] + rest;
    assert Own(args) == bench by {
      FirstIndexAt(args, Stop, |bench|);
      assert args[..|bench|] == bench;
    }
  }

  /** Nothing after the first `--` reaches either list. */
  lemma AfterStopIgnored(own: seq<string>, rest1: seq<string>, rest2: seq<string>, def: seq<string>)
    requires Stop !in own
    ensures BenchmarkArgs(own + [Stop] + rest1) == BenchmarkArgs(own + [Stop] + rest2)
    ensures RunnerArgs(own + [Stop] + rest1, def) == RunnerArgs(own + [Stop] + rest2, def)
  {
    OwnOf(own, rest1);
    OwnOf(own, rest2);
  }

  lemma OwnOf(own: seq<string>, rest: seq<string>)
    requires Stop !in own
    ensures Own(own + [Stop] + rest) == own
  {
    var args := own + [Stop] + rest;
    FirstIndexAt(args, Stop, |own|);
    assert args[..|own|] == own;
  }

  /** The first occurrence of `a` determines `FirstIndex`. */
  lemma FirstIndexAt(args: seq<string>, a: string, k: nat)
    requires k < |args| && args[k] == a && a !in args[..k]
    ensures FirstIndex(args, a) == k
  {
  }
}

=== FILE: runargs.dfy ===
/** The run parameters encoded at the end of a histogram file name: the
    trailing '_' fields give the step number, the target rate and the
    percentage of the high bound, as many of them as are present. */
module RunArgs {
  import opened Wrappers
  import opened Numbers

  /** What `fillValues` leaves behind: the number of trailing fields it
      used and the three run parameters. */
  datatype Filled = Filled(count: nat, runStep: int, targetRate: real, ratePercent: real)

  /** Reading `parts[parts.length - k]` with too few parts throws; the
      exception leaves the method. */
  const IndexError: string := "ArrayIndexOutOfBoundsException"

  /** `fillValues`: three trailing numbers are percent, rate and step; when
      the third-last is no number, the second-last is the percent; when the
      second-last is no number either, only the step is kept.  A last field
      that is no `int` leaves everything 0.  Each attempt re-reads the
      fields, and a field index below 0 throws. */
  function FillValues(parts: seq<string>): (r: Result<Filled, string>)
    ensures r.Success? ==> r.value.count in {0, 2, 3}
    ensures r.Failure? <==>
      (|parts| == 0 ||
       (ParseInt(parts[|parts| - 1]).Some? &&
        (|parts| == 1 || (|parts| == 2 && ParseDecimal(parts[0]).Some?))))
    ensures r.Success? ==> (r.value.count == 0 <==> ParseInt(parts[|parts| - 1]).None?)
    ensures r.Success? && r.value.count == 0 ==> r.value == Filled(0, 0, 0.0, 0.0)
    ensures r.Success? && r.value.count > 0 ==> ParseInt(parts[|parts| - 1]) == Some(r.value.runStep)
    ensures r.Success? && r.value.count == 3 ==>
      ParseDecimal(parts[|parts| - 2]) == Some(r.value.targetRate) &&
      ParseDecimal(parts[|parts| - 3]) == Some(r.value.ratePercent)
    ensures r.Success? && r.value.count == 2 ==>
      r.value.targetRate == 0.0 &&
      (r.value.ratePercent == 0.0 || ParseDecimal(parts[|parts| - 2]) == Some(r.value.ratePercent))
  {
    var n := |parts|;
    if n == 0 then Failure(IndexError)
    else
      match ParseInt(parts[n - 1])
      case None => Success(Filled(0, 0, 0.0, 0.0))
      case Some(step) =>
        if n == 1 then Failure(IndexError)
        else
          match ParseDecimal(parts[n - 2])
          case None => Success(Filled(2, step, 0.0, 0.0))
          case Some(rate) =>
            if n == 2 then Failure(IndexError)
            else
              match ParseDecimal(parts[n - 3])
              case None => Success(Filled(2, step, 0.0, rate))
              case Some(pct) => Success(Filled(3, step, rate, pct))
  }

  /** Three trailing numbers are read as percent, rate and step. */
  lemma FillParsedThree(parts: seq<string>, pct: real, rate: real, step: int)
    requires |parts| >= 3
    requires ParseInt(parts[|parts| - 1]) == Some(step)
    requires ParseDecimal(parts[|parts| - 2]) == Some(rate)
    requires ParseDecimal(parts[|parts| - 3]) == Some(pct)
    ensures FillValues(parts) == Success(Filled(3, step, rate, pct))
  {
  }

  /** Two trailing numbers after a non-number are read as percent and step. */
  lemma FillParsedTwo(parts: seq<string>, pct: real, step: int)
    requires |parts| >= 3
    requires ParseInt(parts[|parts| - 1]) == Some(step)
    requires ParseDecimal(parts[|parts| - 2]) == Some(pct)
    requires ParseDecimal(parts[|parts| - 3]).None?
    ensures FillValues(parts) == Success(Filled(2, step, 0.0, pct))
  {
  }

  /** A name ending in percent, rate and step numerals gives all three back. */
  lemma FillThree(front: seq<string>, pct: int, rate: int, step: int)
    requires IsInt(step)
    ensures FillValues(front + [ShowInt(pct), ShowInt(rate), ShowInt(step)])
         == Success(Filled(3, step, rate as real, pct as real))
  {
    var sp, sr, ss := ShowInt(pct), ShowInt(rate), ShowInt(step);
    var parts := front + [sp, sr, ss];
    var n := |parts|;
    assert parts[n - 1] == ss && parts[n - 2] == sr && parts[n - 3] == sp;
    ParseShowInt(step);
    ParseDecimalShowInt(rate);
    ParseDecimalShowInt(pct);
    FillParsedThree(parts, pct as real, rate as real, step);
  }

  /** A name ending in percent and step numerals, with a non-number before
      them, gives the step and the percent and a zero rate. */
  lemma FillTwo(front: seq<string>, pct: int, step: int)
    requires IsInt(step)
    requires |front| > 0 && ParseDecimal(front[|front| - 1]).None?
    ensures FillValues(front + [ShowInt(pct), ShowInt(step)]) == Success(Filled(2, step, 0.0, pct as real))
  {
    var sp, ss := ShowInt(pct), ShowInt(step);
    var parts := front + [sp, ss];
    var n := |parts|;
    assert parts[n - 1] == ss && parts[n - 2] == sp && parts[n - 3] == front[|front| - 1];
    ParseShowInt(step);
    ParseDecimalShowInt(pct);
    FillParsedTwo(parts, pct as real, step);
  }

  /** A name ending in a step numeral after a non-number keeps the step and
      still reports two fields used. */
  lemma FillOne(front: seq<string>, step: int)
    requires IsInt(step)
    requires |front| > 0 && ParseDecimal(front[|front| - 1]).None?
    ensures FillValues(front + [ShowInt(step)]) == Success(Filled(2, step, 0.0, 0.0))
  {
    var parts := front + [ShowInt(step)];
    assert parts[|parts| - 1] == ShowInt(step) && parts[|parts| - 2] == front[|front| - 1];
    ParseShowInt(step);
  }

  /** A single numeric field is too short: the second read throws. */
  lemma FillOnlyStep(step: int)
    requires IsInt(step)
    ensures FillValues([ShowInt(step)]).Failure?
  {
    ParseShowInt(step);
  }

  /** `fillValues` as its comments describe it: a name ending in a single
      step field after a non-number (`op_metric_step`) uses one field, not
      two, so the field before the step stays part of the name. */
  function FillValuesIntended(parts: seq<string>): (r: Result<Filled, string>)
    ensures r.Success? ==> r.value.count <= |parts|
    ensures r.Success? && r.value.count == 1 ==>
      (|parts| >= 2 && ParseInt(parts[|parts| - 1]) == Some(r.value.runStep) &&
       ParseDecimal(parts[|parts| - 2]).None?)
    ensures FillValues(parts).Success? && FillValues(parts).value.count == 2 &&
            ParseDecimal(parts[|parts| - 2]).None?
            ==> r == Success(FillValues(parts).value.(count := 1))
    ensures !(FillValues(parts).Success? && FillValues(parts).value.count == 2 &&
              ParseDecimal(parts[|parts| - 2]).None?)
            ==> r == FillValues(parts)
  {
    var n := |parts|;
    if n == 0 then Failure(IndexError)
    else
      match ParseInt(parts[n - 1])
      case None => Success(Filled(0, 0, 0.0, 0.0))
      case Some(step) =>
        if n == 1 then Failure(IndexError)
        else
          match ParseDecimal(parts[n - 2])
          case None => Success(Filled(1, step, 0.0, 0.0))
          case Some(rate) =>
            if n == 2 then Failure(IndexError)
            else
              match ParseDecimal(parts[n - 3])
              case None => Success(Filled(2, step, 0.0, rate))
              case Some(pct) => Success(Filled(3, step, rate, pct))
  }

  /** A step after a non-number: two fields used as written, one as
      intended. */
  lemma FillStepOnly(parts: seq<string>, step: int)
    requires |parts| >= 2 && ParseInt(parts[|parts| - 1]) == Some(step)
    requires ParseDecimal(parts[|parts| - 2]).None?
    ensures FillValues(parts) == Success(Filled(2, step, 0.0, 0.0))
    ensures FillValuesIntended(parts) == Success(Filled(1, step, 0.0, 0.0))
  {
  }

  /** A name ending in a step numeral after a non-number: as written two
      fields are used up, so the non-number before the step is lost to
      the name; as intended only the step is used. */
  lemma StepOnlyCount(front: seq<string>, step: int)
    requires IsInt(step)
    requires |front| > 0 && ParseDecimal(front[|front| - 1]).None?
    ensures FillValues(front + [ShowInt(step)]).value.count == 2
    ensures FillValuesIntended(front + [ShowInt(step)]) == Success(Filled(1, step, 0.0, 0.0))
  {
    FillOne(front, step);
  }
}

=== FILE: runparams.dfy ===
/** The parameters of one scenario step: target rate, warmup time and run
    time, each a text with a unit suffix; their validation and the two
    generated scenarios, a spike and a linear ramp. */
module RunParams {
  import opened Wrappers
  import opened Numbers
  import FormatTool

  datatype RunParams = RunParams(targetRate: string, warmupTime: string, runTime: string)

  /** Which check of `validate` threw; `NumberFormat` is a text the parsers
      cannot read. */
  datatype ParamsError =
    | NumberFormat(text: string)
    | BadTargetRate
    | BadWarmupTime
    | BadRunTime
    | BadTotalTime

  const ZeroWarmup: string := "0"
  const RampLength: string := "1m"

  /** The readers `validate` uses: `parseValue` for the rate and
      `parseTimeLength` for the times, `None` where they throw. */
  datatype Parsers = Parsers(value: string -> Option<real>, time: string -> Option<int>)

  const Tool: Parsers := Parsers(FormatTool.ParseValue, FormatTool.ParseTimeLength)

  /** Time readers give `int`s. */
  ghost predicate IntTimes(ps: Parsers) {
    forall s :: ps.time(s).Some? ==> IsInt(ps.time(s).value)
  }

  lemma ToolParsers()
    ensures IntTimes(Tool) && Tool.time(ZeroWarmup) == Some(0)
  {
    FormatTool.ParseTimeSuffix(0, 0);
    assert ShowInt(0) == ZeroWarmup;
  }

  /** Everything `validate` demands: readable texts, a non-negative rate
      and times, and a total time that is positive as a 32-bit sum. */
  predicate Valid(p: RunParams, ps: Parsers) {
    && ps.value(p.targetRate).Some? && ps.value(p.targetRate).value >= 0.0
    && ps.time(p.warmupTime).Some? && ps.time(p.warmupTime).value >= 0
    && ps.time(p.runTime).Some? && ps.time(p.runTime).value >= 0
    && Wrap32(ps.time(p.warmupTime).value + ps.time(p.runTime).value) > 0
  }

  /** `validate`: the checks in source order, each parsing its text again;
      the sum of the two times is an `int` addition.  With `Tool` these are
      the checks of the source. */
  function Validate(p: RunParams, ps: Parsers): (r: Result<(), ParamsError>)
    ensures r.Success? <==> Valid(p, ps)
    ensures r == Failure(BadTargetRate) <==> ps.value(p.targetRate).Some? && ps.value(p.targetRate).value < 0.0
    ensures r.Failure? && r.error.NumberFormat? ==>
      (r.error.text == p.targetRate && ps.value(p.targetRate).None?) ||
      ((r.error.text == p.warmupTime || r.error.text == p.runTime) && ps.time(r.error.text).None?)
  {
    match ps.value(p.targetRate)
    case None => Failure(NumberFormat(p.targetRate))
    case Some(rate) =>
      if rate < 0.0 then Failure(BadTargetRate)
      else
        match ps.time(p.warmupTime)
        case None => Failure(NumberFormat(p.warmupTime))
        case Some(w) =>
          if w < 0 then Failure(BadWarmupTime)
          else
            match ps.time(p.runTime)
            case None => Failure(NumberFormat(p.runTime))
            case Some(t) =>
              if t < 0 then Failure(BadRunTime)
              else if Wrap32(w + t) <= 0 then Failure(BadTotalTime)
              else Success(())
  }

  /** Two non-negative `int`s sum to a positive `int` exactly when the
      wrapped sum is positive. */
  lemma WrappedSumPositive(w: int, t: int)
    requires IsInt(w) && IsInt(t) && w >= 0 && t >= 0
    ensures Wrap32(w + t) > 0 <==> 0 < w + t <= IntMax
  {
    if w + t > IntMax {
      assert w + t - 0x1_0000_0000 == Wrap32(w + t) by {
        var r := Wrap32(w + t);
        assert (w + t - r) % 0x1_0000_0000 == 0;
      }
    }
  }

  /** The times of valid parameters add up without overflow. */
  lemma ValidTotalFits(p: RunParams, ps: Parsers)
    requires IntTimes(ps) && Valid(p, ps)
    ensures 0 < ps.time(p.warmupTime).value + ps.time(p.runTime).value <= IntMax
  {
    WrappedSumPositive(ps.time(p.warmupTime).value, ps.time(p.runTime).value);
  }

  /** Two run times too long to add up in 32 bits are rejected as if their
      sum were not positive. */
  lemma LongTimesRejected(p: RunParams, ps: Parsers, w: int, t: int)
    requires IntTimes(ps)
    requires ps.value(p.targetRate).Some? && ps.value(p.targetRate).value >= 0.0
    requires ps.time(p.warmupTime) == Some(w) && w >= 0
    requires ps.time(p.runTime) == Some(t) && t >= 0
    requires w + t > IntMax
    ensures Validate(p, ps) == Failure(BadTotalTime)
  {
    WrappedSumPositive(w, t);
  }

  /** A step without warmup is valid exactly when its rate is a
      non-negative number and its run time a positive one. */
  lemma NoWarmupValid(rate: string, len: string, ps: Parsers)
    requires IntTimes(ps) && ps.time(ZeroWarmup) == Some(0)
    ensures Validate(RunParams(rate, ZeroWarmup, len), ps).Success? <==>
      ps.value(rate).Some? && ps.value(rate).value >= 0.0 && ps.time(len).Some? && ps.time(len).value > 0
  {
    var t := ps.time(len);
    if t.Some? && t.value >= 0 {
      WrappedSumPositive(0, t.value);
    }
  }

  /** `spike`: the low rate, the high rate, the low rate again, without
      warmup, each for its own length. */
  function Spike(min: string, max: string, minLen: string, maxLen: string): (r: seq<RunParams>)
    ensures |r| == 3 && r[0] == r[2]
    ensures forall i :: 0 <= i < |r| ==> r[i].warmupTime == ZeroWarmup
    ensures r[0].targetRate == min && r[0].runTime == minLen
    ensures r[1].targetRate == max && r[1].runTime == maxLen
  {
    [RunParams(min, ZeroWarmup, minLen), RunParams(max, ZeroWarmup, maxLen), RunParams(min, ZeroWarmup, minLen)]
  }

  /** A spike passes validation step by step exactly when both rates are
      non-negative numbers and both lengths positive (`Tool` meets the
      requirements, see `ToolParsers`). */
  lemma SpikeValid(min: string, max: string, minLen: string, maxLen: string, ps: Parsers)
    requires IntTimes(ps) && ps.time(ZeroWarmup) == Some(0)
    ensures (forall i :: 0 <= i < 3 ==> Validate(Spike(min, max, minLen, maxLen)[i], ps).Success?) <==>
      ps.value(min).Some? && ps.value(min).value >= 0.0 && ps.value(max).Some? && ps.value(max).value >= 0.0 &&
      ps.time(minLen).Some? && ps.time(minLen).value > 0 && ps.time(maxLen).Some? && ps.time(maxLen).value > 0
  {
    var s := Spike(min, max, minLen, maxLen);
    NoWarmupValid(min, minLen, ps);
    NoWarmupValid(max, maxLen, ps);
    assert s[0] == RunParams(min, ZeroWarmup, minLen) && s[1] == RunParams(max, ZeroWarmup, maxLen);
  }

  /** The rate of step `i` of a ramp from `from` to `to` in `n` steps, in
      exact arithmetic. */
  function RampRate(n: int, from: real, to: real, i: int): real
    requires n > 1
  {
    from + (i as real) * ((to - from) / ((n - 1) as real))
  }

  /** `ramp`: `n` one-minute steps without warmup whose rates go from `from`
      to `to` in equal increments; one step at `from` when `n` is 1, none
      when `n` is smaller.  `show` stands for `String.valueOf(double)`;
      the rates are exact, where the source accumulates rounded sums. */
  method Ramp(n: int, from: real, to: real, show: real -> string) returns (r: seq<RunParams>)
    ensures n <= 0 ==> r == []
    ensures n == 1 ==> r == [RunParams(show(from), ZeroWarmup, RampLength)]
    ensures n > 1 ==> |r| == n
    ensures n > 1 ==>
      forall i :: 0 <= i < |r| ==> r[i] == RunParams(show(RampRate(n, from, to, i)), ZeroWarmup, RampLength)
  {
    r := [];
    if n > 1 {
      var d := (to - from) / ((n - 1) as real);
      var x := from;
      var i := 0;
      while i < n
        invariant 0 <= i <= n && |r| == i
        invariant x == RampRate(n, from, to, i)
        invariant forall k :: 0 <= k < i ==> r[k] == RunParams(show(RampRate(n, from, to, k)), ZeroWarmup, RampLength)
      {
        r := r + [RunParams(show(x), ZeroWarmup, RampLength)];
        x := x + d;
        i := i + 1;
      }
    } else if n == 1 {
      r := [RunParams(show(from), ZeroWarmup, RampLength)];
    }
  }

  /** A ramp of more than one step starts at `from`, ends at `to`, and its
      rates rise (or fall) by the same amount at every step. */
  lemma RampEnds(n: int, from: real, to: real)
    requires n > 1
    ensures RampRate(n, from, to, 0) == from
    ensures RampRate(n, from, to, n - 1) == to
    ensures forall i :: 0 <= i < n - 1 ==>
      RampRate(n, from, to, i + 1) - RampRate(n, from, to, i) == (to - from) / ((n - 1) as real)
  {
    var d := (to - from) / ((n - 1) as real);
    assert ((n - 1) as real) * d == to - from;
  }
}

=== FILE: steprater.dfy ===
/** The two searches of the step rater.  The high-bound search probes rates
    above the current bound in decreasing steps until the benchmark falls
    behind; the rate iteration then runs the benchmark at growing
    percentages of that bound, retrying a missed rate a few times, and
    finally probes finer percentages between the last two.

    The benchmark itself is an oracle.  In the high-bound search it is the
    sequence `rates` of the rates the runs achieved, in run order; in the
    rate iteration it is a function that, given the index of a run among all
    runs and the run's target rate, tells the rate the run achieved (`None`
    where the run produced no result). */
module StepRater {
  import opened Wrappers
  import opened Numbers

  /* ---------------------------------------------------------------------
     High-bound search
     --------------------------------------------------------------------- */

  /** Probes per step: the target rises by the step up to this many times. */
  const StepFactorMax: int := 10

  /** Every step is non-negative and its nine-fold is still an `int`. */
  predicate StepsFit(steps: seq<int>) {
    forall i :: 0 <= i < |steps| ==> 0 <= steps[i] && steps[i] * (StepFactorMax - 1) <= IntMax
  }

  /** A run kept up with its target: the target is below `targetFactor`
      times the rate it achieved. */
  predicate KeptUp(target: real, got: real, targetFactor: real) {
    target < targetFactor * got
  }

  /** Every probe so far kept up: its target is below `targetFactor` times
      what the run achieved. */
  predicate AllKeptUp(tried: seq<real>, targetFactor: real, rates: seq<real>) {
    |tried| <= |rates| && forall j :: 0 <= j < |tried| ==> KeptUp(tried[j], rates[j], targetFactor)
  }

  /** The bound after probe `sf` of `step` fell behind: the step itself when
      the last step falls behind at once from a zero bound, else the bound
      raised by the probes that kept up, an `int` product that wraps. */
  function Raised(highBound: real, step: int, sf: int, last: bool): (r: real)
    ensures 0 <= step && 1 <= sf <= StepFactorMax && step * (StepFactorMax - 1) <= IntMax ==> r >= highBound
  {
    if sf == 1 && last && highBound == 0.0 then step as real
    else
      if 0 <= step && 1 <= sf <= StepFactorMax && step * (StepFactorMax - 1) <= IntMax then
        ProductFits(step, sf - 1);
        highBound + Wrap32(step * (sf - 1)) as real
      else highBound + Wrap32(step * (sf - 1)) as real
  }

  lemma ProductFits(step: int, f: int)
    requires 0 <= step && 0 <= f <= StepFactorMax - 1 && step * (StepFactorMax - 1) <= IntMax
    ensures 0 <= step * f <= IntMax
  {
    assert step * f <= step * (StepFactorMax - 1);
  }

  /** With a step of 2^30, the third probe falling behind raises the bound
      by 2^31, which wraps to -2^31: the bound drops. */
  lemma HugeStepWraps(highBound: real)
    requires highBound != 0.0
    ensures Raised(highBound, 0x4000_0000, 3, false) == highBound - 2147483648.0
  {
    assert Wrap32(0x4000_0000 * 2) == -0x8000_0000 by {
      var r := Wrap32(0x4000_0000 * 2);
      assert (0x8000_0000 - r) % 0x1_0000_0000 == 0;
    }
  }

  /** The target of probe `sf` of `step` above the bound, a `double`
      product. */
  function Probed(highBound: real, step: int, sf: int): real {
    highBound + (step as real) * (sf as real)
  }

  /** The probes of one step from probe `sf` on, as the inner loop of
      `findHighBound` runs them: the new bound, the targets run (after
      `tried`) and whether a run reached no positive rate. */
  function StepRun(step: int, last: bool, highBound: real, tried: seq<real>, targetFactor: real,
                   rates: seq<real>, sf: nat): (r: (real, seq<real>, bool))
    requires 1 <= sf <= StepFactorMax + 1 && |tried| + StepFactorMax + 1 - sf <= |rates|
    ensures |r.1| <= |tried| + StepFactorMax + 1 - sf
    decreases StepFactorMax + 1 - sf
  {
    if sf > StepFactorMax then (highBound, tried, false)
    else
      var target := Probed(highBound, step, sf);
      var got := rates[|tried|];
      if got <= 0.0 then (-1.0, tried + [target], true)
      else if !KeptUp(target, got, targetFactor) then (Raised(highBound, step, sf, last), tried + [target], false)
      else StepRun(step, last, highBound, tried + [target], targetFactor, rates, sf + 1)
  }

  /** `findHighBound` over the steps from `i` on, step by step. */
  function HighBoundSearch(steps: seq<int>, i: nat, highBound: real, tried: seq<real>, targetFactor: real,
                           rates: seq<real>): (real, seq<real>)
    requires i <= |steps| && |tried| + StepFactorMax * (|steps| - i) <= |rates|
    decreases |steps| - i
  {
    if i == |steps| then (highBound, tried)
    else
      var outcome := StepRun(steps[i], i == |steps| - 1, highBound, tried, targetFactor, rates, 1);
      if outcome.2 then (outcome.0, outcome.1)
      else HighBoundSearch(steps, i + 1, outcome.0, outcome.1, targetFactor, rates)
  }

  /** The probes of one step from probe `sf` on, described run by run:
      after the `tried0` runs, each target is one more `step` above the
      bound `hb`; every probe but the last reached a positive rate and kept
      up; the last one reached no positive rate (`failed`, the bound -1),
      fell behind (the bound raised by the probes before it) or kept up as
      the tenth (the bound unchanged). */
  predicate ProbesOf(step: int, last: bool, hb: real, tried0: seq<real>, targetFactor: real,
                     rates: seq<real>, sf: nat, tried: seq<real>, highBound: real, failed: bool) {
    && |tried0| < |tried| <= |tried0| + StepFactorMax + 1 - sf && |tried| <= |rates|
    && tried[..|tried0|] == tried0
    && (forall k :: |tried0| <= k < |tried| ==> tried[k] == Probed(hb, step, k - |tried0| + sf))
    && (forall k :: |tried0| <= k < |tried| - 1 ==>
          rates[k] > 0.0 && KeptUp(tried[k], rates[k], targetFactor))
    && (failed <==> rates[|tried| - 1] <= 0.0)
    && (failed ==> highBound == -1.0)
    && (!failed && !KeptUp(tried[|tried| - 1], rates[|tried| - 1], targetFactor) ==>
          highBound == Raised(hb, step, |tried| - |tried0| + sf - 1, last))
    && (!failed && KeptUp(tried[|tried| - 1], rates[|tried| - 1], targetFactor) ==>
          |tried| == |tried0| + StepFactorMax + 1 - sf && highBound == hb)
  }

  /** The probes of one step: the bound plus one to ten times `step`, run
      after the `tried0` runs, until one falls behind or reaches no positive
      rate (`failed`, the bound becoming -1). */
  method StepProbes(step: int, last: bool, highBound0: real, tried0: seq<real>, targetFactor: real,
                    rates: seq<real>)
    returns (highBound: real, tried: seq<real>, failed: bool)
    requires |tried0| + StepFactorMax <= |rates|
    requires forall j :: 0 <= j < |tried0| ==> rates[j] > 0.0
    ensures ProbesOf(step, last, highBound0, tried0, targetFactor, rates, 1, tried, highBound, failed)
    ensures |tried0| < |tried| <= |tried0| + StepFactorMax && tried[..|tried0|] == tried0
    ensures forall j :: 0 <= j < |tried| - 1 ==> rates[j] > 0.0
    ensures failed <==> rates[|tried| - 1] <= 0.0
    ensures failed ==> highBound == -1.0
    ensures !failed && 0 <= step && step * (StepFactorMax - 1) <= IntMax ==> highBound >= highBound0
    ensures !failed && AllKeptUp(tried, targetFactor, rates) ==> highBound == highBound0
  {
    highBound := highBound0;
    tried := tried0;
    failed := false;
    var sf := 1;
    while sf <= StepFactorMax
      invariant 1 <= sf <= StepFactorMax + 1
      invariant |tried| == |tried0| + sf - 1 && tried[..|tried0|] == tried0
      invariant forall j :: 0 <= j < |tried| ==> rates[j] > 0.0
      invariant forall k :: |tried0| <= k < |tried| ==>
                  tried[k] == Probed(highBound0, step, k - |tried0| + 1)
                  && KeptUp(tried[k], rates[k], targetFactor)
      invariant highBound == highBound0
    {
      var target := Probed(highBound, step, sf);
      var n := |tried|;
      var got := rates[n];
      tried := tried + [target];
      assert tried[n] == target && tried[..|tried0|] == tried0;
      if got <= 0.0 {
        highBound := -1.0;
        failed := true;
        return;
      }
      if !KeptUp(target, got, targetFactor) {
        assert !AllKeptUp(tried, targetFactor, rates) by {
          assert !KeptUp(tried[n], rates[n], targetFactor);
        }
        highBound := Raised(highBound, step, sf, last);
        assert |tried| - |tried0| == sf && tried[|tried| - 1] == target;
        return;
      }
      sf := sf + 1;
    }
  }

  /** Probes described run by run (each target one more step above the
      bound, every probe but the last kept up, the last one fell behind,
      reached no positive rate or was the tenth) are exactly the ones the
      inner loop runs from probe `sf` on. */
  lemma {:induction false} StepRunMatches(step: int, last: bool, hb: real, tried0: seq<real>, targetFactor: real,
                                          rates: seq<real>, sf: nat,
                                          tried: seq<real>, highBound: real, failed: bool)
    requires 1 <= sf <= StepFactorMax && |tried0| + StepFactorMax + 1 - sf <= |rates|
    requires ProbesOf(step, last, hb, tried0, targetFactor, rates, sf, tried, highBound, failed)
    ensures (highBound, tried, failed) == StepRun(step, last, hb, tried0, targetFactor, rates, sf)
    decreases StepFactorMax + 1 - sf
  {
    var n := |tried0|;
    var target := Probed(hb, step, sf);
    assert tried[n] == target;
    assert tried[..n + 1] == tried0 + [target] by {
      assert tried[..n + 1] == tried[..n] + [tried[n]];
    }
    if |tried| == n + 1 {
      assert tried == tried0 + [target];
      StepRunStops(step, last, hb, tried0, targetFactor, rates, sf);
    } else {
      StepRunContinues(step, last, hb, tried0, targetFactor, rates, sf);
      StepRunMatches(step, last, hb, tried0 + [target], targetFactor, rates, sf + 1, tried, highBound, failed);
    }
  }

  /** The search from step `i` on is the outcome of that step's probes,
      followed, unless a run failed, by the search from the next step. */
  lemma SearchAfterProbes(steps: seq<int>, i: nat, hb: real, tried0: seq<real>, targetFactor: real,
                          rates: seq<real>, highBound: real, tried: seq<real>, failed: bool,
                          whole: (real, seq<real>))
    requires i < |steps| && |tried0| + StepFactorMax * (|steps| - i) <= |rates|
    requires ProbesOf(steps[i], i == |steps| - 1, hb, tried0, targetFactor, rates, 1, tried, highBound, failed)
    requires whole == HighBoundSearch(steps, i, hb, tried0, targetFactor, rates)
    ensures failed ==> whole == (highBound, tried)
    ensures !failed ==>
              |tried| + StepFactorMax * (|steps| - i - 1) <= |rates|
              && whole == HighBoundSearch(steps, i + 1, highBound, tried, targetFactor, rates)
  {
    StepRunMatches(steps[i], i == |steps| - 1, hb, tried0, targetFactor, rates, 1, tried, highBound, failed);
  }

  /** Runs that did not fail all reached a positive rate. */
  lemma RatesPositive(tried: seq<real>, rates: seq<real>, failed: bool)
    requires 0 < |tried| <= |rates|
    requires forall j :: 0 <= j < |tried| - 1 ==> rates[j] > 0.0
    requires failed <==> rates[|tried| - 1] <= 0.0
    ensures !failed ==> forall j :: 0 <= j < |tried| ==> rates[j] > 0.0
  {
  }

  /** How the inner loop ends at probe `sf`. */
  lemma StepRunStops(step: int, last: bool, hb: real, tried0: seq<real>, targetFactor: real,
                     rates: seq<real>, sf: nat)
    requires 1 <= sf <= StepFactorMax && |tried0| + StepFactorMax + 1 - sf <= |rates|
    ensures var target := Probed(hb, step, sf);
            var got := rates[|tried0|];
            var run := StepRun(step, last, hb, tried0, targetFactor, rates, sf);
            && (got <= 0.0 ==> run == (-1.0, tried0 + [target], true))
            && (got > 0.0 && !KeptUp(target, got, targetFactor) ==>
                  run == (Raised(hb, step, sf, last), tried0 + [target], false))
            && (got > 0.0 && KeptUp(target, got, targetFactor) && sf == StepFactorMax ==>
                  run == (hb, tried0 + [target], false))
  {
  }

  /** A probe that kept up with a positive rate lets the inner loop go on. */
  lemma StepRunContinues(step: int, last: bool, hb: real, tried0: seq<real>, targetFactor: real,
                         rates: seq<real>, sf: nat)
    requires 1 <= sf <= StepFactorMax && |tried0| + StepFactorMax + 1 - sf <= |rates|
    requires rates[|tried0|] > 0.0
    requires KeptUp(Probed(hb, step, sf), rates[|tried0|], targetFactor)
    ensures StepRun(step, last, hb, tried0, targetFactor, rates, sf)
         == StepRun(step, last, hb, tried0 + [Probed(hb, step, sf)], targetFactor, rates, sf + 1)
  {
  }

  /** Kept-up runs stay kept up when more runs follow. */
  lemma KeptUpPrefix(tried: seq<real>, n: nat, targetFactor: real, rates: seq<real>)
    requires n <= |tried| && AllKeptUp(tried, targetFactor, rates)
    ensures AllKeptUp(tried[..n], targetFactor, rates)
  {
    assert forall j :: 0 <= j < n ==> tried[..n][j] == tried[j];
  }

  /** The inner loop from probe `sf` on runs the probes `ProbesOf`
      describes: the converse of `StepRunMatches`. */
  lemma {:induction false} StepRunDescribed(step: int, last: bool, hb: real, tried0: seq<real>, targetFactor: real,
                                            rates: seq<real>, sf: nat)
    requires 1 <= sf <= StepFactorMax && |tried0| + StepFactorMax + 1 - sf <= |rates|
    ensures var run := StepRun(step, last, hb, tried0, targetFactor, rates, sf);
            ProbesOf(step, last, hb, tried0, targetFactor, rates, sf, run.1, run.0, run.2)
    decreases StepFactorMax + 1 - sf
  {
    var target := Probed(hb, step, sf);
    var got := rates[|tried0|];
    StepRunStops(step, last, hb, tried0, targetFactor, rates, sf);
    assert (tried0 + [target])[..|tried0|] == tried0;
    if got > 0.0 && KeptUp(target, got, targetFactor) && sf < StepFactorMax {
      StepRunContinues(step, last, hb, tried0, targetFactor, rates, sf);
      StepRunDescribed(step, last, hb, tried0 + [target], targetFactor, rates, sf + 1);
      var run := StepRun(step, last, hb, tried0 + [target], targetFactor, rates, sf + 1);
      ProbesShift(step, last, hb, tried0, targetFactor, rates, sf, run.1, run.0, run.2);
    }
  }

  /** Probes from `sf + 1` on, after a probe `sf` that kept up with a
      positive rate, are probes from `sf` on. */
  lemma ProbesShift(step: int, last: bool, hb: real, tried0: seq<real>, targetFactor: real,
                    rates: seq<real>, sf: nat, tried: seq<real>, highBound: real, failed: bool)
    requires 1 <= sf && |tried0| < |rates|
    requires rates[|tried0|] > 0.0 && KeptUp(Probed(hb, step, sf), rates[|tried0|], targetFactor)
    requires ProbesOf(step, last, hb, tried0 + [Probed(hb, step, sf)], targetFactor, rates, sf + 1,
                      tried, highBound, failed)
    ensures ProbesOf(step, last, hb, tried0, targetFactor, rates, sf, tried, highBound, failed)
  {
    var n := |tried0|;
    assert tried[..n] == tried0 by {
      assert tried[..n + 1][..n] == tried[..n];
    }
    assert tried[n] == Probed(hb, step, sf) by {
      assert tried[..n + 1][n] == tried[n];
    }
    assert |tried| - (n + 1) + (sf + 1) - 1 == |tried| - n + sf - 1;
  }

  /** What the probes of one step promise, given that every run before them
      reached a positive rate. */
  lemma ProbesFacts(step: int, last: bool, hb: real, tried0: seq<real>, targetFactor: real,
                    rates: seq<real>, tried: seq<real>, highBound: real, failed: bool)
    requires ProbesOf(step, last, hb, tried0, targetFactor, rates, 1, tried, highBound, failed)
    requires forall j :: 0 <= j < |tried0| ==> rates[j] > 0.0
    ensures forall j :: 0 <= j < |tried| - 1 ==> rates[j] > 0.0
    ensures !failed ==> forall j :: 0 <= j < |tried| ==> rates[j] > 0.0
    ensures !failed && 0 <= step && step * (StepFactorMax - 1) <= IntMax ==> highBound >= hb
    ensures !failed && AllKeptUp(tried, targetFactor, rates) ==> highBound == hb
  {
    var n := |tried| - 1;
    if !failed && !KeptUp(tried[n], rates[n], targetFactor) {
      assert !AllKeptUp(tried, targetFactor, rates);
    }
  }

  /** What a search that started after the `tried0` runs from the bound
      `hb` promises of its outcome: it kept those runs; every run but the
      last reached a positive rate; a last new run without one means the
      bound -1; otherwise the bound did not drop if the steps fit, and did
      not move if every run kept up. */
  predicate SearchOutcome(steps: seq<int>, hb: real, tried0: seq<real>, targetFactor: real, rates: seq<real>,
                          highBound: real, tried: seq<real>) {
    && |tried0| <= |tried| <= |rates| && tried[..|tried0|] == tried0
    && (forall j :: 0 <= j < |tried| - 1 ==> rates[j] > 0.0)
    && (|tried| > |tried0| && rates[|tried| - 1] <= 0.0 ==> highBound == -1.0)
    && ((|tried| == |tried0| || rates[|tried| - 1] > 0.0) && StepsFit(steps) ==> highBound >= hb)
    && ((|tried| == |tried0| || rates[|tried| - 1] > 0.0) && AllKeptUp(tried, targetFactor, rates) ==>
          highBound == hb)
  }

  /** The search from step `i` on keeps the promises of `SearchOutcome`,
      with at most ten runs per step. */
  lemma {:induction false} SearchFacts(steps: seq<int>, i: nat, hb: real, tried0: seq<real>, targetFactor: real,
                                       rates: seq<real>)
    requires i <= |steps| && |tried0| + StepFactorMax * (|steps| - i) <= |rates|
    requires forall j :: 0 <= j < |tried0| ==> rates[j] > 0.0
    ensures |HighBoundSearch(steps, i, hb, tried0, targetFactor, rates).1| <= |tried0| + StepFactorMax * (|steps| - i)
    ensures SearchOutcome(steps, hb, tried0, targetFactor, rates,
                          HighBoundSearch(steps, i, hb, tried0, targetFactor, rates).0,
                          HighBoundSearch(steps, i, hb, tried0, targetFactor, rates).1)
    decreases |steps| - i, 1
  {
    if i == |steps| {
      assert tried0[..|tried0|] == tried0;
    } else {
      SearchFactsStep(steps, i, hb, tried0, targetFactor, rates);
    }
  }

  /** The probes of step `i`, then the search from the next step on. */
  lemma {:induction false} SearchFactsStep(steps: seq<int>, i: nat, hb: real, tried0: seq<real>, targetFactor: real,
                                           rates: seq<real>)
    requires i < |steps| && |tried0| + StepFactorMax * (|steps| - i) <= |rates|
    requires forall j :: 0 <= j < |tried0| ==> rates[j] > 0.0
    ensures |HighBoundSearch(steps, i, hb, tried0, targetFactor, rates).1| <= |tried0| + StepFactorMax * (|steps| - i)
    ensures SearchOutcome(steps, hb, tried0, targetFactor, rates,
                          HighBoundSearch(steps, i, hb, tried0, targetFactor, rates).0,
                          HighBoundSearch(steps, i, hb, tried0, targetFactor, rates).1)
    decreases |steps| - i, 0
  {
    var run := StepRun(steps[i], i == |steps| - 1, hb, tried0, targetFactor, rates, 1);
    if run.2 {
      SearchFailsAt(steps, i, hb, tried0, targetFactor, rates);
    } else {
      StepRunDescribed(steps[i], i == |steps| - 1, hb, tried0, targetFactor, rates, 1);
      ProbesFacts(steps[i], i == |steps| - 1, hb, tried0, targetFactor, rates, run.1, run.0, run.2);
      assert StepFactorMax * (|steps| - i) == StepFactorMax * (|steps| - (i + 1)) + StepFactorMax;
      var next := HighBoundSearch(steps, i + 1, run.0, run.1, targetFactor, rates);
      assert HighBoundSearch(steps, i, hb, tried0, targetFactor, rates) == next;
      SearchFacts(steps, i + 1, run.0, run.1, targetFactor, rates);
      OutcomeChain(steps, hb, tried0, targetFactor, rates, run.0, run.1, next.0, next.1);
    }
  }

  /** A step whose last run reached no positive rate ends the search. */
  lemma SearchFailsAt(steps: seq<int>, i: nat, hb: real, tried0: seq<real>, targetFactor: real, rates: seq<real>)
    requires i < |steps| && |tried0| + StepFactorMax * (|steps| - i) <= |rates|
    requires forall j :: 0 <= j < |tried0| ==> rates[j] > 0.0
    requires StepRun(steps[i], i == |steps| - 1, hb, tried0, targetFactor, rates, 1).2
    ensures HighBoundSearch(steps, i, hb, tried0, targetFactor, rates)
         == (StepRun(steps[i], i == |steps| - 1, hb, tried0, targetFactor, rates, 1).0,
             StepRun(steps[i], i == |steps| - 1, hb, tried0, targetFactor, rates, 1).1)
    ensures |HighBoundSearch(steps, i, hb, tried0, targetFactor, rates).1| <= |tried0| + StepFactorMax * (|steps| - i)
    ensures SearchOutcome(steps, hb, tried0, targetFactor, rates,
                          HighBoundSearch(steps, i, hb, tried0, targetFactor, rates).0,
                          HighBoundSearch(steps, i, hb, tried0, targetFactor, rates).1)
  {
    var run := StepRun(steps[i], i == |steps| - 1, hb, tried0, targetFactor, rates, 1);
    StepRunDescribed(steps[i], i == |steps| - 1, hb, tried0, targetFactor, rates, 1);
    ProbesFacts(steps[i], i == |steps| - 1, hb, tried0, targetFactor, rates, run.1, run.0, run.2);
    assert SearchOutcome(steps, hb, tried0, targetFactor, rates, run.0, run.1);
  }

  /** A step whose runs all reached a positive rate, followed by a search
      that keeps its promises, keeps them for the whole. */
  lemma OutcomeChain(steps: seq<int>, hb: real, tried0: seq<real>, targetFactor: real, rates: seq<real>,
                     hb1: real, tried1: seq<real>, highBound: real, tried: seq<real>)
    requires |tried0| < |tried1| <= |rates| && tried1[..|tried0|] == tried0
    requires forall j :: 0 <= j < |tried1| ==> rates[j] > 0.0
    requires StepsFit(steps) ==> hb1 >= hb
    requires AllKeptUp(tried1, targetFactor, rates) ==> hb1 == hb
    requires SearchOutcome(steps, hb1, tried1, targetFactor, rates, highBound, tried)
    ensures SearchOutcome(steps, hb, tried0, targetFactor, rates, highBound, tried)
  {
    assert tried[..|tried0|] == tried0 by {
      assert tried[..|tried1|][..|tried0|] == tried[..|tried0|];
    }
    if AllKeptUp(tried, targetFactor, rates) {
      KeptUpPrefix(tried, |tried1|, targetFactor, rates);
    }
  }

  /** `findHighBound`'s outer loop from step `i` on, after the `tried0`
      runs: the probes of each step in turn, until a run fails. */
  method SearchFrom(steps: seq<int>, i: nat, hb: real, tried0: seq<real>, targetFactor: real, rates: seq<real>)
    returns (highBound: real, tried: seq<real>)
    requires i <= |steps| && |tried0| + StepFactorMax * (|steps| - i) <= |rates|
    requires forall j :: 0 <= j < |tried0| ==> rates[j] > 0.0
    ensures (highBound, tried) == HighBoundSearch(steps, i, hb, tried0, targetFactor, rates)
    decreases |steps| - i
  {
    if i == |steps| {
      return hb, tried0;
    }
    var failed;
    ghost var whole := HighBoundSearch(steps, i, hb, tried0, targetFactor, rates);
    highBound, tried, failed := StepProbes(steps[i], i == |steps| - 1, hb, tried0, targetFactor, rates);
    SearchAfterProbes(steps, i, hb, tried0, targetFactor, rates, highBound, tried, failed, whole);
    RatesPositive(tried, rates, failed);
    if !failed {
      highBound, tried := SearchFrom(steps, i + 1, highBound, tried, targetFactor, rates);
    }
  }

  /** `findHighBound`: for each step, probe the bound plus one to ten steps
      until a run falls behind (`targetRate >= targetFactor * rate`), then
      raise the bound by the probes that kept up.  A run that reaches no
      positive rate ends the search with -1; as written only a zero rate
      does, and a negative one throws (`HighBoundSearchAsWritten`).  `tried` lists the targets run,
      in order, and run `n` achieved `rates[n]`. */
  method FindHighBound(steps: seq<int>, highBound0: real, targetFactor: real, rates: seq<real>)
    returns (highBound: real, tried: seq<real>)
    requires StepFactorMax * |steps| <= |rates|
    ensures (highBound, tried) == HighBoundSearch(steps, 0, highBound0, [], targetFactor, rates)
    ensures |tried| <= StepFactorMax * |steps|
    ensures forall j :: 0 <= j < |tried| - 1 ==> rates[j] > 0.0
    ensures |tried| > 0 && rates[|tried| - 1] <= 0.0 ==> highBound == -1.0
    ensures (|tried| == 0 || rates[|tried| - 1] > 0.0) && StepsFit(steps) ==>
      highBound >= highBound0
    ensures (|tried| == 0 || rates[|tried| - 1] > 0.0) && AllKeptUp(tried, targetFactor, rates) ==>
      highBound == highBound0
    ensures HighBoundSearchAsWritten(steps, 0, highBound0, [], targetFactor, rates)
         == if |tried| > 0 && rates[|tried| - 1] < 0.0 then None else Some((highBound, tried))
  {
    highBound, tried := SearchFrom(steps, 0, highBound0, [], targetFactor, rates);
    SearchFacts(steps, 0, highBound0, [], targetFactor, rates);
    SearchAsWrittenAgrees(steps, 0, highBound0, [], targetFactor, rates);
  }

  /* ---------------------------------------------------------------------
     High-bound search as written: a run with a negative rate
     --------------------------------------------------------------------- */

  /** The inner loop as the source has it, assuming the runner version
      `StepRater` is built against returns `null` for a negative rate, as
      runners/BasicRunner.java:138-141 does, and otherwise accepts the null
      results list it is passed.  `findHighBound` then reads `result.rate`
      (StepRater.java:96-97): `None` stands for that NullPointerException.
      Only a rate of exactly zero reaches the -1. */
  function StepRunAsWritten(step: int, last: bool, highBound: real, tried: seq<real>, targetFactor: real,
                            rates: seq<real>, sf: nat): Option<(real, seq<real>, bool)>
    requires 1 <= sf <= StepFactorMax + 1 && |tried| + StepFactorMax + 1 - sf <= |rates|
    decreases StepFactorMax + 1 - sf
  {
    if sf > StepFactorMax then Some((highBound, tried, false))
    else
      var target := Probed(highBound, step, sf);
      var got := rates[|tried|];
      if got < 0.0 then None
      else if got == 0.0 then Some((-1.0, tried + [target], true))
      else if !KeptUp(target, got, targetFactor) then Some((Raised(highBound, step, sf, last), tried + [target], false))
      else StepRunAsWritten(step, last, highBound, tried + [target], targetFactor, rates, sf + 1)
  }

  /** `findHighBound` as written over the steps from `i` on; `None` when a
      run reached a negative rate. */
  function HighBoundSearchAsWritten(steps: seq<int>, i: nat, highBound: real, tried: seq<real>,
                                    targetFactor: real, rates: seq<real>): Option<(real, seq<real>)>
    requires i <= |steps| && |tried| + StepFactorMax * (|steps| - i) <= |rates|
    decreases |steps| - i
  {
    if i == |steps| then Some((highBound, tried))
    else
      match StepRunAsWritten(steps[i], i == |steps| - 1, highBound, tried, targetFactor, rates, 1)
      case None => None
      case Some(outcome) =>
        if outcome.2 then Some((outcome.0, outcome.1))
        else HighBoundSearchAsWritten(steps, i + 1, outcome.0, outcome.1, targetFactor, rates)
  }

  /** As written, the inner loop does what `StepRun` does, except that a
      last run with a negative rate throws instead of giving -1. */
  lemma {:induction false} StepRunAsWrittenAgrees(step: int, last: bool, hb: real, tried0: seq<real>,
                                                  targetFactor: real, rates: seq<real>, sf: nat)
    requires 1 <= sf <= StepFactorMax + 1 && |tried0| + StepFactorMax + 1 - sf <= |rates|
    ensures var run := StepRun(step, last, hb, tried0, targetFactor, rates, sf);
            StepRunAsWritten(step, last, hb, tried0, targetFactor, rates, sf)
              == if run.2 && 0 < |run.1| && rates[|run.1| - 1] < 0.0 then None else Some(run)
    decreases StepFactorMax + 1 - sf
  {
    if sf <= StepFactorMax {
      var target := Probed(hb, step, sf);
      var got := rates[|tried0|];
      if got > 0.0 && KeptUp(target, got, targetFactor) {
        StepRunAsWrittenAgrees(step, last, hb, tried0 + [target], targetFactor, rates, sf + 1);
      }
    }
  }

  /** As written, the search throws exactly when the corrected search ends
      on a new run with a negative rate, and otherwise returns what the
      corrected search returns. */
  lemma {:induction false} SearchAsWrittenAgrees(steps: seq<int>, i: nat, hb: real, tried0: seq<real>,
                                                 targetFactor: real, rates: seq<real>)
    requires i <= |steps| && |tried0| + StepFactorMax * (|steps| - i) <= |rates|
    requires forall j :: 0 <= j < |tried0| ==> rates[j] > 0.0
    ensures HighBoundSearchAsWritten(steps, i, hb, tried0, targetFactor, rates)
         == Thrown(tried0, HighBoundSearch(steps, i, hb, tried0, targetFactor, rates), rates)
    decreases |steps| - i, 2
  {
    if i < |steps| {
      SearchAsWrittenStep(steps, i, hb, tried0, targetFactor, rates);
    }
  }

  /** The probes of step `i` as written, then the search from the next step. */
  lemma {:induction false} SearchAsWrittenStep(steps: seq<int>, i: nat, hb: real, tried0: seq<real>,
                                               targetFactor: real, rates: seq<real>)
    requires i < |steps| && |tried0| + StepFactorMax * (|steps| - i) <= |rates|
    requires forall j :: 0 <= j < |tried0| ==> rates[j] > 0.0
    ensures HighBoundSearchAsWritten(steps, i, hb, tried0, targetFactor, rates)
         == Thrown(tried0, HighBoundSearch(steps, i, hb, tried0, targetFactor, rates), rates)
    decreases |steps| - i, 1
  {
    var last := i == |steps| - 1;
    StepRunAsWrittenAgrees(steps[i], last, hb, tried0, targetFactor, rates, 1);
    StepRunRates(steps[i], last, hb, tried0, targetFactor, rates);
    if !StepRun(steps[i], last, hb, tried0, targetFactor, rates, 1).2 {
      SearchAsWrittenNext(steps, i, hb, tried0, targetFactor, rates);
    }
  }

  /** After a step whose runs all reached a positive rate, the search as
      written goes on as the corrected one does. */
  lemma {:induction false} SearchAsWrittenNext(steps: seq<int>, i: nat, hb: real, tried0: seq<real>,
                                               targetFactor: real, rates: seq<real>)
    requires i < |steps| && |tried0| + StepFactorMax * (|steps| - i) <= |rates|
    requires forall j :: 0 <= j < |tried0| ==> rates[j] > 0.0
    requires !StepRun(steps[i], i == |steps| - 1, hb, tried0, targetFactor, rates, 1).2
    ensures HighBoundSearchAsWritten(steps, i, hb, tried0, targetFactor, rates)
         == Thrown(tried0, HighBoundSearch(steps, i, hb, tried0, targetFactor, rates), rates)
    decreases |steps| - i, 0
  {
    var run := StepRun(steps[i], i == |steps| - 1, hb, tried0, targetFactor, rates, 1);
    StepRunAsWrittenAgrees(steps[i], i == |steps| - 1, hb, tried0, targetFactor, rates, 1);
    StepRunRates(steps[i], i == |steps| - 1, hb, tried0, targetFactor, rates);
    assert StepFactorMax * (|steps| - i) == StepFactorMax * (|steps| - (i + 1)) + StepFactorMax;
    var next := HighBoundSearch(steps, i + 1, run.0, run.1, targetFactor, rates);
    assert HighBoundSearch(steps, i, hb, tried0, targetFactor, rates) == next;
    assert HighBoundSearchAsWritten(steps, i, hb, tried0, targetFactor, rates)
        == HighBoundSearchAsWritten(steps, i + 1, run.0, run.1, targetFactor, rates);
    SearchKeepsRuns(steps, i + 1, run.0, run.1, targetFactor, rates);
    SearchAsWrittenAgrees(steps, i + 1, run.0, run.1, targetFactor, rates);
    ThrownShift(tried0, run.1, next, rates);
  }

  /** The outcome as written of a search that started after the `tried0`
      runs and returned `s`: the NullPointerException when its last run is
      new and reached a negative rate, `s` otherwise. */
  function Thrown(tried0: seq<real>, s: (real, seq<real>), rates: seq<real>): Option<(real, seq<real>)> {
    if |tried0| < |s.1| <= |rates| && rates[|s.1| - 1] < 0.0 then None else Some(s)
  }

  /** Runs with a positive rate can be counted as runs before the search. */
  lemma ThrownShift(tried0: seq<real>, tried1: seq<real>, s: (real, seq<real>), rates: seq<real>)
    requires |tried0| < |tried1| <= |s.1| <= |rates|
    requires forall j :: 0 <= j < |tried1| ==> rates[j] > 0.0
    ensures Thrown(tried0, s, rates) == Thrown(tried1, s, rates)
  {
    if |tried1| == |s.1| {
      assert rates[|s.1| - 1] > 0.0;
    }
  }

  /** The search keeps the runs before it and stays within the rates. */
  lemma SearchKeepsRuns(steps: seq<int>, i: nat, hb: real, tried0: seq<real>, targetFactor: real,
                        rates: seq<real>)
    requires i <= |steps| && |tried0| + StepFactorMax * (|steps| - i) <= |rates|
    requires forall j :: 0 <= j < |tried0| ==> rates[j] > 0.0
    ensures |tried0| <= |HighBoundSearch(steps, i, hb, tried0, targetFactor, rates).1| <= |rates|
  {
    SearchFacts(steps, i, hb, tried0, targetFactor, rates);
  }

  /** The probes of one step add at least one run and at most ten; without
      failure every run so far reached a positive rate. */
  lemma StepRunRates(step: int, last: bool, hb: real, tried0: seq<real>, targetFactor: real, rates: seq<real>)
    requires |tried0| + StepFactorMax <= |rates|
    requires forall j :: 0 <= j < |tried0| ==> rates[j] > 0.0
    ensures var run := StepRun(step, last, hb, tried0, targetFactor, rates, 1);
            |tried0| < |run.1| <= |tried0| + StepFactorMax
            && (!run.2 ==> forall j :: 0 <= j < |run.1| ==> rates[j] > 0.0)
  {
    var run := StepRun(step, last, hb, tried0, targetFactor, rates, 1);
    StepRunDescribed(step, last, hb, tried0, targetFactor, rates, 1);
    ProbesFacts(step, last, hb, tried0, targetFactor, rates, run.1, run.0, run.2);
  }

  /** A first probe at the rate -1 throws as written, where the corrected
      search gives up with -1. */
  lemma NegativeRateThrows(rates: seq<real>)
    requires |rates| == StepFactorMax && rates[0] == -1.0
    ensures HighBoundSearchAsWritten([1000], 0, 0.0, [], 1.1, rates) == None
    ensures HighBoundSearch([1000], 0, 0.0, [], 1.1, rates) == (-1.0, [1000.0])
  {
    var none: seq<real> := [];
    assert rates[|none|] < 0.0;
    assert StepRun(1000, true, 0.0, none, 1.1, rates, 1) == (-1.0, none + [Probed(0.0, 1000, 1)], true);
    assert none + [Probed(0.0, 1000, 1)] == [1000.0];
  }

  /* ---------------------------------------------------------------------
     Rate iteration
     --------------------------------------------------------------------- */

  /** One run of the iteration: its target rate, the percentage of the
      high bound it stands for, and how many times this percentage was
      retried before it. */
  datatype Probe = Probe(targetRate: real, ratePercent: real, retry: int)

  /** A run fell behind its target: the achieved rate times
      `targetFactor` does not exceed the target. */
  predicate Behind(p: Probe, got: real, targetFactor: real) {
    got * targetFactor <= p.targetRate
  }

  /** After a run with a result, the next run retries the same percentage
      when this one fell behind and retries are left, and moves up by one
      step, with the retries reset, when it kept up below the finishing
      percentage. */
  predicate Follows(p: Probe, q: Probe, res: Option<real>, step: real, finish: real, retriesMax: int, targetFactor: real) {
    res.Some? &&
    ((Behind(p, res.value, targetFactor) && p.retry < retriesMax &&
      q.ratePercent == p.ratePercent && q.retry == p.retry + 1) ||
     (!Behind(p, res.value, targetFactor) && p.ratePercent < finish &&
      q.ratePercent == p.ratePercent + step && q.retry == 0))
  }

  /** The iteration ends after a run without result, a run that fell
      behind with no retry left, or a run that kept up at or above the
      finishing percentage. */
  predicate Stops(p: Probe, res: Option<real>, finish: real, retriesMax: int, targetFactor: real) {
    res.None? ||
    (Behind(p, res.value, targetFactor) && p.retry >= retriesMax) ||
    (!Behind(p, res.value, targetFactor) && p.ratePercent >= finish)
  }

  /** Runs numbered from `first` on whose targets are their percentage of
      the high bound and each of which follows from the one before. */
  ghost predicate Chained(tr: seq<Probe>, first: nat, highBound: real, finish: real, step: real,
                          retriesMax: int, targetFactor: real, run: (nat, real) -> Option<real>) {
    && (forall j :: 0 <= j < |tr| ==> tr[j].targetRate == highBound * tr[j].ratePercent / 100.0)
    && (forall j :: 0 <= j < |tr| - 1 ==>
          Follows(tr[j], tr[j + 1], run(first + j, tr[j].targetRate), step, finish, retriesMax, targetFactor))
  }

  /** The runs of one pass of the iteration loop, the first being run
      number `first`: it starts at `start` without retries, the runs are
      chained, and only the last one stops. */
  ghost predicate IsPass(tr: seq<Probe>, first: nat, highBound: real, start: real, finish: real, step: real,
                         retriesMax: int, targetFactor: real, run: (nat, real) -> Option<real>) {
    && |tr| >= 1
    && tr[0].ratePercent == start && tr[0].retry == 0
    && Chained(tr, first, highBound, finish, step, retriesMax, targetFactor, run)
    && Stops(tr[|tr| - 1], run(first + |tr| - 1, tr[|tr| - 1].targetRate), finish, retriesMax, targetFactor)
  }

  lemma ChainExtend(tr: seq<Probe>, q: Probe, first: nat, highBound: real, finish: real, step: real,
                    retriesMax: int, targetFactor: real, run: (nat, real) -> Option<real>)
    requires |tr| > 0 && Chained(tr, first, highBound, finish, step, retriesMax, targetFactor, run)
    requires q.targetRate == highBound * q.ratePercent / 100.0
    requires Follows(tr[|tr| - 1], q, run(first + |tr| - 1, tr[|tr| - 1].targetRate), step, finish, retriesMax, targetFactor)
    ensures Chained(tr + [q], first, highBound, finish, step, retriesMax, targetFactor, run)
  {
    var t := tr + [q];
    forall j | 0 <= j < |t| - 1
      ensures Follows(t[j], t[j + 1], run(first + j, t[j].targetRate), step, finish, retriesMax, targetFactor)
    {
      if j < |tr| - 1 {
        assert t[j] == tr[j] && t[j + 1] == tr[j + 1];
      }
    }
  }

  /** The run after `p` given its outcome, or `None` when the pass stops. */
  function Next(p: Probe, res: Option<real>, highBound: real, finish: real, step: real,
                retriesMax: int, targetFactor: real): (r: Option<Probe>)
    ensures r.None? <==> Stops(p, res, finish, retriesMax, targetFactor)
    ensures r.Some? ==> Follows(p, r.value, res, step, finish, retriesMax, targetFactor)
    ensures r.Some? ==> r.value.targetRate == highBound * r.value.ratePercent / 100.0
  {
    if res.None? then None
    else if Behind(p, res.value, targetFactor) then
      if p.retry < retriesMax then Some(Probe(highBound * p.ratePercent / 100.0, p.ratePercent, p.retry + 1))
      else None
    else if p.ratePercent >= finish then None
    else
      var pct := p.ratePercent + step;
      Some(Probe(highBound * pct / 100.0, pct, 0))
  }

  /** How many times the percentage can still move up from `start` before
      it reaches `finish`, plus one. */
  function Advances(start: real, finish: real, step: real): (r: nat)
    requires step > 0.0
  {
    if finish <= start then 0 else ((finish - start) / step).Floor + 1
  }

  lemma BelowFinish(start: real, finish: real, step: real, k: nat)
    requires step > 0.0 && start + (k as real) * step < finish
    ensures k < Advances(start, finish, step)
  {
    var x := (finish - start) / step;
    assert (k as real) * step < x * step;
    assert (k as real) < x;
  }

  function RetryRoom(retriesMax: int, retry: int): nat {
    if retry < retriesMax then retriesMax - retry else 0
  }

  /** The loop of `iterateTargetRates`: run the percentage, retry or move
      up, until a stop condition holds. */
  method Pass(first: nat, highBound: real, start: real, finish: real, step: real,
              retriesMax: int, targetFactor: real, run: (nat, real) -> Option<real>)
    returns (tr: seq<Probe>)
    requires step > 0.0
    ensures IsPass(tr, first, highBound, start, finish, step, retriesMax, targetFactor, run)
  {
    var cur := Probe(highBound * start / 100.0, start, 0);
    var k: nat := 0;
    tr := [];
    while true
      invariant cur.targetRate == highBound * cur.ratePercent / 100.0
      invariant cur.ratePercent == start + (k as real) * step && k <= Advances(start, finish, step)
      invariant |tr| == 0 ==> cur.ratePercent == start && cur.retry == 0
      invariant |tr| > 0 ==> tr[0].ratePercent == start && tr[0].retry == 0
      invariant Chained(tr + [cur], first, highBound, finish, step, retriesMax, targetFactor, run)
      decreases Advances(start, finish, step) - k, RetryRoom(retriesMax, cur.retry)
    {
      var res := run(first + |tr|, cur.targetRate);
      var next := Next(cur, res, highBound, finish, step, retriesMax, targetFactor);
      if next.None? {
        tr := tr + [cur];
        return;
      }
      ChainExtend(tr + [cur], next.value, first, highBound, finish, step, retriesMax, targetFactor, run);
      if next.value.ratePercent != cur.ratePercent {
        BelowFinish(start, finish, step, k);
        k := k + 1;
      }
      tr := tr + [cur];
      cur := next.value;
    }
  }

  /** `iterateTargetRates`: one pass from `start`; then, when finer steps
      are asked for, the last run had a result and the last percentage
      exceeds one step, a second pass with `finerSteps` equal steps strictly
      between the last two percentages, itself without a finer pass.
      `main` is the number of runs of the first pass. */
  method IterateTargetRates(first: nat, highBound: real, start: real, finish: real, step: real, finerSteps: int,
                            retriesMax: int, targetFactor: real, run: (nat, real) -> Option<real>)
    returns (tr: seq<Probe>, main: nat)
    requires step > 0.0
    ensures 1 <= main <= |tr|
    ensures IsPass(tr[..main], first, highBound, start, finish, step, retriesMax, targetFactor, run)
    ensures var last := tr[main - 1];
      if finerSteps > 0 && run(first + main - 1, last.targetRate).Some? && step < last.ratePercent then
        var fine := step / ((finerSteps + 1) as real);
        IsPass(tr[main..], first + main, highBound, last.ratePercent - step + fine, last.ratePercent - fine,
               fine, retriesMax, targetFactor, run)
      else main == |tr|
    decreases if finerSteps > 0 then 1 else 0
  {
    tr := Pass(first, highBound, start, finish, step, retriesMax, targetFactor, run);
    main := |tr|;
    assert tr[..main] == tr;
    var last := tr[main - 1];
    if finerSteps > 0 && run(first + main - 1, last.targetRate).Some? && step < last.ratePercent {
      var finerStart := last.ratePercent - step;
      var finerFinish := last.ratePercent;
      var fine := (finerFinish - finerStart) / ((finerSteps + 1) as real);
      assert fine == step / ((finerSteps + 1) as real);
      var more, m := IterateTargetRates(first + main, highBound, finerStart + fine, finerFinish - fine, fine, 0,
                                        retriesMax, targetFactor, run);
      assert more[..m] == more;
      tr := tr + more;
      assert tr[..main] == tr[..main][..main];
      assert tr[main..] == more;
    }
  }

  /** Within a pass, the retry count never exceeds the allowed retries and
      every percentage is the start or lies below `finish + step`, never
      below the start. */
  lemma {:induction false} PassBounds(tr: seq<Probe>, first: nat, highBound: real, start: real, finish: real, step: real,
                                      retriesMax: int, targetFactor: real, run: (nat, real) -> Option<real>, j: nat)
    requires step > 0.0
    requires IsPass(tr, first, highBound, start, finish, step, retriesMax, targetFactor, run)
    requires j < |tr|
    ensures 0 <= tr[j].retry && (tr[j].retry == 0 || tr[j].retry <= retriesMax)
    ensures start <= tr[j].ratePercent
    ensures tr[j].ratePercent == start || tr[j].ratePercent < finish + step
  {
    if j > 0 {
      PassBounds(tr, first, highBound, start, finish, step, retriesMax, targetFactor, run, j - 1);
      assert Follows(tr[j - 1], tr[j], run(first + j - 1, tr[j - 1].targetRate), step, finish, retriesMax, targetFactor);
    }
  }

  /** The finer pass probes only percentages strictly between the last two
      of the first pass, and each of its targets is that percentage of the
      high bound. */
  lemma FinerBetween(tr: seq<Probe>, main: nat, first: nat, highBound: real, step: real, finerSteps: int,
                     retriesMax: int, targetFactor: real, run: (nat, real) -> Option<real>, j: nat)
    requires step > 0.0 && finerSteps > 0 && 1 <= main && main <= j < |tr|
    requires IsPass(tr[main..], first + main, highBound,
                    tr[main - 1].ratePercent - step + step / ((finerSteps + 1) as real),
                    tr[main - 1].ratePercent - step / ((finerSteps + 1) as real),
                    step / ((finerSteps + 1) as real), retriesMax, targetFactor, run)
    ensures tr[main - 1].ratePercent - step < tr[j].ratePercent < tr[main - 1].ratePercent
    ensures tr[j].targetRate == highBound * tr[j].ratePercent / 100.0
  {
    var fine := step / ((finerSteps + 1) as real);
    FineBelowStep(step, (finerSteps + 1) as real);
    var last := tr[main - 1].ratePercent;
    PassBounds(tr[main..], first + main, highBound, last - step + fine, last - fine, fine,
               retriesMax, targetFactor, run, j - main);
    assert tr[main..][j - main] == tr[j];
  }

  /** A step split into `m >= 2` parts gives a positive part below it. */
  lemma FineBelowStep(step: real, m: real)
    requires step > 0.0 && m >= 2.0
    ensures 0.0 < step / m < step
  {
    var fine := step / m;
    assert fine * m == step;
    assert fine > 0.0;
    MoreThanOnce(fine, m);
  }

  lemma MoreThanOnce(a: real, m: real)
    requires a > 0.0 && m >= 2.0
    ensures a * m - a >= a
  {
    assert a * (m - 1.0) >= a * 1.0;
  }

  /** A pass in which every run keeps up moves up one step per run without
      retries and ends only once the finishing percentage is reached. */
  lemma {:induction false} KeepingUpPass(tr: seq<Probe>, first: nat, highBound: real, start: real, finish: real,
                                         step: real, retriesMax: int, targetFactor: real,
                                         run: (nat, real) -> Option<real>, j: nat)
    requires IsPass(tr, first, highBound, start, finish, step, retriesMax, targetFactor, run)
    requires forall i :: 0 <= i < |tr| ==>
      run(first + i, tr[i].targetRate).Some? && !Behind(tr[i], run(first + i, tr[i].targetRate).value, targetFactor)
    requires j < |tr|
    ensures tr[j].retry == 0 && tr[j].ratePercent == start + (j as real) * step
    ensures tr[|tr| - 1].ratePercent >= finish
  {
    if j > 0 {
      KeepingUpPass(tr, first, highBound, start, finish, step, retriesMax, targetFactor, run, j - 1);
      assert Follows(tr[j - 1], tr[j], run(first + j - 1, tr[j - 1].targetRate), step, finish, retriesMax, targetFactor);
    }
  }
}

=== FILE: stepraterconfig.dfy ===
/** The step rater's settings: retries, the percentage range of the rate
    iteration, the high-bound search steps and the warmup and run times of
    the initial and high-bound runs; and their validation. */
module StepRaterConfig {
  import opened Wrappers
  import opened Numbers
  import FormatTool

  datatype StepRaterConfig = StepRaterConfig(
    retriesMax: int,
    rateStepPercent: int,
    startingRatePercent: int,
    finishingRatePercent: int,
    finerRateSteps: int,
    rateFactor: real,
    rangeStartTime: real,
    resetEachStep: bool,
    highBoundOnly: bool,
    highBoundFromMaxRate: bool,
    processHistograms: bool,
    highBoundRunTime: string,
    highBoundWarmupTime: string,
    initialWarmupTime: string,
    initialRunTime: string,
    initialTargetRate: string,
    highBoundSteps: Option<seq<int>>)

  /** The field initialisers. */
  const Default: StepRaterConfig := StepRaterConfig(
    2, 1, 50, 110, 0, 1.01, 0.0, true, false, false, false,
    "1m", "0", "0", "1m", "1k", Some([20000, 10000, 5000, 1000]))

  /** Which check of `validate` threw.  `NumberFormat` is a time text
      `parseTimeLength` cannot read; `Base` is whatever the validation of
      the common runner settings throws. */
  datatype ConfigError =
    | NumberFormat(text: string)
    | BadHighBoundRunTime
    | BadHighBoundWarmupTime
    | BadInitialWarmupTime
    | BadInitialRunTime
    | BadRateStep
    | BadStartingRate
    | BadFinishingRate
    | EmptySteps
    | NonPositiveStep(index: nat)
    | NotDecreasing(index: nat)
    | Base(message: string)

  /** The first index whose step is not positive, or `|steps|`. */
  function FirstNonPositive(steps: seq<int>, i: nat): (r: nat)
    requires i <= |steps|
    ensures i <= r <= |steps|
    ensures r < |steps| ==> steps[r] <= 0
    ensures forall k :: i <= k < r ==> steps[k] > 0
    decreases |steps| - i
  {
    if i == |steps| then i
    else if steps[i] <= 0 then i
    else FirstNonPositive(steps, i + 1)
  }

  /** The first index from `i` on whose step is not below the one before
      it, or `|steps|`. */
  function FirstNotDecreasing(steps: seq<int>, i: nat): (r: nat)
    requires 1 <= i <= |steps|
    ensures i <= r <= |steps|
    ensures r < |steps| ==> steps[r] >= steps[r - 1]
    ensures forall k :: i <= k < r ==> steps[k] < steps[k - 1]
    decreases |steps| - i
  {
    if i == |steps| then i
    else if steps[i] >= steps[i - 1] then i
    else FirstNotDecreasing(steps, i + 1)
  }

  /** The steps of the high-bound search: some, every one positive, each
      smaller than all before it. */
  predicate GoodSteps(steps: Option<seq<int>>) {
    && steps.Some? && |steps.value| > 0
    && (forall k :: 0 <= k < |steps.value| ==> steps.value[k] > 0)
    && (forall j, k :: 0 <= j < k < |steps.value| ==> steps.value[k] < steps.value[j])
  }

  /** Everything `validate` demands, with `time` for `parseTimeLength` and
      `base` for the outcome of the common validation. */
  predicate Valid(c: StepRaterConfig, time: string -> Option<int>, base: Option<string>) {
    && time(c.highBoundRunTime).Some? && time(c.highBoundRunTime).value >= 0
    && time(c.highBoundWarmupTime).Some? && time(c.highBoundWarmupTime).value >= 0
    && time(c.initialWarmupTime).Some? && time(c.initialWarmupTime).value >= 0
    && time(c.initialRunTime).Some? && time(c.initialRunTime).value >= 0
    && c.rateStepPercent > 0 && c.startingRatePercent >= 0
    && c.finishingRatePercent >= c.startingRatePercent
    && GoodSteps(c.highBoundSteps)
    && base.None?
  }

  /** `validate`: the checks in source order, the first failing one throws;
      the two loops over the steps report the first offending index; the
      common runner checks come last. */
  function Validate(c: StepRaterConfig, time: string -> Option<int>, base: Option<string>): (r: Result<(), ConfigError>)
    ensures r.Success? <==> Valid(c, time, base)
    ensures r == Failure(BadRateStep) ==> c.rateStepPercent <= 0
    ensures r == Failure(BadStartingRate) ==> c.startingRatePercent < 0
    ensures r == Failure(BadFinishingRate) ==> c.finishingRatePercent < c.startingRatePercent
    ensures r.Failure? && r.error.NonPositiveStep? ==>
      c.highBoundSteps.Some? && r.error.index < |c.highBoundSteps.value| &&
      c.highBoundSteps.value[r.error.index] <= 0
    ensures r.Failure? && r.error.NotDecreasing? ==>
      c.highBoundSteps.Some? && 0 < r.error.index < |c.highBoundSteps.value| &&
      c.highBoundSteps.value[r.error.index] >= c.highBoundSteps.value[r.error.index - 1]
  {
    var t1 := time(c.highBoundRunTime);
    var t2 := time(c.highBoundWarmupTime);
    var t3 := time(c.initialWarmupTime);
    var t4 := time(c.initialRunTime);
    if t1.None? then Failure(NumberFormat(c.highBoundRunTime))
    else if t1.value < 0 then Failure(BadHighBoundRunTime)
    else if t2.None? then Failure(NumberFormat(c.highBoundWarmupTime))
    else if t2.value < 0 then Failure(BadHighBoundWarmupTime)
    else if t3.None? then Failure(NumberFormat(c.initialWarmupTime))
    else if t3.value < 0 then Failure(BadInitialWarmupTime)
    else if t4.None? then Failure(NumberFormat(c.initialRunTime))
    else if t4.value < 0 then Failure(BadInitialRunTime)
    else if c.rateStepPercent <= 0 then Failure(BadRateStep)
    else if c.startingRatePercent < 0 then Failure(BadStartingRate)
    else if c.finishingRatePercent < c.startingRatePercent then Failure(BadFinishingRate)
    else if c.highBoundSteps.None? || |c.highBoundSteps.value| == 0 then Failure(EmptySteps)
    else
      var steps := c.highBoundSteps.value;
      var p := FirstNonPositive(steps, 0);
      if p < |steps| then Failure(NonPositiveStep(p))
      else
        var d := FirstNotDecreasing(steps, 1);
        if d < |steps| then Failure(NotDecreasing(d))
        else
          AdjacentDecreasing(steps);
          if base.Some? then Failure(Base(base.value)) else Success(())
  }

  /** Each step below the one before it makes every step below all the
      steps before it. */
  lemma {:induction false} AdjacentDecreasing(steps: seq<int>)
    requires forall k :: 1 <= k < |steps| ==> steps[k] < steps[k - 1]
    ensures forall j, k :: 0 <= j < k < |steps| ==> steps[k] < steps[j]
  {
    if |steps| > 1 {
      var front := steps[..|steps| - 1];
      assert forall k :: 1 <= k < |front| ==> front[k] < front[k - 1];
      AdjacentDecreasing(front);
      forall j, k | 0 <= j < k < |steps| ensures steps[k] < steps[j] {
        if k < |steps| - 1 {
          assert steps[k] == front[k] && steps[j] == front[j];
        } else if j < k - 1 {
          assert steps[j] == front[j] && steps[k - 1] == front[k - 1];
        }
      }
    }
  }

  /** `parseTimeLength` reads the default times as one minute and zero. */
  lemma DefaultTimes(run: string, zero: string)
    requires run == Default.highBoundRunTime && zero == Default.highBoundWarmupTime
    ensures FormatTool.ParseTimeLength(run) == Some(60)
    ensures FormatTool.ParseTimeLength(zero) == Some(0)
  {
    assert run == ShowInt(1) + FormatTool.TimeSuffixes[4].0 by { FormatTool.ShowOne(); }
    FormatTool.ParseTimeSuffix(1, 4);
    assert zero == ShowInt(0);
    FormatTool.ParseTimeSuffix(0, 0);
  }

  /** The default settings pass whenever the common checks do and the time
      reader reads the default times as `parseTimeLength` does. */
  lemma DefaultValid(time: string -> Option<int>)
    requires time(Default.highBoundRunTime) == Some(60) && time(Default.highBoundWarmupTime) == Some(0)
    ensures Validate(Default, time, None) == Success(())
  {
    assert Default.initialWarmupTime == Default.highBoundWarmupTime;
    assert Default.initialRunTime == Default.highBoundRunTime;
    assert GoodSteps(Default.highBoundSteps);
  }
}

=== FILE: strings.dfy ===
/** Character-string operations of the Java and JavaScript runtimes that the
    modelled code leans on: prefix/suffix tests, `indexOf`, case mapping,
    `trim`, `replace`, and the two flavours of `split`.  Strings are
    sequences of characters; case mapping is ASCII only. */
module Strings {

  predicate StartsWith(s: string, p: string) {
    |p| <= |s| && s[..|p|] == p
  }

  predicate EndsWith(s: string, p: string) {
    |p| <= |s| && s[|s| - |p|..] == p
  }

  /** `p` occurs in `s` at index `k`. */
  predicate OccursAt(s: string, p: string, k: int) {
    0 <= k && k + |p| <= |s| && s[k..k + |p|] == p
  }

  /** `s.indexOf(c)` for one character: the first index of `c`, or -1. */
  function IndexOfChar(s: string, c: char): (r: int)
    ensures -1 <= r < |s|
    ensures 0 <= r ==> s[r] == c
    ensures r < 0 ==> forall i :: 0 <= i < |s| ==> s[i] != c
    ensures forall i :: 0 <= i < r ==> s[i] != c
  {
    if |s| == 0 then -1
    else if s[0] == c then 0
    else
      var k := IndexOfChar(s[1..], c);
      if k < 0 then -1 else k + 1
  }

  /** `s.lastIndexOf(c)` for one character: the last index of `c`, or -1. */
  function LastIndexOfChar(s: string, c: char): (r: int)
    ensures -1 <= r < |s|
    ensures r == -1 <==> c !in s
    ensures 0 <= r ==> s[r] == c && forall i :: r < i < |s| ==> s[i] != c
  {
    if |s| == 0 then -1
    else if s[|s| - 1] == c then |s| - 1
    else
      var k := LastIndexOfChar(s[..|s| - 1], c);
      assert k < 0 ==> c !in s by {
        if k < 0 {
          assert forall i :: 0 <= i < |s| - 1 ==> s[i] == s[..|s| - 1][i];
        }
      }
      k
  }

  function IndexOfFrom(s: string, p: string, from: nat): (r: int)
    requires from <= |s| + 1
    ensures r == -1 || (from <= r && OccursAt(s, p, r))
    ensures r == -1 ==> forall k :: from <= k ==> !OccursAt(s, p, k)
    ensures r != -1 ==> forall k :: from <= k < r ==> !OccursAt(s, p, k)
    decreases |s| + 1 - from
  {
    if from + |p| > |s| then -1
    else if s[from..from + |p|] == p then from
    else IndexOfFrom(s, p, from + 1)
  }

  /** `s.indexOf(p)` for a substring: the first occurrence, or -1. */
  function IndexOf(s: string, p: string): (r: int)
    ensures r == -1 || OccursAt(s, p, r)
    ensures r == -1 <==> forall k :: !OccursAt(s, p, k)
    ensures forall k :: 0 <= k < r ==> !OccursAt(s, p, k)
  {
    IndexOfFrom(s, p, 0)
  }

  predicate Contains(s: string, p: string) {
    IndexOf(s, p) >= 0
  }

  function LowerChar(c: char): char {
    if 'A' <= c <= 'Z' then (c as int + 32) as char else c
  }

  function UpperChar(c: char): char {
    if 'a' <= c <= 'z' then (c as int - 32) as char else c
  }

  /** `toLowerCase()` restricted to ASCII letters. */
  function ToLower(s: string): (r: string)
    ensures |r| == |s|
    ensures forall i :: 0 <= i < |s| ==> r[i] == LowerChar(s[i])
  {
    if |s| == 0 then "" else [LowerChar(s[0])] + ToLower(s[1..])
  }

  /** Java's `trim`: strips every leading and trailing character at or below
      the space character. */
  function Trim(s: string): (r: string)
    ensures |r| <= |s|
    ensures |r| > 0 ==> r[0] > ' ' && r[|r| - 1] > ' '
  {
    TrimEnd(TrimStart(s))
  }

  function TrimStart(s: string): (r: string)
    ensures |r| <= |s| && r == s[|s| - |r|..]
    ensures |r| > 0 ==> r[0] > ' '
  {
    if |s| > 0 && s[0] <= ' ' then TrimStart(s[1..]) else s
  }

  function TrimEnd(s: string): (r: string)
    ensures |r| <= |s| && r == s[..|r|]
    ensures |r| > 0 ==> r[|r| - 1] > ' '
    ensures |s| > 0 && s[0] > ' ' ==> |r| > 0 && r[0] == s[0]
  {
    if |s| > 0 && s[|s| - 1] <= ' ' then TrimEnd(s[..|s| - 1]) else s
  }

  /** White space as JavaScript's `trim()` strips it: the ECMAScript
      WhiteSpace and LineTerminator characters. */
  predicate JsSpace(c: char) {
    || c == '\t' || c == '\n' || c == '\U{000B}' || c == '\U{000C}' || c == '\r' || c == ' '
    || c == '\U{00A0}' || c == '\U{1680}' || '\U{2000}' <= c <= '\U{200A}'
    || c == '\U{2028}' || c == '\U{2029}' || c == '\U{202F}' || c == '\U{205F}'
    || c == '\U{3000}' || c == '\U{FEFF}'
  }

  /** JavaScript's `trim()`: the text between the leading and the trailing
      white space. */
  function JsTrim(s: string): (r: string)
    ensures |r| <= |s|
    ensures |r| > 0 ==> !JsSpace(r[0]) && !JsSpace(r[|r| - 1])
  {
    JsTrimEnd(JsTrimStart(s))
  }

  /** The trim is a part of the text with only white space around it. */
  lemma JsTrimSpaceAround(s: string)
    ensures exists i :: 0 <= i && SpaceAround(s, JsTrim(s), i)
  {
    var t := JsTrimStart(s);
    var r := JsTrimEnd(t);
    var i := |s| - |t|;
    assert r == JsTrim(s);
    assert r == s[i..i + |r|];
    forall k | i + |r| <= k < |s| ensures JsSpace(s[k]) {
      assert JsSpace(t[k - i]) && s[k] == t[k - i];
    }
    assert SpaceAround(s, r, i);
  }

  /** `r` is the part of `s` from `i` on, and everything around it is
      white space. */
  predicate SpaceAround(s: string, r: string, i: nat) {
    && i + |r| <= |s| && r == s[i..i + |r|]
    && (forall k :: 0 <= k < i ==> JsSpace(s[k]))
    && (forall k :: i + |r| <= k < |s| ==> JsSpace(s[k]))
  }

  function JsTrimStart(s: string): (r: string)
    ensures |r| <= |s| && r == s[|s| - |r|..]
    ensures |r| > 0 ==> !JsSpace(r[0])
    ensures forall k :: 0 <= k < |s| - |r| ==> JsSpace(s[k])
  {
    if |s| > 0 && JsSpace(s[0]) then
      var r := JsTrimStart(s[1..]);
      assert forall k :: 1 <= k < |s| - |r| ==> s[k] == s[1..][k - 1];
      r
    else s
  }

  function JsTrimEnd(s: string): (r: string)
    ensures |r| <= |s| && r == s[..|r|]
    ensures |r| > 0 ==> !JsSpace(r[|r| - 1])
    ensures |s| > 0 && !JsSpace(s[0]) ==> |r| > 0 && r[0] == s[0]
    ensures forall k :: |r| <= k < |s| ==> JsSpace(s[k])
  {
    if |s| > 0 && JsSpace(s[|s| - 1]) then
      var r := JsTrimEnd(s[..|s| - 1]);
      assert forall k :: |r| <= k < |s| - 1 ==> s[k] == s[..|s| - 1][k];
      r
    else s
  }

  /** `s.replace(target, repl)` of Java: every non-overlapping occurrence,
      scanning left to right. */
  function Replace(s: string, target: string, repl: string): (r: string)
    requires |target| > 0
    ensures |s| < |target| ==> r == s
    decreases |s|
  {
    if |s| < |target| then s
    else if s[..|target|] == target then repl + Replace(s[|target|..], target, repl)
    else [s[0]] + Replace(s[1..], target, repl)
  }

  /** A text without an occurrence of the target is left as it is. */
  lemma {:induction false} ReplaceAbsent(s: string, target: string, repl: string)
    requires |target| > 0
    requires forall k :: 0 <= k ==> !OccursAt(s, target, k)
    ensures Replace(s, target, repl) == s
    decreases |s|
  {
    if |s| >= |target| {
      assert !OccursAt(s, target, 0);
      var rest := s[1..];
      forall k | 0 <= k ensures !OccursAt(rest, target, k) {
        if OccursAt(rest, target, k) {
          assert s[k + 1..k + 1 + |target|] == rest[k..k + |target|];
          assert OccursAt(s, target, k + 1);
        }
      }
      ReplaceAbsent(rest, target, repl);
      assert [s[0]] + rest == s;
    }
  }

  /** The first occurrence is replaced, the text before it kept, and the
      scan goes on after it. */
  lemma {:induction false} ReplaceFirst(s: string, target: string, repl: string, k: nat)
    requires |target| > 0 && OccursAt(s, target, k)
    requires forall j :: 0 <= j < k ==> !OccursAt(s, target, j)
    ensures Replace(s, target, repl) == s[..k] + repl + Replace(s[k + |target|..], target, repl)
    decreases k
  {
    if k == 0 {
      ReplaceAtFront(s, target, repl);
    } else {
      ShiftFirst(s, target, k);
      ReplaceFirst(s[1..], target, repl, k - 1);
      LiftFirst(s, target, repl, k);
    }
  }

  lemma ReplaceAtFront(s: string, target: string, repl: string)
    requires |target| > 0 && OccursAt(s, target, 0)
    ensures Replace(s, target, repl) == s[..0] + repl + Replace(s[|target|..], target, repl)
  {
    assert s[..|target|] == target;
  }

  /** The occurrences before the first one, shifted by one character. */
  lemma ShiftFirst(s: string, target: string, k: nat)
    requires 0 < k && OccursAt(s, target, k)
    requires forall j :: 0 <= j < k ==> !OccursAt(s, target, j)
    ensures OccursAt(s[1..], target, k - 1)
    ensures forall j :: 0 <= j < k - 1 ==> !OccursAt(s[1..], target, j)
    ensures !OccursAt(s, target, 0)
  {
    forall j | 0 <= j < k - 1 ensures !OccursAt(s[1..], target, j) {
      ShiftOccurs(s, target, j);
    }
    ShiftOccurs(s, target, k - 1);
  }

  /** The replacement in the text after the first character, with that
      character put back. */
  lemma LiftFirst(s: string, target: string, repl: string, k: nat)
    requires |target| > 0 && 0 < k && k + |target| <= |s| && !OccursAt(s, target, 0)
    requires Replace(s[1..], target, repl) == s[1..][..k - 1] + repl + Replace(s[1..][k - 1 + |target|..], target, repl)
    ensures Replace(s, target, repl) == s[..k] + repl + Replace(s[k + |target|..], target, repl)
  {
    ReplaceSkip(s, target, repl);
    SameTail(s, k, target, repl);
    Regroup(s, k, repl, Replace(s[k + |target|..], target, repl), Replace(s, target, repl), Replace(s[1..], target, repl));
  }

  lemma SameTail(s: string, k: nat, target: string, repl: string)
    requires |target| > 0 && 0 < k && k + |target| <= |s|
    ensures Replace(s[1..][k - 1 + |target|..], target, repl) == Replace(s[k + |target|..], target, repl)
  {
    assert s[1..][k - 1 + |target|..] == s[k + |target|..];
  }

  /** The first character put back in front of a replacement. */
  lemma Regroup(s: string, k: nat, repl: string, after: string, whole: string, tail: string)
    requires 0 < k <= |s|
    requires whole == [s[0]] + tail && tail == s[1..][..k - 1] + repl + after
    ensures whole == s[..k] + repl + after
  {
    assert [s[0]] + s[1..][..k - 1] == s[..k];
  }

  /** Shifting the text by one character shifts its occurrences. */
  lemma ShiftOccurs(s: string, target: string, j: nat)
    requires |s| > 0
    ensures OccursAt(s[1..], target, j) <==> OccursAt(s, target, j + 1)
  {
    if j + |target| <= |s| - 1 {
      assert s[1..][j..j + |target|] == s[j + 1..j + 1 + |target|];
    }
  }

  /** Without an occurrence at the front, the first character is kept. */
  lemma ReplaceSkip(s: string, target: string, repl: string)
    requires |target| > 0 && |s| >= |target| && !OccursAt(s, target, 0)
    ensures Replace(s, target, repl) == [s[0]] + Replace(s[1..], target, repl)
  {
    assert s[0..|target|] == s[..|target|];
  }

  /** Separator-joined text: `parts.join(sep)` / `String.join(sep, parts)`. */
  function Join(parts: seq<string>, sep: string): (r: string)
    ensures |parts| == 1 ==> r == parts[0]
  {
    if |parts| == 0 then ""
    else if |parts| == 1 then parts[0]
    else parts[0] + sep + Join(parts[1..], sep)
  }

  /** Joining one more field appends the separator and the field. */
  lemma {:induction false} JoinSnoc(ps: seq<string>, p: string, sep: string)
    requires |ps| > 0
    ensures Join(ps + [p], sep) == Join(ps, sep) + sep + p
    decreases |ps|
  {
    if |ps| > 1 {
      assert (ps + [p])[1..] == ps[1..] + [p];
      JoinSnoc(ps[1..], p, sep);
      JoinAssoc(ps[0], sep, Join(ps[1..], sep), p);
    } else {
      assert (ps + [p])[1..] == [p];
    }
  }

  lemma JoinAssoc(a: string, sep: string, b: string, p: string)
    ensures a + sep + (b + sep + p) == a + sep + b + sep + p
  {
  }

  lemma ConsFree(head: string, tail: seq<string>, c: char)
    requires c !in head && forall i :: 0 <= i < |tail| ==> c !in tail[i]
    ensures forall i :: 0 <= i < 1 + |tail| ==> c !in ([head] + tail)[i]
  {
    assert forall i :: 1 <= i < 1 + |tail| ==> ([head] + tail)[i] == tail[i - 1];
  }

  /** JavaScript's `s.split(c)`: every field, empty ones included. */
  function Split(s: string, c: char): (r: seq<string>)
    ensures |r| >= 1
    ensures forall i :: 0 <= i < |r| ==> c !in r[i]
    ensures c !in s ==> r == [s]
    decreases |s|
  {
    var k := IndexOfChar(s, c);
    if k < 0 then [s]
    else
      var head, tail := s[..k], Split(s[k + 1..], c);
      assert c !in head by {
        forall i | 0 <= i < k ensures head[i] != c { }
      }
      ConsFree(head, tail, c);
      [head] + tail
  }

  lemma JoinCons(a: string, rest: seq<string>, sep: string)
    requires |rest| >= 1
    ensures Join([a] + rest, sep) == a + sep + Join(rest, sep)
  {
    assert ([a] + rest)[1..] == rest;
  }

  lemma SplitStep(s: string, c: char, k: int)
    requires k == IndexOfChar(s, c) && k >= 0
    ensures Split(s, c) == [s[..k]] + Split(s[k + 1..], c)
    ensures s == s[..k] + [c] + s[k + 1..]
  {
    CutAround(s, c, k);
  }

  lemma CutAround(s: string, c: char, k: nat)
    requires k < |s| && s[k] == c
    ensures s == s[..k] + [c] + s[k + 1..]
  {
    assert s[k..] == [c] + s[k + 1..];
  }

  /** Splitting and re-joining with the same separator gives back the text. */
  lemma {:induction false} SplitJoin(s: string, c: char)
    ensures Join(Split(s, c), [c]) == s
    decreases |s|
  {
    var k := IndexOfChar(s, c);
    if k >= 0 {
      var head, tail := s[..k], s[k + 1..];
      SplitStep(s, c, k);
      SplitJoin(tail, c);
      JoinCons(head, Split(tail, c), [c]);
    }
  }

  /** Drops the trailing empty fields of a field list. */
  function DropTrailingEmpty(parts: seq<string>): (r: seq<string>)
    ensures |r| <= |parts| && r == parts[..|r|]
    ensures |r| > 0 ==> r[|r| - 1] != ""
    ensures forall i :: |r| <= i < |parts| ==> parts[i] == ""
  {
    if |parts| == 0 then []
    else if parts[|parts| - 1] == "" then DropTrailingEmpty(parts[..|parts| - 1])
    else parts
  }

  /** Java's `s.split(c)` for a one-character literal pattern: the input
      itself when the character does not occur, otherwise the fields with
      the trailing empty ones removed. */
  function JavaSplit(s: string, c: char): (r: seq<string>)
    ensures c !in s ==> r == [s]
    ensures c in s ==> |r| <= |Split(s, c)| && r == Split(s, c)[..|r|]
    ensures forall i :: 0 <= i < |r| ==> c !in r[i]
  {
    if c !in s then [s]
    else
      var all := Split(s, c);
      var kept := DropTrailingEmpty(all);
      assert forall i :: 0 <= i < |kept| ==> kept[i] == all[i];
      kept
  }

  /** Java's split gives back the fields of a join when no field holds the
      separator and the last field is not empty. */
  lemma JavaSplitJoin(ps: seq<string>, c: char)
    requires |ps| >= 1 && forall i :: 0 <= i < |ps| ==> c !in ps[i]
    requires ps[|ps| - 1] != ""
    ensures JavaSplit(Join(ps, [c]), c) == ps
  {
    if |ps| > 1 {
      var s := Join(ps, [c]);
      assert s[|ps[0]|] == c;
      JoinSplit(ps, c);
    }
  }

  /** The first occurrence of `c` determines `indexOf`. */
  lemma IndexOfCharIs(s: string, c: char, k: nat)
    requires k < |s| && s[k] == c && c !in s[..k]
    ensures IndexOfChar(s, c) == k
  {
    var r := IndexOfChar(s, c);
    forall i | 0 <= i < k ensures s[i] != c {
      assert s[..k][i] == s[i];
    }
    forall i | 0 <= i < r ensures s[i] != c {
      assert s[..r][i] == s[i];
    }
  }

  /** Splitting at the first occurrence of the separator. */
  lemma SplitAtFirst(s: string, c: char, k: nat)
    requires k < |s| && s[k] == c && c !in s[..k]
    ensures Split(s, c) == [s[..k]] + Split(s[k + 1..], c)
  {
    IndexOfCharIs(s, c, k);
    SplitStep(s, c, k);
  }

  lemma SplitConcatFirst(a: string, b: string, c: char)
    requires c !in a
    ensures Split(a + [c] + b, c) == [a] + Split(b, c)
  {
    var s := a + [c] + b;
    assert s[..|a|] == a && s[|a|] == c && s[|a| + 1..] == b;
    SplitAtFirst(s, c, |a|);
  }

  lemma SplitConcatLater(a: string, b: string, c: char, k: nat)
    requires k == IndexOfChar(a, c)
    ensures Split(a + [c] + b, c) == [a[..k]] + Split(a[k + 1..] + [c] + b, c)
  {
    var s := a + [c] + b;
    assert s[..k] == a[..k] && s[k] == c;
    assert s[k + 1..] == a[k + 1..] + [c] + b;
    SplitAtFirst(s, c, k);
  }

  /** Splitting text joined at a separator splits both sides. */
  lemma {:induction false} SplitConcat(a: string, b: string, c: char)
    ensures Split(a + [c] + b, c) == Split(a, c) + Split(b, c)
    decreases |a|
  {
    var k := IndexOfChar(a, c);
    if k < 0 {
      SplitConcatFirst(a, b, c);
    } else {
      var tail := a[k + 1..];
      SplitConcatLater(a, b, c, k);
      SplitStep(a, c, k);
      SplitConcat(tail, b, c);
      ConsAssoc(a[..k], Split(tail, c), Split(b, c));
    }
  }

  lemma ConsAssoc(x: string, p: seq<string>, q: seq<string>)
    ensures [x] + (p + q) == ([x] + p) + q
  {
  }

  /** Joining fields free of the separator and splitting again gives the
      fields back. */
  lemma {:induction false} JoinSplit(ps: seq<string>, c: char)
    requires |ps| >= 1 && forall i :: 0 <= i < |ps| ==> c !in ps[i]
    ensures Split(Join(ps, [c]), c) == ps
    decreases |ps|
  {
    if |ps| > 1 {
      var rest := ps[1..];
      assert forall i :: 0 <= i < |rest| ==> rest[i] == ps[i + 1];
      JoinSplit(rest, c);
      assert ps == [ps[0]] + rest;
      JoinSplitStep(ps[0], rest, c);
    }
  }

  lemma JoinSplitStep(head: string, rest: seq<string>, c: char)
    requires |rest| >= 1 && c !in head && Split(Join(rest, [c]), c) == rest
    ensures Split(Join([head] + rest, [c]), c) == [head] + rest
  {
    JoinCons(head, rest, [c]);
    SplitConcat(head, Join(rest, [c]), c);
  }

  /** A join of non-empty fields starts with the first field's first
      character and ends with the last field's last character. */
  lemma {:induction false} JoinEnds(ps: seq<string>, sep: string)
    requires |ps| >= 1 && forall i :: 0 <= i < |ps| ==> |ps[i]| > 0
    ensures |Join(ps, sep)| > 0
    ensures Join(ps, sep)[0] == ps[0][0]
    ensures Join(ps, sep)[|Join(ps, sep)| - 1] == ps[|ps| - 1][|ps[|ps| - 1]| - 1]
    decreases |ps|
  {
    if |ps| > 1 {
      JoinEnds(ps[1..], sep);
      assert Join(ps, sep) == ps[0] + sep + Join(ps[1..], sep);
    }
  }

  /** Text without surrounding white space is its own trim. */
  lemma TrimKeeps(s: string)
    requires |s| > 0 && s[0] > ' ' && s[|s| - 1] > ' '
    ensures Trim(s) == s
  {
  }

  /** Text without surrounding JavaScript white space is its own trim. */
  lemma JsTrimKeeps(s: string)
    requires |s| > 0 && !JsSpace(s[0]) && !JsSpace(s[|s| - 1])
    ensures JsTrim(s) == s
  {
  }
}

=== FILE: table.dfy ===
/** The report table of the dashboard (app.js, utils.js): rows keyed by a
    unique name in insertion order, each a sparse array of cells whose
    index 0 is the label cell, and the operations that build rows
    (`pushVal`/`pushRowVal`) and make the table dense (`trimTable`). */
module Table {
  import opened Wrappers
  import opened Strings
  import opened Utils

  /** When a sub-value is shown: always, or while `toggles.selected(names)`
      holds for the current toggles. */
  datatype Gate = Always | When(names: seq<Option<string>>)

  /** What a sub-value displays.  Number formatting is kept abstract: a
      sub-value records the number it formats. */
  datatype SubKind =
    | ResDirLink(n: nat, target: Val)
    | IdLink(id: Val)
    | ExcludeLink(id: Val)
    | DateText(date: Val, withTime: bool)
    | ScoresText(scores: Val)
    | AvgText(avg: Option<real>)
    | BestText(best: Option<real>)
    | WorstText(worst: Option<real>)
    | VarText(variance: real, mean: real)
    | SumText(sum: real)
    | DiffPct(d: real)
    | DiffRaw(d: real)
    | DiffRatio(x: real)

  /** An entry of a cell's `values` list: what it shows, its CSS class
      (absent when the source sets none) and its visibility. */
  datatype Sub = Sub(kind: SubKind, cls: Option<string>, gate: Gate)

  /** A chart descriptor: the chart kind and the metric it draws. */
  datatype Chart = Chart(kind: int, source: Val)

  /** The per-column statistics the reduction keeps on a number cell:
      `orig_values`, `valueMin`, `valueMax`. */
  datatype Stats = Stats(origValues: seq<real>, min: Option<real>, max: Option<real>)

  /** What the comparison derives from `orig_values`: `valueAvg`,
      `valueSum` and the square of `valueStdev`. */
  datatype Summary = Summary(avg: Option<real>, sum: Option<real>, variance: real)

  /** `diffValue` and `diffXValue` of a compared number cell. */
  datatype Delta = Delta(diff: real, ratio: real)

  /** A table cell.  Fields the source leaves undefined are `None`/`false`;
      `diff` marks a cell spliced in by the comparison, `gate` its
      visibility. */
  datatype Cell = Cell(
    value: Val,
    orig: Val,
    cls: Option<string>,
    errorRate: Option<real>,
    values: Option<seq<Sub>>,
    charts: Option<seq<Chart>>,
    stats: Option<Stats>,
    summary: Option<Summary>,
    delta: Option<Delta>,
    comparisonBase: bool,
    compareWith: bool,
    diff: bool,
    gate: Gate)

  /** A row: its key, type code, position and cells (index 0 is the label). */
  datatype Row = Row(name: string, kind: int, position: nat, cols: seq<Option<Cell>>)

  type Table = seq<Row>

  function PlainCell(value: Val, orig: Val, cls: Option<string>): Cell {
    Cell(value, orig, cls, None, None, None, None, None, None, false, false, false, Always)
  }

  /** The label cell `pushVal` creates for a new row. */
  function LabelCell(name: string): Cell {
    PlainCell(Str(name), Null, Some("first_col nowrap"))
  }

  predicate UniqueNames(t: Table) {
    forall i, j :: 0 <= i < j < |t| ==> t[i].name != t[j].name
  }

  /** The shape every table built by `pushVal` has: unique keys, and a label
      cell at index 0 of every row. */
  predicate WellFormed(t: Table) {
    UniqueNames(t) && forall i :: 0 <= i < |t| ==> At(t[i], 0).Some?
  }

  function Names(t: Table): (r: seq<string>)
    ensures |r| == |t| && forall i :: 0 <= i < |t| ==> r[i] == t[i].name
  {
    if |t| == 0 then [] else [t[0].name] + Names(t[1..])
  }

  /** `table[name]`: the index of the row with this key. */
  function Find(t: Table, name: string): (r: Option<nat>)
    ensures r.Some? ==> r.value < |t| && t[r.value].name == name
    ensures r.None? <==> forall i :: 0 <= i < |t| ==> t[i].name != name
  {
    if |t| == 0 then None
    else if t[0].name == name then Some(0)
    else
      var r := Find(t[1..], name);
      assert forall i :: 1 <= i < |t| ==> t[i] == t[1..][i - 1];
      if r.Some? then Some(r.value + 1) else None
  }

  function Get(t: Table, name: string): (r: Option<Row>)
    ensures r.Some? ==> r.value in t && r.value.name == name
    ensures r.None? ==> forall i :: 0 <= i < |t| ==> t[i].name != name
  {
    var k := Find(t, name);
    if k.Some? then Some(t[k.value]) else None
  }

  /** `row[i]` of JavaScript: `undefined` past the end. */
  function At(row: Row, i: nat): Option<Cell> {
    if i < |row.cols| then row.cols[i] else None
  }

  // ---------------------------------------------------------------------
  // pushRowVal / pushVal (utils.js:266-298)
  // ---------------------------------------------------------------------

  /** `roundNumber` keeps null and turns a number into its display text. */
  function RoundNumber(v: Val): (r: Val)
    ensures v == Null <==> r == Null
    ensures v.Num? ==> Truthy(r)
  {
    match v
    case Num(x) => Rounded(x)
    case _ => v
  }

  /** The cell `pushRowVal` stores: the original value, its display value
      (rounded on number rows) and the class with ` data_col` appended. */
  function DataCell(kind: int, val: Val, clss: string): Cell {
    PlainCell(if kind == TypeNumber then RoundNumber(val) else val, val, Some(clss + " data_col"))
  }

  /** `row[idx] = cell` on a JavaScript array: an index past the end leaves
      holes before it. */
  function SetAt(cols: seq<Option<Cell>>, idx: nat, c: Cell): (r: seq<Option<Cell>>)
    ensures |r| == if idx < |cols| then |cols| else idx + 1
    ensures r[idx] == Some(c)
    ensures forall i :: 0 <= i < |r| && i != idx ==> r[i] == (if i < |cols| then cols[i] else None)
  {
    if idx < |cols| then cols[idx := Some(c)]
    else cols + seq(idx - |cols|, _ => None) + [Some(c)]
  }

  /** `pushRowVal` (utils.js:266-280). */
  function PushRowVal(row: Row, val: Val, idx: nat, clss: string): (r: Row)
    ensures r.name == row.name && r.kind == row.kind && r.position == row.position
    ensures At(r, idx) == Some(DataCell(row.kind, val, clss))
    ensures At(r, idx).value.orig == val
    ensures forall i :: i != idx ==> At(r, i) == At(row, i)
  {
    row.(cols := SetAt(row.cols, idx, DataCell(row.kind, val, clss)))
  }

  /** `pushVal` (utils.js:282-298): creates the row on first use, with its
      label cell and the next position, then stores the value one column to
      the right of the data index (column 0 is the label). */
  function PushVal(t: Table, name: string, kind: int, val: Val, idx: nat, clss: string): (r: Table)
    requires WellFormed(t)
    ensures WellFormed(r)
    ensures Find(t, name).Some? ==> |r| == |t|
    ensures Find(t, name).None? ==>
      (|r| == |t| + 1 && r[|t|].name == name && r[|t|].kind == kind
       && r[|t|].position == |t| + 1 && At(r[|t|], 0) == Some(LabelCell(name)))
    ensures forall i :: 0 <= i < |t| ==> r[i].name == t[i].name && r[i].kind == t[i].kind
    ensures forall i :: 0 <= i < |t| && t[i].name != name ==> r[i] == t[i]
    ensures Find(r, name).Some?
    ensures At(r[Find(r, name).value], idx + 1).Some?
    ensures At(r[Find(r, name).value], idx + 1).value.orig == val
  {
    var k := Find(t, name);
    if k.Some? then
      var row := PushRowVal(t[k.value], val, idx + 1, clss);
      var r := t[k.value := row];
      FindSameNames(r, t, name);
      r
    else
      var created := Row(name, kind, |t| + 1, [Some(LabelCell(name))]);
      var row := PushRowVal(created, val, idx + 1, clss);
      var r := t + [row];
      assert forall i :: 0 <= i < |t| ==> r[i] == t[i];
      FindAppend(t, row);
      r
  }

  /** Pushing to one row leaves every other row's cells as they were, and
      a later read of the pushed cell sees the pushed value. */
  lemma PushValReadBack(t: Table, name: string, kind: int, val: Val, idx: nat, clss: string, other: string)
    requires WellFormed(t)
    requires other != name
    ensures Get(PushVal(t, name, kind, val, idx, clss), other) == Get(t, other)
    ensures At(Get(PushVal(t, name, kind, val, idx, clss), name).value, idx + 1).value.orig == val
  {
    var r := PushVal(t, name, kind, val, idx, clss);
    var k := Find(t, other);
    if k.Some? {
      assert r[k.value] == t[k.value];
      assert Find(r, other) == k by {
        assert forall i :: 0 <= i < k.value ==> r[i].name == t[i].name;
      }
    } else {
      assert forall i :: 0 <= i < |r| ==> r[i].name != other by {
        assert forall i :: 0 <= i < |t| ==> r[i].name == t[i].name;
      }
    }
  }

  /** `findVal` (utils.js:300-313): the data index of the first cell whose
      value equals `val`, or -1. */
  function FindVal(t: Table, name: string, val: Val): (r: int)
    ensures r >= -1
    ensures r >= 0 ==>
      (Get(t, name).Some? && At(Get(t, name).value, r + 1).Some?
       && At(Get(t, name).value, r + 1).value.value == val)
    ensures r >= 0 ==> forall k :: 1 <= k <= r ==> At(Get(t, name).value, k).None? || At(Get(t, name).value, k).value.value != val
    ensures r == -1 ==> Get(t, name).None? || forall k :: 1 <= k ==> At(Get(t, name).value, k).None? || At(Get(t, name).value, k).value.value != val
  {
    var row := Get(t, name);
    if row.None? then -1 else FindValFrom(row.value, val, 1)
  }

  function FindValFrom(row: Row, val: Val, i: nat): (r: int)
    requires 1 <= i
    ensures r == -1 || (i <= r + 1 < |row.cols| && At(row, r + 1).Some? && At(row, r + 1).value.value == val)
    ensures r >= 0 ==> forall k :: i <= k <= r ==> At(row, k).None? || At(row, k).value.value != val
    ensures r == -1 ==> forall k :: i <= k ==> At(row, k).None? || At(row, k).value.value != val
    decreases |row.cols| - i
  {
    if i >= |row.cols| then -1
    else if At(row, i).Some? && At(row, i).value.value == val then i - 1
    else FindValFrom(row, val, i + 1)
  }

  /** `copyValue` (utils.js:315-330): a fresh cell keeping only the value,
      class, original value and error rate. */
  function CopyValue(c: Option<Cell>): (r: Option<Cell>)
    ensures c.None? <==> r.None?
    ensures r.Some? ==>
      (r.value.value == c.value.value && r.value.cls == c.value.cls
       && r.value.orig == c.value.orig && r.value.errorRate == c.value.errorRate)
    ensures r.Some? ==>
      (r.value.values.None? && r.value.charts.None? && r.value.stats.None?
       && r.value.summary.None? && r.value.delta.None? && !r.value.diff)
  {
    match c
    case None => None
    case Some(x) => Some(PlainCell(x.value, x.orig, x.cls).(errorRate := x.errorRate))
  }

  // ---------------------------------------------------------------------
  // deleteEmptyRows / getTotalCols / trimTable (app.js:1174-1218)
  // ---------------------------------------------------------------------

  predicate TruthyAt(row: Row, i: nat) {
    i < |row.cols| && row.cols[i].Some? && Truthy(row.cols[i].value.value)
  }

  /** A row survives `deleteEmptyRows` when it is a header row or some data
      cell holds a truthy value. */
  predicate Kept(row: Row) {
    row.kind == TypeHeader || exists i :: 1 <= i < |row.cols| && TruthyAt(row, i)
  }

  /** The scan of one row for a truthy data cell, as the loop is written. */
  function HasTruthyFrom(row: Row, i: nat): (r: bool)
    requires 1 <= i
    ensures r <==> exists k :: i <= k < |row.cols| && TruthyAt(row, k)
    decreases |row.cols| - i
  {
    if i >= |row.cols| then false
    else if TruthyAt(row, i) then true
    else HasTruthyFrom(row, i + 1)
  }

  /** `deleteEmptyRows`: the rows that are kept, in their order. */
  function DeleteEmptyRows(t: Table): (r: Table)
    ensures |r| <= |t|
    ensures forall row :: row in r <==> row in t && Kept(row)
  {
    if |t| == 0 then []
    else
      var rest := DeleteEmptyRows(t[1..]);
      assert forall row :: row in t <==> row == t[0] || row in t[1..];
      if t[0].kind == TypeHeader || HasTruthyFrom(t[0], 1) then [t[0]] + rest else rest
  }

  /** `r` is the subsequence of `xs` at the strictly increasing positions
      `idx`, which are exactly the positions `keep` marks. */
  predicate PicksAt<T(==)>(xs: seq<T>, keep: seq<bool>, r: seq<T>, idx: seq<nat>)
    requires |keep| == |xs|
  {
    && |idx| == |r|
    && (forall k :: 0 <= k < |idx| ==> idx[k] < |xs| && r[k] == xs[idx[k]] && keep[idx[k]])
    && (forall k, l :: 0 <= k < l < |idx| ==> idx[k] < idx[l])
    && (forall i :: 0 <= i < |xs| && i !in idx ==> !keep[i])
  }

  function ShiftAll(idx: seq<nat>): (r: seq<nat>)
    ensures |r| == |idx| && forall k :: 0 <= k < |idx| ==> r[k] == idx[k] + 1
  {
    seq(|idx|, k requires 0 <= k < |idx| => idx[k] + 1)
  }

  /** An unmarked first element adds nothing to the picks of the tail. */
  lemma PicksAtSkip<T>(xs: seq<T>, keep: seq<bool>, r: seq<T>, idx0: seq<nat>)
    requires |xs| > 0 && |keep| == |xs| && !keep[0] && PicksAt(xs[1..], keep[1..], r, idx0)
    ensures PicksAt(xs, keep, r, ShiftAll(idx0))
  {
    var sh := ShiftAll(idx0);
    forall k | 0 <= k < |sh| ensures sh[k] < |xs| && r[k] == xs[sh[k]] && keep[sh[k]] {
      assert xs[1..][idx0[k]] == xs[sh[k]] && keep[1..][idx0[k]] == keep[sh[k]];
    }
    forall i | 0 <= i < |xs| && i !in sh ensures !keep[i] {
      if i > 0 {
        assert keep[i] == keep[1..][i - 1];
      }
    }
  }

  /** A marked first element goes in front of the picks of the tail. */
  lemma PicksAtCons<T>(xs: seq<T>, keep: seq<bool>, r: seq<T>, idx0: seq<nat>)
    requires |xs| > 0 && |keep| == |xs| && keep[0] && PicksAt(xs[1..], keep[1..], r, idx0)
    ensures PicksAt(xs, keep, [xs[0]] + r, [0] + ShiftAll(idx0))
  {
    var idx := [0] + ShiftAll(idx0);
    PicksAtConsPicked(xs, keep, r, idx0);
    PicksAtConsOthers(xs, keep, r, idx0);
    assert forall k, l :: 0 <= k < l < |idx| ==> idx[k] < idx[l];
  }

  lemma PicksAtConsPicked<T>(xs: seq<T>, keep: seq<bool>, r: seq<T>, idx0: seq<nat>)
    requires |xs| > 0 && |keep| == |xs| && keep[0] && PicksAt(xs[1..], keep[1..], r, idx0)
    ensures var idx := [0] + ShiftAll(idx0);
      forall k :: 0 <= k < |idx| ==> idx[k] < |xs| && ([xs[0]] + r)[k] == xs[idx[k]] && keep[idx[k]]
  {
    var sh := ShiftAll(idx0);
    var idx := [0] + sh;
    forall k | 0 <= k < |idx| ensures idx[k] < |xs| && ([xs[0]] + r)[k] == xs[idx[k]] && keep[idx[k]] {
      if k > 0 {
        assert idx[k] == sh[k - 1] && ([xs[0]] + r)[k] == r[k - 1];
        assert xs[1..][idx0[k - 1]] == xs[sh[k - 1]] && keep[1..][idx0[k - 1]] == keep[sh[k - 1]];
      }
    }
  }

  lemma PicksAtConsOthers<T>(xs: seq<T>, keep: seq<bool>, r: seq<T>, idx0: seq<nat>)
    requires |xs| > 0 && |keep| == |xs| && PicksAt(xs[1..], keep[1..], r, idx0)
    ensures forall i :: 0 < i < |xs| && i !in [0] + ShiftAll(idx0) ==> !keep[i]
  {
    var sh := ShiftAll(idx0);
    forall i | 0 < i < |xs| && i !in [0] + sh ensures !keep[i] {
      assert i !in sh;
      if i - 1 in idx0 {
        var k :| 0 <= k < |idx0| && idx0[k] == i - 1;
        assert sh[k] == i;
      }
      assert keep[i] == keep[1..][i - 1];
    }
  }

  /** Which rows of the table `deleteEmptyRows` keeps. */
  function KeptMask(t: Table): (r: seq<bool>)
    ensures |r| == |t| && forall i :: 0 <= i < |t| ==> r[i] == Kept(t[i])
  {
    seq(|t|, i requires 0 <= i < |t| => Kept(t[i]))
  }

  /** Deleting the empty rows keeps exactly the kept rows, in their order. */
  lemma {:induction false} DeleteEmptyRowsPicks(t: Table)
    ensures exists idx :: PicksAt(t, KeptMask(t), DeleteEmptyRows(t), idx)
  {
    if |t| == 0 {
      assert PicksAt(t, KeptMask(t), DeleteEmptyRows(t), []);
    } else {
      DeleteEmptyRowsPicks(t[1..]);
      var rest := DeleteEmptyRows(t[1..]);
      var idx0 :| PicksAt(t[1..], KeptMask(t[1..]), rest, idx0);
      DeleteEmptyRowsFirst(t);
      if Kept(t[0]) {
        PicksAtCons(t, KeptMask(t), rest, idx0);
        assert PicksAt(t, KeptMask(t), DeleteEmptyRows(t), [0] + ShiftAll(idx0));
      } else {
        PicksAtSkip(t, KeptMask(t), rest, idx0);
        assert PicksAt(t, KeptMask(t), DeleteEmptyRows(t), ShiftAll(idx0));
      }
    }
  }

  /** The first row is kept or dropped on its own; the mask of the rest is
      the rest of the mask. */
  lemma DeleteEmptyRowsFirst(t: Table)
    requires |t| > 0
    ensures KeptMask(t)[1..] == KeptMask(t[1..])
    ensures Kept(t[0]) ==> DeleteEmptyRows(t) == [t[0]] + DeleteEmptyRows(t[1..])
    ensures !Kept(t[0]) ==> DeleteEmptyRows(t) == DeleteEmptyRows(t[1..])
  {
    assert Kept(t[0]) <==> t[0].kind == TypeHeader || HasTruthyFrom(t[0], 1);
  }

  /** Deleting rows keeps the table well formed. */
  lemma {:induction false} DeleteEmptyRowsWellFormed(t: Table)
    requires WellFormed(t)
    ensures WellFormed(DeleteEmptyRows(t))
  {
    if |t| > 0 {
      assert WellFormed(t[1..]) by {
        forall i, j | 0 <= i < j < |t[1..]| ensures t[1..][i].name != t[1..][j].name {
          assert t[1..][i] == t[i + 1] && t[1..][j] == t[j + 1];
        }
        forall i | 0 <= i < |t[1..]| ensures At(t[1..][i], 0).Some? {
          assert t[1..][i] == t[i + 1];
        }
      }
      DeleteEmptyRowsWellFormed(t[1..]);
      var rest := DeleteEmptyRows(t[1..]);
      forall j | 0 <= j < |rest| ensures rest[j].name != t[0].name {
        assert rest[j] in t[1..];
        var m :| 0 <= m < |t[1..]| && t[1..][m] == rest[j];
        assert t[m + 1] == rest[j];
      }
    }
  }

  /** `getTotalCols`: the length of the longest row. */
  function TotalCols(t: Table): (r: nat)
    ensures forall i :: 0 <= i < |t| ==> |t[i].cols| <= r
    ensures |t| == 0 ==> r == 0
    ensures |t| > 0 ==> exists i :: 0 <= i < |t| && |t[i].cols| == r
  {
    if |t| == 0 then 0
    else
      var rest := TotalCols(t[1..]);
      assert forall i :: 1 <= i < |t| ==> t[i] == t[1..][i - 1];
      if |t[0].cols| > rest then |t[0].cols| else rest
  }

  /** The `VM` row holds text wherever it holds a truthy value (the code
      lower-cases those values). */
  predicate VmCellsText(vm: Option<Row>) {
    vm.Some? ==> forall i :: 0 <= i < |vm.value.cols| && TruthyAt(vm.value, i) ==> vm.value.cols[i].value.value.Str?
  }

  /** The class of a filler cell at column `i`: the lower-cased `VM` value of
      that column when it is truthy, otherwise `undef-vm`. */
  function FillerClass(vm: Option<Row>, i: nat): (r: string)
    requires VmCellsText(vm)
    ensures r == "undef-vm" || (vm.Some? && TruthyAt(vm.value, i))
    ensures vm.Some? && TruthyAt(vm.value, i) ==> r == ToLower(vm.value.cols[i].value.value.s)
  {
    if vm.Some? && TruthyAt(vm.value, i) then ToLower(vm.value.cols[i].value.value.s)
    else "undef-vm"
  }

  /** The null cell `trimTable` puts into a hole. */
  function Filler(kind: int, vm: Option<Row>, i: nat): (r: Cell)
    requires VmCellsText(vm)
    ensures r.value == Null && r.orig == Null && r.cls == Some(FillerClass(vm, i) + " data_col")
  {
    DataCell(kind, Null, FillerClass(vm, i))
  }

  /** The inner loop of `trimTable` for one row: every missing cell in
      `[i, total)` becomes a filler cell. */
  function FillRow(row: Row, i: nat, total: nat, vm: Option<Row>): (r: Row)
    requires 1 <= i
    requires VmCellsText(vm)
    ensures r.name == row.name && r.kind == row.kind && r.position == row.position
    ensures |r.cols| == if i < total && |row.cols| < total then total else |row.cols|
    ensures forall k :: 0 <= k < |r.cols| && (k < i || k >= total) ==> r.cols[k] == At(row, k)
    ensures forall k :: i <= k < total ==> r.cols[k] == (if At(row, k).Some? then At(row, k) else Some(Filler(row.kind, vm, k)))
    decreases total - i
  {
    if i >= total then row
    else
      var next := if At(row, i).Some? then row else PushRowVal(row, Null, i, FillerClass(vm, i));
      FillRow(next, i + 1, total, vm)
  }

  /** Filling never adds a truthy cell and keeps the truthy ones. */
  lemma FillRowTruthy(row: Row, total: nat, vm: Option<Row>)
    requires VmCellsText(vm)
    ensures forall k: nat :: TruthyAt(FillRow(row, 1, total, vm), k) <==> TruthyAt(row, k)
    ensures forall k: nat :: TruthyAt(row, k) ==> FillRow(row, 1, total, vm).cols[k] == row.cols[k]
  {
    var f := FillRow(row, 1, total, vm);
    forall k: nat | TruthyAt(row, k) ensures f.cols[k] == row.cols[k] && TruthyAt(f, k) { }
    forall k: nat | TruthyAt(f, k) ensures TruthyAt(row, k) { }
  }

  /** Filling the `VM` row does not change the classes it gives. */
  lemma FillerClassStable(vm: Row, total: nat, vm0: Option<Row>)
    requires VmCellsText(vm0) && VmCellsText(Some(vm))
    ensures VmCellsText(Some(FillRow(vm, 1, total, vm0)))
    ensures forall j :: FillerClass(Some(FillRow(vm, 1, total, vm0)), j) == FillerClass(Some(vm), j)
  {
    FillRowTruthy(vm, total, vm0);
  }

  /** Two `VM` rows that give the same classes fill a row the same way. */
  lemma FillRowSameClasses(row: Row, total: nat, vm: Option<Row>, vm0: Option<Row>)
    requires VmCellsText(vm) && VmCellsText(vm0)
    requires forall j :: FillerClass(vm, j) == FillerClass(vm0, j)
    ensures FillRow(row, 1, total, vm) == FillRow(row, 1, total, vm0)
  {
    var a, b := FillRow(row, 1, total, vm), FillRow(row, 1, total, vm0);
    forall k | 0 <= k < |a.cols| ensures a.cols[k] == b.cols[k] {
      if 1 <= k < total && At(row, k).None? {
        assert Filler(row.kind, vm, k) == Filler(row.kind, vm0, k);
      }
    }
  }

  /** The reference for `trimTable`: every row filled to the common width,
      all classed after the `VM` row as it was before any filling. */
  function FillAll(t: Table, total: nat, vm: Option<Row>): (r: Table)
    requires VmCellsText(vm)
    ensures |r| == |t|
    ensures forall i :: 0 <= i < |t| ==> r[i] == FillRow(t[i], 1, total, vm)
  {
    if |t| == 0 then [] else [FillRow(t[0], 1, total, vm)] + FillAll(t[1..], total, vm)
  }

  lemma FindAppend(t: Table, row: Row)
    requires Find(t, row.name).None?
    ensures Find(t + [row], row.name) == Some(|t|)
  {
    if |t| > 0 {
      assert (t + [row])[1..] == t[1..] + [row];
      FindAppend(t[1..], row);
    }
  }

  lemma FindSameNames(t: Table, u: Table, name: string)
    requires |t| == |u| && forall i :: 0 <= i < |t| ==> t[i].name == u[i].name
    ensures Find(t, name) == Find(u, name)
  {
    if |t| > 0 && t[0].name != name {
      FindSameNames(t[1..], u[1..], name);
    }
  }

  /** Part-way through the in-place loop, the `VM` row gives the classes it
      gave before the loop began. */
  lemma VmDuringFill(t: Table, k: nat, total: nat, orig: Table)
    requires k <= |t| == |orig|
    requires VmCellsText(Get(orig, "VM"))
    requires forall i :: 0 <= i < k ==> t[i] == FillRow(orig[i], 1, total, Get(orig, "VM"))
    requires forall i :: k <= i < |t| ==> t[i] == orig[i]
    ensures VmCellsText(Get(t, "VM"))
    ensures forall j :: FillerClass(Get(t, "VM"), j) == FillerClass(Get(orig, "VM"), j)
  {
    FindSameNames(t, orig, "VM");
    var f := Find(orig, "VM");
    if f.Some? && f.value < k {
      FillerClassStable(orig[f.value], total, Get(orig, "VM"));
    }
  }

  /** The outer loop of `trimTable` as written: rows are filled in key
      order, each reading the `VM` row of the table as it stands, which may
      already have been filled. */
  method FillRowsInPlace(t: Table, total: nat) returns (r: Table)
    requires VmCellsText(Get(t, "VM"))
    ensures r == FillAll(t, total, Get(t, "VM"))
  {
    r := t;
    var k := 0;
    while k < |r|
      invariant FilledTo(r, k, total, t)
    {
      FilledStep(r, k, total, t);
      var vm := Get(r, "VM");
      r := r[k := FillRow(r[k], 1, total, vm)];
      k := k + 1;
    }
    FilledAll(r, total, t);
  }

  /** The table before row `k` of the fill: the rows before it filled as
      the original `VM` row says, the others untouched. */
  predicate FilledTo(r: Table, k: nat, total: nat, t: Table)
    requires VmCellsText(Get(t, "VM"))
  {
    && k <= |r| == |t|
    && (forall i :: 0 <= i < k ==> r[i] == FillRow(t[i], 1, total, Get(t, "VM")))
    && (forall i :: k <= i < |r| ==> r[i] == t[i])
  }

  /** Filling row `k` after the `VM` row as it stands then fills it as the
      original `VM` row says. */
  lemma FilledStep(r: Table, k: nat, total: nat, t: Table)
    requires VmCellsText(Get(t, "VM")) && FilledTo(r, k, total, t) && k < |r|
    ensures VmCellsText(Get(r, "VM"))
    ensures FilledTo(r[k := FillRow(r[k], 1, total, Get(r, "VM"))], k + 1, total, t)
  {
    VmDuringFill(r, k, total, t);
    FillRowSameClasses(t[k], total, Get(r, "VM"), Get(t, "VM"));
  }

  lemma FilledAll(r: Table, total: nat, t: Table)
    requires VmCellsText(Get(t, "VM")) && FilledTo(r, |r|, total, t)
    ensures r == FillAll(t, total, Get(t, "VM"))
  {
  }

  /** Every row has the common width and no missing data cell. */
  predicate Dense(t: Table) {
    forall i :: 0 <= i < |t| ==>
      |t[i].cols| == TotalCols(t) && forall k :: 1 <= k < |t[i].cols| ==> t[i].cols[k].Some?
  }

  /** `trimTable` (app.js:1202-1218): drop the empty rows, then fill every
      hole of the remaining rows up to the common width. */
  method TrimTable(t: Table) returns (r: Table)
    requires WellFormed(t)
    requires VmCellsText(Get(DeleteEmptyRows(t), "VM"))
    ensures WellFormed(r)
    ensures r == FillAll(DeleteEmptyRows(t), TotalCols(DeleteEmptyRows(t)), Get(DeleteEmptyRows(t), "VM"))
  {
    var kept := DeleteEmptyRows(t);
    DeleteEmptyRowsWellFormed(t);
    var total := TotalCols(kept);
    r := FillRowsInPlace(kept, total);
    FillAllWellFormed(kept, total, Get(kept, "VM"));
  }

  lemma FillAllWellFormed(t: Table, total: nat, vm: Option<Row>)
    requires WellFormed(t) && VmCellsText(vm)
    ensures WellFormed(FillAll(t, total, vm))
  {
    var r := FillAll(t, total, vm);
    assert forall i :: 0 <= i < |r| ==> r[i].name == t[i].name && At(r[i], 0) == At(t[i], 0);
  }

  lemma FillRowDense(row: Row, total: nat, vm: Option<Row>)
    requires VmCellsText(vm) && 1 <= |row.cols| <= total
    ensures |FillRow(row, 1, total, vm).cols| == total
    ensures forall k :: 1 <= k < total ==> FillRow(row, 1, total, vm).cols[k].Some?
  {
  }

  lemma TotalColsUniform(t: Table, total: nat)
    requires |t| > 0 && forall i :: 0 <= i < |t| ==> |t[i].cols| == total
    ensures TotalCols(t) == total
  {
  }

  /** After filling, every row of a labelled table is dense at the common
      width. */
  lemma FillAllDense(t: Table)
    requires WellFormed(t) && VmCellsText(Get(t, "VM"))
    ensures Dense(FillAll(t, TotalCols(t), Get(t, "VM")))
    ensures TotalCols(FillAll(t, TotalCols(t), Get(t, "VM"))) == TotalCols(t)
  {
    var total := TotalCols(t);
    var r := FillAll(t, total, Get(t, "VM"));
    forall i | 0 <= i < |r|
      ensures |r[i].cols| == total && forall k :: 1 <= k < total ==> r[i].cols[k].Some?
    {
      assert |t[i].cols| >= 1 && |t[i].cols| <= total;
      FillRowDense(t[i], total, Get(t, "VM"));
    }
    if |r| > 0 {
      TotalColsUniform(r, total);
    }
  }

  /** Trimming keeps every header row, and only rows with a truthy data
      cell. */
  lemma TrimTableRows(t: Table, kept: Table)
    requires kept == DeleteEmptyRows(t)
    ensures forall row :: row in t && row.kind == TypeHeader ==> row in kept
    ensures forall i :: 0 <= i < |kept| ==> Kept(kept[i])
  {
    assert forall i :: 0 <= i < |kept| ==> kept[i] in kept;
  }

  /** `f` keeps every cell `row` has. */
  predicate CellsKept(row: Row, f: Row) {
    forall k :: 0 <= k < |row.cols| && row.cols[k].Some? ==> k < |f.cols| && f.cols[k] == row.cols[k]
  }

  /** Every data column of `f` that `row` lacks holds the filler cell. */
  predicate HolesFilled(row: Row, f: Row, vm: Option<Row>)
    requires VmCellsText(vm)
  {
    forall k :: 1 <= k < |f.cols| && At(row, k).None? ==> f.cols[k] == Some(Filler(row.kind, vm, k))
  }

  /** Filling one row up to the common width keeps its cells and fills its
      holes. */
  lemma FillRowCells(row: Row, total: nat, vm: Option<Row>)
    requires VmCellsText(vm) && 1 <= |row.cols| <= total
    ensures CellsKept(row, FillRow(row, 1, total, vm))
    ensures HolesFilled(row, FillRow(row, 1, total, vm), vm)
  {
  }

  /** Filling keeps every existing cell and puts a null cell classed after
      the `VM` row into every hole. */
  lemma TrimTableCells(kept: Table, vm: Option<Row>, r: Table)
    requires forall i :: 0 <= i < |kept| ==> At(kept[i], 0).Some?
    requires VmCellsText(vm) && r == FillAll(kept, TotalCols(kept), vm)
    ensures |r| == |kept|
    ensures forall i :: 0 <= i < |r| ==> CellsKept(kept[i], r[i]) && HolesFilled(kept[i], r[i], vm)
  {
    var total := TotalCols(kept);
    forall i | 0 <= i < |r|
      ensures CellsKept(kept[i], r[i]) && HolesFilled(kept[i], r[i], vm)
    {
      FillRowCells(kept[i], total, vm);
    }
  }
}

=== FILE: utils.dfy ===
/** The helpers of the report dashboard's `utils.js` that the table pipeline
    rests on: row-type codes, JavaScript values and truthiness, the null-aware
    number helpers, the toggle registry and the array/string utilities. */
module Utils {
  import opened Wrappers
  import opened Strings

  // ---------------------------------------------------------------------
  // Row and toggle type codes (`c_idx` counter, utils.js:36-62)
  // ---------------------------------------------------------------------

  const TypeHeaders: int := 1
  const TypeHeaderMin: int := 2
  const TypeId: int := 3
  const TypeHeader: int := 4
  const TypeParams: int := 5
  const TypeDate: int := 6
  const TypeDateTime: int := 7
  const TypeResultsDir: int := 8
  const TypeInfo: int := 9
  const TypeFilterCharts: int := 10
  const TypeFilterValues: int := 11
  const TypeHeaderMax: int := 12
  const TypeChartMin: int := 13
  const TypeChartController: int := 14
  const TypeChartGroup: int := 15
  const TypeChart: int := 16
  const TypeChartTime: int := 17
  const TypeChartHistogram: int := 18
  const TypeChartCounts: int := 19
  const TypeChartThroughput: int := 20
  const TypeChartCountHistogram: int := 21
  const TypeChartMax: int := 22
  const TypeValues: int := 23
  const TypeNumber: int := 24

  predicate IsChart(t: int) {
    TypeChartMin <= t <= TypeChartMax
  }

  predicate IsHeader(t: int) {
    TypeHeaderMin <= t <= TypeHeaderMax
  }

  predicate IsValue(t: int) {
    t == TypeNumber || t == TypeValues
  }

  /** The five chart kinds that carry metric data, each drawn by its own
      chart builder. */
  predicate IsDataChart(t: int) {
    t == TypeChartTime || t == TypeChartHistogram || t == TypeChartCounts
    || t == TypeChartThroughput || t == TypeChartCountHistogram
  }

  /** `getNormedType`: every data-chart kind sorts like a time chart. */
  function NormedType(t: int): (r: int)
    ensures IsDataChart(t) <==> r == TypeChartTime
    ensures !IsDataChart(t) ==> r == t
  {
    if t == TypeChartHistogram || t == TypeChartCounts || t == TypeChartThroughput
       || t == TypeChartCountHistogram
    then TypeChartTime
    else t
  }

  // ---------------------------------------------------------------------
  // JavaScript values
  // ---------------------------------------------------------------------

  /** A cell value: `null`, a number, a string, the text `roundNumber(x)`
      produces for a number, or the space-separated concatenation of several
      values that the reduction builds for number rows. */
  datatype Val = Null | Num(n: real) | Str(s: string) | Rounded(x: real) | Joined(parts: seq<Val>)

  /** JavaScript truthiness: `null`, `0` and `""` are false; a rounded number
      is a non-empty string and so always true; a concatenation of two or
      more values contains a space. */
  predicate Truthy(v: Val) {
    match v
    case Null => false
    case Num(n) => n != 0.0
    case Str(s) => s != ""
    case Rounded(_) => true
    case Joined(ps) => |ps| >= 2 || (|ps| == 1 && Truthy(ps[0]))
  }

  /** `isEqual` (utils.js:135-146): 1 when both are null or strictly equal,
      otherwise 0. */
  function IsEqual(a: Val, b: Val): (r: int)
    ensures r == 0 || r == 1
    ensures r == 1 <==> a == b
  {
    if a != Null then
      if b != Null then (if a == b then 1 else 0) else 0
    else if b != Null then 0
    else 1
  }

  lemma IsEqualSymmetric(a: Val, b: Val)
    ensures IsEqual(a, b) == IsEqual(b, a)
  {
  }

  // ---------------------------------------------------------------------
  // isLowerBetterValue (utils.js:110-126)
  // ---------------------------------------------------------------------

  predicate NamesHigherBetter(lower: string) {
    Contains(lower, "total value") || Contains(lower, "throughput") || Contains(lower, "rate")
  }

  predicate NamesLowerBetter(lower: string) {
    Contains(lower, "(%cpu") || Contains(lower, "%util") || Contains(lower, "total errors")
    || Contains(lower, "error rate") || Contains(lower, "query") || Contains(lower, "time")
    || Contains(lower, "latency") || Contains(lower, "seconds")
  }

  /** The metric-name test as the code is written: the higher-is-better words
      are checked first, and any name containing one of them is reported as
      higher-is-better. */
  function IsLowerBetterValueAsWritten(name: string): (r: bool)
    ensures NamesHigherBetter(ToLower(name)) ==> !r
    ensures !NamesHigherBetter(ToLower(name)) ==> (r <==> NamesLowerBetter(ToLower(name)))
  {
    var lower := ToLower(name);
    if Contains(lower, "total value") || Contains(lower, "throughput") || Contains(lower, "rate") then false
    else NamesLowerBetter(lower)
  }

  lemma OccursInside(s: string, p: string, q: string, k: int, d: int)
    requires OccursAt(s, q, k) && OccursAt(q, p, d)
    ensures OccursAt(s, p, k + d)
  {
    assert q == s[k..k + |q|];
    forall i | 0 <= i < |p|
      ensures s[k + d..k + d + |p|][i] == p[i]
    {
      assert s[k + d + i] == q[d + i];
      assert q[d..d + |p|][i] == p[i];
    }
  }

  /** The "error rate" word can never make a name lower-is-better: every name
      containing it also contains "rate", which the code tests first. */
  lemma ErrorRateNeverLowerBetter(name: string)
    requires Contains(ToLower(name), "error rate")
    ensures !IsLowerBetterValueAsWritten(name)
  {
    var lower := ToLower(name);
    var k := IndexOf(lower, "error rate");
    OccursInside(lower, "rate", "error rate", k, 6);
  }

  /** A concrete name the report pushes as a number row ("... error rate",
      app.js:1039) that the code as written treats as higher-is-better. */
  lemma ErrorRateRowCounterexample()
    ensures !IsLowerBetterValueAsWritten("Read error rate")
    ensures IsLowerBetterValue("Read error rate")
  {
    ErrorRateWordAt("Read error rate", 5);
    ErrorRateNeverLowerBetter("Read error rate");
  }

  lemma ToLowerSlice(s: string, i: nat, j: nat)
    requires i <= j <= |s|
    ensures ToLower(s)[i..j] == ToLower(s[i..j])
  {
  }

  lemma ToLowerNoUpper(s: string)
    requires forall i :: 0 <= i < |s| ==> !('A' <= s[i] <= 'Z')
    ensures ToLower(s) == s
  {
  }

  lemma LowerErrorRate()
    ensures ToLower("error rate") == "error rate"
  {
    ToLowerNoUpper("error rate");
  }

  lemma ErrorRateWordAt(name: string, k: nat)
    requires k + 10 <= |name| && name[k..k + 10] == "error rate"
    ensures Contains(ToLower(name), "error rate")
  {
    var lower := ToLower(name);
    ToLowerSlice(name, k, k + 10);
    LowerErrorRate();
    assert OccursAt(lower, "error rate", k);
  }

  /** `isLowerBetterValue` as evidently intended: the explicit "error rate"
      entry of the lower-is-better list takes effect before the generic
      "rate" exclusion. */
  function IsLowerBetterValue(name: string): (r: bool)
    ensures Contains(ToLower(name), "error rate") ==> r
    ensures !Contains(ToLower(name), "error rate") ==> r == IsLowerBetterValueAsWritten(name)
  {
    var lower := ToLower(name);
    if Contains(lower, "error rate") then true
    else if Contains(lower, "total value") || Contains(lower, "throughput") || Contains(lower, "rate") then false
    else NamesLowerBetter(lower)
  }

  /** Throughput-like names stay higher-is-better in the corrected test. */
  lemma HigherBetterWords(name: string)
    requires !Contains(ToLower(name), "error rate")
    requires Contains(ToLower(name), "total value") || Contains(ToLower(name), "throughput")
             || Contains(ToLower(name), "rate")
    ensures !IsLowerBetterValue(name)
  {
  }

  // ---------------------------------------------------------------------
  // Null-aware number helpers (utils.js:205-264)
  // ---------------------------------------------------------------------

  /** `maxNumber`: `null` is the identity element. */
  function MaxNumber(a: Option<real>, b: Option<real>): (r: Option<real>)
    ensures r.None? <==> a.None? && b.None?
    ensures r == a || r == b
    ensures a.Some? ==> r.Some? && r.value >= a.value
    ensures b.Some? ==> r.Some? && r.value >= b.value
  {
    if a.Some? && b.Some? then (if a.value > b.value then a else b)
    else if a.Some? then a
    else b
  }

  /** `minNumber`: `null` is the identity element. */
  function MinNumber(a: Option<real>, b: Option<real>): (r: Option<real>)
    ensures r.None? <==> a.None? && b.None?
    ensures r == a || r == b
    ensures a.Some? ==> r.Some? && r.value <= a.value
    ensures b.Some? ==> r.Some? && r.value <= b.value
  {
    if a.Some? && b.Some? then (if a.value < b.value then a else b)
    else if a.Some? then a
    else b
  }

  /** The non-null entries of an array, in order. */
  function Present(arr: seq<Option<real>>): (r: seq<real>)
    ensures |r| <= |arr|
    ensures |r| == 0 <==> forall i :: 0 <= i < |arr| ==> arr[i].None?
  {
    if |arr| == 0 then []
    else if arr[0].Some? then [arr[0].value] + Present(arr[1..])
    else
      assert forall i :: 1 <= i < |arr| ==> arr[i] == arr[1..][i - 1];
      Present(arr[1..])
  }

  function Total(xs: seq<real>): real {
    if |xs| == 0 then 0.0 else xs[0] + Total(xs[1..])
  }

  lemma TotalAppend(xs: seq<real>, x: real)
    ensures Total(xs + [x]) == Total(xs) + x
  {
    if |xs| > 0 {
      assert (xs + [x])[1..] == xs[1..] + [x];
      TotalAppend(xs[1..], x);
    }
  }

  lemma PresentAppend(arr: seq<Option<real>>, o: Option<real>)
    ensures Present(arr + [o]) == Present(arr) + (if o.Some? then [o.value] else [])
  {
    if |arr| > 0 {
      assert (arr + [o])[1..] == arr[1..] + [o];
      PresentAppend(arr[1..], o);
    } else {
      assert arr + [o] == [o];
    }
  }

  /** The loop shared by `sumNumber` and `avgNumber`: the sum and the count
      of the non-null entries. */
  method SumAndCount(arr: seq<Option<real>>) returns (sum: real, count: nat)
    ensures count == |Present(arr)|
    ensures sum == Total(Present(arr))
  {
    sum, count := 0.0, 0;
    var i := 0;
    while i < |arr|
      invariant 0 <= i <= |arr|
      invariant count == |Present(arr[..i])|
      invariant sum == Total(Present(arr[..i]))
    {
      assert arr[..i + 1] == arr[..i] + [arr[i]];
      PresentAppend(arr[..i], arr[i]);
      if arr[i].Some? {
        TotalAppend(Present(arr[..i]), arr[i].value);
        assert Present(arr[..i + 1]) == Present(arr[..i]) + [arr[i].value];
        count := count + 1;
        sum := sum + arr[i].value;
      } else {
        assert Present(arr[..i + 1]) == Present(arr[..i]);
      }
      i := i + 1;
    }
    assert arr[..i] == arr;
  }

  /** `sumNumber`: the sum of the non-null entries, or null when there is
      none. */
  method SumNumber(arr: seq<Option<real>>) returns (r: Option<real>)
    ensures r.None? <==> |Present(arr)| == 0
    ensures r.Some? ==> r.value == Total(Present(arr))
  {
    var sum, count := SumAndCount(arr);
    r := if count > 0 then Some(sum) else None;
  }

  /** The average of the non-null entries, or null when there is none. */
  function Average(arr: seq<Option<real>>): Option<real> {
    var xs := Present(arr);
    if |xs| > 0 then Some(Total(xs) / (|xs| as real)) else None
  }

  /** `avgNumber`: the mean of the non-null entries, or null when there is
      none. */
  method AvgNumber(arr: seq<Option<real>>) returns (r: Option<real>)
    ensures r.None? <==> |Present(arr)| == 0
    ensures r.Some? ==> r.value * (|Present(arr)| as real) == Total(Present(arr))
    ensures r == Average(arr)
  {
    var sum, count := SumAndCount(arr);
    if count > 0 {
      DivTimes(sum, count as real);
      r := Some(sum / (count as real));
    } else {
      r := None;
    }
  }

  lemma DivTimes(x: real, y: real)
    requires y > 0.0
    ensures (x / y) * y == x
  {
  }

  function Square(d: real): real {
    d * d
  }

  lemma ProductPositive(a: real, b: real, x: real)
    requires x == a * b && a > 0.0 && b > 0.0
    ensures x > 0.0
  {
  }

  lemma SquarePositive(d: real)
    ensures Square(d) >= 0.0
    ensures d != 0.0 <==> Square(d) > 0.0
  {
    if d > 0.0 {
      ProductPositive(d, d, Square(d));
    } else if d < 0.0 {
      ProductPositive(-d, -d, Square(d));
    } else {
      assert Square(d) == 0.0;
    }
  }

  lemma DivisionByPositive(x: real, y: real)
    requires y > 0.0
    ensures x / y == 0.0 <==> x == 0.0
  {
    if x / y == 0.0 {
      assert x == (x / y) * y;
    }
  }

  function SquaredDeviation(xs: seq<real>, a: real): (r: real)
    ensures r >= 0.0
  {
    if |xs| == 0 then 0.0
    else
      SquarePositive(xs[0] - a);
      Square(xs[0] - a) + SquaredDeviation(xs[1..], a)
  }

  /** The square of `stdevNumber`: the sample variance of the non-null
      entries, and 0 with fewer than two of them (the square root itself is
      not modelled; it is zero exactly when its argument is). */
  function Variance(arr: seq<Option<real>>): (r: real)
    ensures r >= 0.0
    ensures |Present(arr)| < 2 ==> r == 0.0
  {
    var xs := Present(arr);
    if |xs| > 1 then SquaredDeviation(xs, Total(xs) / (|xs| as real)) / ((|xs| - 1) as real)
    else 0.0
  }

  predicate AllEqual(xs: seq<real>, a: real) {
    forall i :: 0 <= i < |xs| ==> xs[i] == a
  }

  lemma {:induction false} SquaredDeviationZero(xs: seq<real>, a: real)
    ensures SquaredDeviation(xs, a) == 0.0 <==> AllEqual(xs, a)
  {
    if |xs| > 0 {
      SquaredDeviationZero(xs[1..], a);
      var d := xs[0] - a;
      SquarePositive(d);
      var head, rest := Square(d), SquaredDeviation(xs[1..], a);
      assert d == 0.0 <==> xs[0] == a;
      assert SquaredDeviation(xs, a) == head + rest;
      assert SquaredDeviation(xs, a) == 0.0 <==> head == 0.0 && rest == 0.0;
      assert head == 0.0 <==> xs[0] == a;
      assert AllEqual(xs, a) <==> xs[0] == a && AllEqual(xs[1..], a) by {
        if AllEqual(xs, a) {
          forall i | 0 <= i < |xs[1..]| ensures xs[1..][i] == a { assert xs[1..][i] == xs[i + 1]; }
        }
        if xs[0] == a && AllEqual(xs[1..], a) {
          forall i | 0 <= i < |xs| ensures xs[i] == a {
            if i > 0 { assert xs[i] == xs[1..][i - 1]; }
          }
        }
      }
    }
  }

  lemma {:induction false} TotalAllEqual(xs: seq<real>, a: real)
    requires AllEqual(xs, a)
    ensures Total(xs) == (|xs| as real) * a
  {
    if |xs| > 0 {
      assert AllEqual(xs[1..], a) by {
        forall i | 0 <= i < |xs[1..]| ensures xs[1..][i] == a { assert xs[1..][i] == xs[i + 1]; }
      }
      TotalAllEqual(xs[1..], a);
    }
  }

  lemma DivideBack(t: real, n: real, x: real)
    requires n > 0.0 && t == n * x
    ensures t / n == x
  {
  }

  /** With at least two values, the variability is zero exactly when all the
      non-null entries are equal. */
  lemma VarianceZeroIffConstant(arr: seq<Option<real>>)
    requires |Present(arr)| >= 2
    ensures Variance(arr) == 0.0 <==> AllEqual(Present(arr), Present(arr)[0])
  {
    var xs := Present(arr);
    var n := |xs| as real;
    var a := Total(xs) / n;
    var sd := SquaredDeviation(xs, a);
    assert Variance(arr) == sd / (n - 1.0);
    DivisionByPositive(sd, n - 1.0);
    SquaredDeviationZero(xs, a);
    EqualToMean(xs);
  }

  function SumSquares(xs: seq<real>): real {
    if |xs| == 0 then 0.0 else Square(xs[0]) + SumSquares(xs[1..])
  }

  /** The sum of squares `ss` of `n` values with total `t`, expanded
      around `a`. */
  function Expansion(ss: real, t: real, n: real, a: real): real {
    ss - 2.0 * a * t + n * Square(a)
  }

  /** The squared deviations from `a`, expanded: the sum of squares, less
      twice `a` times the total, plus `a` squared once per value. */
  lemma {:induction false} SquaredDeviationExpand(xs: seq<real>, a: real)
    ensures SquaredDeviation(xs, a) == Expansion(SumSquares(xs), Total(xs), |xs| as real, a)
  {
    if |xs| > 0 {
      SquaredDeviationExpand(xs[1..], a);
      FirstSplit(xs, a);
      ExpandStep(xs[0], a, SumSquares(xs[1..]), Total(xs[1..]), |xs[1..]| as real, Total(xs), |xs| as real);
    }
  }

  lemma FirstSplit(xs: seq<real>, a: real)
    requires |xs| > 0
    ensures SquaredDeviation(xs, a) == Square(xs[0] - a) + SquaredDeviation(xs[1..], a)
    ensures SumSquares(xs) == Square(xs[0]) + SumSquares(xs[1..])
    ensures Total(xs) == xs[0] + Total(xs[1..]) && |xs| as real == |xs[1..]| as real + 1.0
  {
  }

  /** One more value `x` in the expansion. */
  lemma ExpandStep(x: real, a: real, ss: real, t: real, m: real, t': real, n: real)
    requires t' == x + t && n == m + 1.0
    ensures Square(x - a) + Expansion(ss, t, m, a) == Expansion(Square(x) + ss, t', n, a)
  {
    assert Square(x - a) == Square(x) - 2.0 * a * x + Square(a);
    assert 2.0 * a * (x + t) == 2.0 * a * x + 2.0 * a * t;
    assert (m + 1.0) * Square(a) == m * Square(a) + Square(a);
  }

  /** `v` is the sample variance of `n` values with sum of squares `ss` and
      total `t`, in the textbook form: `n - 1` times it is `ss` less the
      squared total over `n`. */
  predicate ShortcutHolds(v: real, m: real, ss: real, t: real, n: real)
    requires n != 0.0
  {
    v * m == ss - t * t / n
  }

  /** The squared deviations from the mean, over `n - 1`, in the textbook
      form. */
  lemma ShortcutAlgebra(v: real, sd: real, ss: real, t: real, n: real, m: real)
    requires n > 1.0 && m == n - 1.0
    requires sd == Expansion(ss, t, n, t / n) && v == sd / m
    ensures ShortcutHolds(v, m, ss, t, n)
  {
    var a := t / n;
    assert a * n == t;
    assert n * Square(a) == t * a by {
      assert n * (a * a) == (n * a) * a;
    }
    assert t * t / n == t * a by {
      assert (t * a) * n == t * (a * n);
    }
    assert v * m == sd;
  }

  /** The textbook shortcut for the sample variance: `n - 1` times it is
      the sum of squares less the squared total over `n`. */
  lemma VarianceShortcut(arr: seq<Option<real>>)
    requires |Present(arr)| >= 2
    ensures var xs := Present(arr);
            ShortcutHolds(Variance(arr), (|xs| - 1) as real, SumSquares(xs), Total(xs), |xs| as real)
  {
    var xs := Present(arr);
    var n := |xs| as real;
    SquaredDeviationExpand(xs, Total(xs) / n);
    ShortcutAlgebra(Variance(arr), SquaredDeviation(xs, Total(xs) / n), SumSquares(xs), Total(xs),
                    n, (|xs| - 1) as real);
  }

  /** The values all equal their mean exactly when they all equal the
      first. */
  lemma EqualToMean(xs: seq<real>)
    requires |xs| >= 1
    ensures AllEqual(xs, Total(xs) / (|xs| as real)) <==> AllEqual(xs, xs[0])
  {
    if AllEqual(xs, xs[0]) {
      TotalAllEqual(xs, xs[0]);
      DivideBack(Total(xs), |xs| as real, xs[0]);
    }
  }

  // ---------------------------------------------------------------------
  // getPercentileValue (utils.js:1221-1232)
  // ---------------------------------------------------------------------

  function PercentileFactor(names: seq<real>): real {
    if |names| > 0 && names[|names| - 1] > 1.0 then 1.0 else 100.0
  }

  function PercentileFrom(names: seq<real>, values: seq<Option<real>>, p: real, f: real, i: nat): (r: Option<real>)
    requires i <= |names|
    ensures r.Some? ==> exists k :: i <= k < |names| && k < |values| && names[k] * f >= p && r == values[k]
    ensures (forall k :: i <= k < |names| ==> names[k] * f < p) ==> r.None?
    decreases |names| - i
  {
    if i == |names| then None
    else if names[i] * f >= p then (if i < |values| then values[i] else None)
    else PercentileFrom(names, values, p, f, i + 1)
  }

  /** `getPercentileValue`: the value at the first percentile name that,
      scaled to percent, reaches the request; percentile names given as
      fractions (the last one at most 1) are scaled by 100. */
  function GetPercentileValue(names: Option<seq<real>>, values: Option<seq<Option<real>>>, p: real): (r: Option<real>)
    ensures names.None? || values.None? ==> r.None?
    ensures names.Some? && values.Some? && r.Some? ==>
      exists k :: 0 <= k < |names.value| && k < |values.value|
        && names.value[k] * PercentileFactor(names.value) >= p && r == values.value[k]
  {
    if names.Some? && values.Some? then
      PercentileFrom(names.value, values.value, p, PercentileFactor(names.value), 0)
    else None
  }

  lemma {:induction false} PercentileFromFirst(names: seq<real>, values: seq<Option<real>>, p: real, f: real, i: nat, k: nat)
    requires i <= k < |names| && k < |values|
    requires names[k] * f >= p
    requires forall j :: i <= j < k ==> names[j] * f < p
    ensures PercentileFrom(names, values, p, f, i) == values[k]
    decreases k - i
  {
    if i < k {
      PercentileFromFirst(names, values, p, f, i + 1, k);
    }
  }

  /** The first index whose scaled name reaches the request selects the
      value; indices before it do not. */
  lemma PercentileFirstMatch(names: seq<real>, values: seq<Option<real>>, p: real, k: nat)
    requires k < |names| && k < |values|
    requires names[k] * PercentileFactor(names) >= p
    requires forall j :: 0 <= j < k ==> names[j] * PercentileFactor(names) < p
    ensures GetPercentileValue(Some(names), Some(values), p) == values[k]
  {
    PercentileFromFirst(names, values, p, PercentileFactor(names), 0, k);
  }

  // ---------------------------------------------------------------------
  // Toggle registry (utils.js:673-769)
  // ---------------------------------------------------------------------

  /** A toggle option: `name` and `type` may be absent (the group-by toggles
      have no type). */
  datatype Toggle = Toggle(name: Option<string>, kind: Option<int>, style: string, selected: bool, visible: bool)

  predicate Matches(t: Toggle, name: string) {
    t.name == Some(name) && t.selected && t.visible
  }

  predicate AnyMatch(items: seq<Toggle>, name: string) {
    exists t :: t in items && Matches(t, name)
  }

  function FindMatch(items: seq<Toggle>, name: string): (r: bool)
    ensures r <==> AnyMatch(items, name)
  {
    if |items| == 0 then false
    else if Matches(items[0], name) then true
    else
      assert forall t :: t in items ==> t == items[0] || t in items[1..];
      FindMatch(items[1..], name)
  }

  predicate IsNegated(n: string) {
    |n| > 0 && n[0] == '!'
  }

  /** What `selected(...names)` promises: every plain name has a selected and
      visible toggle, and no `!`-prefixed name has one; null names are
      ignored. */
  predicate IsSelected(items: seq<Toggle>, names: seq<Option<string>>) {
    && (forall k :: 0 <= k < |names| && names[k].Some? && !IsNegated(names[k].value) ==>
          AnyMatch(items, names[k].value))
    && (forall k :: 0 <= k < |names| && names[k].Some? && IsNegated(names[k].value) ==>
          !AnyMatch(items, names[k].value[1..]))
  }

  /** `Array.selected` as written: counts the plain names, the matched plain
      names and the matched negated names, and compares the counts. */
  method Selected(items: seq<Toggle>, names: seq<Option<string>>) returns (r: bool)
    ensures r <==> IsSelected(items, names)
  {
    var posAll, pos, neg := 0, 0, 0;
    var i := 0;
    while i < |names|
      invariant 0 <= i <= |names|
      invariant 0 <= pos <= posAll && 0 <= neg
      invariant pos == posAll <==>
        forall k :: 0 <= k < i && names[k].Some? && !IsNegated(names[k].value) ==> AnyMatch(items, names[k].value)
      invariant neg == 0 <==>
        forall k :: 0 <= k < i && names[k].Some? && IsNegated(names[k].value) ==> !AnyMatch(items, names[k].value[1..])
    {
      if names[i].Some? {
        var name := names[i].value;
        var check := false;
        if IsNegated(name) {
          check := true;
          name := name[1..];
        } else {
          posAll := posAll + 1;
        }
        if FindMatch(items, name) {
          if check { neg := neg + 1; } else { pos := pos + 1; }
        }
      }
      i := i + 1;
    }
    r := pos == posAll && neg == 0;
  }

  predicate IsChartKind(k: Option<int>) {
    k.Some? && IsChart(k.value)
  }

  predicate IsValueKind(k: Option<int>) {
    k.Some? && IsValue(k.value)
  }

  /** `byNameType`: the index of the first toggle with this name and type. */
  function ByNameType(items: seq<Toggle>, name: string, kind: int): (r: Option<nat>)
    ensures r.Some? ==> (r.value < |items| && items[r.value].name == Some(name)
      && items[r.value].kind == Some(kind)
      && forall j :: 0 <= j < r.value ==> !(items[j].name == Some(name) && items[j].kind == Some(kind)))
    ensures r.None? ==> forall j :: 0 <= j < |items| ==> !(items[j].name == Some(name) && items[j].kind == Some(kind))
  {
    if |items| == 0 then None
    else if items[0].name == Some(name) && items[0].kind == Some(kind) then Some(0)
    else
      var r := ByNameType(items[1..], name, kind);
      assert forall j :: 1 <= j < |items| ==> items[j] == items[1..][j - 1];
      if r.Some? then Some(r.value + 1) else None
  }

  function SkipNonCharts(items: seq<Toggle>, i: nat): (r: nat)
    requires i <= |items|
    ensures i <= r <= |items|
    ensures r < |items| ==> IsChartKind(items[r].kind)
    ensures forall j :: i <= j < r ==> !IsChartKind(items[j].kind)
    decreases |items| - i
  {
    if i < |items| && !IsChartKind(items[i].kind) then SkipNonCharts(items, i + 1) else i
  }

  function SkipToGroup(items: seq<Toggle>, i: nat): (r: nat)
    requires i <= |items|
    ensures i <= r <= |items|
    ensures forall j :: i <= j < r ==> IsChartKind(items[j].kind) && items[j].kind != Some(TypeChartGroup)
    ensures r < |items| ==> !IsChartKind(items[r].kind) || items[r].kind == Some(TypeChartGroup)
    decreases |items| - i
  {
    if i < |items| && IsChartKind(items[i].kind) && items[i].kind != Some(TypeChartGroup)
    then SkipToGroup(items, i + 1) else i
  }

  function SkipNotAfter(items: seq<Toggle>, kind: int, i: nat): (r: nat)
    requires i <= |items|
    ensures i <= r <= |items|
    ensures forall j :: i <= j < r ==> (IsChartKind(items[j].kind)
      && NormedType(kind) >= NormedType(items[j].kind.value))
    ensures r < |items| ==> !IsChartKind(items[r].kind) || NormedType(kind) < NormedType(items[r].kind.value)
    decreases |items| - i
  {
    if i < |items| && IsChartKind(items[i].kind) && NormedType(kind) >= NormedType(items[i].kind.value)
    then SkipNotAfter(items, kind, i + 1) else i
  }

  /** Where a new chart toggle belongs: at 0 when there is no chart toggle
      yet; otherwise inside the run of chart toggles that starts at the
      first one, a primary chart group before the run's first chart group,
      and any other chart after the run's toggles whose normalised type does
      not exceed its own. */
  predicate ChartSlot(items: seq<Toggle>, name: string, kind: int, r: nat) {
    var f := SkipNonCharts(items, 0);
    var primary := kind == TypeChartGroup && StartsWith(name, "primary");
    && r <= |items|
    && (f == |items| ==> r == 0)
    && (f < |items| ==> f <= r && forall j :: f <= j < r ==> IsChartKind(items[j].kind))
    && (f < |items| && primary ==>
          && (forall j :: f <= j < r ==> items[j].kind != Some(TypeChartGroup))
          && (r < |items| ==> !IsChartKind(items[r].kind) || items[r].kind == Some(TypeChartGroup)))
    && (f < |items| && !primary ==>
          && (forall j :: f <= j < r ==> NormedType(items[j].kind.value) <= NormedType(kind))
          && (r < |items| ==> !IsChartKind(items[r].kind) || NormedType(items[r].kind.value) > NormedType(kind)))
  }

  /** The slot is determined: no two positions fit the description. */
  lemma ChartSlotUnique(items: seq<Toggle>, name: string, kind: int, r1: nat, r2: nat)
    requires ChartSlot(items, name, kind, r1) && ChartSlot(items, name, kind, r2)
    ensures r1 == r2
  {
  }

  /** `getNextPosForChartType`. */
  function NextPosForChart(items: seq<Toggle>, name: string, kind: int): (r: nat)
    ensures ChartSlot(items, name, kind, r)
  {
    var i := SkipNonCharts(items, 0);
    if i == |items| then 0
    else if kind == TypeChartGroup && StartsWith(name, "primary") then SkipToGroup(items, i)
    else SkipNotAfter(items, kind, i)
  }

  function LastValueFrom(items: seq<Toggle>, kind: int, i: nat, pos: int): (r: int)
    requires i <= |items| && -1 <= pos < i
    ensures -1 <= r < |items|
    ensures r >= i ==> IsValue(kind) && IsValueKind(items[r].kind)
    ensures r < i ==> r == pos
    ensures forall j :: r < j < |items| && j >= i ==> !(IsValue(kind) && IsValueKind(items[j].kind))
    decreases |items| - i
  {
    if i == |items| then pos
    else LastValueFrom(items, kind, i + 1, if IsValue(kind) && IsValueKind(items[i].kind) then i else pos)
  }

  /** Where a new non-chart toggle belongs: a value toggle right after the
      last value toggle, or at the end when there is none; anything else at
      the end. */
  predicate ValueSlot(items: seq<Toggle>, kind: int, r: nat) {
    && r <= |items|
    && (!IsValue(kind) ==> r == |items|)
    && (IsValue(kind) ==>
          && (forall j :: r <= j < |items| ==> !IsValueKind(items[j].kind))
          && ((0 < r && IsValueKind(items[r - 1].kind))
              || (r == |items| && forall j :: 0 <= j < |items| ==> !IsValueKind(items[j].kind))))
  }

  /** The slot is determined: no two positions fit the description. */
  lemma ValueSlotUnique(items: seq<Toggle>, kind: int, r1: nat, r2: nat)
    requires ValueSlot(items, kind, r1) && ValueSlot(items, kind, r2)
    ensures r1 == r2
  {
  }

  /** `getNextPosForValueType`. */
  function NextPosForValue(items: seq<Toggle>, kind: int): (r: nat)
    ensures ValueSlot(items, kind, r)
  {
    var pos := LastValueFrom(items, kind, 0, -1);
    if pos >= 0 then pos + 1 else |items|
  }

  /** `getNextPos`: charts and everything else have their own slots. */
  function NextPos(items: seq<Toggle>, name: string, kind: int): (r: nat)
    ensures r <= |items|
    ensures IsChart(kind) ==> ChartSlot(items, name, kind, r)
    ensures !IsChart(kind) ==> ValueSlot(items, kind, r)
  {
    if IsChart(kind) then NextPosForChart(items, name, kind) else NextPosForValue(items, kind)
  }

  /** `addToggleOpt` (utils.js:760-769): returns the existing toggle with this
      name and type, or inserts a new one at `NextPos` and returns it.  The
      `showData` pattern test is given as `shown`. */
  function AddToggleOpt(items: seq<Toggle>, name: string, kind: int, shown: bool, style: string, hidden: bool)
    : (r: (seq<Toggle>, Toggle))
    ensures ByNameType(items, name, kind).Some? ==>
      r.0 == items && r.1 == items[ByNameType(items, name, kind).value]
    ensures ByNameType(items, name, kind).None? ==>
      && r.1 == Toggle(Some(name), Some(kind), style, shown, !hidden)
      && |r.0| == |items| + 1
      && r.0 == items[..NextPos(items, name, kind)] + [r.1] + items[NextPos(items, name, kind)..]
  {
    var found := ByNameType(items, name, kind);
    if found.Some? then (items, items[found.value])
    else
      var pos := NextPos(items, name, kind);
      var elem := Toggle(Some(name), Some(kind), style, shown, !hidden);
      (items[..pos] + [elem] + items[pos..], elem)
  }

  /** Registering the same name and type twice changes nothing the second
      time, and both calls return the same toggle. */
  lemma AddToggleOptIdempotent(items: seq<Toggle>, name: string, kind: int, shown: bool, style: string,
                               hidden: bool, shown2: bool, style2: string, hidden2: bool)
    ensures var (items1, e1) := AddToggleOpt(items, name, kind, shown, style, hidden);
            var (items2, e2) := AddToggleOpt(items1, name, kind, shown2, style2, hidden2);
            items2 == items1 && e2 == e1
  {
    var (items1, e1) := AddToggleOpt(items, name, kind, shown, style, hidden);
    if ByNameType(items, name, kind).None? {
      var p := NextPos(items, name, kind);
      assert items1[p] == e1;
      assert forall j :: 0 <= j < p ==> items1[j] == items[j];
      assert ByNameType(items1, name, kind) == Some(p);
    }
  }

  // ---------------------------------------------------------------------
  // Array and string utilities
  // ---------------------------------------------------------------------

  predicate NoDups<T(==,!new)>(xs: seq<T>) {
    forall i, j :: 0 <= i < j < |xs| ==> xs[i] != xs[j]
  }

  /** The entries of `xs[..n]` that occur there for the first time, in
      order: the reference for `removeDups`. */
  function FirstOccurrences<T(==,!new)>(xs: seq<T>, n: nat): (r: seq<T>)
    requires n <= |xs|
    ensures forall x :: x in r <==> x in xs[..n]
    ensures NoDups(r)
  {
    if n == 0 then []
    else
      var prev := FirstOccurrences(xs, n - 1);
      assert xs[..n] == xs[..n - 1] + [xs[n - 1]];
      if xs[n - 1] in xs[..n - 1] then prev else prev + [xs[n - 1]]
  }

  /** The loop of `Array.removeDups` (utils.js:618-626): push each item not
      already in the result. */
  function RemoveDupsFrom<T(==,!new)>(res: seq<T>, rest: seq<T>): (r: seq<T>)
    ensures NoDups(res) ==> NoDups(r)
    ensures forall x :: x in r <==> x in res || x in rest
    decreases |rest|
  {
    if |rest| == 0 then res
    else
      var next := if rest[0] in res then res else res + [rest[0]];
      assert forall x :: x in rest <==> x == rest[0] || x in rest[1..];
      RemoveDupsFrom(next, rest[1..])
  }

  function RemoveDups<T(==,!new)>(xs: seq<T>): (r: seq<T>)
    ensures NoDups(r)
    ensures forall x :: x in r <==> x in xs
  {
    RemoveDupsFrom([], xs)
  }

  lemma {:induction false} RemoveDupsFromFirsts<T(!new)>(xs: seq<T>, n: nat)
    requires n <= |xs|
    ensures RemoveDupsFrom(FirstOccurrences(xs, n), xs[n..]) == FirstOccurrences(xs, |xs|)
    decreases |xs| - n
  {
    if n < |xs| {
      var prev := FirstOccurrences(xs, n);
      assert xs[n..][0] == xs[n] && xs[n..][1..] == xs[n + 1..];
      assert xs[n] in prev <==> xs[n] in xs[..n];
      RemoveDupsFromFirsts(xs, n + 1);
    } else {
      assert xs[n..] == [];
    }
  }

  /** `removeDups` keeps exactly the first occurrence of each entry, in their
      original order. */
  lemma RemoveDupsKeepsFirsts<T(!new)>(xs: seq<T>)
    ensures RemoveDups(xs) == FirstOccurrences(xs, |xs|)
  {
    assert xs[0..] == xs;
    RemoveDupsFromFirsts(xs, 0);
  }

  lemma {:induction false} RemoveDupsFromAppend<T(!new)>(res: seq<T>, a: seq<T>, b: seq<T>)
    ensures RemoveDupsFrom(res, a + b) == RemoveDupsFrom(RemoveDupsFrom(res, a), b)
    decreases |a|
  {
    if |a| > 0 {
      var next := if a[0] in res then res else res + [a[0]];
      assert (a + b)[0] == a[0] && (a + b)[1..] == a[1..] + b;
      RemoveDupsFromAppend(next, a[1..], b);
    } else {
      assert a + b == b;
    }
  }

  /** Entries already kept add nothing. */
  lemma {:induction false} RemoveDupsFromSeen<T(!new)>(res: seq<T>, rest: seq<T>)
    requires forall i :: 0 <= i < |rest| ==> rest[i] in res
    ensures RemoveDupsFrom(res, rest) == res
    decreases |rest|
  {
    if |rest| > 0 {
      RemoveDupsFromSeen(res, rest[1..]);
    }
  }

  /** Without duplicates there is nothing to remove. */
  lemma {:induction false} RemoveDupsFromFresh<T(!new)>(res: seq<T>, rest: seq<T>)
    requires NoDups(res + rest)
    ensures RemoveDupsFrom(res, rest) == res + rest
    decreases |rest|
  {
    if |rest| > 0 {
      assert (res + rest)[|res|] == rest[0];
      assert rest[0] !in res by {
        forall i | 0 <= i < |res| ensures res[i] != rest[0] {
          assert (res + rest)[i] == res[i];
        }
      }
      assert res + rest == (res + [rest[0]]) + rest[1..];
      RemoveDupsFromFresh(res + [rest[0]], rest[1..]);
    } else {
      assert res + rest == res;
    }
  }

  /** Removing duplicates from a doubled list without duplicates gives the
      list once. */
  lemma RemoveDupsDoubled<T(!new)>(xs: seq<T>)
    requires NoDups(xs)
    ensures RemoveDups(xs + xs) == xs
  {
    RemoveDupsFromAppend([], xs, xs);
    assert [] + xs == xs;
    RemoveDupsFromFresh([], xs);
    RemoveDupsFromSeen(xs, xs);
  }

  /** `String.removeDups(sep)` (utils.js:852-854).  Without a separator,
      `split` yields the whole text and `join` gives it back, so only the
      trim remains. */
  function StrRemoveDups(s: string, sep: Option<char>): (r: string)
    ensures sep.None? ==> r == JsTrim(s)
  {
    match sep
    case None => JsTrim(s)
    case Some(c) => JsTrim(Join(RemoveDups(Split(s, c)), [c]))
  }

  /** `String.hasWord`: one of the space-separated fields. */
  predicate HasWord(s: string, w: string) {
    w in Split(s, ' ')
  }

  /** `String.capitalize` (utils.js:864-876). */
  function Capitalize(s: string): (r: string)
    ensures s != "os" && s != "jvm" && |s| > 0 ==> |r| == |s| && r[0] == UpperChar(s[0]) && r[1..] == s[1..]
    ensures s == "" ==> r == ""
    ensures s == "os" ==> r == "OS"
    ensures s == "jvm" ==> r == "JVM"
  {
    if s == "os" then "OS"
    else if s == "jvm" then "JVM"
    else if |s| > 0 then [UpperChar(s[0])] + s[1..]
    else ""
  }

  /** Capitalising twice is capitalising once: the capitalised forms of
      `os` and `jvm` and an upper-case first letter are left alone. */
  lemma CapitalizeTwice(s: string)
    ensures Capitalize(Capitalize(s)) == Capitalize(s)
  {
  }

  /** `getDiffClass` (utils.js:333-345). */
  function DiffClass(d: real): (r: string)
    ensures r in {"large_pos", "light_pos", "lightlight_pos", "large_neg", "light_neg", "lightlight_neg"}
    ensures IsPositiveClass(r) <==> d >= 0.0
    ensures r == "large_pos" <==> d >= 0.1
    ensures r == "large_neg" <==> d <= -0.1
  {
    if d >= 0.1 then "large_pos"
    else if d >= 0.03 then "light_pos"
    else if d <= -0.1 then "large_neg"
    else if d <= -0.03 then "light_neg"
    else if d < 0.0 then "lightlight_neg"
    else "lightlight_pos"
  }

  predicate IsPositiveClass(c: string) {
    c == "large_pos" || c == "light_pos" || c == "lightlight_pos"
  }

  /** A positive class marks exactly the non-negative differences, and the
      class of `-d` mirrors the class of `d` away from zero. */
  lemma DiffClassSign(d: real)
    ensures IsPositiveClass(DiffClass(d)) <==> d >= 0.0
    ensures d > 0.0 ==> DiffClass(-d) == (if DiffClass(d) == "large_pos" then "large_neg"
                                          else if DiffClass(d) == "light_pos" then "light_neg"
                                          else "lightlight_neg")
  {
  }
}

=== FILE: wrappers.dfy ===
/** Failure-compatible wrappers shared by every module: `Option` stands for a
    JavaScript `null`/`undefined` or a Java `null`, `Result` for a Java
    exception path. */
module Wrappers {

  datatype Option<+T> = None | Some(value: T) {

    predicate IsFailure() {
      None?
    }

    function PropagateFailure<U>(): Option<U>
      requires None?
    {
      None
    }

    function Extract(): T
      requires Some?
    {
      value
    }

    function GetOr(default: T): T {
      match this
      case Some(v) => v
      case None => default
    }
  }

  datatype Result<+R, +E> = Success(value: R) | Failure(error: E) {

    predicate IsFailure() {
      Failure?
    }

    function PropagateFailure<U>(): Result<U, E>
      requires Failure?
    {
      Failure(error)
    }

    function Extract(): R
      requires Success?
    {
      value
    }
  }
}
